=== FILE: README.md ===
# Kelebek exam seating — a Dafny model

Kelebek ("butterfly") is a desktop program that seats Turkish school pupils for
exams. Pupils of different grades sit side by side so that neighbours cannot
copy from each other. This project models the program's core as pure Dafny
functions and lemmas. Its scope:

- **Validation and constants** (`Constants`, `SeatLabel`, `Models`):
  - the class-name check and the grade-level parser;
  - the seat-label formatter;
  - the entity constructors `Ogrenci`, `Ders` and `Salon` with their checks;
  - the `SinifSeviye` branch hierarchy.
- **The seating engine `harmanla`** (`Seating`, `Records`, `Pool`, `Pinned`,
  `Solver`, `Engine`, `EngineProps`):
  - the seat map of every room;
  - seat neighbours;
  - the placement of pinned pupils on their recorded seats;
  - the seat pool, including the teacher's desks;
  - the CP-SAT problem;
  - assembling, sorting and statistics of the result.
- **Invigilator assignment** `otomatik_ata` (`Invigilators`).
- **The persistence rules of the database layer** (`Database`):
  - seat-table sync;
  - clean-up and saving of a seating plan;
  - class filters and class sort orders.
- **The Excel pupil import and the invigilator-text parsing** of the seating
  sheet (`Excel`).
- **The view-side logic that feeds or reads the engine:**
  - the pupil pool and the pre-check of the seating screen (`PoolView`);
  - the parsing of the engine's warnings (`PoolView`);
  - the colour key and grid layouts of the visual seating window
    (`VisualSeating`);
  - the printing screen's room view and folder names (`PrintingView`);
  - the class-information screen's grouping and ordering (`ClassInfoView`).
- **Generic helpers** in `Wrappers`, `Seqs` (map, filter, group-by, insertion
  sort) and `Text` (strip, split, case mapping, number formatting).

## Model abstractions

**The CP-SAT solver** is a parameter `oracle: Problem -> Option<seq<nat>>`.
Its only assumption is `SoundOracle`: every answer it gives is a valid
assignment. This means:

- distinct seats;
- seats within the pool;
- different grades on every adjacency pair.

`None` stands for "no solution found in the time limit".

**`random.shuffle`** is a parameter `shuffled`. It is required to be a
permutation of the mobile pupils.

**Database tables and query results** are sequences of records passed in as
parameters. SQL itself is not modelled.

**Python's string predicates** are ASCII, plus the twelve Turkish letters
where the source relies on `isalnum` or `upper`. This covers `isdigit`,
`isalnum`, `strip`, `upper`, `title` and `int()`.

## Model

| member | source | states |
|---|---|---|
| Constants.SinifIsmiGecerliMi | utils/constants.py:17-37 | an accepted class name is present, has 1 to 50 characters, and holds only letters, digits, `-`, `_`, plus at most one final line break (the regex `$` anchor) |
| Constants.ClassNameValidWhenStripped | utils/constants.py:20-37 | for a stripped name, acceptance holds exactly when the length is 1..50 and every character is allowed |
| Constants.ClassNameTrailingNewline | utils/constants.py:37 | "5A\n" is accepted because `$` matches before a final newline; "5A\n\n" and "\n" are rejected |
| Constants.SinifSeviyesindenSayi | utils/constants.py:59-80 | None gives 0; a stripped all-digit text gives its value; any other text gives one of 0, 8, 9, 11, 12 |
| Constants.LevelOfInteger | utils/constants.py:66-69 | a non-negative integer is its own level; a negative one is level 0 (its "-" is not a digit) |
| Constants.BranchLevel | utils/constants.py:71-74 | a well-formed "11…" or "12…" branch name is accepted by the name check and has level 11 or 12 |
| Constants.PreparatoryLevel | utils/constants.py:76-79 | the middle-school preparatory names are level 8 and the high-school one is level 9; all of them pass the name check |
| Constants.DigitsValid | utils/constants.py:68-69 | an all-digit name of at most 50 characters is accepted, and its level is its numeric value |
| Constants.LevelListWellFormed | utils/constants.py:41-56 | the fixed level list has 28 entries; each passes the name check and has a level between MIN_SINIF and MAX_SINIF |
| SeatLabel.RenderNumber | utils/__init__.py:41-43 | a seat number is shown as the desk label "Ö.Masa" exactly when it is at least the teacher-desk base |
| SeatLabel.FormatSiraLabel | utils/__init__.py:24-43 | None, empty and blank give the placeholder; non-numeric text is shown stripped; numeric text and integers are rendered as a number |
| SeatLabel.LabelRoundTrip | utils/__init__.py:41-43 | an ordinary seat number renders as max(3, its own digit count) digits that read back as the same number; its zero-padded text renders identically |
| SeatLabel.LabelInjective | utils/__init__.py:43 | two different ordinary seat numbers never share a label |
| SeatLabel.LabelOfPaddedSeven | utils/__init__.py:28-35 | the text " 7 " renders as "007" |
| SeatLabel.LabelPadding | utils/__init__.py:43 | 5 renders as "005"; 1234 keeps all four digits |
| Models.NewOgrenci | models/__init__.py:29-39 | a pupil is created exactly when the grade is in 5..12 and the id number is absent, empty or 11 characters long; the grade error is reported before the id error; grade and id number are kept as given |
| Models.NewOgrenciNormalised | models/__init__.py:31-33 | a created pupil's first and last names have no surrounding whitespace, and the last name and branch hold no lower-case letter |
| Models.NewOgrenciIdempotent | models/__init__.py:29-39 | building a pupil again from an already-normalised pupil yields the same pupil |
| Models.NewDers | models/__init__.py:100-109 | a course is created exactly when its level list is non-empty and every level is in range; otherwise the error names the first out-of-range level in list order |
| Models.SinifAlabilirMi | models/__init__.py:116-118 | a course admits a grade exactly when the grade is in its level list |
| Models.CourseAdmitsOnlyValidGrades | models/__init__.py:104-118 | a successfully built course admits no grade outside 5..12 |
| Models.NewSalon | models/__init__.py:232-237 | a room is created exactly when its capacity is positive, and keeps that capacity |
| Models.KalanKapasite | models/__init__.py:243-245 | the remaining capacity is never negative; it is either 0 or the capacity minus the occupancy |
| Models.FullIffNoneLeft | models/__init__.py:239-245 | a room is full exactly when no capacity remains; one more pupil lowers a non-full room's remainder by one |
| Models.DisplayLabelParts | models/__init__.py:289-297 | the label reads back piece by piece: the formatted number first, then " - " and the stripped seat label when that is non-blank, and " (ad soyad)" at the end when both names are present; the length is the sum of these pieces |
| Models.DisplayLabelNumber | models/__init__.py:288-297 | the display text starts with the three-digit seat number, followed by nothing, " - " or " (" |
| Models.KonumDisplay | models/__init__.py:325-329 | the pinned-seat text starts with the room name (or "Salon#id") and "/ Sıra NNN"; it is longer exactly when a seat label exists, and what follows is " - " and the label |
| Models.KonumDisplayLabel | models/__init__.py:325-329 | for the same room and seat, two labelled texts are equal exactly when the labels are, and a labelled text never equals an unlabelled one |
| Models.GetOrCreateSube | models/__init__.py:476-480 | the branch is looked up by its upper-cased name; an existing branch leaves the hierarchy unchanged; a new one is appended empty; branch names stay distinct |
| Models.GetOrCreateSubeIdempotent | models/__init__.py:476-480 | asking again for the same branch, in any letter case, changes nothing and returns the same position |
| Models.AddOgrenci | models/__init__.py:482-484 | adding a pupil raises the pupil total by exactly one and keeps branch names distinct |
| Models.AddAllGroups | models/__init__.py:482-492 | adding pupils one by one groups them by upper-cased branch in order of first appearance; every branch holds exactly its own pupils, and the total is the pupil count |
| Records.ClassKeyInjective | controllers/harmanlama_engine.py:804 | for class names without `-`, two class keys are equal exactly when class and branch are both equal |
| Records.ClassKeyAmbiguous | controllers/harmanlama_engine.py:804 | a `-` inside the class name makes two different (class, branch) pairs share a key |
| Seating.DefaultSeats | controllers/harmanlama_engine.py:445-454 | a room with no stored seats gets seats 1..capacity without ids (none when the capacity is not positive) |
| Seating.InferSatirGenisligi | controllers/harmanlama_engine.py:464-472 | the row width is the room's own width when positive, otherwise the configured one when it is at least 1, otherwise 1 |
| Seating.InferredWidthStable | controllers/harmanlama_engine.py:464-472 | configuring the inferred width, or recording it on the room, infers the same width again |
| Seating.ById | controllers/harmanlama_engine.py:458 | the id lookup has exactly the ids of seats that carry one, and maps each to a seat with that id |
| Seating.ByNo | controllers/harmanlama_engine.py:459 | the number lookup has exactly the seat numbers present, and maps each to a seat with that number |
| Seating.SalonEntry | controllers/harmanlama_engine.py:436-461 | a room's entry is its stored seats (or the default seats) sorted by number, with consistent lookups and the inferred width |
| Seating.DefaultEntry | controllers/harmanlama_engine.py:440-458 | without stored seats the entry is the default seat list and has no id lookup |
| Seating.SeatMapKeys | controllers/harmanlama_engine.py:432-462 | the seat map has an entry for exactly the listed rooms |
| Seating.SeatMapLastWins | controllers/harmanlama_engine.py:456 | when two listed rooms share an id, the later room's entry is the one kept |
| Seating.BosSiralar | controllers/harmanlama_engine.py:474-480 | a room's free seats are its seats, in order, minus the occupied seat numbers; an unknown room has none |
| Seating.FindSalonSiraById | controllers/harmanlama_engine.py:508-513 | a seat is found exactly when the room has a seat with that id, and the seat found has that id |
| Seating.SeatNeighbors | controllers/harmanlama_engine.py:525-546 | the neighbours are at most four distinct existing seats other than the seat itself: left and right in the same row, and the seats one row-width behind and ahead |
| Seating.NeighborsSymmetric | controllers/harmanlama_engine.py:525-546 | seat m neighbours seat n exactly when n neighbours m |
| Seating.TeacherDeskNo | controllers/harmanlama_engine.py:364-365 | a desk number is at least the teacher-desk base, and the room id can be read back from it |
| Seating.DeskNumbersDistinct | controllers/harmanlama_engine.py:364-365 | different rooms get different desk numbers, and no desk number equals an ordinary seat number |
| Seating.DeskLabel | utils/__init__.py:41-42 | every desk number is labelled "Ö.Masa" |
| Pool.SalonSeats | controllers/harmanlama_engine.py:266-297 | a room contributes one pool seat per free seat, in order and carrying its number, plus the teacher's desk last when desks are enabled |
| Pool.DeskSeat | controllers/harmanlama_engine.py:288-297 | the teacher's desk is a desk seat of the room with no neighbours |
| Pool.PrepareSeatData | controllers/harmanlama_engine.py:260-308 | every adjacency pair joins two different pool positions of the same room, in increasing order |
| Pool.DesksKeepRealSeats | controllers/harmanlama_engine.py:274-297 | the pool with desks, minus its desks, is exactly the pool without desks |
| Pool.OneDeskPerRoom | controllers/harmanlama_engine.py:288-297 | the desks of the pool are exactly one per room, in room order |
| Pool.NoDesksWithoutDesks | controllers/harmanlama_engine.py:274-287 | the first-attempt pool has no desk |
| Pool.RealSeatsAreFree | controllers/harmanlama_engine.py:274-287 | every non-desk pool seat is an existing, unoccupied seat of a listed room with the room's name |
| Pool.PairsSound | controllers/harmanlama_engine.py:298-307 | every adjacency pair is ordered, stays within one room, and comes from a real seat's neighbour list |
| Pool.PairsComplete | controllers/harmanlama_engine.py:298-307 | when pool seats are distinct, every neighbour of a real seat that is in the pool yields an adjacency pair |
| Pool.PoolKeysDistinct | controllers/harmanlama_engine.py:274-297 | with distinct room ids and distinct seat numbers per room, no two pool seats share room and number |
| Pool.PoolShaped | controllers/harmanlama_engine.py:288-297 | desks carry desk numbers and real seats only have ordinary neighbours |
| Pool.PoolPairsReal | controllers/harmanlama_engine.py:298-307 | adjacency pairs never involve a teacher's desk |
| Pool.PoolEntries | controllers/harmanlama_engine.py:266-297 | each desk carries its room's desk number and no neighbours; each real seat carries its room's neighbour numbers |
| Pinned.LookupSalon | controllers/harmanlama_engine.py:777 | a room is found exactly when a listed room has the id, and the room found has that id |
| Pinned.CheckPin | controllers/harmanlama_engine.py:781-802 | each of the four warnings is given exactly when the checks before it pass and its own fails (ids recorded, room active, seat defined, seat free); the pin is accepted exactly when all four pass, on its listed room and the seat its ids name |
| Pinned.PinPlacement | controllers/harmanlama_engine.py:804-825 | the placement belongs to the pupil, sits on the chosen seat, and is marked pinned and not on a desk |
| Pinned.PinFold | controllers/harmanlama_engine.py:778-825 | each pinned pupil yields one placement or one warning; no seat is handed out twice; the occupied seats are exactly the placed ones |
| Pinned.FoldLogs | controllers/harmanlama_engine.py:778-802 | the warnings are exactly the errors of the pupils whose checks failed against the seats taken before them, one each, in pupil order |
| Pinned.StepConsistent | controllers/harmanlama_engine.py:778-825 | one loop step keeps placements and occupied seats consistent |
| Pinned.SabitOgrenciYerlestir | controllers/harmanlama_engine.py:767-828 | the step fails with between 1 and n warnings, or places all n pupils on distinct seats and reports exactly those seats as occupied |
| Pinned.PinnedFailure | controllers/harmanlama_engine.py:826-827 | the step fails exactly when some pupil's checks fail against the seats taken before it, and the failure carries all the warnings |
| Pinned.PinnedFidelity | controllers/harmanlama_engine.py:767-828 | on success the i-th placement is the i-th pupil's, in the recorded room, on the seat whose id was recorded |
| Pinned.LogsGrow | controllers/harmanlama_engine.py:778-825 | warnings only accumulate as the loop proceeds |
| Solver.PythonInt | controllers/harmanlama_engine.py:332-334 | a digit string (after stripping) reads as its value; anything accepted is an optionally signed digit string |
| Solver.PythonIntRoundTrip | controllers/harmanlama_engine.py:332-334 | the decimal text of any integer reads back as that integer |
| Solver.PythonIntIgnoresSpace | controllers/harmanlama_engine.py:332-334 | surrounding whitespace does not change the reading |
| Solver.ParseGrades | controllers/harmanlama_engine.py:332-334 | the grades parse exactly when every class name is an integer; the error carries an unreadable class name |
| Solver.SolveCpSat | controllers/harmanlama_engine.py:318-362 | more pupils than seats gives no solution; otherwise an error occurs exactly when some class name is not an integer; any solution gives distinct pool seats and different grades on adjacent seats |
| Invigilators.AtanabilirSayisi | controllers/harmanlama_engine.py:1005-1014 | with enough invigilators every room is served; otherwise the number of rooms that can be fully staffed, but at least one |
| Invigilators.OtomatikAta | controllers/harmanlama_engine.py:979-1038 | no rooms and no invigilators are errors with no assignments; a shortage is reported with the needed and available counts; the assignments are the plan over the servable rooms |
| Invigilators.TakeTurns | controllers/harmanlama_engine.py:1017-1034 | the round-robin loop, room after room from where the last one stopped, produces exactly the plan over the served rooms |
| Invigilators.RoomTurn | controllers/harmanlama_engine.py:1017-1034 | one room takes the next invigilators up to the per-room count, the first as main and the rest as reserves |
| Invigilators.PlanUsesPrefix | controllers/harmanlama_engine.py:1017-1034 | invigilators are used in list order, each at most once |
| Invigilators.PlanLength | controllers/harmanlama_engine.py:1017-1034 | the plan has min(invigilators, rooms × per-room) assignments, or none when the per-room count is not positive |
| Invigilators.PlanRooms | controllers/harmanlama_engine.py:1017-1034 | every assignment is to one of the served rooms |
| Invigilators.PlanRoomShare | controllers/harmanlama_engine.py:1017-1034 | with distinct room ids, a room gets at most the per-room count, and only its first invigilator is main |
| Engine.ValidateInput | controllers/harmanlama_engine.py:115-132 | no pupils, no rooms and too little capacity are reported in that order; the input passes exactly when none applies |
| Engine.MobilOgrenciler | controllers/harmanlama_engine.py:54-57 | the mobile pupils are exactly the pupils whose id is not pinned |
| Engine.MobilePlacement | controllers/harmanlama_engine.py:228-247 | a mobile placement carries the pupil's data and the chosen seat, and is on a desk exactly when the seat is a desk |
| Engine.Assemble | controllers/harmanlama_engine.py:228-247 | the i-th placement puts the i-th pupil on the seat the solver chose for it |
| Engine.RoomName | controllers/harmanlama_engine.py:249-257 | a room present in the pool is named as one of its pool seats names it |
| Engine.Build | controllers/harmanlama_engine.py:224-258 | the desk ids are exactly the ids of the pupils the solver put on a desk seat; there are no desk warnings outside teacher mode |
| Engine.CpSatAssign | controllers/harmanlama_engine.py:200-258 | no solution is reported exactly when both attempts fail; a first-attempt solution uses no desk and logs nothing; every pupil is placed, unpinned, in order |
| Engine.SortYerlesim | controllers/harmanlama_engine.py:92 | the result is a permutation of the placements, sorted by room name and then seat number |
| Engine.KoltukSatiri | controllers/harmanlama_engine.py:183-198 | a line starts with "n. sıra: " and the pupil's name, followed by " (<sinif>/<sube>)" and then the desk tag exactly when the pupil sits at a desk |
| Engine.FormatKoltukListesi | controllers/harmanlama_engine.py:183-198 | one numbered line per pupil, each with the name, the class and branch in parentheses, and the desk tag exactly for desk pupils |
| Engine.IstatistikHesapla | controllers/harmanlama_engine.py:896-926 | counts of pupils, placements and rooms; each room's occupancy is the number of placements in it; rooms in use are the distinct room ids; the class distribution partitions the pupils |
| Engine.Failure | controllers/harmanlama_engine.py:928-937 | a failure carries the errors and no placement, statistics or warnings |
| Engine.Success | controllers/harmanlama_engine.py:92-109 | a success carries the sorted placements, the warnings and the seat list, with placement counts in the statistics |
| Engine.Harmanla | controllers/harmanlama_engine.py:41-113 | invalid input fails with its validation error; the run succeeds exactly when the input is valid, the pinned step places everyone and there are no mobile pupils or the solver places them; a failed pinned step reports its warnings and then the summary error, a solver with no solution "no solution", a bad grade the critical error; on success the result is sorted, places every pinned and every mobile pupil, and lists one seat line per mobile pupil |
| Engine.Placed | controllers/harmanlama_engine.py:59-110 | after validation the run succeeds exactly when the pinned step places everyone and there are no mobile pupils or the solver places them; a failed pinned step reports one warning per failed pupil and then the summary error |
| Engine.Mobile | controllers/harmanlama_engine.py:74-90 | the mobile step succeeds exactly when the solver returns placements; otherwise the only error is "no solution" or the critical error naming the unreadable grade |
| EngineProps.AssignmentSource | controllers/harmanlama_engine.py:200-258 | every assignment comes from a valid solver answer for the pool that was used; desks are used only after the desk-free attempt found nothing |
| EngineProps.MobileSeatsKnown | controllers/harmanlama_engine.py:200-308 | a mobile pupil sits on a free seat of a listed room, or on a listed room's teacher's desk |
| EngineProps.MobileSeatsDistinct | controllers/harmanlama_engine.py:200-308 | no two mobile pupils share a seat |
| EngineProps.MobileGradesApart | controllers/harmanlama_engine.py:327-342 | two mobile pupils on adjacent real seats of a room have different grades |
| EngineProps.DeskLogsCount | controllers/harmanlama_engine.py:249-257 | there is one desk warning per room with desk pupils, and their counts add up to the desk pupils |
| EngineProps.HarmanlaPlacesEachOnce | controllers/harmanlama_engine.py:54-90 | a successful run places every pinned and every mobile pupil exactly once |
| EngineProps.HarmanlaKeepsPins | controllers/harmanlama_engine.py:60-68 | every pinned pupil appears in the result on their recorded seat |
| EngineProps.HarmanlaSeatsDistinct | controllers/harmanlama_engine.py:59-92 | with distinct room ids and seat numbers, no two placements of a successful run share a seat |
| Database.MevcutMap | controllers/database_manager.py:231-236 | the existing-seat map has exactly the stored numbers, each mapped to a stored row with that number |
| Database.Missing | controllers/database_manager.py:244-254 | the numbers to insert are exactly 1..capacity minus the stored ones, increasing |
| Database.SyncSalonSira | controllers/database_manager.py:225-261 | a non-positive capacity changes nothing; rows keep their ids and numbers; exactly the missing numbers in 1..capacity are inserted, in increasing order |
| Database.SyncFlags | controllers/database_manager.py:244-261 | seats within capacity become active; seats beyond it stay active only if active before and pinned to; others keep their flag |
| Database.SyncCovers | controllers/database_manager.py:225-261 | after the sync every seat number within capacity exists exactly once (stored or inserted) and is active |
| Database.Temizle | controllers/database_manager.py:1213-1227 | the kept entries are a subsequence of complete entries for this exam, and no two share a pupil or a seat |
| Database.TemizleFirstWins | controllers/database_manager.py:1213-1227 | a complete entry for the exam is kept unless an earlier kept entry has its pupil or seat |
| Database.TemizleSnoc | controllers/database_manager.py:1213-1227 | each entry is kept exactly when it is complete, for this exam and clash-free with what was kept before |
| Database.TemizListe | controllers/database_manager.py:1213-1227 | the loop with its seen-sets computes exactly the clean-up |
| Database.YerlesimKaydet | controllers/database_manager.py:1208-1242 | saving fails exactly when no exam is given; otherwise the exam's rows in the new table are one per kept entry, in order, and other exams' rows are as before |
| Database.Store | controllers/database_manager.py:1232-1240 | after the delete and the inserts, the exam's rows are exactly the inserted ones and the other exams' rows are those of the old table |
| Database.StoreKeepsOther | controllers/database_manager.py:1232-1240 | saving one exam leaves every other exam's rows as they were |
| Database.StoredUnique | controllers/database_manager.py:1213-1240 | the saved rows never share a pupil or a seat |
| Database.TopluKaydet | controllers/database_manager.py:1244-1258 | the batch save fails exactly when there are no entries or none names an exam; the group keys are distinct and are exactly the exams the entries name; each group holds exactly the entries of its exam, so together they hold every entry that names an exam |
| Database.TopluKaydetSaves | controllers/database_manager.py:1244-1258 | after a batch save each named exam holds exactly the rows cleaned from its own entries, and an exam no entry names keeps its rows |
| Database.GroupsForOwnExam | controllers/database_manager.py:1244-1258 | every entry of a group belongs to that group's exam |
| Database.ParseToken | controllers/database_manager.py:497-505 | a token without `-` is a bare class; otherwise it splits at the last `-` into class and a branch without `-` |
| Database.ParseTokenRoundTrip | controllers/database_manager.py:497-505 | "class-branch" parses back into the class and branch |
| Database.PairTokenSelects | controllers/database_manager.py:492-522 | a "class-branch" token selects that class and branch whatever other tokens are present |
| Database.BenzersizSiniflar | controllers/database_manager.py:607-636 | the classes are permuted so that numeric names come first in numeric order and the others follow in string order |
| Database.SplitOnce | controllers/database_manager.py:652-656 | a name splits at its first `-` into a dash-free level and the rest |
| Database.BenzersizSinifSube | controllers/database_manager.py:638-669 | the "class-branch" list is a permutation of the combined pairs, sorted numeric levels first by value and branch |
| Database.SplitClassKey | controllers/database_manager.py:656-662 | splitting a "class-branch" item at its first `-` gives back the class and the branch, for a class name without `-` |
| Database.SubeKeyOfCombined | controllers/database_manager.py:659-666 | the sort key of "class-branch" is the numeric level and branch, or the text level and branch |
| Excel.EksikKolonlar | controllers/excel_handler.py:134-140 | a required column is missing exactly when no lower-cased, stripped header equals it |
| Excel.SatirUyarisi | controllers/excel_handler.py:171-191 | a row yields at most one warning, an invalid class or an invalid id number, tagged with the row's sheet number |
| Excel.OgrenciOku | controllers/excel_handler.py:121-209 | missing columns give no records and one error; otherwise the records are the kept rows, the warnings are the rows' warnings, and a no-records error appears exactly when nothing was kept |
| Excel.SatirlariOku | controllers/excel_handler.py:145-196 | the row-by-row loop collects exactly the records of the kept rows, in row order, and exactly the warnings of all rows |
| Excel.UyarilarMembers | controllers/excel_handler.py:171-191 | every row's warning is reported, and every reported warning is the warning of the row it names |
| Excel.SatirUyarisiCases | controllers/excel_handler.py:171-191 | the class warning appears exactly for named rows with a rejected class; the id warning exactly for kept rows with a rejected number, which is then dropped |
| Excel.KayitGecerli | controllers/excel_handler.py:155-193 | a kept record's class passes the name check, and its id number is empty or 11 digits |
| Excel.EmptyClassCellKept | controllers/excel_handler.py:155 | an empty class cell reads as "nan", which passes the name check, so the row is kept |
| Excel.TcTemizleNormalises | controllers/excel_handler.py:185-191 | a cleaned id number has no `-` or space, and cleaning again changes nothing |
| Excel.KayitRoundTrip | controllers/excel_handler.py:151-193 | a well-formed record written as a row is read back unchanged and without warning |
| Excel.GozetmenListesi | controllers/excel_handler.py:383-405 | an empty text lists nobody, and there are never more names than comma-separated parts |
| Excel.GozetmenSatirSayisi | controllers/excel_handler.py:408 | the sheet prints max(3, number of listed invigilators) rows |
| Excel.GozetmenAdiShape | controllers/excel_handler.py:392-405 | every listed invigilator has a first name, and a surname that is empty or one whitespace-free word |
| Excel.GozetmenListesiRoundTrip | controllers/excel_handler.py:383-405 | parsing the text "Ad Soyad (Görev), …" gives back every invigilator's first names and surname, in order |
| PoolView.Etiketle | views/harmanlama_view.py:1063-1117 | each pupil is tagged with the exam id and name, and nothing else about the pupil changes |
| PoolView.ListeBothOrNeither | views/harmanlama_view.py:1074-1078 | an exam contributes its listed pupils exactly when both of its queries succeed; if either fails, both its mobile and pinned lists are empty |
| PoolView.HazirlaOgrenciHavuzu | views/harmanlama_view.py:1063-1117 | the pool is the mobile list followed by the pinned list, and neither list repeats a pupil |
| PoolView.HavuzFirstExam | views/harmanlama_view.py:1063-1117 | a mobile pupil enters the pool with the first selected exam that lists them, and every pupil listed by an exam whose two queries succeeded enters |
| PoolView.HavuzFirstExamPinned | views/harmanlama_view.py:1063-1117 | the same holds for the pinned pupils |
| PoolView.HavuzCounts | views/harmanlama_view.py:1063-1117 | each exam's logged total is its mobile plus pinned count, and the logged counts add up to the pool lists |
| PoolView.OnKontrol | views/harmanlama_view.py:923-965 | no exam and no room are reported first; then "no pupils" exactly when the pool is empty, "insufficient capacity" exactly when a non-empty pool exceeds the rooms' capacity, and otherwise the check passes |
| PoolView.OnKontrolPassesValidation | views/harmanlama_view.py:923-965 | a pool that passes the screen's check also passes the engine's input validation |
| PoolView.Ayristir | views/harmanlama_view.py:870-885 | the warning text is always kept as the detail |
| PoolView.AyristirMatches | views/harmanlama_view.py:870-885 | room and seat are "-" exactly when the pattern does not occur; otherwise they are the leftmost, shortest match's room (stripped) and seat digits |
| PoolView.ParseUyumsuzluklar | views/harmanlama_view.py:870-885 | one parsed row per warning, in order |
| PoolView.AyristirRoundTrip | views/harmanlama_view.py:870-885 | "room salonunda n." with a one-word room name parses back into that room and n |
| PoolView.MasaMesajiUnparsed | views/harmanlama_view.py:870-885 | the engine's desk warning never matches the pattern, so its room and seat show "-" |
| VisualSeating.SinifAnahtari | views/visual_seating.py:280-285 | the colour key is never empty |
| VisualSeating.SinifAnahtariKinds | views/visual_seating.py:280-285 | the key is the class name's digits exactly when it has digits; otherwise it is "Hazırlık" exactly when "Hz" or "Haz" occurs in the name, and "Diğer" if not |
| VisualSeating.SinifAnahtariOfGrade | views/visual_seating.py:280-285 | a numeric grade followed by a digit-free branch has the grade as its key |
| VisualSeating.SinifAnahtariIdempotent | views/visual_seating.py:280-285 | a key is its own key |
| VisualSeating.EkranHucresiRoundTrip | views/visual_seating.py:217-220 | every seat is drawn beside the corridor, and its cell gives the seat back |
| VisualSeating.EkranSirasiRoundTrip | views/visual_seating.py:217-220 | every desk cell of the screen is its seat's cell |
| VisualSeating.KoridorCoversSeats | views/visual_seating.py:277-278 | the corridor label spans every row that holds a seat |
| VisualSeating.SayfaHucresiRoundTrip | views/visual_seating.py:416-435 | each of the 30 sheet seats lands on a desk cell that gives it back, never in a corridor column |
| VisualSeating.SayfaMasasiRoundTrip | views/visual_seating.py:416-435 | each desk cell of the sheet is some seat's cell |
| VisualSeating.SayfaSLayout | views/visual_seating.py:416-435 | consecutive seats are in the same or a neighbouring row; the middle block runs from back to front |
| VisualSeating.SonKayit | views/visual_seating.py:407-413 | the pupil shown at a seat is the last one read for it, and one is shown exactly when some pupil has that seat |
| PrintingView.KlasorAdiShape | views/yazdirma_view.py:678-687 | a folder name holds only letters, digits, `-` and `_`; it is "sinav" for an empty text and otherwise no longer than the text |
| PrintingView.KlasorAdiIdempotent | views/yazdirma_view.py:678-687 | a folder name is its own folder name |
| PrintingView.KlasorAdiFixed | views/yazdirma_view.py:678-687 | a non-empty text made only of letters, digits, `-` and `_` is its own folder name |
| PrintingView.SalonVerisiOf | views/yazdirma_view.py:218-233 | a room's view is a permutation of its entries' placements sorted by seat and exam name, with the first placement's room id and the first invigilator given |
| PrintingView.RebuildSalonData | views/yazdirma_view.py:218-233 | every room of the map gets its view and no other room appears |
| PrintingView.IlkGozetmenFirst | views/yazdirma_view.py:218-233 | the invigilator is empty exactly when no entry gives one, and otherwise the first one given |
| PrintingView.SalonVerisiMembers | views/yazdirma_view.py:218-233 | a placement is in the view exactly when some entry holds it, and seat numbers do not decrease |
| ClassInfoView.GuvenliAdShape | views/sinif_bilgilendirme.py:391-392 | a safe name holds only letters, digits, `-` and `_`, has no `_` at either end, and is empty exactly when the text has no letter, digit or `-` |
| ClassInfoView.GuvenliAdIdempotent | views/sinif_bilgilendirme.py:391-392 | a safe name is its own safe name |
| ClassInfoView.SiraAnahtariOfEtiket | views/sinif_bilgilendirme.py:257-267 | the sort key of the label "n. Sınıf - b Şube" is (n, b) for a one-word branch |
| ClassInfoView.SiraAnahtariWithoutGrade | views/sinif_bilgilendirme.py:257-267 | a label whose class has no digit sorts with key (0, "") |
| ClassInfoView.KayitSortKey | views/sinif_bilgilendirme.py:199-212 | a record is filed under a class name whose sort key reads back the placement's numeric grade and one-word branch, and the record keeps the pupil's names, class and branch |
| ClassInfoView.LoadData | views/sinif_bilgilendirme.py:171-227 | the class groups have distinct keys |
| ClassInfoView.LoadDataFiles | views/sinif_bilgilendirme.py:188-214 | every record of every exam lands in exactly the group of its class key, and the groups are exactly the keys that occur |
| ClassInfoView.SinifListesi | views/sinif_bilgilendirme.py:220-222 | the class list is a permutation of the group keys, sorted by grade and branch |

## Left out

- CP-SAT internals are not modelled: search, the time limit, the worker count and the objective that minimises desk use. The oracle is only assumed sound; nothing is claimed about completeness or optimality.
- `random.shuffle` becomes the permutation parameter `shuffled`.
- The `oran` fill-ratio percentage in the statistics is a float and is not modelled.
- File, Excel and PDF I/O, printing, the Tk user interface and SQL execution are not modelled. Tables and query results are sequences passed in as parameters. The database-backed helpers (`_fetch_gozetmen_map`, the exam and pupil queries) become parameters.
- The legacy placement strategies and other configuration modes of the engine are not part of this model.
- Generic exception branches are modelled only where an error value reaches them:
  - the `int(sinif)` failure inside the solver becomes `KritikHata`;
  - other exceptions are not modelled: the engine's remaining catch-all (`harmanla`), `otomatik_ata`'s catch-all, the per-row and file errors of `ogrenci_oku`.
- Unicode is approximated:
  - `isdigit`, `isalnum`, `upper`, `lower` and `title` are ASCII plus the Turkish letters;
  - the regex `\d` is an ASCII digit;
  - the regex `.` is any character except a line break.
- Solver.PythonInt: accepts only ASCII digit strings with an optional sign after stripping. Underscores and Unicode digits are not modelled.
- Database.SyncSalonSira: inserted rows are reported as seat numbers; the row ids chosen by the database (`INSERT OR REPLACE`) are not modelled. The lemmas about it assume distinct row ids and seat numbers (`TableKeys`), as the table's constraints guarantee.
- Seating.SalonEntry, ClassInfoView.SinifListesi, PrintingView.SalonVerisiOf, Engine.SortYerlesim, Database.BenzersizSiniflar and Database.BenzersizSinifSube: each states a sorted permutation. Stability of Python's sort among equal keys is not stated; for Seating.SalonEntry this means that, with duplicate stored seat numbers, which of them `by_no` keeps is not pinned down.
- Constants.SinifSeviyesindenSayi: for non-numeric text the contract only names the set of possible levels. Which prefix gives which level is stated by Constants.BranchLevel and Constants.PreparatoryLevel, for well-formed names.
- Models.NewOgrenciNormalised: the title-casing of the first name is stated only as a fixed point, by Models.NewOgrenciIdempotent, and not letter by letter.
- ClassInfoView.SiraAnahtariOfEtiket: proved for one-word branches. A branch of several words sorts by its first word.
- PoolView.AyristirRoundTrip: proved for room names without whitespace. With spaces the lazy group still matches from the start of the text.
- PrintingView.SalonVerisiOf: a missing `sinav_adi` is taken as "" in the sort key, as `x.get('sinav_adi', '')` does when the key is absent.
- Engine.ListName: the optional `isim` field that `_format_koltuk_listesi` prefers is not part of the pupil record here, so the listing always builds the name from `ad` and `soyad` (or the id).
- The visual seating screen's skip of a pupil whose `sira_no` is not an integer (the `ValueError` when drawing and the bare `except` of the Excel export) is not modelled.
- Solver.SolveCpSat: the missing-OR-Tools path, where the `ImportError` becomes a `RuntimeError` and the run fails, is not modelled; the library is taken as installed.
- Engine.MobilePlacement: the `sira_label` "Öğretmen Masası" that a desk entry carries is not kept; the desk is marked by the `ogretmen_masasi` flag alone.

## Notes on the source

- The docstring of `sinif_seviyesinden_sayi` maps the middle-school English preparatory class to 5. The code and its tests give 8, and the model follows the code.
- The engine's desk warning has the form "<room> salonunda <count> öğrenci Öğretmen Masasına alındı." The seating screen parses warnings with the pattern "(.+?) salonunda (\d+)\.", which needs a full stop right after the digits. The desk warning therefore never matches, and its room and seat columns always show "-". PoolView.MasaMesajiUnparsed proves this for room names without a full stop. The screen still lists the warning text, so nothing is lost, and this is not recorded as a defect.
- The visual seating canvas draws a "?" key for classes without digits or a preparatory marker, while `_get_class_key` returns "Diğer". The filter only offers the colour table's keys, so both paths lead to the same grey cell.

=== FILE: class_info_view.dfy ===
/** The class information screen: every placement of every blended exam
    filed under its class ("N. Sınıf - S Şube"), the class list ordered by
    grade and branch, and the file-name form of a class name. */
module ClassInfoView {
  import opened Wrappers
  import opened Seqs
  import opened Text
  import opened SeatLabel
  import opened Solver
  import opened Excel

  // ------------------------------------------------------------- file name

  predicate AdKarakteri(ch: char) {
    IsAlnum(ch) || ch == '_' || ch == '-'
  }

  function AdKarakter(ch: char): char {
    if AdKarakteri(ch) then ch else '_'
  }

  predicate AltCizgi(ch: char) {
    ch == '_'
  }

  /** `_safe_name`: characters other than letters, digits, `_` and `-`
      become `_`, then `_` is stripped from both ends. */
  function GuvenliAd(text: string): string {
    StripBy(Map(text, AdKarakter), AltCizgi)
  }

  lemma AdKarakterShape(text: string)
    ensures var m := Map(text, AdKarakter);
      && (forall i | 0 <= i < |m| :: AdKarakteri(m[i]))
      && ((forall i | 0 <= i < |m| :: AltCizgi(m[i])) <==>
          forall i | 0 <= i < |text| :: !IsAlnum(text[i]) && text[i] != '-')
  {
    var m := Map(text, AdKarakter);
    forall i | 0 <= i < |m| ensures m[i] == AdKarakter(text[i]) {
    }
    forall i | 0 <= i < |m| ensures AltCizgi(m[i]) <==> !IsAlnum(text[i]) && text[i] != '-' {
      assert m[i] == AdKarakter(text[i]);
    }
  }

  /** The name holds only letters, digits, `_` and `-`, does not start or
      end with `_`, and is empty exactly when the text has no letter,
      digit or `-`. */
  lemma GuvenliAdShape(text: string)
    ensures var r := GuvenliAd(text);
      && |r| <= |text|
      && (forall i | 0 <= i < |r| :: AdKarakteri(r[i]))
      && (|r| > 0 ==> r[0] != '_' && r[|r| - 1] != '_')
      && (|r| == 0 <==> forall i | 0 <= i < |text| :: !IsAlnum(text[i]) && text[i] != '-')
  {
    GuvenliAdChars(text);
    GuvenliAdEmpty(text);
  }

  lemma GuvenliAdChars(text: string)
    ensures var r := GuvenliAd(text);
      && |r| <= |text|
      && (forall i | 0 <= i < |r| :: AdKarakteri(r[i]))
      && (|r| > 0 ==> r[0] != '_' && r[|r| - 1] != '_')
  {
    var m := Map(text, AdKarakter);
    assert forall i | 0 <= i < |m| :: AdKarakteri(m[i]);
    StripByKeepsAll(m, AltCizgi, AdKarakteri);
    StripBySlice(m, AltCizgi);
  }

  lemma GuvenliAdEmpty(text: string)
    ensures |GuvenliAd(text)| == 0 <==> forall i | 0 <= i < |text| :: !IsAlnum(text[i]) && text[i] != '-'
  {
    var m := Map(text, AdKarakter);
    AdKarakterShape(text);
    StripByKeepsAll(m, AltCizgi, AdKarakteri);
  }

  /** A safe name is its own safe name. */
  lemma GuvenliAdIdempotent(text: string)
    ensures GuvenliAd(GuvenliAd(text)) == GuvenliAd(text)
  {
    var m := Map(text, AdKarakter);
    var r := GuvenliAd(text);
    GuvenliAdShape(text);
    assert Map(r, AdKarakter) == r;
    StripByIdempotent(m, AltCizgi);
  }

  // -------------------------------------------------------------- ordering

  /** `p` occurs in `s` at `j`. */
  predicate OccursAt(s: string, p: string, j: int) {
    0 <= j && j + |p| <= |s| && s[j..j + |p|] == p
  }

  /** The first position from `i` on where `p` occurs. */
  function FindSub(s: string, p: string, i: nat): (r: Option<nat>)
    requires i <= |s|
    ensures r.Some? ==> i <= r.value && OccursAt(s, p, r.value)
    ensures forall j | i <= j && (r.None? || j < r.value) :: !OccursAt(s, p, j)
    decreases |s| - i
  {
    if i + |p| > |s| then None
    else if s[i..i + |p|] == p then Some(i)
    else FindSub(s, p, i + 1)
  }

  const SINIF: string := "Sınıf"

  predicate Nokta(ch: char) {
    ch == '.'
  }

  predicate NoktaDegil(ch: char) {
    ch != '.'
  }

  /** The grade of `_class_sort_key`: the text before the first "Sınıf",
      stripped, with its dots removed, read by `int`; `None` when there is
      no "Sınıf" or `int` fails. */
  function SeviyeOf(text: string): Option<int> {
    match FindSub(text, SINIF, 0)
    case None => None
    case Some(i) => PythonInt(Filter(Strip(text[..i]), NoktaDegil))
  }

  /** The branch of `_class_sort_key`: the first word after the last '-';
      "" when there is no '-' or no word after it. */
  function SubeOf(text: string): string {
    if '-' !in text then ""
    else
      var parts := Split(text, '-');
      var words := SplitWhitespace(Strip(parts[|parts| - 1]));
      if |words| == 0 then "" else words[0]
  }

  /** `_class_sort_key`: (grade, branch), or (0, "") when the grade cannot
      be read; the branch is looked at only once the grade is read. */
  function SiraAnahtari(text: string): (int, string) {
    match SeviyeOf(text)
    case None => (0, "")
    case Some(n) => (n, SubeOf(text))
  }

  /** The order of the class list: grade, then branch. */
  predicate BySiraAnahtari(a: string, b: string) {
    var (n, s) := SiraAnahtari(a);
    var (m, t) := SiraAnahtari(b);
    n < m || (n == m && StrLe(s, t))
  }

  lemma BySiraAnahtariPreorder()
    ensures TotalPreorder(BySiraAnahtari)
  {
    StrLePreorder();
  }

  /** The name a class is filed under: `f"{sinif}. Sınıf - {sube} Şube"`. */
  function SinifEtiketi(sinif: string, sube: string): string {
    sinif + ". " + SINIF + " - " + sube + " " + SUBE
  }

  const SUBE: string := "Şube"

  lemma SinifFacts(p: string)
    requires p == SINIF
    ensures |p| == 5 && p[0] == 'S' && '.' !in p && ' ' !in p && '-' !in p
    ensures forall i | 0 <= i < |p| :: !IsDigit(p[i])
  {
  }

  lemma SubeWordFacts(w: string)
    requires w == SUBE
    ensures Kelime(w) && '-' !in w
  {
  }

  /** The sort key reads back the grade and branch of a class name built
      from a grade in digits and a one-word branch. */
  lemma SiraAnahtariOfEtiket(n: nat, sube: string)
    requires Kelime(sube) && '-' !in sube
    ensures SiraAnahtari(SinifEtiketi(NatToString(n), sube)) == (n, sube)
  {
    var g := NatToString(n);
    var text := SinifEtiketi(g, sube);
    EtiketSeviye(g, sube);
    TrailingBranch(g, sube);
  }

  lemma EtiketSeviye(g: string, sube: string)
    requires IsDigits(g)
    ensures SeviyeOf(SinifEtiketi(g, sube)) == Some(DigitsValue(g))
  {
    var text := SinifEtiketi(g, sube);
    EtiketFound(g, sube);
    assert text[..|g| + 2] == g + ". ";
    GradePart(g);
  }

  /** "Sınıf" first occurs right after the grade's ". ". */
  lemma EtiketFound(g: string, sube: string)
    requires IsDigits(g)
    ensures var text := SinifEtiketi(g, sube);
      FindSub(text, SINIF, 0) == Some(|g| + 2)
  {
    var text := SinifEtiketi(g, sube);
    var k := |g| + 2;
    SinifFacts(SINIF);
    assert OccursAt(text, SINIF, k);
    forall j | 0 <= j < k ensures !OccursAt(text, SINIF, j) {
      assert text[j..j + 5][0] == text[j];
      if j < |g| {
        assert text[j] == g[j];
      }
    }
    FindSubFirst(text, SINIF, 0, k);
  }

  /** When `p` occurs at `k` and nowhere between `i` and `k`, the search
      from `i` finds `k`. */
  lemma {:induction false} FindSubFirst(s: string, p: string, i: nat, k: nat)
    requires i <= k && OccursAt(s, p, k)
    requires forall j | i <= j < k :: !OccursAt(s, p, j)
    ensures FindSub(s, p, i) == Some(k)
    decreases k - i
  {
    if i < k {
      FindSubFirst(s, p, i + 1, k);
    }
  }

  /** The grade part "N. " is read as N. */
  lemma GradePart(g: string)
    requires IsDigits(g)
    ensures PythonInt(Filter(Strip(g + ". "), NoktaDegil)) == Some(DigitsValue(g))
  {
    StripTrailingSpace(g + ".");
    assert Strip(g + ". ") == g + "." by {
      DotSpace(g);
    }
    FilterConcat(g, ".", NoktaDegil);
    FilterAll(g, NoktaDegil);
    assert Filter(".", NoktaDegil) == [];
    assert g + [] == g;
    StripDigits(g);
  }

  lemma DotSpace(g: string)
    ensures g + ". " == (g + ".") + " "
  {
    var r := g + ". ";
    assert |r| == |g| + 2 && r[|g|] == '.' && r[|g| + 1] == ' ';
    assert forall i | 0 <= i < |g| :: r[i] == g[i];
  }

  /** After the last '-' comes " S Şube", whose first word is the branch. */
  lemma TrailingBranch(g: string, sube: string)
    requires IsDigits(g) && Kelime(sube) && '-' !in sube
    ensures SubeOf(SinifEtiketi(g, sube)) == sube
  {
    var text := SinifEtiketi(g, sube);
    var head := g + ". " + SINIF + " ";
    var tail := " " + sube + " " + SUBE;
    assert text == head + "-" + tail;
    HeadNoDash(g);
    TailNoDash(sube);
    SplitAfter(head, tail, '-');
    assert Split(tail, '-') == [tail];
    assert text[|head|] == '-';
    BranchWords(sube);
  }

  lemma HeadNoDash(g: string)
    requires IsDigits(g)
    ensures '-' !in g + ". " + SINIF + " "
  {
    var head := g + ". " + SINIF + " ";
    SinifFacts(SINIF);
    forall j | 0 <= j < |head| ensures head[j] != '-' {
      if j < |g| { assert head[j] == g[j]; }
      else if j >= |g| + 2 && j < |g| + 7 { assert head[j] == SINIF[j - |g| - 2]; }
    }
  }

  lemma TailNoDash(sube: string)
    requires '-' !in sube
    ensures '-' !in " " + sube + " " + SUBE
  {
    SubeWordFacts(SUBE);
  }

  lemma BranchWords(sube: string)
    requires Kelime(sube)
    ensures SplitWhitespace(Strip(" " + sube + " " + SUBE)) == [sube, SUBE]
  {
    SubeWordFacts(SUBE);
    TwoWords(sube, SUBE);
  }

  /** " a b" splits into the words a and b. */
  lemma TwoWords(a: string, b: string)
    requires Kelime(a) && Kelime(b)
    ensures SplitWhitespace(Strip(" " + a + " " + b)) == [a, b]
  {
    var x := a + " " + b;
    assert Strip(" " + a + " " + b) == x by {
      assert " " + a + " " + b == " " + x by {
        ConcatAssoc(" " + a, " ", b);
        ConcatAssoc(" ", a, " " + b);
        ConcatAssoc(a, " ", b);
      }
      StripLeadingSpace(x);
      assert x[0] == a[0] && x[|x| - 1] == b[|b| - 1];
      StripFixed(x);
    }
    assert SplitWhitespace(x) == [a, b] by {
      SplitWhitespaceCons(a, b);
      SplitWhitespaceWord(b);
    }
  }

  /** A class name without digits and without "Sınıf" in it has no grade
      and sorts first, as (0, ""). */
  lemma SiraAnahtariWithoutGrade(sinif: string, sube: string)
    requires forall i | 0 <= i < |sinif| :: !IsDigit(sinif[i])
    ensures SiraAnahtari(SinifEtiketi(sinif, sube)) == (0, "")
  {
    var text := SinifEtiketi(sinif, sube);
    SinifFacts(SINIF);
    assert OccursAt(text, SINIF, |sinif| + 2);
    var i := FindSub(text, SINIF, 0).value;
    assert i <= |sinif| + 2;
    var left := text[..i];
    assert forall j | 0 <= j < |left| :: !IsDigit(left[j]) by {
      forall j | 0 <= j < |left| ensures !IsDigit(left[j]) {
        assert left[j] == text[j];
        if j < |sinif| { assert text[j] == sinif[j]; }
      }
    }
    NoDigitsNoInt(left);
  }

  /** Text without digits is not a number, however it is stripped and
      whatever dots are removed. */
  lemma NoDigitsNoInt(left: string)
    requires forall j | 0 <= j < |left| :: !IsDigit(left[j])
    ensures PythonInt(Filter(Strip(left), NoktaDegil)).None?
  {
    var s := Strip(left);
    StripByKeepsAll(left, IsSpace, NotDigit);
    var f := Filter(s, NoktaDegil);
    assert forall j | 0 <= j < |f| :: !IsDigit(f[j]) by {
      forall j | 0 <= j < |f| ensures !IsDigit(f[j]) {
        assert f[j] in f;
      }
    }
    StripByKeepsAll(f, IsSpace, NotDigit);
    var t := Strip(f);
    if |t| > 1 {
      assert !IsDigit(t[1]) && t[1..][0] == t[1];
    }
    if |t| > 0 {
      assert !IsDigit(t[0]);
    }
  }

  predicate NotDigit(ch: char) {
    !IsDigit(ch)
  }

  // ------------------------------------------------------------- load_data

  /** One placement row of an exam as the database returns it. */
  datatype Yer = Yer(ad: string, soyad: string, sinif: string, sube: string,
                     salonAdi: string, salonId: int, siraNo: Scalar)

  /** A blended exam: its names, date and time, its placements (`None` when
      reading them failed) and the invigilators text of each room. */
  datatype Sinav = Sinav(sinavAdi: string, dersAdi: string, tarih: Option<string>,
                         saat: Option<string>, yerlesimler: Option<seq<Yer>>,
                         gozetmenler: map<int, string>)

  /** The record filed for one placement. */
  datatype Kayit = Kayit(sinifKey: string, ad: string, soyad: string, sinif: string,
                         sube: string, salon: string, siraLabel: string, sinavAdi: string,
                         dersAdi: string, tarih: string, saat: string, gozetmen: string)

  /** `value or '-'`. */
  function OrDash(v: Option<string>): string {
    if v.Some? && v.value != "" then v.value else "-"
  }

  function KayitOf(s: Sinav, y: Yer): (k: Kayit)
    ensures k.sinifKey == SinifEtiketi(y.sinif, y.sube)
  {
    Kayit(SinifEtiketi(y.sinif, y.sube), y.ad, y.soyad, y.sinif, y.sube, y.salonAdi,
          FormatSiraLabel(y.siraNo, "-"), s.sinavAdi, s.dersAdi, OrDash(s.tarih), OrDash(s.saat),
          if y.salonId in s.gozetmenler then s.gozetmenler[y.salonId] else "")
  }

  /** A record is filed under a class name whose sort key reads back the
      placement's grade and branch, for a grade in digits and a one-word
      branch; the record carries the pupil's names and class as placed. */
  lemma KayitSortKey(s: Sinav, y: Yer, n: nat)
    requires y.sinif == NatToString(n) && Kelime(y.sube) && '-' !in y.sube
    ensures SiraAnahtari(KayitOf(s, y).sinifKey) == (n, y.sube)
    ensures var k := KayitOf(s, y); k.ad == y.ad && k.soyad == y.soyad && k.sinif == y.sinif && k.sube == y.sube
  {
    SiraAnahtariOfEtiket(n, y.sube);
  }

  /** The records of one exam, in placement order; none when its
      placements could not be read. */
  function SinavKayitlari(s: Sinav): (ks: seq<Kayit>)
    ensures |ks| == YerSayisi(s)
  {
    match s.yerlesimler
    case None => []
    case Some(ys) => seq(|ys|, i requires 0 <= i < |ys| => KayitOf(s, ys[i]))
  }

  function YerSayisi(s: Sinav): nat {
    match s.yerlesimler
    case None => 0
    case Some(ys) => |ys|
  }

  function SinifKeyOf(k: Kayit): string {
    k.sinifKey
  }

  /** All records, exam by exam. */
  function Kayitlar(sinavlar: seq<Sinav>): (ks: seq<Kayit>)
    ensures |ks| == Sum(Map(sinavlar, YerSayisiInt))
    decreases |sinavlar|
  {
    if |sinavlar| == 0 then []
    else
      var init := sinavlar[..|sinavlar| - 1];
      assert Map(sinavlar, YerSayisiInt) == Map(init, YerSayisiInt) + [YerSayisiInt(sinavlar[|sinavlar| - 1])];
      SumSnocInt(Map(init, YerSayisiInt), YerSayisiInt(sinavlar[|sinavlar| - 1]));
      Kayitlar(init) + SinavKayitlari(sinavlar[|sinavlar| - 1])
  }

  function YerSayisiInt(s: Sinav): int {
    YerSayisi(s)
  }

  lemma {:induction false} SumSnocInt(s: seq<int>, x: int)
    ensures Sum(s + [x]) == Sum(s) + x
    decreases |s|
  {
    if |s| > 0 {
      assert (s + [x])[1..] == s[1..] + [x];
      SumSnocInt(s[1..], x);
    } else {
      assert s + [x] == [x];
    }
  }

  /** `load_data`: the records grouped by class name, classes in order of
      first appearance (`class_data.setdefault(key, []).append(record)`). */
  function LoadData(sinavlar: seq<Sinav>): (gs: seq<Group<string, Kayit>>)
    ensures Distinct(Keys(gs))
  {
    GroupBy(Kayitlar(sinavlar), SinifKeyOf)
  }

  /** Every record is filed under exactly its own class: each class holds
      the records with its name, in order, and the class counts add up to
      the number of placements read. */
  lemma LoadDataFiles(sinavlar: seq<Sinav>)
    ensures var gs := LoadData(sinavlar);
      && TotalItems(gs) == Sum(Map(sinavlar, YerSayisiInt))
      && (forall i | 0 <= i < |gs| :: gs[i].items == WithKey(Kayitlar(sinavlar), SinifKeyOf, gs[i].key))
      && (forall k :: k in Keys(gs) <==> k in Map(Kayitlar(sinavlar), SinifKeyOf))
  {
    GroupByTotal(Kayitlar(sinavlar), SinifKeyOf);
    GroupByItems(Kayitlar(sinavlar), SinifKeyOf);
    GroupByKeys(Kayitlar(sinavlar), SinifKeyOf);
  }

  /** The class list: every class once, in grade-and-branch order. */
  function SinifListesi(gs: seq<Group<string, Kayit>>): (r: seq<string>)
    ensures multiset(r) == multiset(Keys(gs))
    ensures SortedBy(r, BySiraAnahtari)
  {
    BySiraAnahtariPreorder();
    SortBy(Keys(gs), BySiraAnahtari)
  }
}

=== FILE: constants.dfy ===
/** Application-wide constants: the numeric grade range, the base number
    of the teacher's-desk pseudo seats, the class-name pattern and the
    list of class levels, with the two helpers that interpret class names. */
module Constants {
  import opened Wrappers
  import opened Text

  const MIN_SINIF: int := 5
  const MAX_SINIF: int := 12

  /** Seat numbers at or above this value denote a teacher's desk. */
  const TEACHER_DESK_BASE: int := 900000

  /** Students of one grade may not sit next to each other. */
  const CP_SAT_FORBID_SAME_GRADE_ADJACENT: bool := true

  /** The longest class name accepted. */
  const MAX_CLASS_NAME: nat := 50

  /** A character of the class-name pattern: ASCII letters and digits, the
      Turkish letters, `-` and `_`. */
  predicate IsClassNameChar(c: char) {
    IsAsciiLetter(c) || IsDigit(c) || c in TurkishLetters || c == '-' || c == '_'
  }

  predicate AllClassNameChars(s: string) {
    forall i | 0 <= i < |s| :: IsClassNameChar(s[i])
  }

  /** `re.match(r'^[...]+$', s)`: one or more pattern characters, where the
      `$` anchor also accepts a single newline at the very end. */
  predicate MatchesClassNamePattern(s: string) {
    var body := if |s| > 0 && s[|s| - 1] == '\n' then s[..|s| - 1] else s;
    |body| > 0 && AllClassNameChars(body)
  }

  /** `sinif_ismi_gecerli_mi`: rejects a missing or empty name and one longer
      than 50 characters, otherwise asks the pattern. */
  function SinifIsmiGecerliMi(name: Option<string>): (ok: bool)
    ensures ok ==> name.Some? && 0 < |name.value| <= MAX_CLASS_NAME
    ensures ok ==> forall i | 0 <= i < |name.value| ::
      IsClassNameChar(name.value[i]) || (i == |name.value| - 1 && name.value[i] == '\n')
  {
    match name
    case None => false
    case Some(s) => |s| != 0 && |s| <= MAX_CLASS_NAME && MatchesClassNamePattern(s)
  }

  /** On a name without surrounding whitespace (the only kind the spreadsheet
      import passes in) the check is exactly: non-empty, at most 50
      characters, all from the pattern's alphabet. */
  lemma ClassNameValidWhenStripped(s: string)
    requires Strip(s) == s
    ensures SinifIsmiGecerliMi(Some(s)) <==>
      0 < |s| <= MAX_CLASS_NAME && AllClassNameChars(s)
  {
    StripFixed(s);
    if |s| > 0 {
      assert s[|s| - 1] != '\n';
      assert MatchesClassNamePattern(s) == AllClassNameChars(s);
    }
  }

  /** The `$` anchor lets one trailing newline through. */
  lemma ClassNameTrailingNewline()
    ensures SinifIsmiGecerliMi(Some("5A\n"))
    ensures !SinifIsmiGecerliMi(Some("5A\n\n"))
    ensures !SinifIsmiGecerliMi(Some("\n"))
  {
    assert "5A\n"[..2] == "5A";
    assert "5A\n\n"[..3] == "5A\n";
    assert !IsClassNameChar("5A\n"[2]);
  }

  /** The class levels offered by the application, in display order. */
  const SINIF_SEVIYELERI: seq<string> := [
    "5", "6", "7", "8",
    "ortaokulhazirlikingilizce", "ortaokulhazirlikarapca",
    "lisehazirlikingilizce", "lisehazirlikarapca",
    "9", "10",
    "11sayisal", "11esitağirlik", "11sozel",
    "11ingilizce", "11arapca", "11korece", "11rusca", "11cince", "11japonca",
    "12sayisal", "12esitağirlik", "12sozel",
    "12ingilizce", "12arapca", "12korece", "12rusca", "12cince", "12japonca"
  ]

  /** `sinif_seviyesinden_sayi`: the numeric grade behind a class name,
      read from `str(v).strip()`; `None` is 0. */
  function SinifSeviyesindenSayi(v: Scalar): (n: nat)
    ensures v.NoneValue? ==> n == 0
    ensures v.Str? && IsDigits(Strip(v.s)) ==> n == DigitsValue(Strip(v.s))
    ensures v.Str? && !IsDigits(Strip(v.s)) ==> n in {0, 8, 9, 11, 12}
  {
    if v.NoneValue? then 0 else LevelOfText(Strip(ScalarToString(v)))
  }

  /** The grade of a stripped class name: a digit string is its own value
      (checked before any prefix); "11…"/"12…" branches are 11/12; the
      middle-school preparatory classes count as 8 and the high-school ones
      as 9; anything else is 0. */
  function LevelOfText(s: string): nat {
    if IsDigits(s) then DigitsValue(s)
    else if StartsWith(s, "11") then 11
    else if StartsWith(s, "12") then 12
    else if StartsWith(s, "ortaokulhazirlika") || StartsWith(s, "ortaokulhazirliking") then 8
    else if StartsWith(s, "lisehazirlik") then 9
    else 0
  }

  /** An integer grade reads back as itself; a negative one is not a grade. */
  lemma LevelOfInteger(n: int)
    ensures n >= 0 ==> SinifSeviyesindenSayi(Int(n)) == n
    ensures n < 0 ==> SinifSeviyesindenSayi(Int(n)) == 0
  {
    if n >= 0 {
      LevelOfNatural(n);
    } else {
      LevelOfNegative(n);
    }
  }

  lemma LevelOfNatural(n: nat)
    ensures SinifSeviyesindenSayi(Int(n)) == n
  {
    StripDigits(NatToString(n));
  }

  lemma LevelOfNegative(n: int)
    requires n < 0
    ensures SinifSeviyesindenSayi(Int(n)) == 0
  {
    var t := NatToString(-n);
    SignedStripped(t);
    SignedLevel(t);
  }

  lemma SignedStripped(t: string)
    requires IsDigits(t)
    ensures Strip("-" + t) == "-" + t
  {
    var s := "-" + t;
    assert s[0] == '-' && s[|s| - 1] == t[|t| - 1];
    StripKeeps(s);
  }

  lemma SignedLevel(t: string)
    ensures LevelOfText("-" + t) == 0
  {
    var s := "-" + t;
    assert s[0] == '-';
    assert !IsDigits(s);
    assert !StartsWith(s, "11") && !StartsWith(s, "12");
    assert !StartsWith(s, "ortaokulhazirlika") && !StartsWith(s, "ortaokulhazirliking");
    assert !StartsWith(s, "lisehazirlik");
  }

  /** A name made of pattern characters, starting with a letter or with a
      two-digit prefix followed by a letter. */
  predicate LevelShaped(s: string) {
    && 2 < |s| <= MAX_CLASS_NAME
    && AllClassNameChars(s)
    && IsLetter(s[|s| - 1])
    && !IsDigit(s[2])
  }

  /** A level-shaped name has nothing to strip and is a valid class name. */
  lemma ShapedValid(s: string)
    requires LevelShaped(s)
    ensures Strip(s) == s && SinifIsmiGecerliMi(Some(s))
  {
    assert IsClassNameChar(s[0]) && IsClassNameChar(s[|s| - 1]);
    StripKeeps(s);
    ClassNameValidWhenStripped(s);
  }

  /** A short digit string has nothing to strip and is a valid class name. */
  lemma DigitsValid(s: string)
    requires IsDigits(s) && |s| <= MAX_CLASS_NAME
    ensures Strip(s) == s && SinifIsmiGecerliMi(Some(s))
    ensures SinifSeviyesindenSayi(Str(s)) == DigitsValue(s)
  {
    StripDigits(s);
    ClassNameValidWhenStripped(s);
  }

  /** An "11…"/"12…" branch class is valid and belongs to grade 11 or 12. */
  lemma BranchLevel(s: string)
    requires LevelShaped(s) && s[0] == '1' && (s[1] == '1' || s[1] == '2')
    ensures SinifIsmiGecerliMi(Some(s))
    ensures SinifSeviyesindenSayi(Str(s)) == if s[1] == '1' then 11 else 12
  {
    ShapedValid(s);
    BranchText(s);
  }

  lemma BranchText(s: string)
    requires LevelShaped(s) && s[0] == '1' && (s[1] == '1' || s[1] == '2')
    ensures LevelOfText(s) == if s[1] == '1' then 11 else 12
  {
    assert !IsDigits(s);
    assert s[..2] == [s[0], s[1]];
  }

  /** A preparatory class is valid; middle-school ones count as grade 8,
      high-school ones as grade 9. */
  lemma PreparatoryLevel(s: string)
    requires LevelShaped(s)
    requires || StartsWith(s, "ortaokulhazirlika") || StartsWith(s, "ortaokulhazirliking")
             || StartsWith(s, "lisehazirlik")
    ensures SinifIsmiGecerliMi(Some(s))
    ensures SinifSeviyesindenSayi(Str(s)) == if s[0] == 'o' then 8 else 9
  {
    ShapedValid(s);
    PreparatoryText(s);
  }

  lemma PreparatoryText(s: string)
    requires LevelShaped(s)
    requires || StartsWith(s, "ortaokulhazirlika") || StartsWith(s, "ortaokulhazirliking")
             || StartsWith(s, "lisehazirlik")
    ensures LevelOfText(s) == if s[0] == 'o' then 8 else 9
  {
    assert s[0] == 'o' || s[0] == 'l';
    assert !IsDigits(s);
    assert !StartsWith(s, "11") && !StartsWith(s, "12");
  }

  /** The level list has 28 entries, each a valid class name whose grade
      lies between MIN_SINIF and MAX_SINIF. */
  lemma LevelListWellFormed()
    ensures |SINIF_SEVIYELERI| == 28
    ensures forall i | 0 <= i < |SINIF_SEVIYELERI| ::
      && SinifIsmiGecerliMi(Some(SINIF_SEVIYELERI[i]))
      && MIN_SINIF <= SinifSeviyesindenSayi(Str(SINIF_SEVIYELERI[i])) <= MAX_SINIF
  {
    forall i | 0 <= i < |SINIF_SEVIYELERI|
      ensures SinifIsmiGecerliMi(Some(SINIF_SEVIYELERI[i]))
      ensures MIN_SINIF <= SinifSeviyesindenSayi(Str(SINIF_SEVIYELERI[i])) <= MAX_SINIF
    {
      LevelEntry(i);
    }
  }

  lemma LevelEntry(i: nat)
    requires i < |SINIF_SEVIYELERI|
    ensures SinifIsmiGecerliMi(Some(SINIF_SEVIYELERI[i]))
    ensures MIN_SINIF <= SinifSeviyesindenSayi(Str(SINIF_SEVIYELERI[i])) <= MAX_SINIF
  {
    if i < 4 || i == 8 || i == 9 {
      DigitEntry(i);
    } else if i < 8 {
      PreparatoryEntry(i);
    } else {
      BranchEntry(i);
    }
  }

  lemma DigitEntry(i: nat)
    requires i < 4 || i == 8 || i == 9
    ensures SinifIsmiGecerliMi(Some(SINIF_SEVIYELERI[i]))
    ensures MIN_SINIF <= SinifSeviyesindenSayi(Str(SINIF_SEVIYELERI[i])) <= MAX_SINIF
  {
    var s := SINIF_SEVIYELERI[i];
    if i == 9 {
      assert DigitsValue(s) == 10 by { assert s[..1] == "1"; assert "1"[..0] == []; }
    } else {
      assert DigitsValue(s) == DigitValue(s[0]) by { assert s[..0] == []; }
    }
    DigitsValid(s);
  }

  lemma PreparatoryEntry(i: nat)
    requires 4 <= i < 8
    ensures SinifIsmiGecerliMi(Some(SINIF_SEVIYELERI[i]))
    ensures MIN_SINIF <= SinifSeviyesindenSayi(Str(SINIF_SEVIYELERI[i])) <= MAX_SINIF
  {
    var s := SINIF_SEVIYELERI[i];
    if i == 4 {
      assert s == "ortaokulhazirlikingilizce";
      PreparatoryName(s);
    } else if i == 5 {
      assert s == "ortaokulhazirlikarapca";
      PreparatoryName(s);
    } else if i == 6 {
      assert s == "lisehazirlikingilizce";
      PreparatoryName(s);
    } else {
      assert s == "lisehazirlikarapca";
      PreparatoryName(s);
    }
  }

  /** The four preparatory class names of the level list. */
  lemma PreparatoryName(s: string)
    requires s in ["ortaokulhazirlikingilizce", "ortaokulhazirlikarapca", "lisehazirlikingilizce", "lisehazirlikarapca"]
    ensures SinifIsmiGecerliMi(Some(s))
    ensures SinifSeviyesindenSayi(Str(s)) == if s[0] == 'o' then 8 else 9
  {
    assert StartsWith(s, "ortaokulhazirlika") || StartsWith(s, "ortaokulhazirliking")
           || StartsWith(s, "lisehazirlik");
    AsciiWordShaped(s);
    PreparatoryLevel(s);
  }

  /** A lower-case ASCII word of three to fifty letters is level-shaped. */
  lemma AsciiWordShaped(s: string)
    requires 2 < |s| <= MAX_CLASS_NAME
    requires forall i | 0 <= i < |s| :: 'a' <= s[i] <= 'z'
    ensures LevelShaped(s)
  {
  }

  lemma BranchEntry(i: nat)
    requires 10 <= i < |SINIF_SEVIYELERI|
    ensures SinifIsmiGecerliMi(Some(SINIF_SEVIYELERI[i]))
    ensures MIN_SINIF <= SinifSeviyesindenSayi(Str(SINIF_SEVIYELERI[i])) <= MAX_SINIF
  {
    if i < 19 {
      GradeElevenEntry(i);
    } else {
      GradeTwelveEntry(i);
    }
  }

  lemma GradeElevenEntry(i: nat)
    requires 10 <= i < 19
    ensures SinifIsmiGecerliMi(Some(SINIF_SEVIYELERI[i]))
    ensures SinifSeviyesindenSayi(Str(SINIF_SEVIYELERI[i])) == 11
  {
    BranchLevel(SINIF_SEVIYELERI[i]);
  }

  lemma GradeTwelveEntry(i: nat)
    requires 19 <= i < 28
    ensures SinifIsmiGecerliMi(Some(SINIF_SEVIYELERI[i]))
    ensures SinifSeviyesindenSayi(Str(SINIF_SEVIYELERI[i])) == 12
  {
    BranchLevel(SINIF_SEVIYELERI[i]);
  }
}

=== FILE: database.dfy ===
/** The pure parts of the database layer (`controllers/database_manager.py`):
    synchronising a room's seat rows with its capacity, cleaning a
    placement list before it is stored, the class filter of the student
    listing and the ordering of the distinct class lists. Tables are
    sequences of rows; the SQL statements are the changes the functions
    return. */
module Database {
  import opened Wrappers
  import opened Seqs
  import opened Text
  import Records

  // ------------------------------------------------------------ seat sync

  /** A `salon_sira` row of one room. */
  datatype SiraRow = SiraRow(id: int, siraNo: int, aktif: bool)

  /** The room's rows after the sync, and the seat numbers inserted as new
      active rows. */
  datatype SyncResult = SyncResult(rows: seq<SiraRow>, inserted: seq<int>)

  function SiraNoOf(r: SiraRow): int {
    r.siraNo
  }

  function RowIdOf(r: SiraRow): int {
    r.id
  }

  /** The table's keys: `id` is the primary key and a room has one row per
      seat number. */
  predicate TableKeys(rows: seq<SiraRow>) {
    DistinctBy(rows, RowIdOf) && DistinctBy(rows, SiraNoOf)
  }

  /** `mevcut_map`: seat number to row, a later row replacing an earlier
      one with the same number. */
  function MevcutMap(rows: seq<SiraRow>): (m: map<int, SiraRow>)
    ensures forall n :: n in m <==> exists i | 0 <= i < |rows| :: rows[i].siraNo == n
    ensures forall n | n in m :: m[n].siraNo == n && m[n] in rows
    decreases |rows|
  {
    if |rows| == 0 then map[]
    else
      var m := MevcutMap(rows[..|rows| - 1]);
      var r := rows[|rows| - 1];
      assert forall i | 0 <= i < |rows| - 1 :: rows[..|rows| - 1][i] == rows[i];
      m[r.siraNo := r]
  }

  /** Under the table's keys the map finds every row under its number. */
  lemma {:induction false} MevcutMapKeys(rows: seq<SiraRow>, i: int)
    requires DistinctBy(rows, SiraNoOf) && 0 <= i < |rows|
    ensures MevcutMap(rows)[rows[i].siraNo] == rows[i]
    decreases |rows|
  {
    var init := rows[..|rows| - 1];
    if i < |rows| - 1 {
      assert DistinctBy(init, SiraNoOf) by {
        forall a, b | 0 <= a < b < |init| ensures SiraNoOf(init[a]) != SiraNoOf(init[b]) {
          assert init[a] == rows[a] && init[b] == rows[b];
        }
      }
      assert init[i] == rows[i];
      MevcutMapKeys(init, i);
      assert SiraNoOf(rows[i]) != SiraNoOf(rows[|rows| - 1]);
    }
  }

  /** The numbers 1..k that have no row, in increasing order. */
  function Missing(m: map<int, SiraRow>, k: int): (r: seq<int>)
    ensures forall n :: n in r <==> 1 <= n <= k && n !in m
    ensures forall i, j | 0 <= i < j < |r| :: r[i] < r[j]
    ensures forall i | 0 <= i < |r| :: r[i] <= k
    decreases if k < 0 then 0 else k
  {
    if k <= 0 then []
    else
      var p := Missing(m, k - 1);
      if k in m then p
      else
        var r := p + [k];
        assert forall i | 0 <= i < |p| :: r[i] == p[i] && p[i] < k;
        r
  }

  /** Ids of inactive rows numbered 1..kapasite: set active. */
  function ActivateIds(m: map<int, SiraRow>, kapasite: int): set<int> {
    set n | n in m && 1 <= n <= kapasite && !m[n].aktif :: m[n].id
  }

  /** Ids of rows numbered above kapasite that hold no pinned student: set
      inactive. */
  function DeactivateIds(m: map<int, SiraRow>, kapasite: int, dolu: set<int>): set<int> {
    set n | n in m && n > kapasite && m[n].id !in dolu :: m[n].id
  }

  /** A row after both passes of updates (deactivation runs second). */
  function Updated(r: SiraRow, act: set<int>, deact: set<int>): SiraRow {
    r.(aktif := if r.id in deact then false else if r.id in act then true else r.aktif)
  }

  /** `_sync_salon_sira_for`. `dolu` is the set of seat row ids some
      student of the room is pinned to. */
  function SyncSalonSira(rows: seq<SiraRow>, kapasite: int, dolu: set<int>): (r: SyncResult)
    ensures kapasite <= 0 ==> r == SyncResult(rows, [])
    ensures |r.rows| == |rows|
    ensures forall i | 0 <= i < |rows| :: r.rows[i].id == rows[i].id && r.rows[i].siraNo == rows[i].siraNo
    ensures forall n :: n in r.inserted <==>
      (kapasite > 0 && 1 <= n <= kapasite && forall i | 0 <= i < |rows| :: rows[i].siraNo != n)
    ensures forall i, j | 0 <= i < j < |r.inserted| :: r.inserted[i] < r.inserted[j]
  {
    if kapasite <= 0 then SyncResult(rows, [])
    else
      var m := MevcutMap(rows);
      var act := ActivateIds(m, kapasite);
      var deact := DeactivateIds(m, kapasite, dolu);
      SyncResult(Map(rows, (row: SiraRow) => Updated(row, act, deact)), Missing(m, kapasite))
  }

  /** Under the table's keys, after a sync every seat number 1..kapasite
      has an active row and surplus rows are inactive unless a student is
      pinned to them; other rows keep their flag. */
  lemma SyncFlags(rows: seq<SiraRow>, kapasite: int, dolu: set<int>, i: int)
    requires TableKeys(rows) && kapasite > 0 && 0 <= i < |rows|
    ensures var a := SyncSalonSira(rows, kapasite, dolu).rows[i].aktif;
      && (1 <= rows[i].siraNo <= kapasite ==> a)
      && (rows[i].siraNo > kapasite ==> a == (rows[i].aktif && rows[i].id in dolu))
      && (rows[i].siraNo <= 0 ==> a == rows[i].aktif)
  {
    var m := MevcutMap(rows);
    var act := ActivateIds(m, kapasite);
    var deact := DeactivateIds(m, kapasite, dolu);
    var row := rows[i];
    MevcutMapKeys(rows, i);
    assert forall n | n in m :: m[n].id == row.id ==> n == row.siraNo by {
      forall n | n in m && m[n].id == row.id ensures n == row.siraNo {
        var k :| 0 <= k < |rows| && rows[k] == m[n];
        assert RowIdOf(rows[k]) == RowIdOf(row);
      }
    }
    assert row.id in deact <==> row.siraNo > kapasite && row.id !in dolu;
    assert row.id in act <==> 1 <= row.siraNo <= kapasite && !row.aktif;
  }

  /** After a sync every seat number 1..kapasite is covered: by an active
      existing row or by a newly inserted one, never by both. */
  lemma SyncCovers(rows: seq<SiraRow>, kapasite: int, dolu: set<int>, n: int)
    requires TableKeys(rows) && 1 <= n <= kapasite
    ensures var r := SyncSalonSira(rows, kapasite, dolu);
      n in r.inserted <==> !exists i | 0 <= i < |r.rows| :: r.rows[i].siraNo == n
    ensures var r := SyncSalonSira(rows, kapasite, dolu);
      forall i | 0 <= i < |r.rows| && r.rows[i].siraNo == n :: r.rows[i].aktif
  {
    var r := SyncSalonSira(rows, kapasite, dolu);
    forall i | 0 <= i < |r.rows| && r.rows[i].siraNo == n ensures r.rows[i].aktif {
      SyncFlags(rows, kapasite, dolu, i);
    }
  }

  // ------------------------------------------------------- saving seating

  /** A placement handed to `yerlesim_kaydet`: the keys it reads, each of
      which may be missing. */
  datatype Girdi = Girdi(ogrenciId: Option<int>, salonId: Option<int>, siraNo: Option<int>, sinavId: Option<int>)

  /** A `sinav_yerlesim` row. */
  datatype YerlesimSatiri = YerlesimSatiri(sinavId: int, ogrenciId: int, salonId: int, siraNo: int)

  datatype KayitHatasi = SinavIdBos

  predicate Complete(g: Girdi) {
    g.ogrenciId.Some? && g.salonId.Some? && g.siraNo.Some?
  }

  /** The entry carries no exam, or this one. */
  predicate ForExam(g: Girdi, sinavId: int) {
    g.sinavId.None? || g.sinavId == Some(sinavId)
  }

  /** The seat an entry names, as the pair of its (possibly missing) keys. */
  function SeatKey(g: Girdi): (Option<int>, Option<int>) {
    (g.salonId, g.siraNo)
  }

  /** Two entries name the same student or the same seat. */
  predicate Clash(a: Girdi, b: Girdi) {
    a.ogrenciId == b.ogrenciId || SeatKey(a) == SeatKey(b)
  }

  predicate ClashesWith(kept: seq<Girdi>, g: Girdi) {
    exists k | 0 <= k < |kept| :: Clash(kept[k], g)
  }

  /** `temiz_liste`: complete entries of this exam, each kept unless an
      entry kept before it has the same student or the same seat. */
  function Temizle(data: seq<Girdi>, sinavId: int): (kept: seq<Girdi>)
    ensures IsSubsequence(kept, data)
    ensures forall k | 0 <= k < |kept| :: Complete(kept[k]) && ForExam(kept[k], sinavId)
    ensures forall a, b | 0 <= a < b < |kept| :: !Clash(kept[a], kept[b])
    decreases |data|
  {
    if |data| == 0 then []
    else
      var prev := Temizle(data[..|data| - 1], sinavId);
      var g := data[|data| - 1];
      IsSubsequenceExtend(prev, data[..|data| - 1], g);
      assert data[..|data| - 1] + [g] == data;
      if Complete(g) && ForExam(g, sinavId) && !ClashesWith(prev, g) then
        var kept := prev + [g];
        assert forall a, b | 0 <= a < b < |kept| :: !Clash(kept[a], kept[b]) by {
          forall a, b | 0 <= a < b < |kept| ensures !Clash(kept[a], kept[b]) {
            if b == |prev| {
              assert kept[a] == prev[a];
            } else {
              assert kept[a] == prev[a] && kept[b] == prev[b];
            }
          }
        }
        kept
      else
        prev
  }

  /** Cleaning a prefix gives a prefix of the cleaned list. */
  lemma {:induction false} TemizlePrefix(data: seq<Girdi>, sinavId: int, i: int)
    requires 0 <= i <= |data|
    ensures |Temizle(data[..i], sinavId)| <= |Temizle(data, sinavId)|
    ensures Temizle(data, sinavId)[..|Temizle(data[..i], sinavId)|] == Temizle(data[..i], sinavId)
    decreases |data| - i
  {
    if i < |data| {
      TemizlePrefix(data, sinavId, i + 1);
      assert data[..i + 1][..i] == data[..i];
    } else {
      assert data[..i] == data;
    }
  }

  /** The first occurrence wins: an acceptable entry is dropped only when
      an entry kept before it has its student or its seat. */
  lemma TemizleFirstWins(data: seq<Girdi>, sinavId: int, i: int)
    requires 0 <= i < |data| && Complete(data[i]) && ForExam(data[i], sinavId)
    ensures var before := Temizle(data[..i], sinavId);
      || ClashesWith(before, data[i])
      || (|before| < |Temizle(data, sinavId)| && Temizle(data, sinavId)[|before|] == data[i])
  {
    var before := Temizle(data[..i], sinavId);
    assert data[..i + 1][..i] == data[..i] && data[..i + 1][i] == data[i];
    TemizlePrefix(data, sinavId, i + 1);
  }

  function Satir(sinavId: int, g: Girdi): YerlesimSatiri
    requires Complete(g)
  {
    YerlesimSatiri(sinavId, g.ogrenciId.value, g.salonId.value, g.siraNo.value)
  }

  /** The rows written for the cleaned entries, one per kept entry in
      order, each carrying the exam. */
  function Satirlar(sinavId: int, data: seq<Girdi>): (rows: seq<YerlesimSatiri>)
    ensures |rows| == |Temizle(data, sinavId)|
    ensures forall k | 0 <= k < |rows| :: rows[k] == Satir(sinavId, Temizle(data, sinavId)[k])
    ensures forall x | x in rows :: x.sinavId == sinavId
  {
    var kept := Temizle(data, sinavId);
    seq(|kept|, k requires 0 <= k < |kept| => Satir(sinavId, kept[k]))
  }

  /** `yerlesim_kaydet` on the `sinav_yerlesim` table: fails when no exam
      is given; otherwise the table in which the exam's rows are one per
      kept entry, in order, and every other exam's rows are as before. */
  method YerlesimKaydet(table: seq<YerlesimSatiri>, sinavId: Option<int>, data: seq<Girdi>)
    returns (r: Result<seq<YerlesimSatiri>, KayitHatasi>)
    ensures sinavId.None? <==> r.Err?
    ensures sinavId.Some? ==>
      var kept := Temizle(data, sinavId.value);
      var rows := Filter(r.value, ExamIs(sinavId.value));
      && |rows| == |kept|
      && forall k | 0 <= k < |kept| :: rows[k] == Satir(sinavId.value, kept[k])
    ensures sinavId.Some? ==>
      Filter(r.value, ExamIsNot(sinavId.value)) == Filter(table, ExamIsNot(sinavId.value))
  {
    if sinavId.None? {
      return Err(SinavIdBos);
    }
    var temiz := TemizListe(data, sinavId.value);
    var rows := seq(|temiz|, k requires 0 <= k < |temiz| => Satir(sinavId.value, temiz[k]));
    assert rows == Satirlar(sinavId.value, data);
    r := Ok(Store(table, sinavId.value, rows));
  }

  /** The cleaning loop of `yerlesim_kaydet`, with its two seen-sets. */
  method TemizListe(data: seq<Girdi>, sid: int) returns (temiz: seq<Girdi>)
    ensures temiz == Temizle(data, sid)
  {
    temiz := [];
    var seatSeen: set<(Option<int>, Option<int>)> := {};
    var ogrenciSeen: set<Option<int>> := {};
    var i := 0;
    while i < |data|
      invariant 0 <= i <= |data|
      invariant temiz == Temizle(data[..i], sid)
      invariant seatSeen == SeatsOf(temiz) && ogrenciSeen == StudentsOf(temiz)
    {
      var g := data[i];
      TemizleSnoc(data, sid, i);
      SeenDecides(temiz, g);
      if Complete(g) && ForExam(g, sid) && SeatKey(g) !in seatSeen && g.ogrenciId !in ogrenciSeen {
        SeenSnoc(temiz, g);
        temiz := temiz + [g];
        seatSeen := seatSeen + {SeatKey(g)};
        ogrenciSeen := ogrenciSeen + {g.ogrenciId};
      }
      i := i + 1;
    }
    assert data[..i] == data;
  }

  lemma SeenSnoc(kept: seq<Girdi>, g: Girdi)
    ensures SeatsOf(kept + [g]) == SeatsOf(kept) + {SeatKey(g)}
    ensures StudentsOf(kept + [g]) == StudentsOf(kept) + {g.ogrenciId}
  {
    assert (kept + [g])[..|kept|] == kept;
  }

  /** The seats of the entries kept so far (`seat_seen`). */
  function SeatsOf(kept: seq<Girdi>): set<(Option<int>, Option<int>)>
    decreases |kept|
  {
    if |kept| == 0 then {} else SeatsOf(kept[..|kept| - 1]) + {SeatKey(kept[|kept| - 1])}
  }

  /** The students of the entries kept so far (`ogrenci_seen`). */
  function StudentsOf(kept: seq<Girdi>): set<Option<int>>
    decreases |kept|
  {
    if |kept| == 0 then {} else StudentsOf(kept[..|kept| - 1]) + {kept[|kept| - 1].ogrenciId}
  }

  /** An entry clashes with the kept ones exactly when its seat or its
      student has been seen. */
  lemma {:induction false} SeenDecides(kept: seq<Girdi>, g: Girdi)
    ensures ClashesWith(kept, g) <==> SeatKey(g) in SeatsOf(kept) || g.ogrenciId in StudentsOf(kept)
    decreases |kept|
  {
    if |kept| > 0 {
      var init := kept[..|kept| - 1];
      SeenDecides(init, g);
      assert forall k | 0 <= k < |init| :: init[k] == kept[k];
      if ClashesWith(kept, g) && !Clash(kept[|kept| - 1], g) {
        var k :| 0 <= k < |kept| && Clash(kept[k], g);
        assert Clash(init[k], g);
      }
    }
  }

  /** One more entry: kept exactly when complete, of this exam and not
      clashing with the entries kept before it. */
  lemma TemizleSnoc(data: seq<Girdi>, sinavId: int, i: int)
    requires 0 <= i < |data|
    ensures var before := Temizle(data[..i], sinavId);
      Temizle(data[..i + 1], sinavId)
        == if Complete(data[i]) && ForExam(data[i], sinavId) && !ClashesWith(before, data[i])
           then before + [data[i]] else before
  {
    assert data[..i + 1][..i] == data[..i];
  }

  /** The rows of exam `sinavId`. */
  function ExamIs(sinavId: int): YerlesimSatiri -> bool {
    (x: YerlesimSatiri) => x.sinavId == sinavId
  }

  /** The rows of every other exam. */
  function ExamIsNot(sinavId: int): YerlesimSatiri -> bool {
    (x: YerlesimSatiri) => x.sinavId != sinavId
  }

  /** Storing an exam's rows: its earlier rows are deleted and the new
      ones inserted (every inserted row carries the exam); the exam's rows
      are then exactly the new ones and other exams' rows stay. */
  function Store(table: seq<YerlesimSatiri>, sinavId: int, rows: seq<YerlesimSatiri>): (t: seq<YerlesimSatiri>)
    requires forall x | x in rows :: x.sinavId == sinavId
    ensures Filter(t, ExamIs(sinavId)) == rows
    ensures Filter(t, ExamIsNot(sinavId)) == Filter(table, ExamIsNot(sinavId))
    ensures forall x | x in t && x.sinavId == sinavId :: x in rows
    ensures forall x | x in table && x.sinavId != sinavId :: x in t
  {
    var others := Filter(table, ExamIsNot(sinavId));
    FilterConcat(others, rows, ExamIs(sinavId));
    FilterConcat(others, rows, ExamIsNot(sinavId));
    FilterNone(others, ExamIs(sinavId));
    FilterAll(rows, ExamIs(sinavId));
    FilterNone(rows, ExamIsNot(sinavId));
    FilterAll(others, ExamIsNot(sinavId));
    others + rows
  }

  /** Storing one exam leaves another exam's rows as they were. */
  lemma StoreKeepsOther(table: seq<YerlesimSatiri>, sinavId: int, rows: seq<YerlesimSatiri>, other: int)
    requires forall x | x in rows :: x.sinavId == sinavId
    requires other != sinavId
    ensures Filter(Store(table, sinavId, rows), ExamIs(other)) == Filter(table, ExamIs(other))
  {
    var others := Filter(table, ExamIsNot(sinavId));
    FilterConcat(others, rows, ExamIs(other));
    FilterNone(rows, ExamIs(other));
    FilterOfOthers(table, sinavId, other);
  }

  lemma {:induction false} FilterOfOthers(table: seq<YerlesimSatiri>, sinavId: int, other: int)
    requires other != sinavId
    ensures Filter(Filter(table, ExamIsNot(sinavId)), ExamIs(other)) == Filter(table, ExamIs(other))
    decreases |table|
  {
    if |table| > 0 {
      var init, x := table[..|table| - 1], table[|table| - 1];
      FilterOfOthers(init, sinavId, other);
      FilterConcat(Filter(init, ExamIsNot(sinavId)), if x.sinavId != sinavId then [x] else [], ExamIs(other));
    }
  }

  /** The stored rows of an exam never repeat a student or a seat. */
  lemma StoredUnique(data: seq<Girdi>, sinavId: int, a: int, b: int)
    requires 0 <= a < b < |Temizle(data, sinavId)|
    ensures var kept := Temizle(data, sinavId);
      && Satir(sinavId, kept[a]).ogrenciId != Satir(sinavId, kept[b]).ogrenciId
      && (Satir(sinavId, kept[a]).salonId, Satir(sinavId, kept[a]).siraNo)
         != (Satir(sinavId, kept[b]).salonId, Satir(sinavId, kept[b]).siraNo)
  {
  }

  function SinavOf(g: Girdi): int
    requires g.sinavId.Some?
  {
    g.sinavId.value
  }

  predicate HasSinav(g: Girdi) {
    g.sinavId.Some?
  }

  function ExamKey(g: Girdi): int {
    g.sinavId.GetOr(0)
  }

  /** The entries that name exam `sinavId`. */
  function SinavIs(sinavId: int): Girdi -> bool {
    (g: Girdi) => g.sinavId == Some(sinavId)
  }

  /** `yerlesim_toplu_kaydet`: false for an empty list or when no entry
      names an exam; otherwise the entries grouped by exam in order of
      first appearance, each group then saved as its exam's placement. */
  function TopluKaydet(data: seq<Girdi>): (r: (bool, seq<Group<int, Girdi>>))
    ensures !r.0 <==> |data| == 0 || forall i | 0 <= i < |data| :: data[i].sinavId.None?
    ensures !r.0 ==> r.1 == []
    ensures forall k | 0 <= k < |r.1| ::
      r.1[k].items == Filter(data, SinavIs(r.1[k].key))
    ensures Distinct(Keys(r.1))
    ensures forall i | 0 <= i < |data| && data[i].sinavId.Some? :: data[i].sinavId.value in Keys(r.1)
    ensures forall k | k in Keys(r.1) :: exists i | 0 <= i < |data| :: data[i].sinavId == Some(k)
    ensures TotalItems(r.1) == |Filter(data, HasSinav)|
  {
    if |data| == 0 then (false, [])
    else
      var named := Filter(data, HasSinav);
      var groups := GroupBy(named, ExamKey);
      GroupGroupsNamed(data, named, groups);
      NoGroupsNoExam(data);
      GroupByTotal(named, ExamKey);
      GroupByKeys(named, ExamKey);
      assert forall i | 0 <= i < |data| && data[i].sinavId.Some? :: data[i].sinavId.value in Keys(groups) by {
        forall i | 0 <= i < |data| && data[i].sinavId.Some?
          ensures data[i].sinavId.value in Keys(groups)
        {
          NamedKeyListed(data, named, i);
        }
      }
      assert forall k | k in Keys(groups) :: exists i | 0 <= i < |data| :: data[i].sinavId == Some(k) by {
        forall k | k in Keys(groups) ensures exists i | 0 <= i < |data| :: data[i].sinavId == Some(k) {
          ListedKeyNamed(data, named, k);
        }
      }
      if |groups| == 0 then (false, []) else (true, groups)
  }

  /** There are groups exactly when some entry names an exam. */
  lemma NoGroupsNoExam(data: seq<Girdi>)
    ensures |GroupBy(Filter(data, HasSinav), ExamKey)| == 0
      <==> forall i | 0 <= i < |data| :: data[i].sinavId.None?
  {
    var named := Filter(data, HasSinav);
    var groups := GroupBy(named, ExamKey);
    GroupByKeys(named, ExamKey);
    if |groups| == 0 {
      forall i | 0 <= i < |data| ensures data[i].sinavId.None? {
      }
    } else {
      assert groups[0].key in Keys(groups);
      var j :| 0 <= j < |named| && Map(named, ExamKey)[j] == groups[0].key;
      assert named[j] in named;
      var i :| 0 <= i < |data| && data[i] == named[j];
    }
  }

  lemma GroupGroupsNamed(data: seq<Girdi>, named: seq<Girdi>, groups: seq<Group<int, Girdi>>)
    requires named == Filter(data, HasSinav) && groups == GroupBy(named, ExamKey)
    ensures forall k | 0 <= k < |groups| ::
      groups[k].items == Filter(data, SinavIs(groups[k].key))
  {
    GroupByItems(named, ExamKey);
    forall k | 0 <= k < |groups|
      ensures groups[k].items == Filter(data, SinavIs(groups[k].key))
    {
      var key := groups[k].key;
      WithKeyFilter(named, ExamKey, key);
      NamedWithKey(data, key);
    }
  }

  lemma {:induction false} NamedWithKey(data: seq<Girdi>, key: int)
    ensures Filter(Filter(data, HasSinav), KeyIs(ExamKey, key))
      == Filter(data, SinavIs(key))
    decreases |data|
  {
    if |data| > 0 {
      var init := data[..|data| - 1];
      var g := data[|data| - 1];
      NamedWithKey(init, key);
      KeyIsApply(ExamKey, key, g);
      var named := Filter(data, HasSinav);
      if HasSinav(g) {
        assert named == Filter(init, HasSinav) + [g];
        FilterConcat(Filter(init, HasSinav), [g], KeyIs(ExamKey, key));
      } else {
        assert named == Filter(init, HasSinav);
      }
    }
  }

  /** Every group's entries are all of its own exam, so saving a group
      drops none of them for a foreign exam. */
  lemma GroupsForOwnExam(data: seq<Girdi>, k: int, j: int)
    requires 0 <= k < |TopluKaydet(data).1| && 0 <= j < |TopluKaydet(data).1[k].items|
    ensures var g := TopluKaydet(data).1[k];
      ForExam(g.items[j], g.key) && g.items[j].sinavId.Some?
  {
    var g := TopluKaydet(data).1[k];
    assert g.items[j] in g.items;
  }

  lemma NamedKeyListed(data: seq<Girdi>, named: seq<Girdi>, i: int)
    requires named == Filter(data, HasSinav)
    requires 0 <= i < |data| && data[i].sinavId.Some?
    ensures data[i].sinavId.value in Map(named, ExamKey)
  {
    assert HasSinav(data[i]) && data[i] in data;
    var j :| 0 <= j < |named| && named[j] == data[i];
    assert Map(named, ExamKey)[j] == data[i].sinavId.value;
  }

  lemma ListedKeyNamed(data: seq<Girdi>, named: seq<Girdi>, k: int)
    requires named == Filter(data, HasSinav)
    requires k in Map(named, ExamKey)
    ensures exists i | 0 <= i < |data| :: data[i].sinavId == Some(k)
  {
    var j :| 0 <= j < |named| && Map(named, ExamKey)[j] == k;
    assert named[j] in named;
    var i :| 0 <= i < |data| && data[i] == named[j];
  }

  /** The table after each group is saved in turn as its exam's placement
      (the `for sinav_id, kayitlar in grouped.items()` loop). */
  function TopluTablo(table: seq<YerlesimSatiri>, groups: seq<Group<int, Girdi>>): seq<YerlesimSatiri>
    decreases |groups|
  {
    if |groups| == 0 then table
    else TopluTablo(Store(table, groups[0].key, Satirlar(groups[0].key, groups[0].items)), groups[1..])
  }

  /** An exam with no group keeps its rows through the batch. */
  lemma {:induction false} TopluTabloKeeps(table: seq<YerlesimSatiri>, groups: seq<Group<int, Girdi>>, sinavId: int)
    requires sinavId !in Keys(groups)
    ensures Filter(TopluTablo(table, groups), ExamIs(sinavId)) == Filter(table, ExamIs(sinavId))
    decreases |groups|
  {
    if |groups| > 0 {
      var g := groups[0];
      assert Keys(groups)[0] == g.key;
      assert Keys(groups[1..]) == Keys(groups)[1..];
      StoreKeepsOther(table, g.key, Satirlar(g.key, g.items), sinavId);
      TopluTabloKeeps(Store(table, g.key, Satirlar(g.key, g.items)), groups[1..], sinavId);
    }
  }

  /** With distinct keys, each group's exam ends up with exactly the rows
      saved for that group. */
  lemma {:induction false} TopluTabloRows(table: seq<YerlesimSatiri>, groups: seq<Group<int, Girdi>>, j: int)
    requires Distinct(Keys(groups)) && 0 <= j < |groups|
    ensures Filter(TopluTablo(table, groups), ExamIs(groups[j].key)) == Satirlar(groups[j].key, groups[j].items)
    decreases |groups|
  {
    var g := groups[0];
    var t := Store(table, g.key, Satirlar(g.key, g.items));
    var ks := Keys(groups);
    assert Keys(groups[1..]) == ks[1..];
    if j == 0 {
      assert ks[0] == g.key;
      assert g.key !in ks[1..] by {
        forall m | 0 <= m < |ks| - 1 ensures ks[1..][m] != g.key {
          assert ks[1..][m] == ks[m + 1];
        }
      }
      TopluTabloKeeps(t, groups[1..], g.key);
    } else {
      assert Distinct(ks[1..]) by {
        forall a, b | 0 <= a < b < |ks| - 1 ensures ks[1..][a] != ks[1..][b] {
          assert ks[1..][a] == ks[a + 1] && ks[1..][b] == ks[b + 1];
        }
      }
      assert groups[1..][j - 1] == groups[j];
      TopluTabloRows(t, groups[1..], j - 1);
    }
  }

  /** After the batch save, every exam named by an entry holds exactly
      the rows saved for its own entries, and every other exam's rows are
      as before. */
  lemma TopluKaydetSaves(table: seq<YerlesimSatiri>, data: seq<Girdi>, sinavId: int)
    requires TopluKaydet(data).0
    ensures var t := TopluTablo(table, TopluKaydet(data).1);
      && ((exists i | 0 <= i < |data| :: data[i].sinavId == Some(sinavId))
          ==> Filter(t, ExamIs(sinavId)) == Satirlar(sinavId, Filter(data, SinavIs(sinavId))))
      && ((forall i | 0 <= i < |data| :: data[i].sinavId != Some(sinavId))
          ==> Filter(t, ExamIs(sinavId)) == Filter(table, ExamIs(sinavId)))
  {
    var groups := TopluKaydet(data).1;
    var ks := Keys(groups);
    if exists i | 0 <= i < |data| :: data[i].sinavId == Some(sinavId) {
      var i :| 0 <= i < |data| && data[i].sinavId == Some(sinavId);
      assert sinavId in ks;
      var j :| 0 <= j < |ks| && ks[j] == sinavId;
      TopluTabloRows(table, groups, j);
    } else {
      assert sinavId !in ks;
      TopluTabloKeeps(table, groups, sinavId);
    }
  }

  // --------------------------------------------------------- class filter

  /** A class-filter token: a plain level, or a level and branch. */
  datatype SinifFiltresi = Plain(sinif: string) | Pair(sinif: string, sube: string)

  /** A token with a '-' splits at its last '-' (`rsplit('-', 1)`). */
  function ParseToken(s: string): (f: SinifFiltresi)
    ensures '-' !in s <==> f == Plain(s)
    ensures f.Pair? ==> f.sinif + "-" + f.sube == s && '-' !in f.sube
  {
    match LastIndexOf(s, '-')
    case None => Plain(s)
    case Some(k) =>
      assert s == s[..k] + "-" + s[k + 1..];
      Pair(s[..k], s[k + 1..])
  }

  /** Reading a level-branch token back: the branch holds no '-'. */
  lemma ParseTokenRoundTrip(sinif: string, sube: string)
    requires '-' !in sube
    ensures ParseToken(sinif + "-" + sube) == Pair(sinif, sube)
  {
    var s := sinif + "-" + sube;
    assert s[|sinif|] == '-';
    var f := ParseToken(s);
    var k := LastIndexOf(s, '-').value;
    assert s[|sinif| + 1..] == sube;
    assert k == |sinif|;
    assert s[..k] == sinif && s[k + 1..] == sube;
  }

  /** A student matches the `siniflar` filter: no filter, or its level is
      a plain token, or its level and branch form a pair token. */
  predicate MatchesFilter(tokens: seq<string>, sinif: string, sube: string) {
    |tokens| == 0 || exists k | 0 <= k < |tokens| ::
      ParseToken(tokens[k]) == Plain(sinif) || ParseToken(tokens[k]) == Pair(sinif, sube)
  }

  /** The token "level-branch" selects the students of that level and
      branch, whatever other tokens are present. */
  lemma PairTokenSelects(tokens: seq<string>, sinif: string, sube: string)
    requires '-' !in sube && sinif + "-" + sube in tokens
    ensures MatchesFilter(tokens, sinif, sube)
  {
    ParseTokenRoundTrip(sinif, sube);
    var k :| 0 <= k < |tokens| && tokens[k] == sinif + "-" + sube;
  }

  // ------------------------------------------------------ distinct classes

  /** The integer a digit string stands for (0 otherwise). */
  function NumberOf(s: string): nat {
    if AllDigits(s) then DigitsValue(s) else 0
  }

  predicate ByNumber(a: string, b: string) {
    NumberOf(a) <= NumberOf(b)
  }

  lemma ByNumberPreorder()
    ensures TotalPreorder(ByNumber)
  {
  }

  predicate NotDigits(s: string) {
    !IsDigits(s)
  }

  /** `benzersiz_siniflar`: the all-digit classes by value, then the
      others in string order. */
  function BenzersizSiniflar(siniflar: seq<string>): (r: seq<string>)
    ensures multiset(r) == multiset(siniflar)
    ensures forall i, j | 0 <= i < |r| && 0 <= j < |r| && IsDigits(r[j]) && !IsDigits(r[i]) :: j < i
    ensures forall i, j | 0 <= i < j < |r| && IsDigits(r[i]) && IsDigits(r[j]) ::
      DigitsValue(r[i]) <= DigitsValue(r[j])
    ensures forall i, j | 0 <= i < j < |r| && !IsDigits(r[i]) && !IsDigits(r[j]) :: StrLe(r[i], r[j])
  {
    ByNumberPreorder();
    StrLePreorder();
    FilterPartition(siniflar, IsDigits, NotDigits);
    var a := SortBy(Filter(siniflar, IsDigits), ByNumber);
    var b := SortBy(Filter(siniflar, NotDigits), StrLe);
    SortedKinds(Filter(siniflar, IsDigits), a, Filter(siniflar, NotDigits), b);
    a + b
  }

  /** The digits part followed by the text part has both orderings. */
  lemma SortedKinds(sayisal: seq<string>, a: seq<string>, metin: seq<string>, b: seq<string>)
    requires forall x | x in sayisal :: IsDigits(x)
    requires forall x | x in metin :: !IsDigits(x)
    requires multiset(a) == multiset(sayisal) && SortedBy(a, ByNumber)
    requires multiset(b) == multiset(metin) && SortedBy(b, StrLe)
    ensures var r := a + b;
      && (forall i, j | 0 <= i < |r| && 0 <= j < |r| && IsDigits(r[j]) && !IsDigits(r[i]) :: j < i)
      && (forall i, j | 0 <= i < j < |r| && IsDigits(r[i]) && IsDigits(r[j]) :: DigitsValue(r[i]) <= DigitsValue(r[j]))
      && (forall i, j | 0 <= i < j < |r| && !IsDigits(r[i]) && !IsDigits(r[j]) :: StrLe(r[i], r[j]))
  {
    var r := a + b;
    forall k | 0 <= k < |r|
      ensures IsDigits(r[k]) <==> k < |a|
      ensures k < |a| ==> r[k] == a[k]
      ensures k >= |a| ==> r[k] == b[k - |a|]
    {
      if k < |a| {
        assert a[k] in multiset(sayisal);
      } else {
        assert b[k - |a|] in multiset(metin);
      }
    }
  }

  /** Splitting by a predicate and its negation keeps every element. */
  lemma {:induction false} FilterPartition(s: seq<string>, p: string -> bool, q: string -> bool)
    requires forall x :: q(x) == !p(x)
    ensures multiset(Filter(s, p)) + multiset(Filter(s, q)) == multiset(s)
    decreases |s|
  {
    if |s| > 0 {
      FilterPartition(s[..|s| - 1], p, q);
      assert s == s[..|s| - 1] + [s[|s| - 1]];
    }
  }

  /** The sort key of a "level-branch" item (`benzersiz_sinif_sube`): the
      item is split at its first '-'; an all-digit level sorts by value
      before every other level. */
  datatype SubeKey = NumKey(n: nat, sube: string) | TextKey(s: string, sube: string)

  function SubeKeyOf(item: string): SubeKey {
    var parts := SplitOnce(item);
    if IsDigits(parts.0) then NumKey(DigitsValue(parts.0), parts.1) else TextKey(parts.0, parts.1)
  }

  /** `item.split('-', 1)` as (head, rest), rest "" when there is no '-'. */
  function SplitOnce(item: string): (r: (string, string))
    ensures '-' !in r.0
    ensures '-' in item ==> r.0 + "-" + r.1 == item
    ensures '-' !in item ==> r == (item, "")
  {
    match IndexOf(item, '-')
    case None => (item, "")
    case Some(k) =>
      assert item == item[..k] + "-" + item[k + 1..];
      (item[..k], item[k + 1..])
  }

  predicate KeyLe(x: SubeKey, y: SubeKey) {
    match (x, y)
    case (NumKey(a, s), NumKey(b, t)) => a < b || (a == b && StrLe(s, t))
    case (NumKey(_, _), TextKey(_, _)) => true
    case (TextKey(_, _), NumKey(_, _)) => false
    case (TextKey(a, s), TextKey(b, t)) => StrLt(a, b) || (a == b && StrLe(s, t))
  }

  predicate BySubeKey(a: string, b: string) {
    KeyLe(SubeKeyOf(a), SubeKeyOf(b))
  }

  lemma BySubeKeyPreorder()
    ensures TotalPreorder(BySubeKey)
  {
    StrLePreorder();
    forall a: string, b: string ensures BySubeKey(a, b) || BySubeKey(b, a) {
      var x, y := SubeKeyOf(a), SubeKeyOf(b);
      StrLtTotal(x.sube, y.sube);
      if x.TextKey? && y.TextKey? {
        StrLtTotal(x.s, y.s);
      }
    }
    forall a: string, b: string, c: string | BySubeKey(a, b) && BySubeKey(b, c) ensures BySubeKey(a, c) {
      var x, y, z := SubeKeyOf(a), SubeKeyOf(b), SubeKeyOf(c);
      if x.TextKey? && y.TextKey? && z.TextKey? {
        if StrLt(x.s, y.s) && StrLt(y.s, z.s) {
          StrLtTransitive(x.s, y.s, z.s);
        }
      }
    }
  }

  /** `benzersiz_sinif_sube`: "level-branch" items, all-digit levels first
      by value, then the rest, each by level and branch. */
  function BenzersizSinifSube(rows: seq<(string, string)>): (r: seq<string>)
    ensures multiset(r) == multiset(Map(rows, Combine))
    ensures SortedBy(r, BySubeKey)
  {
    BySubeKeyPreorder();
    SortBy(Map(rows, Combine), BySubeKey)
  }

  function Combine(row: (string, string)): string {
    Records.ClassKey(row.0, row.1)
  }

  /** Splitting a class key at its first '-' gives back the level and the
      branch, when the level holds no '-'. */
  lemma SplitClassKey(sinif: string, sube: string)
    requires '-' !in sinif
    ensures SplitOnce(Records.ClassKey(sinif, sube)) == (sinif, sube)
  {
    var item := Records.ClassKey(sinif, sube);
    var k := IndexOf(item, '-').value;
    assert item[|sinif|] == '-';
    assert k == |sinif|;
  }

  /** A level without '-' is read back from its item, so items of
      all-digit levels come first, ordered by value and then branch. */
  lemma SubeKeyOfCombined(sinif: string, sube: string)
    requires '-' !in sinif
    ensures SubeKeyOf(Records.ClassKey(sinif, sube))
      == if IsDigits(sinif) then NumKey(DigitsValue(sinif), sube) else TextKey(sinif, sube)
  {
    SplitClassKey(sinif, sube);
  }
}

=== FILE: engine.dfy ===
/** The seating engine (`HarmanlamaEngine`): input validation, the pinned
    students first, then the mobile students through the CP-SAT step
    (without teacher's desks, then with them), the final ordering and
    the statistics. */
module Engine {
  import opened Wrappers
  import opened Seqs
  import opened Text
  import opened Seating
  import opened Records
  import opened Pinned
  import opened Pool
  import opened Solver

  // ---------------------------------------------------------------- logs

  /** The entries of `hata_loglari`. */
  datatype HataLog =
    | OgrenciListesiBos                              // "Öğrenci listesi boş!"
    | SalonListesiBos                                // "Salon listesi boş!"
    | YetersizKapasite(ogrenci: int, kapasite: int)  // "Yetersiz kapasite! Öğrenci: …, Kapasite: …"
    | SabitUyari(message: PinMessage)                // one warning per pinned student that failed
    | SabitKonumHatali                               // the RuntimeError raised after them
    | CozumYok                                       // "CP-SAT çözüm üretemedi. …"
    | KritikHata(sinif: string)                      // `int()` rejected this class name

  /** "<salon> salonunda <count> öğrenci Öğretmen Masasına alındı." */
  datatype DeskLog = DeskLog(salonAdi: string, count: nat)

  // ---------------------------------------------------------- validation

  function TotalCapacity(salonlar: seq<SalonRec>): int {
    Sum(Map(salonlar, (s: SalonRec) => s.kapasite))
  }

  /** `_validate_input`: the first problem found, if any. */
  function ValidateInput(ogrenciler: seq<Student>, salonlar: seq<SalonRec>): (r: Option<HataLog>)
    ensures r == Some(OgrenciListesiBos) <==> |ogrenciler| == 0
    ensures r == Some(SalonListesiBos) <==> |ogrenciler| > 0 && |salonlar| == 0
    ensures r.None? <==> |ogrenciler| > 0 && |salonlar| > 0 && |ogrenciler| <= TotalCapacity(salonlar)
    ensures r.Some? && r.value.YetersizKapasite? ==>
      r.value.ogrenci == |ogrenciler| > r.value.kapasite == TotalCapacity(salonlar)
  {
    if |ogrenciler| == 0 then Some(OgrenciListesiBos)
    else if |salonlar| == 0 then Some(SalonListesiBos)
    else if |ogrenciler| > TotalCapacity(salonlar) then Some(YetersizKapasite(|ogrenciler|, TotalCapacity(salonlar)))
    else None
  }

  // --------------------------------------------------- mobile assignment

  /** The ids of the pinned students. */
  function SabitIds(sabit: seq<Student>): set<int> {
    set i | 0 <= i < |sabit| :: sabit[i].id
  }

  /** The students that are not pinned, in input order. */
  function MobilOgrenciler(ogrenciler: seq<Student>, sabit: seq<Student>): (r: seq<Student>)
    ensures forall o | o in r :: o in ogrenciler && o.id !in SabitIds(sabit)
    ensures forall o | o in ogrenciler && o.id !in SabitIds(sabit) :: o in r
  {
    var ids := SabitIds(sabit);
    Filter(ogrenciler, (o: Student) => o.id !in ids)
  }

  /** The result entry of a mobile student on a pool position; a desk
      position is marked as the teacher's desk. */
  function MobilePlacement(st: Student, seat: Seat): (p: Placement)
    ensures p.ogrenciId == st.id && p.sinif == st.sinif && p.sube == st.sube
    ensures SeatOf(p) == (seat.salonId, seat.siraNo) && p.salonAdi == seat.salonAdi
    ensures !p.sabitMi && p.sabitKonum.None? && p.ogretmenMasasi == seat.teacher
  {
    Placement(st.id, seat.salonId, seat.siraNo, st.sinif, st.sube, seat.salonAdi,
              false, None, st.sinavId, st.sinavAdi, seat.teacher)
  }

  /** The entries for an assignment, in student order. */
  function Assemble(students: seq<Student>, seats: seq<Seat>, a: seq<nat>): (ps: seq<Placement>)
    requires |a| == |students| && forall i | 0 <= i < |a| :: a[i] < |seats|
    ensures |ps| == |students|
    ensures forall i | 0 <= i < |ps| :: ps[i] == MobilePlacement(students[i], seats[a[i]])
  {
    seq(|a|, i requires 0 <= i < |a| => MobilePlacement(students[i], seats[a[i]]))
  }

  predicate AtDesk(p: Placement) {
    p.ogretmenMasasi
  }

  /** The ids of the students put on a teacher's desk. */
  function TeacherIds(ps: seq<Placement>): set<int> {
    set i | 0 <= i < |ps| && ps[i].ogretmenMasasi :: ps[i].ogrenciId
  }

  /** The name of the first pool position of a room, else the id as text. */
  function RoomName(seats: seq<Seat>, salonId: int): (name: string)
    ensures (exists i | 0 <= i < |seats| :: seats[i].salonId == salonId) ==>
      exists i | 0 <= i < |seats| :: seats[i].salonId == salonId && name == seats[i].salonAdi
    decreases |seats|
  {
    if |seats| == 0 then IntToString(salonId)
    else if seats[0].salonId == salonId then seats[0].salonAdi
    else
      var name := RoomName(seats[1..], salonId);
      assert forall i | 1 <= i < |seats| :: seats[i] == seats[1..][i - 1];
      name
  }

  /** One message per room whose desk was used, rooms in order of first
      use, with the number of students put there. */
  function DeskLogs(ps: seq<Placement>, seats: seq<Seat>): (logs: seq<DeskLog>)
  {
    Map(GroupBy(Filter(ps, AtDesk), RoomOf),
        (g: Group<int, Placement>) => DeskLog(RoomName(seats, g.key), |g.items|))
  }

  /** Why the mobile assignment can fail. */
  datatype AssignError = NoSolution | BadGrade(sinif: string)

  /** The outcome of a successful mobile assignment. */
  datatype Assigned = Assigned(placements: seq<Placement>, logs: seq<DeskLog>, teacherIds: set<int>)

  /** One solver attempt on the pool with or without desks. */
  function Attempt(students: seq<Student>, salonlar: seq<SalonRec>, m: SeatMap, occ: Occupied,
                   withDesks: bool, cfgWidth: int, oracle: Oracle): Result<Option<seq<nat>>, string>
    requires SoundOracle(oracle)
  {
    var data := PrepareSeatData(salonlar, m, occ, withDesks, cfgWidth);
    SolveCpSat(students, data.0, data.1, oracle)
  }

  /** The entries, the desk messages (teacher mode only) and the desk ids
      of an assignment. */
  function Build(students: seq<Student>, seats: seq<Seat>, a: seq<nat>, teacherMode: bool): (r: Assigned)
    requires |a| == |students| && forall i | 0 <= i < |a| :: a[i] < |seats|
    ensures r.placements == Assemble(students, seats, a)
    ensures r.teacherIds == TeacherIds(r.placements)
    ensures r.teacherIds == set i | 0 <= i < |students| && seats[a[i]].teacher :: students[i].id
    ensures !teacherMode ==> r.logs == []
    ensures teacherMode ==> r.logs == DeskLogs(r.placements, seats)
  {
    var ps := Assemble(students, seats, a);
    assert TeacherIds(ps) == set i | 0 <= i < |students| && seats[a[i]].teacher :: students[i].id by {
      assert forall i | 0 <= i < |ps| :: ps[i].ogretmenMasasi == seats[a[i]].teacher
                                       && ps[i].ogrenciId == students[i].id;
    }
    Assigned(ps, if teacherMode then DeskLogs(ps, seats) else [], TeacherIds(ps))
  }

  /** `_cp_sat_assign`: the free seats first; only when that has no
      solution, again with one teacher's desk per room; no solution in
      either raises. */
  function CpSatAssign(students: seq<Student>, salonlar: seq<SalonRec>, m: SeatMap, occ: Occupied,
                       cfgWidth: int, oracle: Oracle): (r: Result<Assigned, AssignError>)
    requires SoundOracle(oracle)
    ensures r.Ok? ==> |r.value.placements| == |students|
    ensures r.Ok? ==> forall i | 0 <= i < |students| ::
      && r.value.placements[i].ogrenciId == students[i].id
      && r.value.placements[i].sinif == students[i].sinif
      && !r.value.placements[i].sabitMi
    ensures r.Ok? ==> r.value.teacherIds == TeacherIds(r.value.placements)
    ensures r == Err(NoSolution) <==>
      Attempt(students, salonlar, m, occ, false, cfgWidth, oracle) == Ok(None) &&
      Attempt(students, salonlar, m, occ, true, cfgWidth, oracle) == Ok(None)
    ensures Attempt(students, salonlar, m, occ, false, cfgWidth, oracle).Ok? &&
            Attempt(students, salonlar, m, occ, false, cfgWidth, oracle).value.Some? ==>
      r.Ok? && r.value.logs == [] && forall i | 0 <= i < |students| :: !r.value.placements[i].ogretmenMasasi
  {
    match Attempt(students, salonlar, m, occ, false, cfgWidth, oracle)
    case Err(bad) => Err(BadGrade(bad))
    case Ok(Some(a)) => Ok(Outcome(students, salonlar, m, occ, false, cfgWidth, oracle, a))
    case Ok(None) =>
      match Attempt(students, salonlar, m, occ, true, cfgWidth, oracle)
      case Err(bad) => Err(BadGrade(bad))
      case Ok(None) => Err(NoSolution)
      case Ok(Some(a)) => Ok(Outcome(students, salonlar, m, occ, true, cfgWidth, oracle, a))
  }

  /** The outcome of an attempt the solver answered with assignment `a`:
      one entry per student, in order; without desks no entry is on a
      desk and there are no desk messages. */
  function Outcome(students: seq<Student>, salonlar: seq<SalonRec>, m: SeatMap, occ: Occupied,
                   withDesks: bool, cfgWidth: int, oracle: Oracle, a: seq<nat>): (r: Assigned)
    requires SoundOracle(oracle)
    requires Attempt(students, salonlar, m, occ, withDesks, cfgWidth, oracle) == Ok(Some(a))
    ensures |r.placements| == |students|
    ensures forall i | 0 <= i < |students| ::
      && r.placements[i].ogrenciId == students[i].id
      && r.placements[i].sinif == students[i].sinif
      && !r.placements[i].sabitMi
    ensures r.teacherIds == TeacherIds(r.placements)
    ensures !withDesks ==> r.logs == [] && forall i | 0 <= i < |students| :: !r.placements[i].ogretmenMasasi
  {
    var seats := PrepareSeatData(salonlar, m, occ, withDesks, cfgWidth).0;
    if !withDesks then
      NoDesksWithoutDesks(salonlar, m, occ, cfgWidth);
      Build(students, seats, a, false)
    else
      Build(students, seats, a, true)
  }

  // ------------------------------------------------------------ ordering

  /** The final sort key `(salon_adi, sira_no)`. */
  predicate ByRoomAndSeat(p: Placement, q: Placement) {
    StrLt(p.salonAdi, q.salonAdi) || (p.salonAdi == q.salonAdi && p.siraNo <= q.siraNo)
  }

  lemma ByRoomAndSeatPreorder()
    ensures TotalPreorder(ByRoomAndSeat)
  {
    forall p: Placement, q: Placement ensures ByRoomAndSeat(p, q) || ByRoomAndSeat(q, p) {
      StrLtTotal(p.salonAdi, q.salonAdi);
    }
    forall p: Placement, q: Placement, t: Placement | ByRoomAndSeat(p, q) && ByRoomAndSeat(q, t)
      ensures ByRoomAndSeat(p, t)
    {
      if StrLt(p.salonAdi, q.salonAdi) && StrLt(q.salonAdi, t.salonAdi) {
        StrLtTransitive(p.salonAdi, q.salonAdi, t.salonAdi);
      }
    }
  }

  function SortYerlesim(ps: seq<Placement>): (r: seq<Placement>)
    ensures multiset(r) == multiset(ps) && SortedBy(r, ByRoomAndSeat)
  {
    ByRoomAndSeatPreorder();
    SortBy(ps, ByRoomAndSeat)
  }

  // ------------------------------------------------------------ listing

  const DESK_TAG: string := " [Öğretmen Masası]"

  /** The name shown in the seat-order listing: "ad soyad" stripped, or
      "ID:<id>" when that is empty. */
  function ListName(o: Student): (n: string)
    ensures |n| > 0
  {
    var full := Strip(o.ad + " " + o.soyad);
    if |full| > 0 then full else "ID:" + IntToString(o.id)
  }

  predicate EndsWith(s: string, suffix: string) {
    |suffix| <= |s| && s[|s| - |suffix|..] == suffix
  }

  /** "<idx>. sıra: <name> (<sinif>/<sube>)", tagged when the student is
      on a teacher's desk. */
  function KoltukSatiri(idx: nat, o: Student, teacherIds: set<int>): (line: string)
    ensures StartsWith(line, NatToString(idx) + ". sıra: " + ListName(o))
    ensures EndsWith(line, DESK_TAG) <==> o.id in teacherIds
    ensures line[|NatToString(idx) + ". sıra: " + ListName(o)|..] == KoltukSoneki(o, teacherIds)
  {
    var head := NatToString(idx) + ". sıra: " + ListName(o);
    var tail := KoltukSoneki(o, teacherIds);
    HeadAndTail(head, tail);
    assert DESK_TAG[|DESK_TAG| - 1] == ']';
    head + tail
  }

  /** What follows the name: " (<sinif>/<sube>)", then the desk tag for a
      student on a teacher's desk. */
  function KoltukSoneki(o: Student, teacherIds: set<int>): (t: string)
    ensures EndsWith(t, DESK_TAG) <==> o.id in teacherIds
    ensures |t| > 0 && t[|t| - 1] == if o.id in teacherIds then ']' else ')'
    ensures o.id in teacherIds ==> |t| >= |DESK_TAG|
  {
    var cls := " (" + o.sinif + "/" + o.sube + ")";
    assert cls[|cls| - 1] == ')';
    assert DESK_TAG[|DESK_TAG| - 1] == ']';
    if o.id in teacherIds then
      HeadAndTail(cls, DESK_TAG);
      cls + DESK_TAG
    else
      cls
  }

  lemma HeadAndTail(head: string, tail: string)
    ensures (head + tail)[..|head|] == head && (head + tail)[|head|..] == tail
    ensures |tail| >= |DESK_TAG| ==> (EndsWith(head + tail, DESK_TAG) <==> EndsWith(tail, DESK_TAG))
    ensures |tail| > 0 ==> (head + tail)[|head + tail| - 1] == tail[|tail| - 1]
  {
    if |tail| >= |DESK_TAG| {
      assert (head + tail)[|head + tail| - |DESK_TAG|..] == tail[|tail| - |DESK_TAG|..];
    }
  }

  /** `_format_koltuk_listesi`: one line per student, numbered from 1. */
  function FormatKoltukListesi(ogrenciler: seq<Student>, teacherIds: set<int>): (r: seq<string>)
    ensures |r| == |ogrenciler|
    ensures forall i | 0 <= i < |r| :: StartsWith(r[i], NatToString(i + 1) + ". sıra: " + ListName(ogrenciler[i]))
    ensures forall i | 0 <= i < |r| :: EndsWith(r[i], DESK_TAG) <==> ogrenciler[i].id in teacherIds
    ensures forall i | 0 <= i < |r| ::
      var head := NatToString(i + 1) + ". sıra: " + ListName(ogrenciler[i]);
      |head| <= |r[i]| && r[i][|head|..] == KoltukSoneki(ogrenciler[i], teacherIds)
  {
    var r := seq(|ogrenciler|, i requires 0 <= i < |ogrenciler| => KoltukSatiri(i + 1, ogrenciler[i], teacherIds));
    forall i | 0 <= i < |r|
      ensures StartsWith(r[i], NatToString(i + 1) + ". sıra: " + ListName(ogrenciler[i]))
      ensures EndsWith(r[i], DESK_TAG) <==> ogrenciler[i].id in teacherIds
      ensures r[i][|NatToString(i + 1) + ". sıra: " + ListName(ogrenciler[i])|..] == KoltukSoneki(ogrenciler[i], teacherIds)
    {
      assert r[i] == KoltukSatiri(i + 1, ogrenciler[i], teacherIds);
    }
    r
  }

  // ---------------------------------------------------------- statistics

  datatype SalonStat = SalonStat(salonAdi: string, kapasite: int, doluluk: nat)

  datatype Stats = Stats(
    toplamOgrenci: nat,
    yerlestirilen: nat,
    kullanilanSalon: nat,
    toplamSalon: nat,
    salonIstatistikleri: seq<SalonStat>,
    sinifDagilim: seq<Group<string, Student>>,
    dagitimModu: string)

  /** The class key of the distribution, "<sinif>/<sube>". */
  function DagilimKey(o: Student): string {
    o.sinif + "/" + o.sube
  }

  function RoomOf(p: Placement): int {
    p.salonId
  }

  /** `_istatistik_hesapla` without the percentage: placements counted per
      room, the rooms in use, and the students grouped by class. */
  function IstatistikHesapla(yerlesim: seq<Placement>, ogrenciler: seq<Student>, salonlar: seq<SalonRec>,
                             dagitimModu: string): (st: Stats)
    ensures st.toplamOgrenci == |ogrenciler| && st.yerlestirilen == |yerlesim| && st.toplamSalon == |salonlar|
    ensures |st.salonIstatistikleri| == |salonlar|
    ensures forall i | 0 <= i < |salonlar| ::
      && st.salonIstatistikleri[i].salonAdi == salonlar[i].salonAdi
      && st.salonIstatistikleri[i].kapasite == salonlar[i].kapasite
      && st.salonIstatistikleri[i].doluluk == |Filter(yerlesim, KeyIs(RoomOf, salonlar[i].id))|
    ensures st.kullanilanSalon == |set p | p in yerlesim :: p.salonId|
    ensures TotalItems(st.sinifDagilim) == |ogrenciler|
    ensures forall i | 0 <= i < |st.sinifDagilim| ::
      st.sinifDagilim[i].items == Filter(ogrenciler, KeyIs(DagilimKey, st.sinifDagilim[i].key))
  {
    var doluluk := GroupBy(yerlesim, RoomOf);
    var rooms := seq(|salonlar|, i requires 0 <= i < |salonlar| =>
      SalonStat(salonlar[i].salonAdi, salonlar[i].kapasite, CountOf(doluluk, salonlar[i].id)));
    var dagilim := GroupBy(ogrenciler, DagilimKey);
    StatsFacts(yerlesim, ogrenciler, salonlar);
    Stats(|ogrenciler|, |yerlesim|, |doluluk|, |salonlar|, rooms, dagilim, dagitimModu)
  }

  lemma StatsFacts(yerlesim: seq<Placement>, ogrenciler: seq<Student>, salonlar: seq<SalonRec>)
    ensures forall i | 0 <= i < |salonlar| ::
      CountOf(GroupBy(yerlesim, RoomOf), salonlar[i].id)
        == |Filter(yerlesim, KeyIs(RoomOf, salonlar[i].id))|
    ensures |GroupBy(yerlesim, RoomOf)| == |set p | p in yerlesim :: p.salonId|
    ensures TotalItems(GroupBy(ogrenciler, DagilimKey)) == |ogrenciler|
    ensures forall i | 0 <= i < |GroupBy(ogrenciler, DagilimKey)| ::
      GroupBy(ogrenciler, DagilimKey)[i].items
        == Filter(ogrenciler, KeyIs(DagilimKey, GroupBy(ogrenciler, DagilimKey)[i].key))
  {
    forall i | 0 <= i < |salonlar|
      ensures CountOf(GroupBy(yerlesim, RoomOf), salonlar[i].id)
        == |Filter(yerlesim, KeyIs(RoomOf, salonlar[i].id))|
    {
      CountOfGroupBy(yerlesim, RoomOf, salonlar[i].id);
    }
    RoomsInUse(yerlesim);
    ClassDistribution(ogrenciler);
  }

  lemma RoomsInUse(yerlesim: seq<Placement>)
    ensures |GroupBy(yerlesim, RoomOf)| == |set p | p in yerlesim :: p.salonId|
  {
    GroupCount(yerlesim, RoomOf);
    forall x ensures x in Map(yerlesim, RoomOf) <==> x in (set p | p in yerlesim :: p.salonId) {
      if x in Map(yerlesim, RoomOf) {
        var k :| 0 <= k < |yerlesim| && Map(yerlesim, RoomOf)[k] == x;
        assert yerlesim[k] in yerlesim;
      }
    }
    assert (set x | x in Map(yerlesim, RoomOf)) == (set p | p in yerlesim :: p.salonId);
  }

  lemma ClassDistribution(ogrenciler: seq<Student>)
    ensures TotalItems(GroupBy(ogrenciler, DagilimKey)) == |ogrenciler|
    ensures forall i | 0 <= i < |GroupBy(ogrenciler, DagilimKey)| ::
      GroupBy(ogrenciler, DagilimKey)[i].items
        == Filter(ogrenciler, KeyIs(DagilimKey, GroupBy(ogrenciler, DagilimKey)[i].key))
  {
    GroupByTotal(ogrenciler, DagilimKey);
    GroupByItems(ogrenciler, DagilimKey);
    var gs := GroupBy(ogrenciler, DagilimKey);
    forall i | 0 <= i < |gs|
      ensures gs[i].items == Filter(ogrenciler, KeyIs(DagilimKey, gs[i].key))
    {
      WithKeyFilter(ogrenciler, DagilimKey, gs[i].key);
    }
  }

  // -------------------------------------------------------------- harmanla

  /** The dictionary `harmanla` returns; `istatistikler` is empty on
      failure. */
  datatype Response = Response(
    basarili: bool,
    yerlesim: seq<Placement>,
    istatistikler: Option<Stats>,
    hatalar: seq<HataLog>,
    uyumsuzluklar: seq<DeskLog>,
    koltukListesi: seq<string>)

  function Failure(hatalar: seq<HataLog>): (r: Response)
    ensures !r.basarili && r.yerlesim == [] && r.istatistikler.None? && r.uyumsuzluklar == []
    ensures r.hatalar == hatalar
  {
    Response(false, [], None, hatalar, [], [])
  }

  const DAGITIM_MODU: string := "ozel-kural"

  function Success(yerlesim: seq<Placement>, ogrenciler: seq<Student>, salonlar: seq<SalonRec>,
                   logs: seq<DeskLog>, koltuk: seq<string>): (r: Response)
    ensures r.basarili && r.hatalar == [] && r.uyumsuzluklar == logs && r.koltukListesi == koltuk
    ensures multiset(r.yerlesim) == multiset(yerlesim) && SortedBy(r.yerlesim, ByRoomAndSeat)
    ensures r.istatistikler.Some? && r.istatistikler.value.yerlestirilen == |r.yerlesim| == |yerlesim|
  {
    var sorted := SortYerlesim(yerlesim);
    Response(true, sorted, Some(IstatistikHesapla(sorted, ogrenciler, salonlar, DAGITIM_MODU)), [], logs, koltuk)
  }

  /** The pinned-student warning as it enters the error list. */
  function PinHata(msg: PinMessage): HataLog {
    SabitUyari(msg)
  }

  /** After validation a run succeeds exactly when the pinned step places
      every pinned student and there are no mobile students or the
      CP-SAT step places them on the seats the pinned ones left. */
  predicate RunSucceeds(salonlar: seq<SalonRec>, sabit: seq<Student>, m: SeatMap, cfgWidth: int,
                        shuffled: seq<Student>, oracle: Oracle)
    requires SoundOracle(oracle)
  {
    && SabitOgrenciYerlestir(sabit, salonlar, m).Ok?
    && (|shuffled| == 0
        || CpSatAssign(shuffled, salonlar, m, SabitOgrenciYerlestir(sabit, salonlar, m).value.1, cfgWidth, oracle).Ok?)
  }

  /** `harmanla`. `shuffled` is the order `random.shuffle` gives the mobile
      students; the solver is the oracle. */
  function Harmanla(ogrenciler: seq<Student>, salonlar: seq<SalonRec>, sabit: seq<Student>,
                    haritasi: map<int, seq<SalonSira>>, cfgWidth: int,
                    shuffled: seq<Student>, oracle: Oracle): (r: Response)
    requires SoundOracle(oracle)
    requires multiset(shuffled) == multiset(MobilOgrenciler(ogrenciler, sabit))
    ensures ValidateInput(ogrenciler, salonlar).Some? ==>
      r == Failure([ValidateInput(ogrenciler, salonlar).value])
    ensures !r.basarili ==> r.yerlesim == [] && r.istatistikler.None? && |r.hatalar| > 0 && r.uyumsuzluklar == []
    ensures r.basarili ==> r.hatalar == [] && r.istatistikler.Some?
    ensures r.basarili ==> SortedBy(r.yerlesim, ByRoomAndSeat)
    ensures r.basarili ==> |r.yerlesim| == |sabit| + |shuffled|
    ensures r.basarili ==> r.istatistikler.value.yerlestirilen == |r.yerlesim|
    ensures r.basarili ==> |r.koltukListesi| == |shuffled|
    ensures r.basarili <==>
      && ValidateInput(ogrenciler, salonlar).None?
      && RunSucceeds(salonlar, sabit, HazirlaSalonSiraMap(salonlar, haritasi, cfgWidth), cfgWidth, shuffled, oracle)
    ensures var m := HazirlaSalonSiraMap(salonlar, haritasi, cfgWidth);
      ValidateInput(ogrenciler, salonlar).None? && SabitOgrenciYerlestir(sabit, salonlar, m).Err? ==>
        r.hatalar == Map(SabitOgrenciYerlestir(sabit, salonlar, m).error, PinHata) + [SabitKonumHatali]
    ensures var m := HazirlaSalonSiraMap(salonlar, haritasi, cfgWidth);
      ValidateInput(ogrenciler, salonlar).None? && SabitOgrenciYerlestir(sabit, salonlar, m).Ok? && |shuffled| > 0 ==>
        var c := CpSatAssign(shuffled, salonlar, m, SabitOgrenciYerlestir(sabit, salonlar, m).value.1, cfgWidth, oracle);
        && (c == Err(NoSolution) ==> r.hatalar == [CozumYok])
        && (c.Err? && c.error.BadGrade? ==> r.hatalar == [KritikHata(c.error.sinif)])
  {
    match ValidateInput(ogrenciler, salonlar)
    case Some(e) => Failure([e])
    case None =>
      var m := HazirlaSalonSiraMap(salonlar, haritasi, cfgWidth);
      var mobil := MobilOgrenciler(ogrenciler, sabit);
      assert |shuffled| == |mobil| by {
        assert |multiset(shuffled)| == |multiset(mobil)|;
      }
      Placed(ogrenciler, salonlar, sabit, m, cfgWidth, shuffled, oracle)
  }

  /** The run after validation: the pinned students, then the mobile ones. */
  function Placed(ogrenciler: seq<Student>, salonlar: seq<SalonRec>, sabit: seq<Student>,
                  m: SeatMap, cfgWidth: int, shuffled: seq<Student>, oracle: Oracle): (r: Response)
    requires SoundOracle(oracle)
    ensures !r.basarili ==> r.yerlesim == [] && r.istatistikler.None? && |r.hatalar| > 0 && r.uyumsuzluklar == []
    ensures r.basarili ==> r.hatalar == [] && r.istatistikler.Some?
    ensures r.basarili ==> SortedBy(r.yerlesim, ByRoomAndSeat)
    ensures r.basarili ==> |r.yerlesim| == |sabit| + |shuffled|
    ensures r.basarili ==> r.istatistikler.value.yerlestirilen == |r.yerlesim|
    ensures r.basarili ==> |r.koltukListesi| == |shuffled|
    ensures r.basarili <==> RunSucceeds(salonlar, sabit, m, cfgWidth, shuffled, oracle)
    ensures SabitOgrenciYerlestir(sabit, salonlar, m).Err? ==>
      r.hatalar == Map(SabitOgrenciYerlestir(sabit, salonlar, m).error, PinHata) + [SabitKonumHatali]
    ensures SabitOgrenciYerlestir(sabit, salonlar, m).Ok? && |shuffled| > 0 ==>
      var c := CpSatAssign(shuffled, salonlar, m, SabitOgrenciYerlestir(sabit, salonlar, m).value.1, cfgWidth, oracle);
      && (c == Err(NoSolution) ==> r.hatalar == [CozumYok])
      && (c.Err? && c.error.BadGrade? ==> r.hatalar == [KritikHata(c.error.sinif)])
  {
    match SabitOgrenciYerlestir(sabit, salonlar, m)
    case Err(msgs) => Failure(Map(msgs, PinHata) + [SabitKonumHatali])
    case Ok(pinned) =>
      if |shuffled| == 0 then
        Success(pinned.0, ogrenciler, salonlar, [], [])
      else
        Mobile(ogrenciler, salonlar, pinned.0, m, pinned.1, cfgWidth, shuffled, oracle)
  }

  /** The mobile students through the CP-SAT step, then the result. */
  function Mobile(ogrenciler: seq<Student>, salonlar: seq<SalonRec>, pinned: seq<Placement>,
                  m: SeatMap, occ: Occupied, cfgWidth: int, shuffled: seq<Student>, oracle: Oracle): (r: Response)
    requires SoundOracle(oracle)
    ensures !r.basarili ==> r.yerlesim == [] && r.istatistikler.None? && |r.hatalar| == 1 && r.uyumsuzluklar == []
    ensures !r.basarili ==> r.hatalar == [CozumYok] || r.hatalar[0].KritikHata?
    ensures r.basarili ==> r.hatalar == [] && r.istatistikler.Some?
    ensures r.basarili ==> SortedBy(r.yerlesim, ByRoomAndSeat)
    ensures r.basarili ==> |r.yerlesim| == |pinned| + |shuffled|
    ensures r.basarili ==> r.istatistikler.value.yerlestirilen == |r.yerlesim|
    ensures r.basarili ==> |r.koltukListesi| == |shuffled|
    ensures r.basarili <==> CpSatAssign(shuffled, salonlar, m, occ, cfgWidth, oracle).Ok?
    ensures CpSatAssign(shuffled, salonlar, m, occ, cfgWidth, oracle) == Err(NoSolution) ==> r.hatalar == [CozumYok]
    ensures var c := CpSatAssign(shuffled, salonlar, m, occ, cfgWidth, oracle);
      c.Err? && c.error.BadGrade? ==> r.hatalar == [KritikHata(c.error.sinif)]
  {
    match CpSatAssign(shuffled, salonlar, m, occ, cfgWidth, oracle)
    case Err(NoSolution) => Failure([CozumYok])
    case Err(BadGrade(t)) => Failure([KritikHata(t)])
    case Ok(out) =>
      Success(pinned + out.placements, ogrenciler, salonlar, out.logs,
              FormatKoltukListesi(shuffled, out.teacherIds))
  }
}

=== FILE: engine_props.dfy ===
/** What a run of the engine guarantees: the mobile placements come from
    the solver's pool, no seat is given twice, every student is placed
    exactly once, and neighbouring mobile students differ in grade. */
module EngineProps {
  import opened Wrappers
  import opened Seqs
  import opened Constants
  import opened Seating
  import opened Records
  import opened Pinned
  import opened Pool
  import opened Solver
  import opened Engine

  // ------------------------------------------------- the mobile placements

  /** The pool and the assignment a successful `CpSatAssign` was built
      from; the desk pool is used only when the pool without desks had no
      solution. */
  lemma AssignmentSource(students: seq<Student>, salonlar: seq<SalonRec>, m: SeatMap, occ: Occupied,
                         cfgWidth: int, oracle: Oracle) returns (withDesks: bool, a: seq<nat>)
    requires SoundOracle(oracle)
    requires CpSatAssign(students, salonlar, m, occ, cfgWidth, oracle).Ok?
    ensures Solved(students, SeatList(salonlar, m, occ, withDesks, cfgWidth),
                   AdjacencyPairs(SeatList(salonlar, m, occ, withDesks, cfgWidth)), a)
    ensures CpSatAssign(students, salonlar, m, occ, cfgWidth, oracle).value
      == Build(students, SeatList(salonlar, m, occ, withDesks, cfgWidth), a, withDesks)
    ensures withDesks ==> Attempt(students, salonlar, m, occ, false, cfgWidth, oracle) == Ok(None)
  {
    var first := Attempt(students, salonlar, m, occ, false, cfgWidth, oracle);
    if first.Ok? && first.value.Some? {
      withDesks := false;
      a := first.value.value;
    } else {
      withDesks := true;
      a := Attempt(students, salonlar, m, occ, true, cfgWidth, oracle).value.value;
    }
  }

  /** A placement on an ordinary seat that was free: a listed room, a seat
      of that room, not taken by a pinned student. */
  ghost predicate OnFreeSeat(p: Placement, salonlar: seq<SalonRec>, m: SeatMap, occ: Occupied) {
    && (exists k | 0 <= k < |salonlar| :: salonlar[k].id == p.salonId && salonlar[k].salonAdi == p.salonAdi)
    && p.salonId in m
    && (exists x | x in m[p.salonId].siralar :: x.siraNo == p.siraNo)
    && p.siraNo !in OccupiedIn(occ, p.salonId)
  }

  /** Every mobile placement is on a free seat of a listed room, or on a
      listed room's teacher's desk, which carries the desk number. */
  lemma MobileSeatsKnown(students: seq<Student>, salonlar: seq<SalonRec>, m: SeatMap, occ: Occupied,
                         cfgWidth: int, oracle: Oracle)
    requires SoundOracle(oracle)
    requires CpSatAssign(students, salonlar, m, occ, cfgWidth, oracle).Ok?
    ensures var ps := CpSatAssign(students, salonlar, m, occ, cfgWidth, oracle).value.placements;
      forall i | 0 <= i < |ps| ::
        && (!ps[i].ogretmenMasasi ==> OnFreeSeat(ps[i], salonlar, m, occ))
        && (ps[i].ogretmenMasasi ==>
              ps[i].siraNo == TeacherDeskNo(ps[i].salonId, 0) && ps[i].salonId in RoomIds(salonlar))
  {
    var withDesks, a := AssignmentSource(students, salonlar, m, occ, cfgWidth, oracle);
    var seats := SeatList(salonlar, m, occ, withDesks, cfgWidth);
    var ps := CpSatAssign(students, salonlar, m, occ, cfgWidth, oracle).value.placements;
    RealSeatsAreFree(salonlar, m, occ, withDesks, cfgWidth);
    PoolEntries(salonlar, m, occ, withDesks, cfgWidth);
    PoolRooms(salonlar, m, occ, withDesks, cfgWidth);
    forall i | 0 <= i < |ps|
      ensures !ps[i].ogretmenMasasi ==> OnFreeSeat(ps[i], salonlar, m, occ)
      ensures ps[i].ogretmenMasasi ==>
        ps[i].siraNo == TeacherDeskNo(ps[i].salonId, 0) && ps[i].salonId in RoomIds(salonlar)
    {
      var seat := seats[a[i]];
      assert ps[i] == MobilePlacement(students[i], seat);
      assert PoolEntry(seat, m, occ, cfgWidth);
      if !seat.teacher {
        assert FreeSeatOf(seat, salonlar, m, occ);
      }
    }
  }

  /** The conditions under which pool positions have unique keys: distinct
      room ids that are not negative, and ordinary seat numbers. */
  predicate RoomsOrdinary(salonlar: seq<SalonRec>, m: SeatMap) {
    && DistinctBy(salonlar, (s: SalonRec) => s.id)
    && (forall k | 0 <= k < |salonlar| :: salonlar[k].id >= 0)
    && OrdinarySeats(m)
  }

  /** No two mobile placements share a seat. */
  lemma MobileSeatsDistinct(students: seq<Student>, salonlar: seq<SalonRec>, m: SeatMap, occ: Occupied,
                            cfgWidth: int, oracle: Oracle)
    requires SoundOracle(oracle)
    requires RoomsOrdinary(salonlar, m)
    requires CpSatAssign(students, salonlar, m, occ, cfgWidth, oracle).Ok?
    ensures SeatsDistinct(CpSatAssign(students, salonlar, m, occ, cfgWidth, oracle).value.placements)
  {
    var withDesks, a := AssignmentSource(students, salonlar, m, occ, cfgWidth, oracle);
    var seats := SeatList(salonlar, m, occ, withDesks, cfgWidth);
    var ps := CpSatAssign(students, salonlar, m, occ, cfgWidth, oracle).value.placements;
    PoolKeysDistinct(salonlar, m, occ, withDesks, cfgWidth);
    forall i, j | 0 <= i < j < |ps| ensures SeatOf(ps[i]) != SeatOf(ps[j]) {
      assert SeatOf(ps[i]) == SeatKey(seats[a[i]]) && SeatOf(ps[j]) == SeatKey(seats[a[j]]);
      if a[i] < a[j] {
        assert SeatKey(seats[a[i]]) != SeatKey(seats[a[j]]);
      } else {
        assert SeatKey(seats[a[j]]) != SeatKey(seats[a[i]]);
      }
    }
  }

  /** Two mobile students on neighbouring ordinary seats of one room (left,
      right, front or back, by that room's row width) have class names
      that read as different integers. */
  lemma MobileGradesApart(students: seq<Student>, salonlar: seq<SalonRec>, m: SeatMap, occ: Occupied,
                          cfgWidth: int, oracle: Oracle, i: int, j: int)
    requires SoundOracle(oracle)
    requires RoomsOrdinary(salonlar, m)
    requires CpSatAssign(students, salonlar, m, occ, cfgWidth, oracle).Ok?
    requires var ps := CpSatAssign(students, salonlar, m, occ, cfgWidth, oracle).value.placements;
      && 0 <= i < |ps| && 0 <= j < |ps| && i != j
      && !ps[i].ogretmenMasasi && !ps[j].ogretmenMasasi
      && ps[i].salonId == ps[j].salonId
      && Adjacent(ps[i].siraNo, ps[j].siraNo, RowWidth(m, ps[i].salonId, cfgWidth),
                  AllSeatNumbers(m, ps[i].salonId, BosSiralar(ps[i].salonId, m, occ)))
    ensures PythonInt(students[i].sinif).Some? && PythonInt(students[j].sinif).Some?
    ensures PythonInt(students[i].sinif).value != PythonInt(students[j].sinif).value
  {
    var withDesks, a := AssignmentSource(students, salonlar, m, occ, cfgWidth, oracle);
    var seats := SeatList(salonlar, m, occ, withDesks, cfgWidth);
    var pairs := AdjacencyPairs(seats);
    var ps := CpSatAssign(students, salonlar, m, occ, cfgWidth, oracle).value.placements;
    assert ps[i] == MobilePlacement(students[i], seats[a[i]]);
    assert ps[j] == MobilePlacement(students[j], seats[a[j]]);
    PoolEntries(salonlar, m, occ, withDesks, cfgWidth);
    assert PoolEntry(seats[a[i]], m, occ, cfgWidth);
    assert seats[a[j]].siraNo in seats[a[i]].neighbors;
    PoolKeysDistinct(salonlar, m, occ, withDesks, cfgWidth);
    PairsComplete(seats, a[i], a[j]);
    if a[i] <= a[j] {
      assert (a[i], a[j]) in pairs;
    } else {
      assert (a[j], a[i]) in pairs;
    }
  }

  // ------------------------------------------------------------ desk logs

  /** The number of students the messages report. */
  function LoggedCount(logs: seq<DeskLog>): nat
    decreases |logs|
  {
    if |logs| == 0 then 0 else logs[0].count + LoggedCount(logs[1..])
  }

  lemma {:induction false} LoggedGroups(gs: seq<Group<int, Placement>>, seats: seq<Seat>)
    ensures LoggedCount(Map(gs, (g: Group<int, Placement>) => DeskLog(RoomName(seats, g.key), |g.items|)))
      == TotalItems(gs)
    decreases |gs|
  {
    if |gs| > 0 {
      var f := (g: Group<int, Placement>) => DeskLog(RoomName(seats, g.key), |g.items|);
      LoggedGroups(gs[1..], seats);
      assert Map(gs, f)[1..] == Map(gs[1..], f);
    }
  }

  /** One message per room whose desk was used, and together they report
      every student put on a desk. */
  lemma DeskLogsCount(ps: seq<Placement>, seats: seq<Seat>)
    ensures |DeskLogs(ps, seats)| == |set p | p in Filter(ps, AtDesk) :: p.salonId|
    ensures LoggedCount(DeskLogs(ps, seats)) == |Filter(ps, AtDesk)|
  {
    var desks := Filter(ps, AtDesk);
    RoomsInUse(desks);
    GroupByTotal(desks, RoomOf);
    LoggedGroups(GroupBy(desks, RoomOf), seats);
  }

  // ------------------------------------------------------------- harmanla

  /** A successful mobile stage reorders the pinned placements followed
      by the solver's. */
  lemma MobileParts(ogrenciler: seq<Student>, salonlar: seq<SalonRec>, pinned: seq<Placement>,
                    m: SeatMap, occ: Occupied, cfgWidth: int, shuffled: seq<Student>, oracle: Oracle)
    requires SoundOracle(oracle)
    requires Mobile(ogrenciler, salonlar, pinned, m, occ, cfgWidth, shuffled, oracle).basarili
    ensures CpSatAssign(shuffled, salonlar, m, occ, cfgWidth, oracle).Ok?
    ensures multiset(Mobile(ogrenciler, salonlar, pinned, m, occ, cfgWidth, shuffled, oracle).yerlesim)
      == multiset(pinned + CpSatAssign(shuffled, salonlar, m, occ, cfgWidth, oracle).value.placements)
  {
  }

  /** A successful run after validation: the pinned stage succeeded, and
      the result reorders its placements followed by the mobile ones. */
  lemma PlacedParts(ogrenciler: seq<Student>, salonlar: seq<SalonRec>, sabit: seq<Student>,
                    m: SeatMap, cfgWidth: int, shuffled: seq<Student>, oracle: Oracle)
    returns (pinned: seq<Placement>, mobile: seq<Placement>)
    requires SoundOracle(oracle)
    requires Placed(ogrenciler, salonlar, sabit, m, cfgWidth, shuffled, oracle).basarili
    ensures SabitOgrenciYerlestir(sabit, salonlar, m).Ok?
    ensures pinned == SabitOgrenciYerlestir(sabit, salonlar, m).value.0
    ensures |shuffled| == 0 ==> mobile == []
    ensures |shuffled| > 0 ==>
      var occ := SabitOgrenciYerlestir(sabit, salonlar, m).value.1;
      && CpSatAssign(shuffled, salonlar, m, occ, cfgWidth, oracle).Ok?
      && mobile == CpSatAssign(shuffled, salonlar, m, occ, cfgWidth, oracle).value.placements
    ensures multiset(Placed(ogrenciler, salonlar, sabit, m, cfgWidth, shuffled, oracle).yerlesim)
      == multiset(pinned + mobile)
  {
    pinned := SabitOgrenciYerlestir(sabit, salonlar, m).value.0;
    if |shuffled| == 0 {
      mobile := [];
      PlacedPinnedOnly(ogrenciler, salonlar, sabit, m, cfgWidth, shuffled, oracle);
    } else {
      mobile := PlacedWithMobile(ogrenciler, salonlar, sabit, m, cfgWidth, shuffled, oracle);
    }
  }

  lemma PlacedPinnedOnly(ogrenciler: seq<Student>, salonlar: seq<SalonRec>, sabit: seq<Student>,
                         m: SeatMap, cfgWidth: int, shuffled: seq<Student>, oracle: Oracle)
    requires SoundOracle(oracle) && |shuffled| == 0
    requires Placed(ogrenciler, salonlar, sabit, m, cfgWidth, shuffled, oracle).basarili
    ensures SabitOgrenciYerlestir(sabit, salonlar, m).Ok?
    ensures multiset(Placed(ogrenciler, salonlar, sabit, m, cfgWidth, shuffled, oracle).yerlesim)
      == multiset(SabitOgrenciYerlestir(sabit, salonlar, m).value.0 + [])
  {
    assert SabitOgrenciYerlestir(sabit, salonlar, m).Ok?;
    var pinned := SabitOgrenciYerlestir(sabit, salonlar, m).value.0;
    assert Placed(ogrenciler, salonlar, sabit, m, cfgWidth, shuffled, oracle)
      == Success(pinned, ogrenciler, salonlar, [], []);
    assert pinned + [] == pinned;
  }

  lemma PlacedWithMobile(ogrenciler: seq<Student>, salonlar: seq<SalonRec>, sabit: seq<Student>,
                         m: SeatMap, cfgWidth: int, shuffled: seq<Student>, oracle: Oracle)
    returns (mobile: seq<Placement>)
    requires SoundOracle(oracle) && |shuffled| > 0
    requires Placed(ogrenciler, salonlar, sabit, m, cfgWidth, shuffled, oracle).basarili
    ensures SabitOgrenciYerlestir(sabit, salonlar, m).Ok?
    ensures var occ := SabitOgrenciYerlestir(sabit, salonlar, m).value.1;
      && CpSatAssign(shuffled, salonlar, m, occ, cfgWidth, oracle).Ok?
      && mobile == CpSatAssign(shuffled, salonlar, m, occ, cfgWidth, oracle).value.placements
    ensures multiset(Placed(ogrenciler, salonlar, sabit, m, cfgWidth, shuffled, oracle).yerlesim)
      == multiset(SabitOgrenciYerlestir(sabit, salonlar, m).value.0 + mobile)
  {
    var pin := SabitOgrenciYerlestir(sabit, salonlar, m).value;
    MobileParts(ogrenciler, salonlar, pin.0, m, pin.1, cfgWidth, shuffled, oracle);
    mobile := CpSatAssign(shuffled, salonlar, m, pin.1, cfgWidth, oracle).value.placements;
  }

  /** How a successful run came about, given the seat map: the pinned
      stage returned `pinned` and the occupancy `occ`, and the mobile stage
      (when there were mobile students) returned `mobile`. */
  ghost predicate Staged(sabit: seq<Student>, salonlar: seq<SalonRec>, m: SeatMap, cfgWidth: int,
                         shuffled: seq<Student>, oracle: Oracle,
                         pinned: seq<Placement>, mobile: seq<Placement>, occ: Occupied)
  {
    && SoundOracle(oracle)
    && SabitOgrenciYerlestir(sabit, salonlar, m).Ok?
    && SabitOgrenciYerlestir(sabit, salonlar, m).value.0 == pinned
    && SabitOgrenciYerlestir(sabit, salonlar, m).value.1 == occ
    && (|shuffled| == 0 ==> mobile == [])
    && (|shuffled| > 0 ==>
          && CpSatAssign(shuffled, salonlar, m, occ, cfgWidth, oracle).Ok?
          && mobile == CpSatAssign(shuffled, salonlar, m, occ, cfgWidth, oracle).value.placements)
  }

  /** A successful run's result is a reordering of the pinned placements
      followed by the mobile ones. */
  lemma HarmanlaParts(ogrenciler: seq<Student>, salonlar: seq<SalonRec>, sabit: seq<Student>,
                      haritasi: map<int, seq<SalonSira>>, cfgWidth: int,
                      shuffled: seq<Student>, oracle: Oracle)
    returns (pinned: seq<Placement>, mobile: seq<Placement>, occ: Occupied)
    requires SoundOracle(oracle)
    requires multiset(shuffled) == multiset(MobilOgrenciler(ogrenciler, sabit))
    requires Harmanla(ogrenciler, salonlar, sabit, haritasi, cfgWidth, shuffled, oracle).basarili
    ensures Staged(sabit, salonlar, HazirlaSalonSiraMap(salonlar, haritasi, cfgWidth), cfgWidth,
                   shuffled, oracle, pinned, mobile, occ)
    ensures multiset(Harmanla(ogrenciler, salonlar, sabit, haritasi, cfgWidth, shuffled, oracle).yerlesim)
      == multiset(pinned + mobile)
  {
    var m := HazirlaSalonSiraMap(salonlar, haritasi, cfgWidth);
    assert ValidateInput(ogrenciler, salonlar).None?;
    assert Harmanla(ogrenciler, salonlar, sabit, haritasi, cfgWidth, shuffled, oracle)
      == Placed(ogrenciler, salonlar, sabit, m, cfgWidth, shuffled, oracle);
    pinned, mobile := PlacedParts(ogrenciler, salonlar, sabit, m, cfgWidth, shuffled, oracle);
    occ := SabitOgrenciYerlestir(sabit, salonlar, m).value.1;
  }

  function PlacedId(p: Placement): int {
    p.ogrenciId
  }

  function StudentId(o: Student): int {
    o.id
  }

  /** The stages place the pinned students and the shuffled mobile ones,
      in that order, under their own ids. */
  lemma StagedIds(sabit: seq<Student>, salonlar: seq<SalonRec>, m: SeatMap, cfgWidth: int,
                  shuffled: seq<Student>, oracle: Oracle,
                  pinned: seq<Placement>, mobile: seq<Placement>, occ: Occupied)
    requires Staged(sabit, salonlar, m, cfgWidth, shuffled, oracle, pinned, mobile, occ)
    ensures Map(pinned, PlacedId) == Map(sabit, StudentId)
    ensures Map(mobile, PlacedId) == Map(shuffled, StudentId)
  {
    PinnedFidelity(sabit, salonlar, m);
  }

  /** Every pinned and every mobile student is placed exactly once: the
      placed ids are, as a multiset, the pinned ids plus the mobile ids. */
  lemma HarmanlaPlacesEachOnce(ogrenciler: seq<Student>, salonlar: seq<SalonRec>, sabit: seq<Student>,
                               haritasi: map<int, seq<SalonSira>>, cfgWidth: int,
                               shuffled: seq<Student>, oracle: Oracle)
    requires SoundOracle(oracle)
    requires multiset(shuffled) == multiset(MobilOgrenciler(ogrenciler, sabit))
    requires Harmanla(ogrenciler, salonlar, sabit, haritasi, cfgWidth, shuffled, oracle).basarili
    ensures multiset(Map(Harmanla(ogrenciler, salonlar, sabit, haritasi, cfgWidth, shuffled, oracle).yerlesim, PlacedId))
      == multiset(Map(sabit, StudentId)) + multiset(Map(MobilOgrenciler(ogrenciler, sabit), StudentId))
  {
    var r := Harmanla(ogrenciler, salonlar, sabit, haritasi, cfgWidth, shuffled, oracle);
    var pinned, mobile, occ := HarmanlaParts(ogrenciler, salonlar, sabit, haritasi, cfgWidth, shuffled, oracle);
    StagedIds(sabit, salonlar, HazirlaSalonSiraMap(salonlar, haritasi, cfgWidth), cfgWidth, shuffled, oracle,
              pinned, mobile, occ);
    IdsOfParts(r.yerlesim, pinned, mobile, sabit, shuffled, MobilOgrenciler(ogrenciler, sabit));
  }

  lemma IdsOfParts(yerlesim: seq<Placement>, pinned: seq<Placement>, mobile: seq<Placement>,
                   sabit: seq<Student>, shuffled: seq<Student>, mobil: seq<Student>)
    requires multiset(yerlesim) == multiset(pinned + mobile)
    requires Map(pinned, PlacedId) == Map(sabit, StudentId)
    requires Map(mobile, PlacedId) == Map(shuffled, StudentId)
    requires multiset(shuffled) == multiset(mobil)
    ensures multiset(Map(yerlesim, PlacedId)) == multiset(Map(sabit, StudentId)) + multiset(Map(mobil, StudentId))
  {
    MapMultiset(yerlesim, pinned + mobile, PlacedId);
    MapConcat(pinned, mobile, PlacedId);
    MapMultiset(shuffled, mobil, StudentId);
  }

  /** Every pinned student sits, in the result, exactly where pinned. */
  lemma HarmanlaKeepsPins(ogrenciler: seq<Student>, salonlar: seq<SalonRec>, sabit: seq<Student>,
                          haritasi: map<int, seq<SalonSira>>, cfgWidth: int,
                          shuffled: seq<Student>, oracle: Oracle, k: int)
    requires SoundOracle(oracle)
    requires multiset(shuffled) == multiset(MobilOgrenciler(ogrenciler, sabit))
    requires Harmanla(ogrenciler, salonlar, sabit, haritasi, cfgWidth, shuffled, oracle).basarili
    requires 0 <= k < |sabit|
    ensures exists p | p in Harmanla(ogrenciler, salonlar, sabit, haritasi, cfgWidth, shuffled, oracle).yerlesim ::
      Faithful(sabit[k], p, HazirlaSalonSiraMap(salonlar, haritasi, cfgWidth))
  {
    var r := Harmanla(ogrenciler, salonlar, sabit, haritasi, cfgWidth, shuffled, oracle);
    var m := HazirlaSalonSiraMap(salonlar, haritasi, cfgWidth);
    var pinned, mobile, occ := HarmanlaParts(ogrenciler, salonlar, sabit, haritasi, cfgWidth, shuffled, oracle);
    PinnedFidelity(sabit, salonlar, m);
    var p := pinned[k];
    assert p == (pinned + mobile)[k];
    assert p in multiset(r.yerlesim);
    assert Faithful(sabit[k], p, m);
  }

  /** A pinned placement is on an ordinary seat number. */
  lemma PinnedOrdinary(sabit: seq<Student>, salonlar: seq<SalonRec>, m: SeatMap, k: int)
    requires OrdinarySeats(m)
    requires forall key | key in m :: WellFormedData(m[key])
    requires SabitOgrenciYerlestir(sabit, salonlar, m).Ok?
    requires 0 <= k < |sabit|
    ensures SabitOgrenciYerlestir(sabit, salonlar, m).value.0[k].siraNo < TEACHER_DESK_BASE
  {
    PinnedFidelity(sabit, salonlar, m);
    var p := SabitOgrenciYerlestir(sabit, salonlar, m).value.0[k];
    var id := sabit[k].sabitSalonId.value;
    var slot := FindSalonSiraById(id, sabit[k].sabitSiraId.value, m).value;
    assert slot in m[id].siralar;
    var n :| 0 <= n < |m[id].siralar| && m[id].siralar[n] == slot;
  }

  /** The stages never give one seat twice, under unique room ids and
      ordinary seat numbers. */
  lemma StagedSeatsDistinct(sabit: seq<Student>, salonlar: seq<SalonRec>, m: SeatMap, cfgWidth: int,
                            shuffled: seq<Student>, oracle: Oracle,
                            pinned: seq<Placement>, mobile: seq<Placement>, occ: Occupied)
    requires Staged(sabit, salonlar, m, cfgWidth, shuffled, oracle, pinned, mobile, occ)
    requires RoomsOrdinary(salonlar, m)
    requires forall key | key in m :: WellFormedData(m[key])
    ensures DistinctBy(pinned + mobile, SeatOf)
  {
    assert SeatsDistinct(pinned) && forall k, n :: n in OccupiedIn(occ, k) <==> exists i | 0 <= i < |pinned| :: SeatOf(pinned[i]) == (k, n);
    assert forall k | 0 <= k < |pinned| :: pinned[k].siraNo < TEACHER_DESK_BASE by {
      forall k | 0 <= k < |pinned| ensures pinned[k].siraNo < TEACHER_DESK_BASE {
        PinnedOrdinary(sabit, salonlar, m, k);
      }
    }
    assert SeatsDistinct(mobile) && forall q | q in mobile :: MobileSeatOk(q, occ) by {
      if |shuffled| > 0 {
        MobileSeatsDistinct(shuffled, salonlar, m, occ, cfgWidth, oracle);
        MobileSeatsKnown(shuffled, salonlar, m, occ, cfgWidth, oracle);
        forall q | q in mobile ensures MobileSeatOk(q, occ) {
          var i :| 0 <= i < |mobile| && mobile[i] == q;
          if q.ogretmenMasasi {
            assert q.salonId in RoomIds(salonlar);
          }
        }
      }
    }
    PartsDistinct(pinned, mobile, occ);
  }

  /** Under unique room ids and ordinary seat numbers no seat of the result
      is given twice: pinned seats are taken before the pool is built, and
      desk numbers lie above every seat number. */
  lemma HarmanlaSeatsDistinct(ogrenciler: seq<Student>, salonlar: seq<SalonRec>, sabit: seq<Student>,
                              haritasi: map<int, seq<SalonSira>>, cfgWidth: int,
                              shuffled: seq<Student>, oracle: Oracle)
    requires SoundOracle(oracle)
    requires multiset(shuffled) == multiset(MobilOgrenciler(ogrenciler, sabit))
    requires RoomsOrdinary(salonlar, HazirlaSalonSiraMap(salonlar, haritasi, cfgWidth))
    requires Harmanla(ogrenciler, salonlar, sabit, haritasi, cfgWidth, shuffled, oracle).basarili
    ensures SeatsDistinct(Harmanla(ogrenciler, salonlar, sabit, haritasi, cfgWidth, shuffled, oracle).yerlesim)
  {
    var r := Harmanla(ogrenciler, salonlar, sabit, haritasi, cfgWidth, shuffled, oracle);
    var m := HazirlaSalonSiraMap(salonlar, haritasi, cfgWidth);
    var pinned, mobile, occ := HarmanlaParts(ogrenciler, salonlar, sabit, haritasi, cfgWidth, shuffled, oracle);
    StagedSeatsDistinct(sabit, salonlar, m, cfgWidth, shuffled, oracle, pinned, mobile, occ);
    DistinctByPermutation(pinned + mobile, r.yerlesim, SeatOf);
  }

  /** A mobile seat is free of pinned students, or is a desk above every
      seat number. */
  predicate MobileSeatOk(q: Placement, occ: Occupied) {
    if q.ogretmenMasasi then q.siraNo >= TEACHER_DESK_BASE else q.siraNo !in OccupiedIn(occ, q.salonId)
  }

  lemma PartsDistinct(pinned: seq<Placement>, mobile: seq<Placement>, occ: Occupied)
    requires SeatsDistinct(pinned) && SeatsDistinct(mobile)
    requires forall k, n :: n in OccupiedIn(occ, k) <==> exists i | 0 <= i < |pinned| :: SeatOf(pinned[i]) == (k, n)
    requires forall k | 0 <= k < |pinned| :: pinned[k].siraNo < TEACHER_DESK_BASE
    requires forall q | q in mobile :: MobileSeatOk(q, occ)
    ensures DistinctBy(pinned + mobile, SeatOf)
  {
    var all := pinned + mobile;
    forall i, j | 0 <= i < j < |all| ensures SeatOf(all[i]) != SeatOf(all[j]) {
      if j < |pinned| {
        assert all[i] == pinned[i] && all[j] == pinned[j];
      } else if i >= |pinned| {
        assert all[i] == mobile[i - |pinned|] && all[j] == mobile[j - |pinned|];
      } else {
        var q := mobile[j - |pinned|];
        assert all[i] == pinned[i] && all[j] == q;
        assert SeatOf(pinned[i]).1 in OccupiedIn(occ, SeatOf(pinned[i]).0);
        assert MobileSeatOk(q, occ);
      }
    }
  }
}

=== FILE: excel.dfy ===
/** The spreadsheet side of the application (controllers/excel_handler.py):
    validating the rows of a student import, and splitting a room's
    invigilator string into first and last names on the printed seating
    sheet. Reading and writing the workbook itself is not modelled: a
    sheet arrives as its header row and its data rows. */
module Excel {
  import opened Wrappers
  import opened Text
  import opened Constants
  import opened Seqs

  // ------------------------------------------------------------ the sheet

  /** A cell as the spreadsheet reader hands it over: empty (not a number)
      or a value, given here by its text `str(cell)`. */
  datatype Cell = Bos | Deger(text: string)

  /** `str(cell)`: an empty cell reads as "nan". */
  function CellText(c: Cell): string {
    match c
    case Bos => "nan"
    case Deger(t) => t
  }

  /** The header row as written, and every data row keyed by the normalised
      column name. */
  datatype Sayfa = Sayfa(kolonlar: seq<string>, satirlar: seq<map<string, Cell>>)

  /** The columns a student sheet must have. */
  const OGRENCI_KOLONLARI: seq<string> := ["ad", "soyad", "sinif", "sube", "tc_no"]

  /** A header is compared lower-cased and without surrounding whitespace. */
  function KolonAdi(c: string): string {
    Strip(Lower(c))
  }

  /** A cell of a row; a column the row does not have reads as empty. */
  function Hucre(row: map<string, Cell>, k: string): Cell {
    if k in row then row[k] else Bos
  }

  /** One imported student. `tcNo` is `None` when the cell was empty or
      the number was rejected. */
  datatype OgrenciKaydi = OgrenciKaydi(ad: string, soyad: string, sinif: string, sube: string, tcNo: Option<string>)

  /** The messages of an import, with the spreadsheet row they refer to
      (the data row at index `i` is row `i + 2` of the sheet). */
  datatype OkumaHatasi =
    | EksikKolon(eksik: set<string>)
    | GecersizSinif(satir: int, sinif: string)
    | GecersizTc(satir: int, tc: string)
    | KayitYok

  // ------------------------------------------------------ header check

  /** The required columns that no header names. */
  function EksikKolonlar(kolonlar: seq<string>): (eksik: set<string>)
    ensures forall k :: k in eksik <==>
      k in OGRENCI_KOLONLARI && forall i | 0 <= i < |kolonlar| :: KolonAdi(kolonlar[i]) != k
  {
    var mevcut := Map(kolonlar, KolonAdi);
    set k | k in OGRENCI_KOLONLARI && k !in mevcut
  }

  // ---------------------------------------------------------- one row

  /** Both name cells hold something; otherwise the row is skipped
      silently. */
  predicate IsimVar(row: map<string, Cell>) {
    !Hucre(row, "ad").Bos? && !Hucre(row, "soyad").Bos?
  }

  function SinifMetni(row: map<string, Cell>): string {
    Strip(CellText(Hucre(row, "sinif")))
  }

  /** A class is accepted when it is one of the listed levels or passes
      the class-name check. */
  predicate SinifKabul(s: string) {
    s in SINIF_SEVIYELERI || SinifIsmiGecerliMi(Some(s))
  }

  /** A row that becomes a record. */
  predicate Alinir(row: map<string, Cell>) {
    IsimVar(row) && SinifKabul(SinifMetni(row))
  }

  /** The identity number as read: `None` for an empty cell. */
  function HamTc(row: map<string, Cell>): Option<string> {
    if Hucre(row, "tc_no").Bos? then None else Some(Strip(CellText(Hucre(row, "tc_no"))))
  }

  predicate TcKarakteri(c: char) {
    c != '-' && c != ' '
  }

  /** Removing every '-' and ' '. */
  function TcTemizle(t: string): string {
    Filter(t, TcKarakteri)
  }

  /** An identity number is eleven digits. */
  predicate TcGecerli(t: string) {
    |t| == 11 && IsDigits(t)
  }

  /** A non-empty identity number is stored cleaned when the cleaned text
      is valid and dropped otherwise; an empty one is kept as it is. */
  function TcSonucu(ham: Option<string>): Option<string> {
    match ham
    case None => None
    case Some(t) =>
      if |t| == 0 then ham
      else if TcGecerli(TcTemizle(t)) then Some(TcTemizle(t))
      else None
  }

  predicate TcReddedilir(row: map<string, Cell>) {
    HamTc(row).Some? && |HamTc(row).value| > 0 && !TcGecerli(TcTemizle(HamTc(row).value))
  }

  /** The record built from a row: every text field stripped. */
  function Kayit(row: map<string, Cell>): OgrenciKaydi {
    OgrenciKaydi(
      Strip(CellText(Hucre(row, "ad"))),
      Strip(CellText(Hucre(row, "soyad"))),
      SinifMetni(row),
      Strip(CellText(Hucre(row, "sube"))),
      TcSonucu(HamTc(row)))
  }

  /** The message a row produces: a class warning for a rejected row, an
      identity warning for a kept row whose number was dropped. */
  function SatirUyarisi(row: map<string, Cell>, satir: int): (hs: seq<OkumaHatasi>)
    ensures |hs| <= 1
    ensures forall h | h in hs :: (h.GecersizSinif? || h.GecersizTc?) && h.satir == satir
  {
    if !IsimVar(row) then []
    else if !SinifKabul(SinifMetni(row)) then [GecersizSinif(satir, SinifMetni(row))]
    else if TcReddedilir(row) then [GecersizTc(satir, HamTc(row).value)]
    else []
  }

  /** Every row's messages in row order. */
  function Uyarilar(rows: seq<map<string, Cell>>): seq<OkumaHatasi> {
    FlatMapIndexed(rows, SatirUyarisi, 2)
  }

  /** The messages are exactly the rows' own warnings: each row's warning is
      there, and each message is the warning of the row it names. */
  lemma UyarilarMembers(rows: seq<map<string, Cell>>)
    ensures forall i, h | 0 <= i < |rows| && h in SatirUyarisi(rows[i], i + 2) :: h in Uyarilar(rows)
    ensures forall h | h in Uyarilar(rows) ::
      && (h.GecersizSinif? || h.GecersizTc?)
      && 2 <= h.satir < |rows| + 2
      && h in SatirUyarisi(rows[h.satir - 2], h.satir)
  {
    FlatMapIndexedMembers(rows, SatirUyarisi, 2);
    forall h | h in Uyarilar(rows)
      ensures && (h.GecersizSinif? || h.GecersizTc?)
              && 2 <= h.satir < |rows| + 2
              && h in SatirUyarisi(rows[h.satir - 2], h.satir)
    {
      var i :| 0 <= i < |rows| && h in SatirUyarisi(rows[i], 2 + i);
    }
  }

  /** `ogrenci_oku` on a sheet that has been read: with a required column
      missing, nothing is imported and the one message names the missing
      columns; otherwise the records are exactly those of the accepted rows
      in row order, and the messages are the rows' own warnings in row
      order, followed by a final one exactly when no record was kept. */
  method OgrenciOku(sayfa: Sayfa) returns (kayitlar: seq<OgrenciKaydi>, hatalar: seq<OkumaHatasi>)
    ensures EksikKolonlar(sayfa.kolonlar) != {} ==>
      kayitlar == [] && hatalar == [EksikKolon(EksikKolonlar(sayfa.kolonlar))]
    ensures EksikKolonlar(sayfa.kolonlar) == {} ==>
      && kayitlar == Map(Filter(sayfa.satirlar, Alinir), Kayit)
      && hatalar == Uyarilar(sayfa.satirlar) + (if |kayitlar| == 0 then [KayitYok] else [])
      && (KayitYok in hatalar <==> |kayitlar| == 0)
  {
    var eksik := EksikKolonlar(sayfa.kolonlar);
    if eksik != {} {
      return [], [EksikKolon(eksik)];
    }
    var rows := sayfa.satirlar;
    kayitlar, hatalar := SatirlariOku(rows);
    kayitlar, hatalar := Sonuclandir(rows, kayitlar, hatalar);
  }

  /** The row loop: the records of the accepted rows and every row's
      warning, in row order. */
  method SatirlariOku(rows: seq<map<string, Cell>>) returns (kayitlar: seq<OgrenciKaydi>, hatalar: seq<OkumaHatasi>)
    ensures kayitlar == Map(Filter(rows, Alinir), Kayit)
    ensures hatalar == Uyarilar(rows)
  {
    kayitlar, hatalar := [], [];
    for i := 0 to |rows|
      invariant kayitlar == Map(Filter(rows[..i], Alinir), Kayit)
      invariant hatalar == Uyarilar(rows[..i])
    {
      kayitlar, hatalar := SatirEkle(rows, i, kayitlar, hatalar);
    }
    assert rows[..|rows|] == rows;
  }

  /** One turn of the row loop: the row's warning is appended, and its
      record when the row is accepted. */
  method SatirEkle(rows: seq<map<string, Cell>>, i: nat, kayitlar: seq<OgrenciKaydi>, hatalar: seq<OkumaHatasi>)
    returns (kayitlar': seq<OgrenciKaydi>, hatalar': seq<OkumaHatasi>)
    requires i < |rows|
    requires kayitlar == Map(Filter(rows[..i], Alinir), Kayit)
    requires hatalar == Uyarilar(rows[..i])
    ensures kayitlar' == Map(Filter(rows[..i + 1], Alinir), Kayit)
    ensures hatalar' == Uyarilar(rows[..i + 1])
  {
    MapFilterStep(rows, i, Alinir, Kayit);
    FlatMapIndexedStep(rows, i, SatirUyarisi, 2);
    var row := rows[i];
    hatalar' := hatalar + SatirUyarisi(row, i + 2);
    kayitlar' := if Alinir(row) then kayitlar + [Kayit(row)] else kayitlar;
  }

  /** The closing message when no row was kept. */
  method Sonuclandir(rows: seq<map<string, Cell>>, kayitlar: seq<OgrenciKaydi>, uyarilar: seq<OkumaHatasi>)
    returns (kayitlar': seq<OgrenciKaydi>, hatalar: seq<OkumaHatasi>)
    requires uyarilar == Uyarilar(rows)
    ensures kayitlar' == kayitlar
    ensures hatalar == Uyarilar(rows) + (if |kayitlar| == 0 then [KayitYok] else [])
    ensures KayitYok in hatalar <==> |kayitlar| == 0
  {
    UyarilarMembers(rows);
    assert KayitYok !in uyarilar;
    kayitlar' := kayitlar;
    hatalar := uyarilar + (if |kayitlar| == 0 then [KayitYok] else []);
  }

  // ------------------------------------------------ row properties

  /** The level list adds nothing to the class check: every listed level
      passes the class-name check on its own. */
  lemma SinifKabulIsNameCheck(s: string)
    ensures SinifKabul(s) <==> SinifIsmiGecerliMi(Some(s))
  {
    LevelListWellFormed();
    if s in SINIF_SEVIYELERI {
      var i :| 0 <= i < |SINIF_SEVIYELERI| && SINIF_SEVIYELERI[i] == s;
    }
  }

  /** A kept record has a valid class name, and its identity number is
      absent, empty, or eleven digits without separators. */
  lemma KayitGecerli(row: map<string, Cell>)
    requires Alinir(row)
    ensures SinifIsmiGecerliMi(Some(Kayit(row).sinif))
    ensures Kayit(row).tcNo.Some? ==> Kayit(row).tcNo.value == "" || TcGecerli(Kayit(row).tcNo.value)
  {
    var k := Kayit(row);
    assert k.sinif == SinifMetni(row) && k.tcNo == TcSonucu(HamTc(row));
    SinifKabulIsNameCheck(SinifMetni(row));
    TcSonucuGecerli(HamTc(row));
  }

  /** A stored identity number is empty or valid. */
  lemma TcSonucuGecerli(ham: Option<string>)
    ensures TcSonucu(ham).Some? ==> TcSonucu(ham).value == "" || TcGecerli(TcSonucu(ham).value)
  {
  }

  /** A row is rejected, with a class warning, exactly when it has both
      names and a class that fails the check; a kept row warns exactly
      when its identity number is dropped. */
  lemma SatirUyarisiCases(row: map<string, Cell>, satir: int)
    ensures IsimVar(row) && !SinifKabul(SinifMetni(row)) <==>
      SatirUyarisi(row, satir) == [GecersizSinif(satir, SinifMetni(row))]
    ensures Alinir(row) && TcReddedilir(row) <==>
      SatirUyarisi(row, satir) == [GecersizTc(satir, HamTc(row).GetOr(""))]
    ensures Alinir(row) && TcReddedilir(row) ==> Kayit(row).tcNo == None
  {
  }

  /** An empty class cell is read as the text "nan", which is a valid class
      name, so such a row is imported with class "nan". */
  lemma EmptyClassCellKept(row: map<string, Cell>)
    requires IsimVar(row) && Hucre(row, "sinif") == Bos
    ensures Alinir(row) && Kayit(row).sinif == "nan"
  {
    StripKeeps("nan");
    NanIsClassName(SinifMetni(row));
  }

  lemma NanIsClassName(s: string)
    requires s == "nan"
    ensures SinifKabul(s)
  {
    StripKeeps(s);
    assert AllClassNameChars(s);
    ClassNameValidWhenStripped(s);
  }

  /** Cleaning an identity number leaves no separator, and cleaning again
      changes nothing. */
  lemma TcTemizleNormalises(t: string)
    ensures '-' !in TcTemizle(t) && ' ' !in TcTemizle(t)
    ensures TcTemizle(TcTemizle(t)) == TcTemizle(t)
  {
    var c := TcTemizle(t);
    FilterAll(c, TcKarakteri);
  }

  /** The text a record is written back as: its fields as cells, an absent
      identity number as an empty cell. */
  function KayitSatiri(k: OgrenciKaydi): map<string, Cell> {
    map["ad" := Deger(k.ad), "soyad" := Deger(k.soyad), "sinif" := Deger(k.sinif),
        "sube" := Deger(k.sube),
        "tc_no" := if k.tcNo.Some? then Deger(k.tcNo.value) else Bos]
  }

  /** A record with stripped fields, a valid class and an absent, empty or
      valid identity number. */
  predicate Duzgun(k: OgrenciKaydi) {
    && Strip(k.ad) == k.ad && Strip(k.soyad) == k.soyad && Strip(k.sube) == k.sube
    && Strip(k.sinif) == k.sinif && SinifIsmiGecerliMi(Some(k.sinif))
    && (k.tcNo.Some? ==> k.tcNo.value == "" || TcGecerli(k.tcNo.value))
  }

  /** Importing a written-back record gives the record again, without a
      message. */
  lemma KayitRoundTrip(k: OgrenciKaydi, satir: int)
    requires Duzgun(k)
    ensures Alinir(KayitSatiri(k)) && Kayit(KayitSatiri(k)) == k
    ensures SatirUyarisi(KayitSatiri(k), satir) == []
  {
    var row := KayitSatiri(k);
    KayitSatiriCells(k);
    assert SinifMetni(row) == k.sinif;
    TcRoundTrip(k.tcNo);
    assert HamTc(row) == k.tcNo;
    assert Kayit(row) == OgrenciKaydi(k.ad, k.soyad, k.sinif, k.sube, k.tcNo);
  }

  /** The cells of a written-back record. */
  lemma KayitSatiriCells(k: OgrenciKaydi)
    ensures Hucre(KayitSatiri(k), "ad") == Deger(k.ad)
    ensures Hucre(KayitSatiri(k), "soyad") == Deger(k.soyad)
    ensures Hucre(KayitSatiri(k), "sinif") == Deger(k.sinif)
    ensures Hucre(KayitSatiri(k), "sube") == Deger(k.sube)
    ensures Hucre(KayitSatiri(k), "tc_no") == if k.tcNo.Some? then Deger(k.tcNo.value) else Bos
  {
  }

  /** An absent, empty or valid identity number reads back unchanged. */
  lemma TcRoundTrip(tc: Option<string>)
    requires tc.Some? ==> tc.value == "" || TcGecerli(tc.value)
    ensures tc.Some? ==> Strip(tc.value) == tc.value
    ensures TcSonucu(tc) == tc
  {
    if tc.Some? && tc.value != "" {
      var t := tc.value;
      assert TcTemizle(t) == t by {
        assert forall i | 0 <= i < |t| :: TcKarakteri(t[i]);
        FilterAll(t, TcKarakteri);
      }
      StripDigits(t);
    } else if tc.Some? {
      LStripByKept(tc.value, IsSpace);
      RStripByKept(tc.value, IsSpace);
    }
  }

  // -------------------------------------------- invigilator names

  /** An invigilator row of the printed sheet. */
  datatype GozetmenAdi = GozetmenAdi(ad: string, soyad: string)

  /** The name part of one comma-separated entry: the text before the
      first '(' (the duty in parentheses), stripped. */
  function IsimKismi(part: string): string {
    if '(' in part then Strip(Split(part, '(')[0]) else Strip(part)
  }

  /** The last whitespace token is the surname and the others, joined by
      single spaces, the first name; a one-token name has an empty
      surname. */
  function AdAyir(isim: string): (g: GozetmenAdi)
    requires |isim| > 0
  {
    var t := SplitWhitespace(isim);
    if |t| >= 2 then GozetmenAdi(Join(t[..|t| - 1], " "), t[|t| - 1])
    else GozetmenAdi(isim, "")
  }

  /** One row per entry whose name part is not empty. */
  function Parcalar(parts: seq<string>): (gs: seq<GozetmenAdi>)
    ensures |gs| <= |parts|
    decreases |parts|
  {
    if |parts| == 0 then []
    else
      var isim := IsimKismi(parts[|parts| - 1]);
      Parcalar(parts[..|parts| - 1]) + (if |isim| > 0 then [AdAyir(isim)] else [])
  }

  /** The invigilators listed for a room, as the seating sheet reads them
      from a text such as "Ad Soyad (Asıl), Ad2 Soyad2 (Yedek)". */
  function GozetmenListesi(s: string): (gs: seq<GozetmenAdi>)
    ensures s == "" ==> gs == []
    ensures |gs| <= |Split(s, ',')|
  {
    if s == "" then [] else Parcalar(Map(Split(s, ','), Strip))
  }

  /** The sheet prints at least three invigilator rows, and one per listed
      invigilator beyond that. */
  function GozetmenSatirSayisi(s: string): (n: nat)
    ensures n >= 3 && n >= |GozetmenListesi(s)|
    ensures n == 3 || n == |GozetmenListesi(s)|
  {
    var k := |GozetmenListesi(s)|;
    if k > 3 then k else 3
  }

  /** The whitespace tokens of a non-empty string. */
  lemma TokensOfNonEmpty(s: string)
    requires |Strip(s)| > 0
    ensures |SplitWhitespace(s)| > 0
  {
    var t := LStripBy(s, IsSpace);
    if |t| == 0 {
      StripBySlice(s, IsSpace);
    }
  }

  /** Every row has a first name, and a surname that is empty or a single
      whitespace-free token. */
  lemma GozetmenAdiShape(s: string)
    ensures forall i | 0 <= i < |GozetmenListesi(s)| ::
      |GozetmenListesi(s)[i].ad| > 0 &&
      forall j | 0 <= j < |GozetmenListesi(s)[i].soyad| :: !IsSpace(GozetmenListesi(s)[i].soyad[j])
  {
    if s != "" {
      ParcalarShape(Map(Split(s, ','), Strip));
    }
  }

  lemma {:induction false} ParcalarShape(parts: seq<string>)
    ensures forall i | 0 <= i < |Parcalar(parts)| ::
      |Parcalar(parts)[i].ad| > 0 &&
      forall j | 0 <= j < |Parcalar(parts)[i].soyad| :: !IsSpace(Parcalar(parts)[i].soyad[j])
    decreases |parts|
  {
    if |parts| > 0 {
      ParcalarShape(parts[..|parts| - 1]);
      var isim := IsimKismi(parts[|parts| - 1]);
      if |isim| > 0 {
        AdAyirShape(isim);
      }
    }
  }

  lemma AdAyirShape(isim: string)
    requires |isim| > 0
    ensures |AdAyir(isim).ad| > 0
    ensures forall j | 0 <= j < |AdAyir(isim).soyad| :: !IsSpace(AdAyir(isim).soyad[j])
  {
    var t := SplitWhitespace(isim);
    if |t| >= 2 {
      JoinNonEmpty(t[..|t| - 1], " ");
    }
  }

  lemma JoinNonEmpty(parts: seq<string>, sep: string)
    requires |parts| > 0 && |parts[0]| > 0
    ensures |Join(parts, sep)| > 0
  {
  }

  // ------------------------------------- the invigilator round trip

  /** A word of a name: non-empty, no whitespace, no ',' and no '('. */
  predicate Kelime(w: string) {
    |w| > 0 && forall j | 0 <= j < |w| :: !IsSpace(w[j]) && w[j] != ',' && w[j] != '('
  }

  /** An invigilator with their duty, as the room's invigilator text lists
      them. */
  datatype Gorevli = Gorevli(adlar: seq<string>, soyad: string, gorev: string)

  predicate Yazilabilir(g: Gorevli) {
    && |g.adlar| > 0 && (forall i | 0 <= i < |g.adlar| :: Kelime(g.adlar[i]))
    && Kelime(g.soyad) && ',' !in g.gorev
  }

  /** "Ad Soyad (Görev)". */
  function GorevliMetni(g: Gorevli): string {
    Join(g.adlar, " ") + " " + g.soyad + " (" + g.gorev + ")"
  }

  function GorevliAdi(g: Gorevli): GozetmenAdi {
    GozetmenAdi(Join(g.adlar, " "), g.soyad)
  }

  /** The entries of the documented invigilator text. */
  function GorevliListesi(gs: seq<Gorevli>): string {
    Join(Map(gs, GorevliMetni), ", ")
  }

  /** Reading the documented invigilator text gives back every
      invigilator's first names and surname, in order. */
  lemma GozetmenListesiRoundTrip(gs: seq<Gorevli>)
    requires forall i | 0 <= i < |gs| :: Yazilabilir(gs[i])
    ensures GozetmenListesi(GorevliListesi(gs)) == Map(gs, GorevliAdi)
  {
    if |gs| > 0 {
      EntriesParts(gs);
      ParcalarOfEntries(gs);
    }
  }

  /** The stripped comma-separated parts of the text are the entries. */
  lemma EntriesParts(gs: seq<Gorevli>)
    requires |gs| > 0 && forall i | 0 <= i < |gs| :: Yazilabilir(gs[i])
    ensures GorevliListesi(gs) != ""
    ensures Map(Split(GorevliListesi(gs), ','), Strip) == Map(gs, GorevliMetni)
  {
    var es := Map(gs, GorevliMetni);
    forall i | 0 <= i < |es| ensures ',' !in es[i] && Strip(es[i]) == es[i] {
      EntryFacts(gs[i]);
    }
    assert |es[0]| > 0;
    PartsAreEntries(es);
  }

  /** Comma-free stripped entries, non-empty at the front, come back from
      their ", "-joined text. */
  lemma PartsAreEntries(es: seq<string>)
    requires |es| > 0 && |es[0]| > 0
    requires forall i | 0 <= i < |es| :: ',' !in es[i] && Strip(es[i]) == es[i]
    ensures Join(es, ", ") != ""
    ensures Map(Split(Join(es, ", "), ','), Strip) == es
  {
    SplitCommaJoin(es);
    var parts := Map(Split(Join(es, ", "), ','), Strip);
    forall i | 0 <= i < |es| ensures parts[i] == es[i] {
    }
    JoinFirst(es, ", ");
  }

  /** The first part of a join is a prefix of it. */
  lemma JoinFirst(parts: seq<string>, sep: string)
    requires |parts| > 0
    ensures |Join(parts, sep)| >= |parts[0]|
  {
  }

  /** An entry holds no comma, has no whitespace at its ends, and its name
      part is the first names and the surname. */
  lemma EntryFacts(g: Gorevli)
    requires Yazilabilir(g)
    ensures ',' !in GorevliMetni(g) && Strip(GorevliMetni(g)) == GorevliMetni(g)
    ensures IsimKismi(GorevliMetni(g)) == Join(g.adlar, " ") + " " + g.soyad
  {
    var ad := Join(g.adlar, " ");
    JoinWordsFacts(g.adlar);
    var head := ad + " " + g.soyad + " ";
    HeadFree(ad, g.soyad);
    var e := GorevliMetni(g);
    assert e == head + ['('] + (g.gorev + ")");
    EntryNoComma(head, g.gorev);
    assert e[0] == ad[0] && e[|e| - 1] == ')';
    StripKeeps(e);
    SplitAfter(head, g.gorev + ")", '(');
    var name := ad + " " + g.soyad;
    assert head == name + " ";
    assert name[0] == ad[0];
    assert name[|name| - 1] == g.soyad[|g.soyad| - 1];
    StripTrailingSpace(name);
  }

  /** "first names surname " holds neither ',' nor '('. */
  lemma HeadFree(ad: string, soyad: string)
    requires forall k | 0 <= k < |ad| :: ad[k] != ',' && ad[k] != '('
    requires Kelime(soyad)
    ensures var head := ad + " " + soyad + " "; ',' !in head && '(' !in head
  {
    var head := ad + " " + soyad + " ";
    forall j | 0 <= j < |head| ensures head[j] != ',' && head[j] != '(' {
      if j < |ad| {
        assert head[j] == ad[j];
      } else if |ad| < j < |ad| + 1 + |soyad| {
        assert head[j] == soyad[j - |ad| - 1];
      }
    }
  }

  lemma EntryNoComma(head: string, gorev: string)
    requires ',' !in head && ',' !in gorev
    ensures ',' !in head + ['('] + (gorev + ")")
  {
    var e := head + ['('] + (gorev + ")");
    forall j | 0 <= j < |e| ensures e[j] != ',' {
      if j < |head| {
        assert e[j] == head[j];
      } else if |head| < j < |head| + 1 + |gorev| {
        assert e[j] == gorev[j - |head| - 1];
      }
    }
  }

  /** Words joined by single spaces: non-empty, starting and ending with a
      non-space, free of ',' and '('. */
  lemma {:induction false} JoinWordsFacts(ws: seq<string>)
    requires |ws| > 0 && forall i | 0 <= i < |ws| :: Kelime(ws[i])
    ensures var j := Join(ws, " ");
      && |j| > 0 && !IsSpace(j[0]) && !IsSpace(j[|j| - 1])
      && j[0] == ws[0][0]
      && forall k | 0 <= k < |j| :: j[k] != ',' && j[k] != '('
    decreases |ws|
  {
    if |ws| > 1 {
      JoinWordsFacts(ws[1..]);
      var r := Join(ws[1..], " ");
      var j := Join(ws, " ");
      assert j == ws[0] + " " + r;
      forall k | 0 <= k < |j| ensures j[k] != ',' && j[k] != '(' {
        if k < |ws[0]| { assert j[k] == ws[0][k]; }
        else if k > |ws[0]| { assert j[k] == r[k - |ws[0]| - 1]; }
      }
      assert j[|j| - 1] == r[|r| - 1];
    }
  }

  /** Stripping a name followed by one space gives the name. */
  lemma StripTrailingSpace(name: string)
    requires |name| > 0 && !IsSpace(name[0]) && !IsSpace(name[|name| - 1])
    ensures Strip(name + " ") == name
  {
    var s := name + " ";
    LStripByKept(s, IsSpace);
    assert s[..|s| - 1] == name;
    assert RStripBy(s, IsSpace) == RStripBy(name, IsSpace);
    RStripByKept(name, IsSpace);
  }

  /** `split` at the first separator. */
  lemma SplitAfter(a: string, b: string, c: char)
    requires c !in a
    ensures Split(a + [c] + b, c) == [a] + Split(b, c)
  {
    var s := a + [c] + b;
    assert s[..|a|] == a;
    assert s[|a|] == c;
    assert IndexOf(s, c) == Some(|a|);
    assert s[|a| + 1..] == b;
  }

  /** A prefix without the separator extends the first part only. */
  lemma SplitLead(w: string, s: string, c: char)
    requires c !in w
    ensures Split(w + s, c) == [w + Split(s, c)[0]] + Split(s, c)[1..]
  {
    IndexOfAfter(w, s, c);
    match IndexOf(s, c)
    case None =>
    case Some(k) =>
      ConcatSlices(w, s, k);
  }

  lemma ConcatSlices<T>(w: seq<T>, s: seq<T>, k: nat)
    requires k < |s|
    ensures (w + s)[..|w| + k] == w + s[..k]
    ensures (w + s)[|w| + k + 1..] == s[k + 1..]
  {
  }

  /** A leading space does not survive `strip`. */
  lemma StripLeadingSpace(x: string)
    ensures Strip(" " + x) == Strip(x)
  {
    assert " " + x == [' '] + x;
    LStripByDropped(' ', x, IsSpace);
  }

  /** Splitting the ", "-joined entries at the commas gives the entries
      back up to surrounding whitespace. */
  lemma {:induction false} SplitCommaJoin(es: seq<string>)
    requires |es| > 0 && forall i | 0 <= i < |es| :: ',' !in es[i]
    ensures |Split(Join(es, ", "), ',')| == |es|
    ensures forall i | 0 <= i < |es| :: Strip(Split(Join(es, ", "), ',')[i]) == Strip(es[i])
    decreases |es|
  {
    if |es| > 1 {
      var j := Join(es[1..], ", ");
      SplitCommaJoin(es[1..]);
      SplitCommaStep(es[0], j);
      var sp := Split(Join(es, ", "), ',');
      var sj := Split(j, ',');
      assert Join(es, ", ") == es[0] + ", " + j;
      forall i | 0 <= i < |es| ensures Strip(sp[i]) == Strip(es[i]) {
        if i > 1 {
          assert sp[i] == sj[i - 1] && es[i] == es[1..][i - 1];
        } else if i == 1 {
          assert sp[1] == " " + sj[0] && es[1] == es[1..][0];
          StripLeadingSpace(sj[0]);
        }
      }
    } else {
      assert Join(es, ", ") == es[0];
    }
  }

  /** Splitting "e, rest" at the commas. */
  lemma SplitCommaStep(e: string, rest: string)
    requires ',' !in e
    ensures var sp := Split(e + ", " + rest, ','); var sr := Split(rest, ',');
      sp == [e, " " + sr[0]] + sr[1..]
  {
    assert e + ", " + rest == e + [','] + (" " + rest);
    SplitAfter(e, " " + rest, ',');
    SplitLead(" ", rest, ',');
  }

  /** Each documented entry yields its invigilator's row. */
  lemma {:induction false} ParcalarOfEntries(gs: seq<Gorevli>)
    requires forall i | 0 <= i < |gs| :: Yazilabilir(gs[i])
    ensures Parcalar(Map(gs, GorevliMetni)) == Map(gs, GorevliAdi)
    decreases |gs|
  {
    if |gs| > 0 {
      var init := gs[..|gs| - 1];
      var g := gs[|gs| - 1];
      ParcalarOfEntries(init);
      assert Map(gs, GorevliMetni)[..|gs| - 1] == Map(init, GorevliMetni);
      EntryFacts(g);
      var name := Join(g.adlar, " ") + " " + g.soyad;
      AdAyirOfWords(g.adlar, g.soyad);
      assert |name| > 0;
    }
  }

  /** Splitting "first names surname" gives the first names and the
      surname back. */
  lemma AdAyirOfWords(ws: seq<string>, soyad: string)
    requires |ws| > 0 && (forall i | 0 <= i < |ws| :: Kelime(ws[i])) && Kelime(soyad)
    ensures |Join(ws, " ") + " " + soyad| > 0
    ensures AdAyir(Join(ws, " ") + " " + soyad) == GozetmenAdi(Join(ws, " "), soyad)
  {
    var t := ws + [soyad];
    forall i | 0 <= i < |t| ensures Kelime(t[i]) {
      if i < |ws| { assert t[i] == ws[i]; }
    }
    JoinSnoc(ws, soyad, " ");
    SplitWhitespaceWords(t);
    assert t[..|t| - 1] == ws;
  }

  lemma {:induction false} JoinSnoc(ws: seq<string>, last: string, sep: string)
    requires |ws| > 0
    ensures Join(ws + [last], sep) == Join(ws, sep) + sep + last
    decreases |ws|
  {
    if |ws| > 1 {
      JoinSnoc(ws[1..], last, sep);
      assert (ws + [last])[1..] == ws[1..] + [last];
    } else {
      assert (ws + [last])[1..] == [last];
    }
  }

  /** Splitting words joined by single spaces gives the words back. */
  lemma {:induction false} SplitWhitespaceWords(ws: seq<string>)
    requires |ws| > 0 && forall i | 0 <= i < |ws| :: Kelime(ws[i])
    ensures SplitWhitespace(Join(ws, " ")) == ws
    decreases |ws|
  {
    if |ws| == 1 {
      SplitWhitespaceWord(ws[0]);
      HeadTail(ws);
    } else {
      var tl := ws[1..];
      assert forall i | 0 <= i < |tl| :: Kelime(tl[i]) by {
        assert forall i | 0 <= i < |tl| :: tl[i] == ws[i + 1];
      }
      SplitWhitespaceWords(tl);
      SplitWhitespaceCons(ws[0], Join(tl, " "));
      assert Join(ws, " ") == ws[0] + " " + Join(tl, " ");
      HeadTail(ws);
    }
  }

  lemma SplitWhitespaceWord(w: string)
    requires Kelime(w)
    ensures SplitWhitespace(w) == [w]
  {
    SplitWhitespaceStep(w);
    FirstSpaceOfWord(w);
  }

  lemma SplitWhitespaceCons(w: string, r: string)
    requires Kelime(w)
    ensures SplitWhitespace(w + " " + r) == [w] + SplitWhitespace(r)
  {
    var s, rest := w + " " + r, " " + r;
    assert s == w + rest;
    assert FirstSpace(s) == |w| by {
      FirstSpaceAfterWord(w, rest);
    }
    assert s[..|w|] == w && s[|w|..] == rest;
    SplitWhitespaceStep(s);
    SplitWhitespaceLeadingSpace(r);
  }

  lemma SplitWhitespaceLeadingSpace(r: string)
    ensures SplitWhitespace(" " + r) == SplitWhitespace(r)
  {
    assert " " + r == [' '] + r;
    SplitWhitespaceDropped(' ', r);
  }

  lemma {:induction false} FirstSpaceOfWord(w: string)
    requires forall j | 0 <= j < |w| :: !IsSpace(w[j])
    ensures FirstSpace(w) == |w|
    decreases |w|
  {
    if |w| > 0 {
      FirstSpaceOfWord(w[1..]);
    }
  }

  lemma {:induction false} FirstSpaceAfterWord(w: string, rest: string)
    requires forall j | 0 <= j < |w| :: !IsSpace(w[j])
    requires |rest| > 0 && IsSpace(rest[0])
    ensures FirstSpace(w + rest) == |w|
    decreases |w|
  {
    if |w| > 0 {
      assert (w + rest)[1..] == w[1..] + rest;
      FirstSpaceAfterWord(w[1..], rest);
    } else {
      assert w + rest == rest;
    }
  }
}

=== FILE: invigilators.dfy ===
/** The invigilator assigner (`GozetmenAtamaEngine.otomatik_ata`): rooms
    are served in order, each taking the next `per` invigilators in turn;
    the first invigilator of a room is its main one, the others reserves. */
module Invigilators {
  import opened Seqs

  datatype Gorev = Asil | Yedek

  datatype Atama = Atama(gozetmenId: int, salonId: int, gorev: Gorev)

  datatype AtamaHata =
    | SalonListesiBos
    | GozetmenListesiBos
    | YetersizGozetmen(ihtiyac: int, mevcut: nat)

  function Min(a: int, b: int): int {
    if a <= b then a else b
  }

  lemma PositiveFactor(a: nat, b: int)
    requires a * b > 0
    ensures b > 0
  {
  }

  /** How many rooms are served: all of them when there are enough
      invigilators, otherwise as many as can be fully staffed, but at least
      one. */
  function AtanabilirSayisi(salonSayisi: nat, gozetmenSayisi: nat, per: int): (k: int)
    ensures gozetmenSayisi >= salonSayisi * per ==> k == salonSayisi
    ensures gozetmenSayisi < salonSayisi * per ==>
      && 1 <= k <= salonSayisi
      && (k == 1 || k * per <= gozetmenSayisi)
      && (gozetmenSayisi >= per ==> (k + 1) * per > gozetmenSayisi)
  {
    if gozetmenSayisi < salonSayisi * per then
      Quotient(gozetmenSayisi, salonSayisi, per);
      var q := gozetmenSayisi / per;
      if q == 0 then 1 else q
    else
      salonSayisi
  }

  /** Fewer than `n * per` invigilators staff fewer than `n` rooms fully. */
  lemma Quotient(g: nat, n: nat, per: int)
    requires g < n * per
    ensures per > 0 && g / per < n
    ensures (g / per) * per <= g < (g / per + 1) * per
  {
    PositiveFactor(n, per);
    var q := g / per;
    assert q * per <= g < q * per + per;
    assert (q + 1) * per == q * per + per;
    LessFactor(q, n, per);
  }

  lemma LessFactor(a: int, b: int, c: int)
    requires c > 0 && a * c < b * c
    ensures a < b
  {
  }

  /** The invigilators a room takes: `per` of what is left, or all of it. */
  function Take(per: int, left: nat): (n: nat)
    ensures n <= left
  {
    if per <= 0 then 0 else Min(per, left)
  }

  /** A room's block: its invigilators in order, the first as main. */
  function RoomBlock(salonId: int, gs: seq<int>): seq<Atama> {
    seq(|gs|, j requires 0 <= j < |gs| => Atama(gs[j], salonId, if j == 0 then Asil else Yedek))
  }

  lemma RoomBlockSnoc(salonId: int, gs: seq<int>, g: int)
    ensures RoomBlock(salonId, gs + [g])
      == RoomBlock(salonId, gs) + [Atama(g, salonId, if |gs| == 0 then Asil else Yedek)]
  {
  }

  /** The reference schedule: the first room takes its block from the front
      of the list, the remaining rooms share out the rest. */
  function Plan(salonIds: seq<int>, gozetmenIds: seq<int>, per: int): seq<Atama>
    decreases |salonIds|
  {
    if |salonIds| == 0 then []
    else
      var n := Take(per, |gozetmenIds|);
      RoomBlock(salonIds[0], gozetmenIds[..n]) + Plan(salonIds[1..], gozetmenIds[n..], per)
  }

  /** `otomatik_ata`. Room and invigilator records are given by their ids. */
  method OtomatikAta(salonIds: seq<int>, gozetmenIds: seq<int>, per: int)
    returns (atamalar: seq<Atama>, hatalar: seq<AtamaHata>)
    ensures |salonIds| == 0 ==> atamalar == [] && hatalar == [SalonListesiBos]
    ensures |salonIds| > 0 && |gozetmenIds| == 0 ==> atamalar == [] && hatalar == [GozetmenListesiBos]
    ensures |salonIds| > 0 && |gozetmenIds| > 0 ==>
      && hatalar == (if |gozetmenIds| < |salonIds| * per
                     then [YetersizGozetmen(|salonIds| * per, |gozetmenIds|)] else [])
      && atamalar == Plan(salonIds[..AtanabilirSayisi(|salonIds|, |gozetmenIds|, per)], gozetmenIds, per)
  {
    if |salonIds| == 0 {
      return [], [SalonListesiBos];
    }
    if |gozetmenIds| == 0 {
      return [], [GozetmenListesiBos];
    }
    var ihtiyac := |salonIds| * per;
    hatalar := if |gozetmenIds| < ihtiyac then [YetersizGozetmen(ihtiyac, |gozetmenIds|)] else [];
    var served := salonIds[..AtanabilirSayisi(|salonIds|, |gozetmenIds|, per)];
    atamalar := TakeTurns(served, gozetmenIds, per);
  }

  /** The loop of `otomatik_ata`: the served rooms take their turns in
      order, each from where the previous one stopped. */
  method TakeTurns(served: seq<int>, gozetmenIds: seq<int>, per: int) returns (atamalar: seq<Atama>)
    ensures atamalar == Plan(served, gozetmenIds, per)
  {
    atamalar := [];
    var index := 0;
    var i := 0;
    while i < |served|
      invariant 0 <= i <= |served| && 0 <= index <= |gozetmenIds|
      invariant atamalar + Plan(served[i..], gozetmenIds[index..], per) == Plan(served, gozetmenIds, per)
    {
      var block, next := RoomTurn(served[i], gozetmenIds, per, index);
      var rest := Plan(served[i + 1..], gozetmenIds[next..], per);
      PlanStep(served, gozetmenIds, per, i, index);
      assert Plan(served[i..], gozetmenIds[index..], per) == block + rest;
      ConcatAssoc(atamalar, block, rest);
      atamalar := atamalar + block;
      index := next;
      i := i + 1;
    }
    assert served[i..] == [];
  }

  /** One room's turn: up to `per` invigilators from position `start` on,
      while any are left. */
  method RoomTurn(salonId: int, gozetmenIds: seq<int>, per: int, start: int)
    returns (block: seq<Atama>, index: int)
    requires 0 <= start <= |gozetmenIds|
    ensures index == start + Take(per, |gozetmenIds| - start)
    ensures block == RoomBlock(salonId, gozetmenIds[start..index])
  {
    block := [];
    index := start;
    var j := 0;
    while j < per
      invariant start <= index <= |gozetmenIds|
      invariant 0 <= j && index - start == Min(j, |gozetmenIds| - start)
      invariant per > 0 ==> j <= per
      invariant per <= 0 ==> j == 0
      invariant block == RoomBlock(salonId, gozetmenIds[start..index])
    {
      if index < |gozetmenIds| {
        assert index - start == j;
        assert gozetmenIds[start..index + 1] == gozetmenIds[start..index] + [gozetmenIds[index]];
        RoomBlockSnoc(salonId, gozetmenIds[start..index], gozetmenIds[index]);
        block := block + [Atama(gozetmenIds[index], salonId, if j == 0 then Asil else Yedek)];
        index := index + 1;
      }
      j := j + 1;
    }
  }

  /** One turn of the room loop: room `i` takes its block from position
      `start` on, and the later rooms share out what follows. */
  lemma PlanStep(served: seq<int>, gs: seq<int>, per: int, i: int, start: int)
    requires 0 <= i < |served| && 0 <= start <= |gs|
    ensures var n := Take(per, |gs| - start);
      Plan(served[i..], gs[start..], per)
        == RoomBlock(served[i], gs[start..start + n]) + Plan(served[i + 1..], gs[start + n..], per)
  {
    var n := Take(per, |gs| - start);
    assert served[i..][0] == served[i];
    assert served[i..][1..] == served[i + 1..];
    assert gs[start..][..n] == gs[start..start + n];
    assert gs[start..][n..] == gs[start + n..];
  }

  // ------------------------------------------------------------ properties

  function GozetmenOf(a: Atama): int {
    a.gozetmenId
  }

  function SalonOf(a: Atama): int {
    a.salonId
  }

  /** The schedule takes the invigilators from the front of the list, in
      order and each once. */
  lemma {:induction false} PlanUsesPrefix(salonIds: seq<int>, gozetmenIds: seq<int>, per: int)
    ensures |Plan(salonIds, gozetmenIds, per)| <= |gozetmenIds|
    ensures Map(Plan(salonIds, gozetmenIds, per), GozetmenOf)
      == gozetmenIds[..|Plan(salonIds, gozetmenIds, per)|]
    decreases |salonIds|
  {
    if |salonIds| > 0 {
      var n := Take(per, |gozetmenIds|);
      var block := RoomBlock(salonIds[0], gozetmenIds[..n]);
      var rest := Plan(salonIds[1..], gozetmenIds[n..], per);
      PlanUsesPrefix(salonIds[1..], gozetmenIds[n..], per);
      assert Plan(salonIds, gozetmenIds, per) == block + rest;
      assert Map(block, GozetmenOf) == gozetmenIds[..n] by {
        RoomBlockRoles(salonIds[0], gozetmenIds[..n]);
      }
      MapConcat(block, rest, GozetmenOf);
      PrefixJoin(gozetmenIds, n, |rest|);
    }
  }

  /** The number of assignments: `per` for every room, cut off when the
      invigilators run out. */
  lemma {:induction false} PlanLength(salonIds: seq<int>, gozetmenIds: seq<int>, per: int)
    ensures |Plan(salonIds, gozetmenIds, per)| == (if per <= 0 then 0 else Min(|gozetmenIds|, |salonIds| * per))
    decreases |salonIds|
  {
    if |salonIds| > 0 {
      var n := Take(per, |gozetmenIds|);
      PlanLength(salonIds[1..], gozetmenIds[n..], per);
      if per > 0 {
        assert |salonIds| * per == per + (|salonIds| - 1) * per;
      }
    }
  }

  /** Every assignment is to one of the given rooms. */
  lemma {:induction false} PlanRooms(salonIds: seq<int>, gozetmenIds: seq<int>, per: int)
    ensures forall a | a in Plan(salonIds, gozetmenIds, per) :: a.salonId in salonIds
    decreases |salonIds|
  {
    if |salonIds| > 0 {
      var n := Take(per, |gozetmenIds|);
      PlanRooms(salonIds[1..], gozetmenIds[n..], per);
    }
  }

  /** With distinct room ids, the assignments of the `k`-th room are at most
      `per` invigilators, the first of them main and the others reserves. */
  lemma {:induction false} PlanRoomShare(salonIds: seq<int>, gozetmenIds: seq<int>, per: int, k: int)
    requires DistinctBy(salonIds, (x: int) => x)
    requires 0 <= k < |salonIds|
    ensures var mine := Filter(Plan(salonIds, gozetmenIds, per), KeyIs(SalonOf, salonIds[k]));
      && |mine| <= Take(per, |gozetmenIds|)
      && forall j | 0 <= j < |mine| :: (mine[j].gorev == Asil <==> j == 0)
    decreases |salonIds|
  {
    var n := Take(per, |gozetmenIds|);
    var block := RoomBlock(salonIds[0], gozetmenIds[..n]);
    var rest := Plan(salonIds[1..], gozetmenIds[n..], per);
    var p := KeyIs(SalonOf, salonIds[k]);
    var mine := Filter(Plan(salonIds, gozetmenIds, per), p);
    assert mine == Filter(block, p) + Filter(rest, p) by {
      assert Plan(salonIds, gozetmenIds, per) == block + rest;
      FilterConcat(block, rest, p);
    }
    DistinctTail(salonIds);
    if k == 0 {
      FirstRoomShare(salonIds, gozetmenIds, per);
      assert mine == block;
      RoomBlockRoles(salonIds[0], gozetmenIds[..n]);
    } else {
      assert Filter(block, p) == [] by {
        assert salonIds[0] != salonIds[k];
        forall i | 0 <= i < |block| ensures !p(block[i]) {
          KeyIsApply(SalonOf, salonIds[k], block[i]);
        }
        FilterNone(block, p);
      }
      assert mine == Filter(rest, p);
      PlanRoomShare(salonIds[1..], gozetmenIds[n..], per, k - 1);
      assert salonIds[1..][k - 1] == salonIds[k];
      assert Take(per, |gozetmenIds[n..]|) <= Take(per, |gozetmenIds|);
    }
  }

  /** A room's block holds one main invigilator, first, and reserves after. */
  lemma RoomBlockRoles(salonId: int, gs: seq<int>)
    ensures |RoomBlock(salonId, gs)| == |gs|
    ensures forall j | 0 <= j < |gs| :: (RoomBlock(salonId, gs)[j].gorev == Asil <==> j == 0)
  {
  }

  lemma DistinctTail(salonIds: seq<int>)
    requires |salonIds| > 0 && DistinctBy(salonIds, (x: int) => x)
    ensures DistinctBy(salonIds[1..], (x: int) => x)
    ensures salonIds[0] !in salonIds[1..]
  {
    forall i, j | 0 <= i < j < |salonIds[1..]| ensures salonIds[1..][i] != salonIds[1..][j] {
      assert salonIds[1..][i] == salonIds[i + 1] && salonIds[1..][j] == salonIds[j + 1];
    }
  }

  /** The first room's assignments are exactly its own block. */
  lemma FirstRoomShare(salonIds: seq<int>, gozetmenIds: seq<int>, per: int)
    requires |salonIds| > 0 && salonIds[0] !in salonIds[1..]
    ensures var n := Take(per, |gozetmenIds|);
      Filter(RoomBlock(salonIds[0], gozetmenIds[..n]), KeyIs(SalonOf, salonIds[0]))
        == RoomBlock(salonIds[0], gozetmenIds[..n])
    ensures var n := Take(per, |gozetmenIds|);
      Filter(Plan(salonIds[1..], gozetmenIds[n..], per), KeyIs(SalonOf, salonIds[0])) == []
  {
    var n := Take(per, |gozetmenIds|);
    var p := KeyIs(SalonOf, salonIds[0]);
    var rest := Plan(salonIds[1..], gozetmenIds[n..], per);
    var block := RoomBlock(salonIds[0], gozetmenIds[..n]);
    forall i | 0 <= i < |block| ensures p(block[i]) {
      KeyIsApply(SalonOf, salonIds[0], block[i]);
    }
    FilterAll(block, p);
    PlanRooms(salonIds[1..], gozetmenIds[n..], per);
    forall i | 0 <= i < |rest| ensures !p(rest[i]) {
      assert rest[i] in rest;
      KeyIsApply(SalonOf, salonIds[0], rest[i]);
    }
    FilterNone(rest, p);
  }
}

=== FILE: models.dfy ===
/** The entity classes' own rules: the validations and normalisations run
    when an object is built, the room capacity helpers, and the display
    strings of a seat and of a pinned student's position. */
module Models {
  import opened Wrappers
  import opened Text
  import opened Seqs
  import opened Constants

  /** Why building an entity was refused (the `ValueError` raised). */
  datatype ModelError =
    | GradeOutOfRange          // "Sınıf 5-12 arasında olmalı!"
    | BadIdNumberLength        // "TC No 11 haneli olmalı!"
    | NoGradeLevels            // "En az bir sınıf seviyesi seçilmeli!"
    | InvalidGradeLevel(level: int)  // "Geçersiz sınıf seviyesi: …"
    | NonPositiveCapacity      // "Kapasite 0'dan büyük olmalı!"

  // --------------------------------------------------------------- Ogrenci

  datatype Ogrenci = Ogrenci(ad: string, soyad: string, sinif: int, sube: string, tcNo: Option<string>)

  /** The national id number length a student record must have when given. */
  const TC_LENGTH: nat := 11

  predicate GradeInRange(g: int) {
    MIN_SINIF <= g <= MAX_SINIF
  }

  /** A present, non-empty id number of the wrong length is refused. */
  predicate BadIdNumber(tcNo: Option<string>) {
    tcNo.Some? && tcNo.value != "" && |tcNo.value| != TC_LENGTH
  }

  /** `Ogrenci(...)`: the first name is stripped and title-cased, the
      surname stripped and upper-cased, the branch upper-cased; the grade is
      checked before the id number. */
  function NewOgrenci(ad: string, soyad: string, sinif: int, sube: string, tcNo: Option<string>)
    : (r: Result<Ogrenci, ModelError>)
    ensures r.Ok? <==> GradeInRange(sinif) && !BadIdNumber(tcNo)
    ensures !GradeInRange(sinif) ==> r == Err(GradeOutOfRange)
    ensures GradeInRange(sinif) && BadIdNumber(tcNo) ==> r == Err(BadIdNumberLength)
    ensures r.Ok? ==> r.value.sinif == sinif && r.value.tcNo == tcNo
  {
    if !GradeInRange(sinif) then Err(GradeOutOfRange)
    else if BadIdNumber(tcNo) then Err(BadIdNumberLength)
    else Ok(Ogrenci(Title(Strip(ad)), Upper(Strip(soyad)), sinif, Upper(sube), tcNo))
  }

  /** A built student's names are stripped, and the surname and branch
      hold no lower-case letter. */
  lemma NewOgrenciNormalised(ad: string, soyad: string, sinif: int, sube: string, tcNo: Option<string>)
    requires NewOgrenci(ad, soyad, sinif, sube, tcNo).Ok?
    ensures var o := NewOgrenci(ad, soyad, sinif, sube, tcNo).value;
      && Strip(o.ad) == o.ad && Strip(o.soyad) == o.soyad
      && (forall i | 0 <= i < |o.soyad| :: !IsLowerCase(o.soyad[i]))
      && (forall i | 0 <= i < |o.sube| :: !IsLowerCase(o.sube[i]))
  {
    NormalisedFields(ad, soyad, sube);
  }

  /** Building a student from an already built student's fields (as
      `from_dict` does with a stored record) gives back the same student:
      the normalisation is idempotent. */
  lemma NewOgrenciIdempotent(ad: string, soyad: string, sinif: int, sube: string, tcNo: Option<string>)
    requires NewOgrenci(ad, soyad, sinif, sube, tcNo).Ok?
    ensures var o := NewOgrenci(ad, soyad, sinif, sube, tcNo).value;
      NewOgrenci(o.ad, o.soyad, o.sinif, o.sube, o.tcNo) == Ok(o)
  {
    NormalisedFields(ad, soyad, sube);
  }

  /** The normalised name fields are stripped, keep no lower-case letter
      where upper-cased, and normalise to themselves. */
  lemma NormalisedFields(ad: string, soyad: string, sube: string)
    ensures var a, s := Title(Strip(ad)), Upper(Strip(soyad));
      && Strip(a) == a && Strip(s) == s
      && Title(Strip(a)) == a && Upper(Strip(s)) == s && Upper(Upper(sube)) == Upper(sube)
      && (forall i | 0 <= i < |s| :: !IsLowerCase(s[i]))
      && (forall i | 0 <= i < |Upper(sube)| :: !IsLowerCase(Upper(sube)[i]))
  {
    var a := Strip(ad);
    var s := Strip(soyad);
    StripByIdempotent(ad, IsSpace);
    StripByIdempotent(soyad, IsSpace);
    TitleOfStripped(a);
    UpperOfStripped(s);
    UpperNormalises(s);
    UpperNormalises(sube);
  }

  // ------------------------------------------------------------------ Ders

  datatype Ders = Ders(dersAdi: string, sinifSeviyeleri: seq<int>)

  /** `l` stands at a position of `levels` before which every level is in
      range. */
  ghost predicate FirstOutOfRange(levels: seq<int>, l: int) {
    exists i | 0 <= i < |levels| :: levels[i] == l && forall j | 0 <= j < i :: GradeInRange(levels[j])
  }

  /** The first grade level outside MIN_SINIF..MAX_SINIF, if any. */
  function FirstInvalidLevel(levels: seq<int>): (r: Option<int>)
    ensures r.None? <==> forall i | 0 <= i < |levels| :: GradeInRange(levels[i])
    ensures r.Some? ==> r.value in levels && !GradeInRange(r.value)
    ensures r.Some? ==> FirstOutOfRange(levels, r.value)
  {
    if |levels| == 0 then None
    else if !GradeInRange(levels[0]) then Some(levels[0])
    else
      var r := FirstInvalidLevel(levels[1..]);
      assert forall i | 1 <= i < |levels| :: levels[i] == levels[1..][i - 1];
      if r.Some? then
        var k :| 0 <= k < |levels[1..]| && levels[1..][k] == r.value
                 && forall j | 0 <= j < k :: GradeInRange(levels[1..][j]);
        assert levels[k + 1] == r.value;
        assert forall j | 0 <= j < k + 1 :: GradeInRange(levels[j]) by {
          forall j | 0 <= j < k + 1 ensures GradeInRange(levels[j]) {
            if j > 0 {
              assert levels[j] == levels[1..][j - 1];
            }
          }
        }
        r
      else r
  }

  /** `Ders(...)`: the name is stripped; an empty level list is refused,
      then the first out-of-range level. */
  function NewDers(dersAdi: string, levels: seq<int>): (r: Result<Ders, ModelError>)
    ensures r.Ok? <==> |levels| > 0 && forall i | 0 <= i < |levels| :: GradeInRange(levels[i])
    ensures |levels| == 0 ==> r == Err(NoGradeLevels)
    ensures r.Err? && |levels| > 0 ==>
      r.error.InvalidGradeLevel? && r.error.level in levels && !GradeInRange(r.error.level)
    ensures r.Err? && |levels| > 0 ==> FirstOutOfRange(levels, r.error.level)
    ensures r.Ok? ==> r.value.sinifSeviyeleri == levels && Strip(r.value.dersAdi) == r.value.dersAdi
  {
    StripByIdempotent(dersAdi, IsSpace);
    if |levels| == 0 then Err(NoGradeLevels)
    else match FirstInvalidLevel(levels)
      case Some(l) => Err(InvalidGradeLevel(l))
      case None => Ok(Ders(Strip(dersAdi), levels))
  }

  /** `sinif_alabilir_mi`: membership in the course's level list. */
  function SinifAlabilirMi(d: Ders, sinif: int): (ok: bool)
    ensures ok <==> exists i | 0 <= i < |d.sinifSeviyeleri| :: d.sinifSeviyeleri[i] == sinif
  {
    sinif in d.sinifSeviyeleri
  }

  /** A course that was built successfully only admits grades in range. */
  lemma CourseAdmitsOnlyValidGrades(dersAdi: string, levels: seq<int>, sinif: int)
    requires NewDers(dersAdi, levels).Ok?
    ensures SinifAlabilirMi(NewDers(dersAdi, levels).value, sinif) ==> GradeInRange(sinif)
  {
  }

  // ----------------------------------------------------------------- Salon

  datatype Salon = Salon(salonAdi: string, kapasite: int)

  /** `Salon(...)`: the name is stripped; a capacity of 0 or less is refused. */
  function NewSalon(salonAdi: string, kapasite: int): (r: Result<Salon, ModelError>)
    ensures r.Ok? <==> kapasite > 0
    ensures r.Err? ==> r.error == NonPositiveCapacity
    ensures r.Ok? ==> r.value.kapasite == kapasite && Strip(r.value.salonAdi) == r.value.salonAdi
  {
    StripByIdempotent(salonAdi, IsSpace);
    if kapasite <= 0 then Err(NonPositiveCapacity) else Ok(Salon(Strip(salonAdi), kapasite))
  }

  /** `dolu_mu`: the room is full once the occupancy reaches its capacity. */
  function DoluMu(s: Salon, mevcut: int): bool {
    mevcut >= s.kapasite
  }

  /** `kalan_kapasite`: the free places, never negative. */
  function KalanKapasite(s: Salon, mevcut: int): (k: int)
    ensures k >= 0
    ensures k == 0 || k + mevcut == s.kapasite
  {
    if s.kapasite - mevcut > 0 then s.kapasite - mevcut else 0
  }

  /** For a room with positive capacity, it is full exactly when no place
      is left, and occupying one more place frees one fewer. */
  lemma FullIffNoneLeft(s: Salon, mevcut: int)
    requires s.kapasite > 0
    ensures DoluMu(s, mevcut) <==> KalanKapasite(s, mevcut) == 0
    ensures !DoluMu(s, mevcut) ==> KalanKapasite(s, mevcut + 1) == KalanKapasite(s, mevcut) - 1
  {
  }

  // ----------------------------------------------------------- seat labels

  /** Python truthiness of an optional string: present and non-empty. */
  predicate Truthy(s: Option<string>) {
    s.Some? && s.value != ""
  }

  /** `SalonSira.display_label`: the zero-padded seat number, then
      " - label" when the stripped label is non-blank, then " (ad soyad)"
      when both names are present. */
  function DisplayLabel(siraNo: int, etiket: Option<string>, ogrenciAd: Option<string>,
                        ogrenciSoyad: Option<string>): string
  {
    Format03(siraNo) + (LabelPart(etiket) + NamesPart(ogrenciAd, ogrenciSoyad))
  }

  /** The seat label as shown: stripped, and "" when absent. */
  function Shown(etiket: Option<string>): string {
    if Truthy(etiket) then Strip(etiket.value) else ""
  }

  /** The " - label" part: present exactly when the stripped label is non-blank. */
  function LabelPart(etiket: Option<string>): (p: string)
    ensures Shown(etiket) == "" ==> p == ""
    ensures Shown(etiket) != "" ==> p == " - " + Shown(etiket)
  {
    var shown := Shown(etiket);
    if shown != "" then " - " + shown else ""
  }

  /** The " (ad soyad)" part: present exactly when both names are. */
  function NamesPart(ogrenciAd: Option<string>, ogrenciSoyad: Option<string>): (p: string)
    ensures Truthy(ogrenciAd) && Truthy(ogrenciSoyad) ==>
      p == " (" + ogrenciAd.value + " " + ogrenciSoyad.value + ")"
    ensures !(Truthy(ogrenciAd) && Truthy(ogrenciSoyad)) ==> p == ""
  {
    if Truthy(ogrenciAd) && Truthy(ogrenciSoyad)
    then " (" + ogrenciAd.value + " " + ogrenciSoyad.value + ")" else ""
  }

  /** The label of a seat numbered below 1000 begins with exactly three
      digits that read back as the seat number, followed by nothing, by
      " - " or by " (". */
  lemma DisplayLabelNumber(siraNo: int, etiket: Option<string>, ogrenciAd: Option<string>,
                           ogrenciSoyad: Option<string>)
    requires 0 <= siraNo < 1000
    ensures var r := DisplayLabel(siraNo, etiket, ogrenciAd, ogrenciSoyad);
      && |r| >= 3 && IsDigits(r[..3]) && DigitsValue(r[..3]) == siraNo
      && (|r| == 3 || StartsWith(r[3..], " - ") || StartsWith(r[3..], " ("))
  {
    ThreeDigitNumber(siraNo);
    var f := Format03(siraNo);
    var tail := LabelPart(etiket) + NamesPart(ogrenciAd, ogrenciSoyad);
    TailShape(etiket, ogrenciAd, ogrenciSoyad);
    NumberThenTail(f, tail, siraNo);
  }

  /** A seat label can be read back piece by piece: the formatted number
      first, then " - " and the stripped seat label when that is
      non-blank, and " (ad soyad)" at the end when both names are present
      (`NamesPart`). */
  lemma DisplayLabelParts(siraNo: int, etiket: Option<string>, ogrenciAd: Option<string>,
                          ogrenciSoyad: Option<string>)
    ensures var r := DisplayLabel(siraNo, etiket, ogrenciAd, ogrenciSoyad);
      var w := |Format03(siraNo)|;
      var shown := Shown(etiket);
      var tag := NamesPart(ogrenciAd, ogrenciSoyad);
      && |r| == w + (if shown == "" then 0 else 3 + |shown|) + |tag|
      && r[..w] == Format03(siraNo)
      && (shown != "" ==> r[w..w + 3] == " - " && r[w + 3..w + 3 + |shown|] == shown)
      && r[|r| - |tag|..] == tag
  {
    LabelPieces(DisplayLabel(siraNo, etiket, ogrenciAd, ogrenciSoyad), Format03(siraNo), LabelPart(etiket),
                Shown(etiket), NamesPart(ogrenciAd, ogrenciSoyad));
  }

  /** The slices of a label `f + (l + n)` whose label part `l` is empty or
      " - " followed by `shown`. */
  lemma LabelPieces(r: string, f: string, l: string, shown: string, n: string)
    requires r == f + (l + n)
    requires l == (if shown == "" then "" else " - " + shown)
    ensures |r| == |f| + (if shown == "" then 0 else 3 + |shown|) + |n|
    ensures r[..|f|] == f && r[|r| - |n|..] == n
    ensures shown != "" ==> r[|f|..|f| + 3] == " - " && r[|f| + 3..|f| + 3 + |shown|] == shown
  {
    assert r[..|f|] == f;
    assert r[|r| - |n|..] == n;
    if shown != "" {
      assert r[|f|..|f| + |l|] == l;
      SlicesOfPrefixed(" - ", shown);
      SliceWithin(r, |f|, l, 0, 3);
      SliceWithin(r, |f|, l, 3, |l|);
    }
  }

  /** A slice of a piece found in `r` at `a` is the same slice of `r`,
      shifted by `a`. */
  lemma SliceWithin(r: string, a: int, l: string, i: int, j: int)
    requires 0 <= a && a + |l| <= |r| && r[a..a + |l|] == l && 0 <= i <= j <= |l|
    ensures r[a + i..a + j] == l[i..j]
  {
    forall k | 0 <= k < j - i ensures r[a + i..a + j][k] == l[i..j][k] {
      assert r[a..a + |l|][i + k] == r[a + i + k];
    }
  }

  /** The pieces of `p + s` with a three-character `p`. */
  lemma SlicesOfPrefixed(p: string, s: string)
    requires |p| == 3
    ensures (p + s)[..3] == p && (p + s)[3..] == s
  {
  }

  lemma NumberThenTail(f: string, tail: string, n: int)
    requires |f| == 3 && IsDigits(f) && DigitsValue(f) == n
    requires |tail| == 0 || StartsWith(tail, " - ") || StartsWith(tail, " (")
    ensures var r := f + tail;
      && |r| >= 3 && IsDigits(r[..3]) && DigitsValue(r[..3]) == n
      && (|r| == 3 || StartsWith(r[3..], " - ") || StartsWith(r[3..], " ("))
  {
    assert (f + tail)[..3] == f;
    assert (f + tail)[3..] == tail;
  }

  /** A seat number below 1000 is printed as exactly three digits that read
      back as the number. */
  lemma ThreeDigitNumber(n: int)
    requires 0 <= n < 1000
    ensures |Format03(n)| == 3 && IsDigits(Format03(n)) && DigitsValue(Format03(n)) == n
  {
    Format03NonNegative(n);
    ShortNumber(n);
  }

  /** What follows the number is empty or starts with " - " or " (". */
  lemma TailShape(etiket: Option<string>, ogrenciAd: Option<string>, ogrenciSoyad: Option<string>)
    ensures var tail := LabelPart(etiket) + NamesPart(ogrenciAd, ogrenciSoyad);
      |tail| == 0 || StartsWith(tail, " - ") || StartsWith(tail, " (")
  {
    var l := LabelPart(etiket);
    var n := NamesPart(ogrenciAd, ogrenciSoyad);
    if l != "" {
      assert (l + n)[..3] == l[..3];
    } else if n != "" {
      assert (l + n) == n;
      assert n[..2] == " (";
    }
  }

  /** A number below 1000 has at most three decimal digits. */
  lemma ShortNumber(n: nat)
    requires n < 1000
    ensures |NatToString(n)| <= 3
  {
    if n >= 10 {
      assert |NatToString(n)| == |NatToString(n / 10)| + 1;
      if n / 10 >= 10 {
        assert |NatToString(n / 10)| == |NatToString(n / 10 / 10)| + 1;
      }
    }
  }

  /** `SabitOgrenciKonum.display`: "<salon> / Sıra <nnn>[ - <label>]", with
      "Salon#<id>" standing in for a missing room name. */
  function KonumDisplay(salonId: int, salonAdi: Option<string>, siraNo: int, siraEtiket: Option<string>)
    : (r: string)
    ensures var salon := if Truthy(salonAdi) then salonAdi.value else "Salon#" + IntToString(salonId);
      var prefix := salon + " / Sıra " + Format03(siraNo);
      && StartsWith(r, prefix)
      && (Truthy(siraEtiket) <==> |r| > |prefix|)
      && (Truthy(siraEtiket) ==> r[|prefix|..] == " - " + siraEtiket.value)
  {
    var salon := if Truthy(salonAdi) then salonAdi.value else "Salon#" + IntToString(salonId);
    var etiket := if Truthy(siraEtiket) then " - " + siraEtiket.value else "";
    var prefix := salon + " / Sıra " + Format03(siraNo);
    assert (prefix + etiket)[..|prefix|] == prefix;
    assert (prefix + etiket)[|prefix|..] == etiket;
    prefix + etiket
  }

  /** For the same room and seat, two labelled pinned seats read the same
      exactly when their labels are the same, and a labelled one never
      reads like an unlabelled one. */
  lemma KonumDisplayLabel(salonId: int, salonAdi: Option<string>, siraNo: int, a: Option<string>, b: Option<string>)
    requires Truthy(a)
    ensures Truthy(b) ==>
      (KonumDisplay(salonId, salonAdi, siraNo, a) == KonumDisplay(salonId, salonAdi, siraNo, b) <==> a.value == b.value)
    ensures !Truthy(b) ==> KonumDisplay(salonId, salonAdi, siraNo, a) != KonumDisplay(salonId, salonAdi, siraNo, b)
  {
    var salon := if Truthy(salonAdi) then salonAdi.value else "Salon#" + IntToString(salonId);
    var prefix := salon + " / Sıra " + Format03(siraNo);
    var ra, rb := KonumDisplay(salonId, salonAdi, siraNo, a), KonumDisplay(salonId, salonAdi, siraNo, b);
    if Truthy(b) && ra == rb {
      assert ra[|prefix|..] == rb[|prefix|..];
      assert (" - " + a.value)[3..] == a.value;
      assert (" - " + b.value)[3..] == b.value;
    }
  }

  // ---------------------------------------------------------- SinifSeviye

  /** A student as the class hierarchy sees it: an id and the optional
      branch letter of its record. */
  datatype Kayit = Kayit(id: int, sube: Option<string>)

  /** The branches of one grade, each with its students, keyed by the
      upper-cased branch name in creation order. */
  datatype SinifSeviye = SinifSeviye(sinif: string, subeler: seq<Group<string, Kayit>>)

  ghost predicate ValidSeviye(sv: SinifSeviye) {
    Distinct(Keys(sv.subeler))
  }

  /** `get_or_create_sube`: the branch stored under `Upper(sube)`, created
      empty at the end when missing; returns the new hierarchy and the
      branch's position. */
  function GetOrCreateSube(sv: SinifSeviye, sube: string): (r: (SinifSeviye, nat))
    requires ValidSeviye(sv)
    ensures ValidSeviye(r.0)
    ensures r.1 < |r.0.subeler| && r.0.subeler[r.1].key == Upper(sube)
    ensures Upper(sube) in Keys(sv.subeler) ==> r.0 == sv
    ensures Upper(sube) !in Keys(sv.subeler) ==>
      r.0.subeler == sv.subeler + [Group(Upper(sube), [])] && r.1 == |sv.subeler|
  {
    var key := Upper(sube);
    if key in Keys(sv.subeler) then
      var i :| 0 <= i < |sv.subeler| && Keys(sv.subeler)[i] == key;
      (sv, i)
    else
      var subeler := sv.subeler + [Group(key, [])];
      assert Keys(subeler) == Keys(sv.subeler) + [key];
      (sv.(subeler := subeler), |sv.subeler|)
  }

  /** Asking twice for the same branch (in any letter case) gives the same
      branch and creates nothing the second time. */
  lemma GetOrCreateSubeIdempotent(sv: SinifSeviye, sube: string, sube2: string)
    requires ValidSeviye(sv)
    requires Upper(sube2) == Upper(sube)
    ensures var (sv1, i) := GetOrCreateSube(sv, sube);
      GetOrCreateSube(sv1, sube2) == (sv1, i)
  {
    var (sv1, i) := GetOrCreateSube(sv, sube);
    var (sv2, j) := GetOrCreateSube(sv1, sube2);
    assert Keys(sv1.subeler)[i] == Upper(sube);
    assert Keys(sv1.subeler)[j] == Upper(sube);
  }

  /** The branch key of a student record: `ogrenci.get('sube', '?')`, upper-cased. */
  function SubeKey(o: Kayit): string {
    Upper(o.sube.GetOr("?"))
  }

  /** `SinifSeviye.add_ogrenci`. */
  function AddOgrenci(sv: SinifSeviye, o: Kayit): (r: SinifSeviye)
    requires ValidSeviye(sv)
    ensures ValidSeviye(r)
    ensures ToplamOgrenci(r) == ToplamOgrenci(sv) + 1
  {
    AddToDistinct(sv.subeler, SubeKey(o), o);
    AddToTotal(sv.subeler, SubeKey(o), o);
    sv.(subeler := AddTo(sv.subeler, SubeKey(o), o))
  }

  /** `toplam_ogrenci`: the students over all branches. */
  function ToplamOgrenci(sv: SinifSeviye): nat {
    TotalItems(sv.subeler)
  }

  /** `toplam_sube`. */
  function ToplamSube(sv: SinifSeviye): nat {
    |sv.subeler|
  }

  /** Adding a list of students to a fresh grade, one after another. */
  function AddAll(sinif: string, os: seq<Kayit>): (sv: SinifSeviye)
    ensures ValidSeviye(sv)
    decreases |os|
  {
    if |os| == 0 then SinifSeviye(sinif, [])
    else AddOgrenci(AddAll(sinif, os[..|os| - 1]), os[|os| - 1])
  }

  /** Filling a grade student by student yields one branch per distinct
      upper-cased branch name, each holding exactly its students in input
      order, and the total is the number of students. */
  lemma {:induction false} AddAllGroups(sinif: string, os: seq<Kayit>)
    ensures AddAll(sinif, os).subeler == GroupBy(os, SubeKey)
    ensures ToplamOgrenci(AddAll(sinif, os)) == |os|
    ensures forall i | 0 <= i < ToplamSube(AddAll(sinif, os)) ::
      AddAll(sinif, os).subeler[i].items == WithKey(os, SubeKey, AddAll(sinif, os).subeler[i].key)
    decreases |os|
  {
    if |os| > 0 {
      AddAllGroups(sinif, os[..|os| - 1]);
    }
    GroupByItems(os, SubeKey);
    GroupByTotal(os, SubeKey);
  }
}

=== FILE: pinned.dfy ===
/** Placement of the pinned students on their recorded seats
    (`_sabit_ogrenci_yerlestir`): every problem is logged and the run goes
    on; the whole step fails after the loop if anything was logged. */
module Pinned {
  import opened Wrappers
  import opened Seqs
  import opened Seating
  import opened Records
  import Models

  /** The warning logged for a pinned student that cannot be placed. */
  datatype PinMessage =
    | NoSeatChosen(ad: string, soyad: string)          // no room or seat id recorded
    | InactiveSalon(ad: string, soyad: string)         // the room is not among the active rooms
    | UndefinedSeat(salonAdi: string)                  // the seat id is not a seat of the room
    | SeatTaken(salonAdi: string, siraNo: int)         // another pinned student already has the seat

  /** The loop's state: placements so far, taken seat numbers per room, the
      class key on each taken seat, and the warnings so far. */
  datatype PinState = PinState(placements: seq<Placement>, occupied: Occupied,
                               classes: map<int, map<int, string>>, logs: seq<PinMessage>)

  /** `{salon['id']: salon for salon in salonlar}.get(id)`: the last listed
      room with that id. */
  function LookupSalon(salonlar: seq<SalonRec>, id: int): (r: Option<SalonRec>)
    ensures r.Some? ==> r.value in salonlar && r.value.id == id
    ensures r.None? <==> forall i | 0 <= i < |salonlar| :: salonlar[i].id != id
    decreases |salonlar|
  {
    if |salonlar| == 0 then None
    else if salonlar[|salonlar| - 1].id == id then Some(salonlar[|salonlar| - 1])
    else
      var r := LookupSalon(salonlar[..|salonlar| - 1], id);
      assert forall i | 0 <= i < |salonlar| - 1 :: salonlar[..|salonlar| - 1][i] == salonlar[i];
      r
  }

  /** Both the room id and the seat id are recorded. */
  predicate IdsGiven(sabit: Student) {
    IdGiven(sabit.sabitSalonId) && IdGiven(sabit.sabitSiraId)
  }

  /** Some active room has the id. */
  predicate Listed(salonlar: seq<SalonRec>, id: int) {
    exists i | 0 <= i < |salonlar| :: salonlar[i].id == id
  }

  /** The seat the pinned student's recorded ids name, if the room has it. */
  function PinnedSlot(sabit: Student, m: SeatMap): Option<SalonSira>
    requires IdsGiven(sabit)
  {
    FindSalonSiraById(sabit.sabitSalonId.value, sabit.sabitSiraId.value, m)
  }

  /** The checks `_sabit_ogrenci_yerlestir` makes for one pinned student,
      in this order: ids recorded, room active, seat defined in the room,
      seat still free.
      Each warning is given exactly when the checks before it pass and its
      own fails, and the pin is accepted exactly when all four pass. */
  function CheckPin(sabit: Student, salonlar: seq<SalonRec>, m: SeatMap, occ: Occupied)
    : (r: Result<(SalonRec, SalonSira), PinMessage>)
    ensures r == Err(NoSeatChosen(sabit.ad, sabit.soyad)) <==> !IdsGiven(sabit)
    ensures r == Err(InactiveSalon(sabit.ad, sabit.soyad)) <==>
      IdsGiven(sabit) && !Listed(salonlar, sabit.sabitSalonId.value)
    ensures (r.Err? && r.error.UndefinedSeat?) <==>
      IdsGiven(sabit) && Listed(salonlar, sabit.sabitSalonId.value) && PinnedSlot(sabit, m).None?
    ensures (r.Err? && r.error.SeatTaken?) <==>
      && IdsGiven(sabit) && Listed(salonlar, sabit.sabitSalonId.value) && PinnedSlot(sabit, m).Some?
      && PinnedSlot(sabit, m).value.siraNo in OccupiedIn(occ, sabit.sabitSalonId.value)
    ensures r.Ok? <==>
      && IdsGiven(sabit) && Listed(salonlar, sabit.sabitSalonId.value) && PinnedSlot(sabit, m).Some?
      && PinnedSlot(sabit, m).value.siraNo !in OccupiedIn(occ, sabit.sabitSalonId.value)
    ensures r.Err? && r.error.SeatTaken? ==> r.error.siraNo == PinnedSlot(sabit, m).value.siraNo
    ensures r.Ok? ==> && r.value.0 in salonlar && r.value.0.id == sabit.sabitSalonId.value
                      && Some(r.value.1) == PinnedSlot(sabit, m)
  {
    if !IdGiven(sabit.sabitSalonId) || !IdGiven(sabit.sabitSiraId) then Err(NoSeatChosen(sabit.ad, sabit.soyad))
    else
      var salonId := sabit.sabitSalonId.value;
      match LookupSalon(salonlar, salonId)
      case None => Err(InactiveSalon(sabit.ad, sabit.soyad))
      case Some(salon) =>
        match FindSalonSiraById(salonId, sabit.sabitSiraId.value, m)
        case None => Err(UndefinedSeat(salon.salonAdi))
        case Some(slot) =>
          if slot.siraNo in OccupiedIn(occ, salonId) then Err(SeatTaken(salon.salonAdi, slot.siraNo))
          else Ok((salon, slot))
  }

  /** The placement recorded for a pinned student on its seat. */
  function PinPlacement(sabit: Student, salon: SalonRec, slot: SalonSira): (p: Placement)
    ensures p.ogrenciId == sabit.id && p.salonId == salon.id && p.siraNo == slot.siraNo
    ensures p.sabitMi && !p.ogretmenMasasi && p.sabitKonum.Some?
  {
    Placement(sabit.id, salon.id, slot.siraNo, sabit.sinif, sabit.sube, salon.salonAdi, true,
              Some(Models.KonumDisplay(salon.id, Some(salon.salonAdi), slot.siraNo, slot.etiket)),
              sabit.sinavId, sabit.sinavAdi, false)
  }

  /** One iteration of the loop. */
  function PinStep(st: PinState, sabit: Student, salonlar: seq<SalonRec>, m: SeatMap): PinState {
    match CheckPin(sabit, salonlar, m, st.occupied)
    case Err(msg) => st.(logs := st.logs + [msg])
    case Ok((salon, slot)) =>
      var k := salon.id;
      var row := if k in st.classes then st.classes[k] else map[];
      PinState(st.placements + [PinPlacement(sabit, salon, slot)],
               st.occupied[k := OccupiedIn(st.occupied, k) + {slot.siraNo}],
               st.classes[k := row[slot.siraNo := ClassKey(sabit.sinif, sabit.sube)]],
               st.logs)
  }

  /** The taken seat numbers are exactly the seats of the placements made,
      and no seat was handed out twice. */
  ghost predicate Consistent(st: PinState) {
    && SeatsDistinct(st.placements)
    && OccupiedPlaced(st)
    && PlacedOccupied(st)
  }

  /** Every taken seat number is the seat of some placement. */
  ghost predicate OccupiedPlaced(st: PinState) {
    forall k, n | n in OccupiedIn(st.occupied, k) ::
      exists i | 0 <= i < |st.placements| :: SeatOf(st.placements[i]) == (k, n)
  }

  /** Every placement's seat number is taken. */
  predicate PlacedOccupied(st: PinState) {
    forall i | 0 <= i < |st.placements| ::
      st.placements[i].siraNo in OccupiedIn(st.occupied, st.placements[i].salonId)
  }

  /** The loop over the pinned students: each student yields exactly one
      placement or one warning, and the state stays consistent. */
  function PinFold(ss: seq<Student>, salonlar: seq<SalonRec>, m: SeatMap): (st: PinState)
    ensures |st.placements| + |st.logs| == |ss|
    ensures Consistent(st)
    decreases |ss|
  {
    if |ss| == 0 then PinState([], map[], map[], [])
    else
      var st0 := PinFold(ss[..|ss| - 1], salonlar, m);
      var st := PinStep(st0, ss[|ss| - 1], salonlar, m);
      StepConsistent(st0, ss[|ss| - 1], salonlar, m);
      st
  }

  lemma StepConsistent(st: PinState, sabit: Student, salonlar: seq<SalonRec>, m: SeatMap)
    requires Consistent(st)
    ensures Consistent(PinStep(st, sabit, salonlar, m))
  {
    var c := CheckPin(sabit, salonlar, m, st.occupied);
    if c.Ok? {
      var salon := c.value.0;
      var slot := c.value.1;
      var st1 := PinStep(st, sabit, salonlar, m);
      assert st1.placements == st.placements + [PinPlacement(sabit, salon, slot)];
      assert st1.occupied == st.occupied[salon.id := OccupiedIn(st.occupied, salon.id) + {slot.siraNo}];
      AppendConsistent(st, PinPlacement(sabit, salon, slot), st1);
    }
  }

  /** Taking a free seat keeps the state consistent. */
  lemma AppendConsistent(st: PinState, p: Placement, st1: PinState)
    requires Consistent(st)
    requires p.siraNo !in OccupiedIn(st.occupied, p.salonId)
    requires st1.placements == st.placements + [p]
    requires st1.occupied == st.occupied[p.salonId := OccupiedIn(st.occupied, p.salonId) + {p.siraNo}]
    ensures Consistent(st1)
  {
    AppendDistinct(st, p, st1);
    AppendOccupiedPlaced(st, p, st1);
    AppendPlacedOccupied(st, p, st1);
  }

  lemma AppendDistinct(st: PinState, p: Placement, st1: PinState)
    requires SeatsDistinct(st.placements) && PlacedOccupied(st)
    requires p.siraNo !in OccupiedIn(st.occupied, p.salonId)
    requires st1.placements == st.placements + [p]
    ensures SeatsDistinct(st1.placements)
  {
    var ps := st.placements;
    forall i | 0 <= i < |ps| ensures SeatOf(ps[i]) != SeatOf(p) {
      assert ps[i].siraNo in OccupiedIn(st.occupied, ps[i].salonId);
    }
  }

  lemma AppendOccupiedPlaced(st: PinState, p: Placement, st1: PinState)
    requires OccupiedPlaced(st)
    requires st1.placements == st.placements + [p]
    requires st1.occupied == st.occupied[p.salonId := OccupiedIn(st.occupied, p.salonId) + {p.siraNo}]
    ensures OccupiedPlaced(st1)
  {
    var ps := st.placements;
    forall k, n | n in OccupiedIn(st1.occupied, k)
      ensures exists i | 0 <= i < |st1.placements| :: SeatOf(st1.placements[i]) == (k, n)
    {
      if k == p.salonId && n == p.siraNo {
        assert SeatOf(st1.placements[|ps|]) == (k, n);
      } else {
        assert n in OccupiedIn(st.occupied, k);
        var i :| 0 <= i < |ps| && SeatOf(ps[i]) == (k, n);
        assert st1.placements[i] == ps[i];
      }
    }
  }

  lemma AppendPlacedOccupied(st: PinState, p: Placement, st1: PinState)
    requires PlacedOccupied(st)
    requires st1.placements == st.placements + [p]
    requires st1.occupied == st.occupied[p.salonId := OccupiedIn(st.occupied, p.salonId) + {p.siraNo}]
    ensures PlacedOccupied(st1)
  {
    forall i | 0 <= i < |st1.placements|
      ensures st1.placements[i].siraNo in OccupiedIn(st1.occupied, st1.placements[i].salonId)
    {
      if i < |st.placements| {
        assert st1.placements[i] == st.placements[i];
      }
    }
  }

  /** `_sabit_ogrenci_yerlestir`: the placements, the taken seats and the
      class keys on them, or every warning when anything went wrong. */
  function SabitOgrenciYerlestir(ss: seq<Student>, salonlar: seq<SalonRec>, m: SeatMap)
    : (r: Result<(seq<Placement>, Occupied, map<int, map<int, string>>), seq<PinMessage>>)
    ensures r.Err? ==> 0 < |r.error| <= |ss|
    ensures r.Ok? ==> |r.value.0| == |ss| && SeatsDistinct(r.value.0)
    ensures r.Ok? ==> forall k, n :: n in OccupiedIn(r.value.1, k) <==>
      exists i | 0 <= i < |r.value.0| :: SeatOf(r.value.0[i]) == (k, n)
  {
    var st := PinFold(ss, salonlar, m);
    if |st.logs| > 0 then Err(st.logs) else Ok((st.placements, st.occupied, st.classes))
  }

  /** The checks on the i-th pinned student, against the seats the students
      before it took. */
  function Verdict(ss: seq<Student>, salonlar: seq<SalonRec>, m: SeatMap, i: nat)
    : Result<(SalonRec, SalonSira), PinMessage>
    requires i < |ss|
  {
    CheckPin(ss[i], salonlar, m, PinFold(ss[..i], salonlar, m).occupied)
  }

  /** A verdict depends only on the students up to and including its own. */
  lemma VerdictPrefix(ss: seq<Student>, k: nat, salonlar: seq<SalonRec>, m: SeatMap, i: nat)
    requires i < k <= |ss|
    ensures Verdict(ss[..k], salonlar, m, i) == Verdict(ss, salonlar, m, i)
  {
    assert ss[..k][..i] == ss[..i];
  }

  /** The verdicts on all the students, in order. */
  function Verdicts(ss: seq<Student>, salonlar: seq<SalonRec>, m: SeatMap)
    : (v: seq<Result<(SalonRec, SalonSira), PinMessage>>)
    ensures |v| == |ss|
  {
    seq(|ss|, i requires 0 <= i < |ss| => Verdict(ss, salonlar, m, i))
  }

  /** `logs` holds exactly the errors among the verdicts `v`, in order:
      `idx` lists the positions of the failed verdicts, increasing, and the
      j-th entry of `logs` is the error at the j-th of them. */
  ghost predicate ErrorsAt<T, E>(v: seq<Result<T, E>>, logs: seq<E>, idx: seq<nat>) {
    && |idx| == |logs|
    && (forall j | 0 <= j < |idx| :: idx[j] < |v|)
    && (forall j, k | 0 <= j < k < |idx| :: idx[j] < idx[k])
    && (forall j | 0 <= j < |idx| :: v[idx[j]] == Err(logs[j]))
    && (forall i | 0 <= i < |v| :: v[i].Err? <==> i in idx)
  }

  /** One more verdict adds its error, if any, at the end. */
  lemma ErrorsSnoc<T, E>(v: seq<Result<T, E>>, logs: seq<E>, idx: seq<nat>, x: Result<T, E>)
    returns (idx': seq<nat>)
    requires ErrorsAt(v, logs, idx)
    ensures ErrorsAt(v + [x], logs + (if x.Err? then [x.error] else []), idx')
  {
    var n := |v|;
    var v' := v + [x];
    assert forall i | 0 <= i < n :: v'[i] == v[i];
    assert n !in idx by {
      forall j | 0 <= j < |idx| ensures idx[j] != n { }
    }
    if x.Err? {
      idx' := idx + [n];
      var logs' := logs + [x.error];
      forall j | 0 <= j < |idx'| ensures v'[idx'[j]] == Err(logs'[j]) {
        if j < |idx| {
          assert idx'[j] == idx[j] && logs'[j] == logs[j];
        }
      }
      forall i | 0 <= i < |v'| ensures v'[i].Err? <==> i in idx' {
        assert i in idx' <==> i in idx || i == n;
      }
    } else {
      idx' := idx;
      assert logs + [] == logs;
    }
  }

  /** The verdicts on a prefix of the students begin the verdicts on all. */
  lemma VerdictsSnoc(ss: seq<Student>, salonlar: seq<SalonRec>, m: SeatMap)
    requires |ss| > 0
    ensures Verdicts(ss, salonlar, m)
      == Verdicts(ss[..|ss| - 1], salonlar, m) + [Verdict(ss, salonlar, m, |ss| - 1)]
  {
    var n := |ss| - 1;
    forall i | 0 <= i < n ensures Verdicts(ss, salonlar, m)[i] == Verdicts(ss[..n], salonlar, m)[i] {
      VerdictPrefix(ss, n, salonlar, m, i);
    }
  }

  /** The warnings are exactly the errors of the students whose checks
      failed, in the students' order. */
  lemma {:induction false} FoldLogs(ss: seq<Student>, salonlar: seq<SalonRec>, m: SeatMap)
    returns (idx: seq<nat>)
    ensures ErrorsAt(Verdicts(ss, salonlar, m), PinFold(ss, salonlar, m).logs, idx)
    decreases |ss|
  {
    if |ss| == 0 {
      idx := [];
    } else {
      var n := |ss| - 1;
      var init := ss[..n];
      var st0 := PinFold(init, salonlar, m);
      var prev := FoldLogs(init, salonlar, m);
      var x := Verdict(ss, salonlar, m, n);
      VerdictsSnoc(ss, salonlar, m);
      assert x == CheckPin(ss[n], salonlar, m, st0.occupied);
      assert PinFold(ss, salonlar, m) == PinStep(st0, ss[n], salonlar, m);
      assert PinFold(ss, salonlar, m).logs == st0.logs + (if x.Err? then [x.error] else []);
      idx := ErrorsSnoc(Verdicts(init, salonlar, m), st0.logs, prev, x);
    }
  }

  /** The pinned step fails exactly when some student's checks fail against
      the seats taken before it, and then it reports every such failure, in
      order. */
  lemma PinnedFailure(ss: seq<Student>, salonlar: seq<SalonRec>, m: SeatMap)
    ensures SabitOgrenciYerlestir(ss, salonlar, m).Err? <==>
      exists i | 0 <= i < |ss| :: Verdict(ss, salonlar, m, i).Err?
    ensures SabitOgrenciYerlestir(ss, salonlar, m).Err? ==>
      SabitOgrenciYerlestir(ss, salonlar, m).error == PinFold(ss, salonlar, m).logs
  {
    var idx := FoldLogs(ss, salonlar, m);
    var v := Verdicts(ss, salonlar, m);
    var logs := PinFold(ss, salonlar, m).logs;
    assert SabitOgrenciYerlestir(ss, salonlar, m).Err? <==> |logs| > 0;
    assert |logs| > 0 ==> exists i | 0 <= i < |ss| :: Verdict(ss, salonlar, m, i).Err? by {
      if |logs| > 0 {
        assert v[idx[0]].Err?;
      }
    }
    assert (exists i | 0 <= i < |ss| :: Verdict(ss, salonlar, m, i).Err?) ==> |logs| > 0 by {
      if exists i | 0 <= i < |ss| :: Verdict(ss, salonlar, m, i).Err? {
        var i :| 0 <= i < |ss| && Verdict(ss, salonlar, m, i).Err?;
        assert v[i].Err? && i in idx;
      }
    }
  }

  /** Warnings are only ever added: the warnings after a prefix of the
      students begin the warnings after all of them. */
  lemma {:induction false} LogsGrow(ss: seq<Student>, salonlar: seq<SalonRec>, m: SeatMap, k: nat)
    requires k <= |ss|
    ensures |PinFold(ss[..k], salonlar, m).logs| <= |PinFold(ss, salonlar, m).logs|
    decreases |ss|
  {
    if k < |ss| {
      var init := ss[..|ss| - 1];
      assert init[..k] == ss[..k];
      LogsGrow(init, salonlar, m, k);
    } else {
      assert ss[..k] == ss;
    }
  }

  /** Placement `p` puts pinned student `sabit` in its recorded room, on
      the seat its recorded seat id names. */
  predicate Faithful(sabit: Student, p: Placement, m: SeatMap) {
    && IdGiven(sabit.sabitSalonId) && IdGiven(sabit.sabitSiraId)
    && p.ogrenciId == sabit.id
    && p.salonId == sabit.sabitSalonId.value
    && p.sabitMi
    && FindSalonSiraById(sabit.sabitSalonId.value, sabit.sabitSiraId.value, m).Some?
    && p.siraNo == FindSalonSiraById(sabit.sabitSalonId.value, sabit.sabitSiraId.value, m).value.siraNo
  }

  /** Pinned fidelity: when placement succeeds, the i-th placement belongs
      to the i-th pinned student and sits where that student is pinned. */
  lemma PinnedFidelity(ss: seq<Student>, salonlar: seq<SalonRec>, m: SeatMap)
    requires SabitOgrenciYerlestir(ss, salonlar, m).Ok?
    ensures forall i | 0 <= i < |ss| :: Faithful(ss[i], SabitOgrenciYerlestir(ss, salonlar, m).value.0[i], m)
  {
    FoldFidelity(ss, salonlar, m);
  }

  lemma {:induction false} FoldFidelity(ss: seq<Student>, salonlar: seq<SalonRec>, m: SeatMap)
    requires |PinFold(ss, salonlar, m).logs| == 0
    ensures forall i | 0 <= i < |ss| :: Faithful(ss[i], PinFold(ss, salonlar, m).placements[i], m)
    decreases |ss|
  {
    if |ss| > 0 {
      var init := ss[..|ss| - 1];
      var x := ss[|ss| - 1];
      var st0 := PinFold(init, salonlar, m);
      var c := CheckPin(x, salonlar, m, st0.occupied);
      assert PinFold(ss, salonlar, m) == PinStep(st0, x, salonlar, m);
      assert c.Ok?;
      FoldFidelity(init, salonlar, m);
      var ps := PinFold(ss, salonlar, m).placements;
      assert ps == st0.placements + [PinPlacement(x, c.value.0, c.value.1)];
      assert Faithful(x, ps[|init|], m);
      forall i | 0 <= i < |init| ensures Faithful(ss[i], ps[i], m) {
        assert ss[i] == init[i];
        assert ps[i] == st0.placements[i];
      }
    }
  }
}

=== FILE: pool.dfy ===
/** The candidate pool handed to the solver (`_prepare_seat_data`): the free
    seats of every room in room order, optionally one teacher's-desk pseudo
    seat per room, and the pairs of pool positions that are neighbours. */
module Pool {
  import opened Wrappers
  import opened Seqs
  import opened Constants
  import opened Seating

  /** One pool entry: a free seat, or a room's teacher's desk. */
  datatype Seat = Seat(salonId: int, salonAdi: string, siraNo: int, teacher: bool, neighbors: seq<int>)

  /** The numbers of all seats of a room, taken or not; when the room has
      no seat list, the numbers of its free seats. */
  function AllSeatNumbers(m: SeatMap, salonId: int, bos: seq<SalonSira>): set<int> {
    var all := if salonId in m then (set x | x in m[salonId].siralar :: x.siraNo) else {};
    if all == {} then (set x | x in bos :: x.siraNo) else all
  }

  /** `sira_data.get('satir_genisligi', config.satir_genisligi)`. */
  function RowWidth(m: SeatMap, salonId: int, cfgWidth: int): int {
    if salonId in m then m[salonId].satirGenisligi else cfgWidth
  }

  /** The pool entry of a free seat, with its neighbour numbers. */
  function FreeSeat(salon: SalonRec, slot: SalonSira, w: int, all: set<int>): Seat {
    Seat(salon.id, salon.salonAdi, slot.siraNo, false, SeatNeighbors(slot.siraNo, w, all))
  }

  /** The room's teacher's desk: number `_teacher_desk_no(salon_id, 0)`,
      no neighbours. */
  function DeskSeat(salon: SalonRec): (d: Seat)
    ensures d.teacher && d.neighbors == [] && d.salonId == salon.id
  {
    Seat(salon.id, salon.salonAdi, TeacherDeskNo(salon.id, 0), true, [])
  }

  /** The pool entries of one room: its free seats in seat order, then its
      desk when desks are included. */
  function SalonSeats(salon: SalonRec, m: SeatMap, occ: Occupied, withDesks: bool, cfgWidth: int)
    : (r: seq<Seat>)
    ensures |r| == |BosSiralar(salon.id, m, occ)| + (if withDesks then 1 else 0)
    ensures forall i | 0 <= i < |BosSiralar(salon.id, m, occ)| ::
      && r[i].salonId == salon.id && r[i].salonAdi == salon.salonAdi && !r[i].teacher
      && r[i].siraNo == BosSiralar(salon.id, m, occ)[i].siraNo
    ensures withDesks ==> r[|r| - 1] == DeskSeat(salon)
  {
    var bos := BosSiralar(salon.id, m, occ);
    var all := AllSeatNumbers(m, salon.id, bos);
    var w := RowWidth(m, salon.id, cfgWidth);
    var free := Map(bos, (slot: SalonSira) => FreeSeat(salon, slot, w, all));
    if withDesks then free + [DeskSeat(salon)] else free
  }

  /** The whole pool, room after room. */
  function SeatList(salonlar: seq<SalonRec>, m: SeatMap, occ: Occupied, withDesks: bool, cfgWidth: int)
    : seq<Seat>
    decreases |salonlar|
  {
    if |salonlar| == 0 then []
    else
      SeatList(salonlar[..|salonlar| - 1], m, occ, withDesks, cfgWidth)
        + SalonSeats(salonlar[|salonlar| - 1], m, occ, withDesks, cfgWidth)
  }

  /** The pool of the listed rooms is the pool of all but the last room,
      then the last room's block. */
  lemma SeatListSnoc(salonlar: seq<SalonRec>, m: SeatMap, occ: Occupied, withDesks: bool, cfgWidth: int)
    requires |salonlar| > 0
    ensures SeatList(salonlar, m, occ, withDesks, cfgWidth)
      == SeatList(salonlar[..|salonlar| - 1], m, occ, withDesks, cfgWidth)
         + SalonSeats(salonlar[|salonlar| - 1], m, occ, withDesks, cfgWidth)
  {
  }

  /** `seat_index_map.get((salon_id, sira_no))`: the last pool position with
      that room and number. */
  function IndexOf(seats: seq<Seat>, salonId: int, siraNo: int): (r: Option<nat>)
    ensures r.Some? ==> r.value < |seats| && seats[r.value].salonId == salonId && seats[r.value].siraNo == siraNo
    ensures r.Some? ==> forall j | r.value < j < |seats| :: !(seats[j].salonId == salonId && seats[j].siraNo == siraNo)
    ensures r.None? <==> forall j | 0 <= j < |seats| :: !(seats[j].salonId == salonId && seats[j].siraNo == siraNo)
    decreases |seats|
  {
    if |seats| == 0 then None
    else if seats[|seats| - 1].salonId == salonId && seats[|seats| - 1].siraNo == siraNo then Some(|seats| - 1)
    else
      var r := IndexOf(seats[..|seats| - 1], salonId, siraNo);
      assert forall j | 0 <= j < |seats| - 1 :: seats[..|seats| - 1][j] == seats[j];
      r
  }

  /** The neighbour position `IndexOf` finds for the `nb`-numbered
      neighbour of the real seat at `i`, when there is one other than `i`. */
  predicate Links(seats: seq<Seat>, i: int, nb: int)
    requires 0 <= i < |seats|
  {
    && !seats[i].teacher
    && nb in seats[i].neighbors
    && IndexOf(seats, seats[i].salonId, nb).Some?
    && IndexOf(seats, seats[i].salonId, nb).value != i
  }

  /** `tuple(sorted((a, b)))`. */
  function Ordered(a: int, b: int): (int, int) {
    if a <= b then (a, b) else (b, a)
  }

  /** The adjacency pairs: for every real seat and every neighbour number
      that names a pool position other than its own, the two positions in
      increasing order. */
  function AdjacencyPairs(seats: seq<Seat>): set<(int, int)> {
    set i, nb | 0 <= i < |seats| && nb in seats[i].neighbors && Links(seats, i, nb) ::
      Ordered(i, IndexOf(seats, seats[i].salonId, nb).value)
  }

  /** `_prepare_seat_data`: the pool and its adjacency pairs. */
  function PrepareSeatData(salonlar: seq<SalonRec>, m: SeatMap, occ: Occupied, withDesks: bool, cfgWidth: int)
    : (r: (seq<Seat>, set<(int, int)>))
    ensures forall p | p in r.1 :: 0 <= p.0 < p.1 < |r.0|
    ensures forall p | p in r.1 :: r.0[p.0].salonId == r.0[p.1].salonId
  {
    var seats := SeatList(salonlar, m, occ, withDesks, cfgWidth);
    (seats, AdjacencyPairs(seats))
  }

  // ------------------------------------------------------------ the shape

  predicate IsDesk(s: Seat) {
    s.teacher
  }

  predicate IsReal(s: Seat) {
    !s.teacher
  }

  /** A room's block with its desk is the block without it, plus the desk. */
  lemma RoomBlockSplit(s: SalonRec, m: SeatMap, occ: Occupied, cfgWidth: int)
    ensures SalonSeats(s, m, occ, true, cfgWidth) == SalonSeats(s, m, occ, false, cfgWidth) + [DeskSeat(s)]
    ensures forall i | 0 <= i < |SalonSeats(s, m, occ, false, cfgWidth)| :: IsReal(SalonSeats(s, m, occ, false, cfgWidth)[i])
  {
  }

  /** Adding the desks leaves the real seats exactly as they were. */
  lemma {:induction false} DesksKeepRealSeats(salonlar: seq<SalonRec>, m: SeatMap, occ: Occupied, cfgWidth: int)
    ensures Filter(SeatList(salonlar, m, occ, true, cfgWidth), IsReal) == SeatList(salonlar, m, occ, false, cfgWidth)
    decreases |salonlar|
  {
    if |salonlar| > 0 {
      var init := salonlar[..|salonlar| - 1];
      var s := salonlar[|salonlar| - 1];
      DesksKeepRealSeats(init, m, occ, cfgWidth);
      var without := SalonSeats(s, m, occ, false, cfgWidth);
      RoomBlockSplit(s, m, occ, cfgWidth);
      assert Filter(without + [DeskSeat(s)], IsReal) == without by {
        FilterConcat(without, [DeskSeat(s)], IsReal);
        FilterAll(without, IsReal);
        assert Filter([DeskSeat(s)], IsReal) == [];
      }
      SeatListSnoc(salonlar, m, occ, true, cfgWidth);
      SeatListSnoc(salonlar, m, occ, false, cfgWidth);
      FilterConcat(SeatList(init, m, occ, true, cfgWidth), without + [DeskSeat(s)], IsReal);
    }
  }

  /** With desks, the desks are exactly one per listed room, in room order. */
  lemma {:induction false} OneDeskPerRoom(salonlar: seq<SalonRec>, m: SeatMap, occ: Occupied, cfgWidth: int)
    ensures Filter(SeatList(salonlar, m, occ, true, cfgWidth), IsDesk) == Map(salonlar, DeskSeat)
    decreases |salonlar|
  {
    if |salonlar| > 0 {
      var init := salonlar[..|salonlar| - 1];
      var s := salonlar[|salonlar| - 1];
      OneDeskPerRoom(init, m, occ, cfgWidth);
      var without := SalonSeats(s, m, occ, false, cfgWidth);
      RoomBlockSplit(s, m, occ, cfgWidth);
      FilterConcat(SeatList(init, m, occ, true, cfgWidth), without + [DeskSeat(s)], IsDesk);
      FilterConcat(without, [DeskSeat(s)], IsDesk);
      FilterNone(without, IsDesk);
      assert Filter([DeskSeat(s)], IsDesk) == [DeskSeat(s)];
    }
  }

  /** Without desks every pool entry is a real seat. */
  lemma {:induction false} NoDesksWithoutDesks(salonlar: seq<SalonRec>, m: SeatMap, occ: Occupied, cfgWidth: int)
    ensures forall i | 0 <= i < |SeatList(salonlar, m, occ, false, cfgWidth)| ::
      !SeatList(salonlar, m, occ, false, cfgWidth)[i].teacher
    decreases |salonlar|
  {
    if |salonlar| > 0 {
      NoDesksWithoutDesks(salonlar[..|salonlar| - 1], m, occ, cfgWidth);
    }
  }

  /** A real pool entry is a free seat of a listed room: the room has a seat
      with that number and the number is not taken. */
  ghost predicate FreeSeatOf(seat: Seat, salonlar: seq<SalonRec>, m: SeatMap, occ: Occupied) {
    && (exists k | 0 <= k < |salonlar| :: salonlar[k].id == seat.salonId && salonlar[k].salonAdi == seat.salonAdi)
    && seat.salonId in m
    && (exists x | x in m[seat.salonId].siralar :: x.siraNo == seat.siraNo)
    && seat.siraNo !in OccupiedIn(occ, seat.salonId)
  }

  /** Every real pool entry is a free seat of a listed room; pinned
      (taken) seats never enter the pool. */
  lemma {:induction false} RealSeatsAreFree(salonlar: seq<SalonRec>, m: SeatMap, occ: Occupied,
                                           withDesks: bool, cfgWidth: int)
    ensures forall i | 0 <= i < |SeatList(salonlar, m, occ, withDesks, cfgWidth)| &&
                       !SeatList(salonlar, m, occ, withDesks, cfgWidth)[i].teacher ::
      FreeSeatOf(SeatList(salonlar, m, occ, withDesks, cfgWidth)[i], salonlar, m, occ)
    decreases |salonlar|
  {
    if |salonlar| > 0 {
      var init := salonlar[..|salonlar| - 1];
      var s := salonlar[|salonlar| - 1];
      RealSeatsAreFree(init, m, occ, withDesks, cfgWidth);
      var a := SeatList(init, m, occ, withDesks, cfgWidth);
      var b := SalonSeats(s, m, occ, withDesks, cfgWidth);
      var seats := SeatList(salonlar, m, occ, withDesks, cfgWidth);
      assert seats == a + b;
      forall i | 0 <= i < |seats| && !seats[i].teacher ensures FreeSeatOf(seats[i], salonlar, m, occ) {
        if i < |a| {
          assert seats[i] == a[i];
          FreeSeatOfWider(a[i], init, salonlar, m, occ);
        } else {
          RoomSeatFree(s, m, occ, withDesks, cfgWidth, i - |a|);
          assert seats[i] == b[i - |a|];
          assert salonlar[|salonlar| - 1] == s;
        }
      }
    }
  }

  lemma FreeSeatOfWider(seat: Seat, init: seq<SalonRec>, salonlar: seq<SalonRec>, m: SeatMap, occ: Occupied)
    requires |salonlar| > 0 && init == salonlar[..|salonlar| - 1]
    requires FreeSeatOf(seat, init, m, occ)
    ensures FreeSeatOf(seat, salonlar, m, occ)
  {
    var k :| 0 <= k < |init| && init[k].id == seat.salonId && init[k].salonAdi == seat.salonAdi;
    assert salonlar[k] == init[k];
  }

  /** The real entries of one room's block are free seats of that room. */
  lemma RoomSeatFree(s: SalonRec, m: SeatMap, occ: Occupied, withDesks: bool, cfgWidth: int, i: int)
    requires 0 <= i < |SalonSeats(s, m, occ, withDesks, cfgWidth)|
    requires !SalonSeats(s, m, occ, withDesks, cfgWidth)[i].teacher
    ensures var seat := SalonSeats(s, m, occ, withDesks, cfgWidth)[i];
      && seat.salonId == s.id && seat.salonAdi == s.salonAdi
      && s.id in m
      && (exists x | x in m[s.id].siralar :: x.siraNo == seat.siraNo)
      && seat.siraNo !in OccupiedIn(occ, s.id)
  {
    var bos := BosSiralar(s.id, m, occ);
    var b := SalonSeats(s, m, occ, withDesks, cfgWidth);
    if i < |bos| {
      assert bos[i] in bos;
      assert s.id in m;
      assert bos[i] in m[s.id].siralar;
    } else {
      assert false;
    }
  }

  // ------------------------------------------------------------ the pairs

  /** Every adjacency pair joins two different positions of the same room,
      lower position first, one of them a real seat whose neighbour list
      holds the other's number. */
  lemma PairsSound(seats: seq<Seat>, p: (int, int))
    requires p in AdjacencyPairs(seats)
    ensures 0 <= p.0 < p.1 < |seats|
    ensures seats[p.0].salonId == seats[p.1].salonId
    ensures || (!seats[p.0].teacher && seats[p.1].siraNo in seats[p.0].neighbors)
            || (!seats[p.1].teacher && seats[p.0].siraNo in seats[p.1].neighbors)
  {
    var i, nb :| 0 <= i < |seats| && nb in seats[i].neighbors && Links(seats, i, nb)
                 && p == Ordered(i, IndexOf(seats, seats[i].salonId, nb).value);
    var j := IndexOf(seats, seats[i].salonId, nb).value;
    assert seats[j].siraNo == nb;
  }

  /** Where pool keys are unique, a real seat and a seat whose number is
      among its neighbours (same room) always form a pair. */
  lemma PairsComplete(seats: seq<Seat>, i: int, j: int)
    requires DistinctBy(seats, SeatKey)
    requires 0 <= i < |seats| && 0 <= j < |seats| && i != j
    requires !seats[i].teacher
    requires seats[j].salonId == seats[i].salonId
    requires seats[j].siraNo in seats[i].neighbors
    ensures Ordered(i, j) in AdjacencyPairs(seats)
  {
    var nb := seats[j].siraNo;
    var r := IndexOf(seats, seats[i].salonId, nb);
    assert r.Some?;
    assert SeatKey(seats[r.value]) == SeatKey(seats[j]);
    assert r.value == j;
    assert Links(seats, i, nb);
  }

  /** A pool position's key: room and seat number. */
  function SeatKey(s: Seat): (int, int) {
    (s.salonId, s.siraNo)
  }

  /** The room entries agree with the database's uniqueness: seat numbers
      are distinct within a room and lie below the desk numbers. */
  predicate OrdinarySeats(m: SeatMap) {
    forall k | k in m ::
      && DistinctBy(m[k].siralar, (x: SalonSira) => x.siraNo)
      && forall i | 0 <= i < |m[k].siralar| :: m[k].siralar[i].siraNo < TEACHER_DESK_BASE
  }

  /** Every pool position belongs to a listed room. */
  lemma {:induction false} PoolRooms(salonlar: seq<SalonRec>, m: SeatMap, occ: Occupied, withDesks: bool, cfgWidth: int)
    ensures forall i | 0 <= i < |SeatList(salonlar, m, occ, withDesks, cfgWidth)| ::
      SeatList(salonlar, m, occ, withDesks, cfgWidth)[i].salonId in RoomIds(salonlar)
    decreases |salonlar|
  {
    if |salonlar| > 0 {
      var init := salonlar[..|salonlar| - 1];
      PoolRooms(init, m, occ, withDesks, cfgWidth);
      RoomIdsSnoc(salonlar);
    }
  }

  /** Within one room's block the keys are distinct. */
  lemma BlockKeysDistinct(s: SalonRec, m: SeatMap, occ: Occupied, withDesks: bool, cfgWidth: int)
    requires OrdinarySeats(m) && s.id >= 0
    ensures DistinctBy(SalonSeats(s, m, occ, withDesks, cfgWidth), SeatKey)
  {
    var bos := BosSiralar(s.id, m, occ);
    var b := SalonSeats(s, m, occ, withDesks, cfgWidth);
    if s.id in m {
      var taken := OccupiedIn(occ, s.id);
      FilterDistinctBy(m[s.id].siralar, (slot: SalonSira) => slot.siraNo !in taken, (x: SalonSira) => x.siraNo);
      assert DistinctBy(bos, (x: SalonSira) => x.siraNo);
    }
    forall i, j | 0 <= i < j < |b| ensures SeatKey(b[i]) != SeatKey(b[j]) {
      if j < |bos| {
        assert bos[i].siraNo != bos[j].siraNo;
      } else {
        assert b[j] == DeskSeat(s);
        assert bos[i] in m[s.id].siralar;
        var k :| 0 <= k < |m[s.id].siralar| && m[s.id].siralar[k] == bos[i];
        assert b[i].siraNo < TEACHER_DESK_BASE;
      }
    }
  }

  /** With distinct room ids and ordinary seat numbers, no two pool
      positions share a key. */
  lemma {:induction false} PoolKeysDistinct(salonlar: seq<SalonRec>, m: SeatMap, occ: Occupied,
                                           withDesks: bool, cfgWidth: int)
    requires DistinctBy(salonlar, (s: SalonRec) => s.id)
    requires forall k | 0 <= k < |salonlar| :: salonlar[k].id >= 0
    requires OrdinarySeats(m)
    ensures DistinctBy(SeatList(salonlar, m, occ, withDesks, cfgWidth), SeatKey)
    decreases |salonlar|
  {
    if |salonlar| > 0 {
      var init := salonlar[..|salonlar| - 1];
      var s := salonlar[|salonlar| - 1];
      assert DistinctBy(init, (s: SalonRec) => s.id) by {
        forall i, j | 0 <= i < j < |init| ensures init[i].id != init[j].id {
          assert init[i] == salonlar[i] && init[j] == salonlar[j];
        }
      }
      PoolKeysDistinct(init, m, occ, withDesks, cfgWidth);
      BlockKeysDistinct(s, m, occ, withDesks, cfgWidth);
      PoolRooms(init, m, occ, withDesks, cfgWidth);
      var a := SeatList(init, m, occ, withDesks, cfgWidth);
      var b := SalonSeats(s, m, occ, withDesks, cfgWidth);
      assert s.id !in RoomIds(init) by {
        forall k | 0 <= k < |init| ensures init[k].id != s.id {
          assert init[k] == salonlar[k];
        }
      }
      assert forall i, j | 0 <= i < |a| && 0 <= j < |b| :: SeatKey(a[i]) != SeatKey(b[j]) by {
        forall i, j | 0 <= i < |a| && 0 <= j < |b| ensures SeatKey(a[i]) != SeatKey(b[j]) {
          assert a[i].salonId in RoomIds(init);
          assert b[j].salonId == s.id;
        }
      }
      SeatListSnoc(salonlar, m, occ, withDesks, cfgWidth);
      DistinctByConcat(a, b, SeatKey);
    }
  }

  /** A desk carries a desk number; a real seat's neighbours are ordinary
      seat numbers. */
  predicate ShapedSeat(seat: Seat) {
    && (seat.teacher ==> seat.siraNo >= TEACHER_DESK_BASE)
    && (!seat.teacher ==> forall x | x in seat.neighbors :: x < TEACHER_DESK_BASE)
  }

  lemma BlockShaped(s: SalonRec, m: SeatMap, occ: Occupied, withDesks: bool, cfgWidth: int, i: int)
    requires OrdinarySeats(m) && s.id >= 0
    requires 0 <= i < |SalonSeats(s, m, occ, withDesks, cfgWidth)|
    ensures ShapedSeat(SalonSeats(s, m, occ, withDesks, cfgWidth)[i])
  {
    var bos := BosSiralar(s.id, m, occ);
    var all := AllSeatNumbers(m, s.id, bos);
    var w := RowWidth(m, s.id, cfgWidth);
    var b := SalonSeats(s, m, occ, withDesks, cfgWidth);
    if i < |bos| {
      assert b[i] == FreeSeat(s, bos[i], w, all);
      assert s.id in m;
      forall x | x in all ensures x < TEACHER_DESK_BASE {
        var y :| (y in m[s.id].siralar || y in bos) && y.siraNo == x;
        if y in bos {
          assert y in m[s.id].siralar;
        }
        var k :| 0 <= k < |m[s.id].siralar| && m[s.id].siralar[k] == y;
      }
    }
  }

  /** Every pool entry is shaped. */
  lemma {:induction false} PoolShaped(salonlar: seq<SalonRec>, m: SeatMap, occ: Occupied, withDesks: bool, cfgWidth: int)
    requires forall k | 0 <= k < |salonlar| :: salonlar[k].id >= 0
    requires OrdinarySeats(m)
    ensures forall i | 0 <= i < |SeatList(salonlar, m, occ, withDesks, cfgWidth)| ::
      ShapedSeat(SeatList(salonlar, m, occ, withDesks, cfgWidth)[i])
    decreases |salonlar|
  {
    if |salonlar| > 0 {
      var init := salonlar[..|salonlar| - 1];
      var s := salonlar[|salonlar| - 1];
      PoolShaped(init, m, occ, withDesks, cfgWidth);
      var a := SeatList(init, m, occ, withDesks, cfgWidth);
      var b := SalonSeats(s, m, occ, withDesks, cfgWidth);
      forall i | 0 <= i < |b| ensures ShapedSeat(b[i]) {
        BlockShaped(s, m, occ, withDesks, cfgWidth, i);
      }
      SeatListSnoc(salonlar, m, occ, withDesks, cfgWidth);
      AllConcat(a, b, ShapedSeat);
    }
  }

  /** With ordinary seat numbers, a desk is never paired: both ends of
      every pair are real seats of the same room. */
  lemma PoolPairsReal(salonlar: seq<SalonRec>, m: SeatMap, occ: Occupied, withDesks: bool, cfgWidth: int,
                      p: (int, int))
    requires forall k | 0 <= k < |salonlar| :: salonlar[k].id >= 0
    requires OrdinarySeats(m)
    requires p in AdjacencyPairs(SeatList(salonlar, m, occ, withDesks, cfgWidth))
    ensures var seats := SeatList(salonlar, m, occ, withDesks, cfgWidth);
      && 0 <= p.0 < p.1 < |seats|
      && !seats[p.0].teacher && !seats[p.1].teacher
      && seats[p.0].salonId == seats[p.1].salonId
  {
    var seats := SeatList(salonlar, m, occ, withDesks, cfgWidth);
    PairsSound(seats, p);
    PoolShaped(salonlar, m, occ, withDesks, cfgWidth);
    assert ShapedSeat(seats[p.0]) && ShapedSeat(seats[p.1]);
  }

  /** The neighbour numbers the engine computes for seat `n` of a room:
      the room's row width and all its seat numbers. */
  function RoomNeighbors(m: SeatMap, occ: Occupied, cfgWidth: int, salonId: int, n: int): seq<int> {
    SeatNeighbors(n, RowWidth(m, salonId, cfgWidth), AllSeatNumbers(m, salonId, BosSiralar(salonId, m, occ)))
  }

  /** A desk entry carries its room's first desk number; a real entry
      carries its room's neighbour numbers. */
  predicate PoolEntry(seat: Seat, m: SeatMap, occ: Occupied, cfgWidth: int) {
    && (seat.teacher ==> seat.siraNo == TeacherDeskNo(seat.salonId, 0) && seat.neighbors == [])
    && (!seat.teacher ==> seat.neighbors == RoomNeighbors(m, occ, cfgWidth, seat.salonId, seat.siraNo))
  }

  lemma {:induction false} PoolEntries(salonlar: seq<SalonRec>, m: SeatMap, occ: Occupied, withDesks: bool, cfgWidth: int)
    ensures forall i | 0 <= i < |SeatList(salonlar, m, occ, withDesks, cfgWidth)| ::
      PoolEntry(SeatList(salonlar, m, occ, withDesks, cfgWidth)[i], m, occ, cfgWidth)
    decreases |salonlar|
  {
    if |salonlar| > 0 {
      var init := salonlar[..|salonlar| - 1];
      var s := salonlar[|salonlar| - 1];
      PoolEntries(init, m, occ, withDesks, cfgWidth);
      var a := SeatList(init, m, occ, withDesks, cfgWidth);
      var b := SalonSeats(s, m, occ, withDesks, cfgWidth);
      forall i | 0 <= i < |a + b| ensures PoolEntry((a + b)[i], m, occ, cfgWidth) {
        if i < |a| {
          assert (a + b)[i] == a[i];
        } else {
          BlockEntry(s, m, occ, withDesks, cfgWidth, i - |a|);
          assert (a + b)[i] == b[i - |a|];
        }
      }
    }
  }

  lemma BlockEntry(s: SalonRec, m: SeatMap, occ: Occupied, withDesks: bool, cfgWidth: int, i: int)
    requires 0 <= i < |SalonSeats(s, m, occ, withDesks, cfgWidth)|
    ensures PoolEntry(SalonSeats(s, m, occ, withDesks, cfgWidth)[i], m, occ, cfgWidth)
  {
    var bos := BosSiralar(s.id, m, occ);
    var b := SalonSeats(s, m, occ, withDesks, cfgWidth);
    if i < |bos| {
      assert b[i] == FreeSeat(s, bos[i], RowWidth(m, s.id, cfgWidth), AllSeatNumbers(m, s.id, bos));
    }
  }
}

=== FILE: pool_view.dfy ===
/** The seating screen's side of a run (views/harmanlama_view.py): building
    the student pool of the selected exams, the checks made before the
    engine is called, and splitting the engine's incompatibility messages
    into room, seat and text for the table that lists them. The database
    queries are a parameter. */
module PoolView {
  import opened Wrappers
  import opened Seqs
  import opened Text
  import opened Records
  import opened Seating
  import opened Engine

  // ------------------------------------------------------------- the pool

  /** An entry of the screen's exam dictionary. */
  datatype Sinav = Sinav(sinavAdi: string, dersAdi: string, siniflar: seq<string>)

  /** The per-exam counts shown in the log. */
  datatype Istatistik = Istatistik(sinavId: int, sinavAdi: string, dersAdi: string, siniflar: seq<string>,
                                   mobil: nat, sabit: nat, toplam: nat)

  datatype Havuz = Havuz(mobil: seq<Student>, sabit: seq<Student>, tum: seq<Student>,
                         istatistikler: seq<Istatistik>)

  /** `ogrencileri_listele(siniflar=…, sabit_mi=…)`; `None` when the query
      raises. */
  type Listele = (seq<string>, bool) -> Option<seq<Student>>

  function OgrenciNo(o: Student): int {
    o.id
  }

  /** The ids of a list of students. */
  function Ids(s: seq<Student>): set<int> {
    set i | 0 <= i < |s| :: s[i].id
  }

  /** A copy of each student carrying the exam it was taken for. */
  function Etiketle(s: seq<Student>, sinavId: int, sinavAdi: string): (r: seq<Student>)
    ensures |r| == |s|
    ensures forall i | 0 <= i < |s| :: r[i] == s[i].(sinavId := Some(sinavId), sinavAdi := Some(sinavAdi))
  {
    seq(|s|, i requires 0 <= i < |s| => s[i].(sinavId := Some(sinavId), sinavAdi := Some(sinavAdi)))
  }

  /** The students of `s` whose id is neither in `seen` nor held by an
      earlier student of `s`, in order: the loop over a query result with
      its set of ids already taken. */
  function Yeni(s: seq<Student>, seen: set<int>): (r: seq<Student>)
    decreases |s|
  {
    if |s| == 0 then []
    else
      var init := s[..|s| - 1];
      var x := s[|s| - 1];
      Yeni(init, seen) + (if x.id in seen + Ids(init) then [] else [x])
  }

  /** What the loop over the selected exams has built so far. */
  datatype Birikim = Birikim(mobil: seq<Student>, sabit: seq<Student>, istatistikler: seq<Istatistik>)

  /** The two queries for an exam, run in one `try`: the mobile list, then
      the pinned list; `None` when either of them raised. */
  function Sorgula(listele: Listele, s: Sinav): Option<(seq<Student>, seq<Student>)> {
    match listele(s.siniflar, false)
    case None => None
    case Some(mobil) =>
      match listele(s.siniflar, true)
      case None => None
      case Some(sabit) => Some((mobil, sabit))
  }

  /** The mobile or pinned list for an exam; both are empty when either
      query failed. */
  function Liste(listele: Listele, s: Sinav, sabitMi: bool): seq<Student> {
    match Sorgula(listele, s)
    case None => []
    case Some((mobil, sabit)) => if sabitMi then sabit else mobil
  }

  /** An exam contributes its listed students exactly when both of its
      queries succeed; a failure of either query empties both lists. */
  lemma ListeBothOrNeither(listele: Listele, s: Sinav)
    ensures listele(s.siniflar, false).Some? && listele(s.siniflar, true).Some? ==>
      && Liste(listele, s, false) == listele(s.siniflar, false).value
      && Liste(listele, s, true) == listele(s.siniflar, true).value
    ensures listele(s.siniflar, false).None? || listele(s.siniflar, true).None? ==>
      Liste(listele, s, false) == [] && Liste(listele, s, true) == []
  {
  }

  /** The loop over the selected exams: an exam missing from the
      dictionary is skipped; otherwise its mobile and pinned students not
      taken yet are added, tagged with the exam, and its counts logged. */
  function Topla(secili: seq<int>, sinavlar: map<int, Sinav>, listele: Listele): Birikim
    decreases |secili|
  {
    if |secili| == 0 then Birikim([], [], [])
    else
      var b := Topla(secili[..|secili| - 1], sinavlar, listele);
      var id := secili[|secili| - 1];
      if id !in sinavlar then b
      else
        var s := sinavlar[id];
        var ym := Yeni(Etiketle(Liste(listele, s, false), id, s.sinavAdi), Ids(b.mobil));
        var ys := Yeni(Etiketle(Liste(listele, s, true), id, s.sinavAdi), Ids(b.sabit));
        Birikim(b.mobil + ym, b.sabit + ys,
                b.istatistikler + [Istatistik(id, s.sinavAdi, s.dersAdi, s.siniflar, |ym|, |ys|, |ym| + |ys|)])
  }

  /** `_hazirla_ogrenci_havuzu`: the mobile students first, then the pinned
      ones, with the per-exam counts. */
  function HazirlaOgrenciHavuzu(secili: seq<int>, sinavlar: map<int, Sinav>, listele: Listele): (h: Havuz)
    ensures h.tum == h.mobil + h.sabit
    ensures DistinctBy(h.mobil, OgrenciNo) && DistinctBy(h.sabit, OgrenciNo)
  {
    var b := Topla(secili, sinavlar, listele);
    YeniDistinct(Adaylar(secili, sinavlar, listele, false), {});
    YeniDistinct(Adaylar(secili, sinavlar, listele, true), {});
    ToplaIsFirstOccurrences(secili, sinavlar, listele);
    Havuz(b.mobil, b.sabit, b.mobil + b.sabit, b.istatistikler)
  }

  /** Every candidate of the selected exams in exam order, each tagged with
      the exam that listed it (a student listed by two exams appears
      twice). */
  function Adaylar(secili: seq<int>, sinavlar: map<int, Sinav>, listele: Listele, sabitMi: bool): seq<Student>
    decreases |secili|
  {
    if |secili| == 0 then []
    else
      var id := secili[|secili| - 1];
      Adaylar(secili[..|secili| - 1], sinavlar, listele, sabitMi) +
        (if id in sinavlar then Etiketle(Liste(listele, sinavlar[id], sabitMi), id, sinavlar[id].sinavAdi) else [])
  }

  // --------------------------------------------------------- properties

  /** `Yeni` keeps exactly the students whose id is not in `seen` and not
      held by an earlier student. */
  lemma {:induction false} YeniMembers(s: seq<Student>, seen: set<int>)
    ensures forall x | x in Yeni(s, seen) :: exists i | 0 <= i < |s| :: s[i] == x && First(s, seen, i)
    ensures forall i | 0 <= i < |s| && First(s, seen, i) :: s[i] in Yeni(s, seen)
    decreases |s|
  {
    if |s| > 0 {
      var init := s[..|s| - 1];
      YeniMembers(init, seen);
      forall i | 0 <= i < |init| ensures First(s, seen, i) == First(init, seen, i) {
        assert s[..i] == init[..i];
      }
      assert First(s, seen, |s| - 1) <==> s[|s| - 1].id !in seen + Ids(init) by {
        assert s[..|s| - 1] == init;
      }
    }
  }

  /** The element at `i` is the first of its id and its id is not in
      `seen`. */
  predicate First(s: seq<Student>, seen: set<int>, i: int)
    requires 0 <= i < |s|
  {
    s[i].id !in seen + Ids(s[..i])
  }

  /** The kept students have distinct ids, none of them in `seen`, and
      between them every id of `s` outside `seen`. */
  lemma {:induction false} YeniDistinct(s: seq<Student>, seen: set<int>)
    ensures DistinctBy(Yeni(s, seen), OgrenciNo)
    ensures Ids(Yeni(s, seen)) == Ids(s) - seen
    decreases |s|
  {
    if |s| > 0 {
      var init := s[..|s| - 1];
      var x := s[|s| - 1];
      YeniDistinct(init, seen);
      IdsSnoc(init, x);
      assert s == init + [x];
      var r := Yeni(init, seen);
      if x.id !in seen + Ids(init) {
        IdsSnoc(r, x);
        assert x.id !in Ids(r);
        forall i | 0 <= i < |r| ensures r[i].id != x.id {
          assert r[i].id in Ids(r);
        }
        assert Yeni(s, seen) == r + [x];
        assert Ids(s) - seen == (Ids(init) - seen) + {x.id};
      } else {
        assert Yeni(s, seen) == r;
      }
    }
  }

  lemma IdsSnoc(s: seq<Student>, x: Student)
    ensures Ids(s + [x]) == Ids(s) + {x.id}
  {
    var t := s + [x];
    forall k | k in Ids(s) ensures k in Ids(t) {
      var i :| 0 <= i < |s| && s[i].id == k;
      assert t[i] == s[i];
    }
    assert t[|s|] == x;
  }

  lemma {:induction false} IdsConcat(a: seq<Student>, b: seq<Student>)
    ensures Ids(a + b) == Ids(a) + Ids(b)
    decreases |b|
  {
    if |b| == 0 {
      assert a + b == a;
    } else {
      var init := b[..|b| - 1];
      IdsConcat(a, init);
      assert a + b == (a + init) + [b[|b| - 1]];
      assert b == init + [b[|b| - 1]];
      IdsSnoc(a + init, b[|b| - 1]);
      IdsSnoc(init, b[|b| - 1]);
    }
  }

  /** Deduplicating a concatenation: the second part only adds students
      whose id the first part did not have. */
  lemma {:induction false} YeniConcat(a: seq<Student>, b: seq<Student>, seen: set<int>)
    ensures Yeni(a + b, seen) == Yeni(a, seen) + Yeni(b, seen + Ids(a))
    decreases |b|
  {
    if |b| == 0 {
      assert a + b == a;
    } else {
      var init := b[..|b| - 1];
      var x := b[|b| - 1];
      YeniConcat(a, init, seen);
      assert a + b == (a + init) + [x];
      assert (a + b)[..|a + b| - 1] == a + init;
      IdsConcat(a, init);
    }
  }

  /** The loop's lists are the first occurrences, by id, among all the
      candidates of the selected exams in order; the counts follow the
      lists. */
  lemma {:induction false} ToplaIsFirstOccurrences(secili: seq<int>, sinavlar: map<int, Sinav>, listele: Listele)
    ensures Topla(secili, sinavlar, listele).mobil == Yeni(Adaylar(secili, sinavlar, listele, false), {})
    ensures Topla(secili, sinavlar, listele).sabit == Yeni(Adaylar(secili, sinavlar, listele, true), {})
    decreases |secili|
  {
    if |secili| > 0 {
      var init := secili[..|secili| - 1];
      ToplaIsFirstOccurrences(init, sinavlar, listele);
      var id := secili[|secili| - 1];
      if id in sinavlar {
        var s := sinavlar[id];
        var am := Adaylar(init, sinavlar, listele, false);
        var sa := Adaylar(init, sinavlar, listele, true);
        YeniConcat(am, Etiketle(Liste(listele, s, false), id, s.sinavAdi), {});
        YeniConcat(sa, Etiketle(Liste(listele, s, true), id, s.sinavAdi), {});
        YeniDistinct(am, {});
        YeniDistinct(sa, {});
        assert {} + Ids(am) == Ids(Yeni(am, {}));
        assert {} + Ids(sa) == Ids(Yeni(sa, {}));
      } else {
        assert Adaylar(secili, sinavlar, listele, false) == Adaylar(init, sinavlar, listele, false);
        assert Adaylar(secili, sinavlar, listele, true) == Adaylar(init, sinavlar, listele, true);
        assert Topla(secili, sinavlar, listele) == Topla(init, sinavlar, listele);
      }
    }
  }

  /** The pool's mobile list: every student of the selected exams'
      mobile lists appears once, as the copy made for the first exam that
      listed them; its ids are distinct. */
  lemma HavuzFirstExam(secili: seq<int>, sinavlar: map<int, Sinav>, listele: Listele)
    ensures var h := HazirlaOgrenciHavuzu(secili, sinavlar, listele);
      var a := Adaylar(secili, sinavlar, listele, false);
      && (forall x | x in h.mobil :: exists i | 0 <= i < |a| :: a[i] == x && First(a, {}, i))
      && (forall i | 0 <= i < |a| && First(a, {}, i) :: a[i] in h.mobil)
      && Ids(h.mobil) == Ids(a)
  {
    var a := Adaylar(secili, sinavlar, listele, false);
    ToplaIsFirstOccurrences(secili, sinavlar, listele);
    YeniMembers(a, {});
    YeniDistinct(a, {});
  }

  /** The same for the pinned list. */
  lemma HavuzFirstExamPinned(secili: seq<int>, sinavlar: map<int, Sinav>, listele: Listele)
    ensures var h := HazirlaOgrenciHavuzu(secili, sinavlar, listele);
      var a := Adaylar(secili, sinavlar, listele, true);
      && (forall x | x in h.sabit :: exists i | 0 <= i < |a| :: a[i] == x && First(a, {}, i))
      && (forall i | 0 <= i < |a| && First(a, {}, i) :: a[i] in h.sabit)
      && Ids(h.sabit) == Ids(a)
  {
    var a := Adaylar(secili, sinavlar, listele, true);
    ToplaIsFirstOccurrences(secili, sinavlar, listele);
    YeniMembers(a, {});
    YeniDistinct(a, {});
  }

  function MobilSayisi(st: Istatistik): int {
    st.mobil
  }

  function SabitSayisi(st: Istatistik): int {
    st.sabit
  }

  /** One count line per selected exam found in the dictionary, each with
      `toplam == mobil + sabit`; the mobile counts add up to the mobile list
      and the pinned counts to the pinned list. */
  lemma {:induction false} HavuzCounts(secili: seq<int>, sinavlar: map<int, Sinav>, listele: Listele)
    ensures var b := Topla(secili, sinavlar, listele);
      && (forall st | st in b.istatistikler :: st.toplam == st.mobil + st.sabit && st.sinavId in sinavlar)
      && Sum(Map(b.istatistikler, MobilSayisi)) == |b.mobil|
      && Sum(Map(b.istatistikler, SabitSayisi)) == |b.sabit|
    decreases |secili|
  {
    if |secili| > 0 {
      var init := secili[..|secili| - 1];
      HavuzCounts(init, sinavlar, listele);
      var b := Topla(init, sinavlar, listele);
      var id := secili[|secili| - 1];
      if id in sinavlar {
        var b' := Topla(secili, sinavlar, listele);
        var st := b'.istatistikler[|b'.istatistikler| - 1];
        assert b'.istatistikler == b.istatistikler + [st];
        SumSnoc(Map(b.istatistikler, MobilSayisi), st.mobil);
        SumSnoc(Map(b.istatistikler, SabitSayisi), st.sabit);
        MapConcat(b.istatistikler, [st], MobilSayisi);
        MapConcat(b.istatistikler, [st], SabitSayisi);
      }
    }
  }

  lemma SumSnoc(s: seq<int>, x: int)
    ensures Sum(s + [x]) == Sum(s) + x
  {
    assert (s + [x])[..|s|] == s;
  }

  // ------------------------------------------------- before the engine

  /** Why the screen does not start a run. */
  datatype OnKontrolHatasi =
    | SinavSecilmedi                                   // "Önce en az bir sınav seçmelisiniz!"
    | SalonSecilmedi                                   // "En az bir salon seçmelisiniz!"
    | OgrenciYok                                       // "Seçili sınavlarda öğrenci bulunamadı!"
    | KapasiteYetersiz(ogrenci: nat, kapasite: int)    // "Yetersiz kapasite! …"

  /** The checks of the screen's `harmanla` before the engine is called:
      the pool it would hand over, or the reason it stops. */
  function OnKontrol(secili: seq<int>, salonlar: seq<SalonRec>, sinavlar: map<int, Sinav>, listele: Listele)
    : (r: Result<Havuz, OnKontrolHatasi>)
    ensures r == Err(SinavSecilmedi) <==> |secili| == 0
    ensures r == Err(SalonSecilmedi) <==> |secili| > 0 && |salonlar| == 0
    ensures r.Ok? ==> r.value == HazirlaOgrenciHavuzu(secili, sinavlar, listele)
    ensures r.Ok? <==>
      && |secili| > 0 && |salonlar| > 0
      && 0 < |HazirlaOgrenciHavuzu(secili, sinavlar, listele).tum| <= TotalCapacity(salonlar)
    ensures r == Err(OgrenciYok) <==>
      |secili| > 0 && |salonlar| > 0 && |HazirlaOgrenciHavuzu(secili, sinavlar, listele).tum| == 0
    ensures r.Err? && r.error.KapasiteYetersiz? <==>
      && |secili| > 0 && |salonlar| > 0
      && 0 < |HazirlaOgrenciHavuzu(secili, sinavlar, listele).tum|
      && |HazirlaOgrenciHavuzu(secili, sinavlar, listele).tum| > TotalCapacity(salonlar)
    ensures r.Err? && r.error.KapasiteYetersiz? ==>
      r.error.ogrenci == |HazirlaOgrenciHavuzu(secili, sinavlar, listele).tum| > r.error.kapasite == TotalCapacity(salonlar)
  {
    if |secili| == 0 then Err(SinavSecilmedi)
    else if |salonlar| == 0 then Err(SalonSecilmedi)
    else
      var h := HazirlaOgrenciHavuzu(secili, sinavlar, listele);
      if |h.tum| == 0 then Err(OgrenciYok)
      else if |h.tum| > TotalCapacity(salonlar) then Err(KapasiteYetersiz(|h.tum|, TotalCapacity(salonlar)))
      else Ok(h)
  }

  /** A pool the screen lets through passes the engine's own input
      check. */
  lemma OnKontrolPassesValidation(secili: seq<int>, salonlar: seq<SalonRec>, sinavlar: map<int, Sinav>, listele: Listele)
    requires OnKontrol(secili, salonlar, sinavlar, listele).Ok?
    ensures ValidateInput(OnKontrol(secili, salonlar, sinavlar, listele).value.tum, salonlar).None?
  {
  }

  // ------------------------------------------- incompatibility messages

  /** A row of the incompatibility table; "-" stands for an unknown room
      or seat. */
  datatype Uyumsuzluk = Uyumsuzluk(salon: string, sira: string, detay: string)

  /** The text between the room name and the seat number. */
  const ANAHTAR: string := " salonunda "

  /** The length of the run of digits that starts at `p`. */
  function DigitRun(t: string, p: nat): (n: nat)
    requires p <= |t|
    ensures p + n <= |t|
    ensures forall j | p <= j < p + n :: IsDigit(t[j])
    ensures p + n < |t| ==> !IsDigit(t[p + n])
    decreases |t| - p
  {
    if p < |t| && IsDigit(t[p]) then 1 + DigitRun(t, p + 1) else 0
  }

  /** The rest of the pattern at `e`, right after the room name: " salonunda ",
      one or more digits and a '.'. The digits are the seat. */
  function SiraAt(t: string, e: nat): (r: Option<string>)
    requires e <= |t|
    ensures r.Some? ==> IsDigits(r.value) && e + |ANAHTAR| + |r.value| < |t|
    ensures r.Some? ==> t[e..e + |ANAHTAR|] == ANAHTAR
    ensures r.Some? ==> t[e + |ANAHTAR|..e + |ANAHTAR| + |r.value|] == r.value
    ensures r.Some? ==> t[e + |ANAHTAR| + |r.value|] == '.'
  {
    var q := e + |ANAHTAR|;
    if q <= |t| && t[e..q] == ANAHTAR then
      var n := DigitRun(t, q);
      if n > 0 && q + n < |t| && t[q + n] == '.' then Some(t[q..q + n]) else None
    else None
  }

  /** The pattern matches with the room name `t[i..e]`: at least one
      character, no line break (`.` does not match one), and the rest of
      the pattern right after it. */
  predicate Eslesir(t: string, i: int, e: int) {
    0 <= i < e <= |t| && '\n' !in t[i..e] && SiraAt(t, e).Some?
  }

  /** The lazy `.+?`: the least end from `e` on at which the rest matches,
      given that `t[i..e - 1]` has no line break. */
  function EnKisa(t: string, i: nat, e: nat): (r: Option<nat>)
    requires i < e <= |t| + 1
    decreases |t| + 1 - e
  {
    if e > |t| then None
    else if t[e - 1] == '\n' then None
    else if SiraAt(t, e).Some? then Some(e)
    else EnKisa(t, i, e + 1)
  }

  /** `re.search`: the first start from `i` on at which the pattern
      matches, with the end the lazy room name takes there. */
  function Ara(t: string, i: nat): (r: Option<(nat, nat)>)
    decreases |t| - i
  {
    if i >= |t| then None
    else
      match EnKisa(t, i, i + 1)
      case Some(e) => Some((i, e))
      case None => Ara(t, i + 1)
  }

  /** One message: the stripped room name and the seat when the pattern is
      found, "-" for both otherwise; the text itself is kept. */
  function Ayristir(t: string): (u: Uyumsuzluk)
    ensures u.detay == t
  {
    match Ara(t, 0)
    case None => Uyumsuzluk("-", "-", t)
    case Some((i, e)) =>
      AraSound(t, 0);
      Uyumsuzluk(Strip(t[i..e]), SiraAt(t, e).value, t)
  }

  /** The room and seat columns show "-" exactly when the pattern occurs
      nowhere in the message; otherwise they hold the leftmost, shortest
      match: its room name stripped and its digits. */
  lemma AyristirMatches(t: string)
    ensures var u := Ayristir(t);
      && (u.sira == "-" <==> forall i, e :: !Eslesir(t, i, e))
      && (u.sira == "-" ==> u.salon == "-")
      && (u.sira != "-" ==> exists i, e :: EnSol(t, i, e) && u.salon == Strip(t[i..e]) && u.sira == SiraAt(t, e).value)
  {
    AraSound(t, 0);
    AraComplete(t, 0);
    match Ara(t, 0)
    case None =>
    case Some((i, e)) =>
      var d := SiraAt(t, e).value;
      assert IsDigits(d);
      assert |d| > 0 ==> d[0] != '-';
      assert EnSol(t, i, e);
  }

  /** `(i, e)` is the match `re.search` reports: the leftmost start, and at
      it the shortest room name. */
  ghost predicate EnSol(t: string, i: int, e: int) {
    && Eslesir(t, i, e)
    && (forall e' | Eslesir(t, i, e') :: e <= e')
    && (forall i', e' | 0 <= i' < i :: !Eslesir(t, i', e'))
  }

  /** `_parse_uyumsuzluklar`: one row per message, in order. */
  function ParseUyumsuzluklar(logs: seq<string>): (r: seq<Uyumsuzluk>)
    ensures |r| == |logs|
    ensures forall k | 0 <= k < |logs| :: r[k] == Ayristir(logs[k])
  {
    Map(logs, Ayristir)
  }

  /** The lazy end is the least end that matches. */
  lemma {:induction false} EnKisaLeast(t: string, i: nat, e: nat)
    requires i < e <= |t| + 1
    requires '\n' !in t[i..e - 1]
    ensures var r := EnKisa(t, i, e);
      && (r.Some? ==> e <= r.value && Eslesir(t, i, r.value))
      && (forall e' | e <= e' && Eslesir(t, i, e') :: r.Some? && r.value <= e')
    decreases |t| + 1 - e
  {
    if e <= |t| && t[e - 1] != '\n' {
      assert t[i..e] == t[i..e - 1] + [t[e - 1]];
      if SiraAt(t, e).None? {
        EnKisaLeast(t, i, e + 1);
        forall e' | e <= e' && Eslesir(t, i, e') ensures e + 1 <= e' {
        }
      }
    }
  }

  /** A match `Ara` reports is a match, and no earlier start matches. */
  lemma {:induction false} AraSound(t: string, i: nat)
    ensures var r := Ara(t, i);
      r.Some? ==> (
        && i <= r.value.0 && Eslesir(t, r.value.0, r.value.1)
        && (forall e' | Eslesir(t, r.value.0, e') :: r.value.1 <= e')
        && (forall i', e' | i <= i' < r.value.0 :: !Eslesir(t, i', e')))
    decreases |t| - i
  {
    if i < |t| {
      assert t[i..i] == [];
      EnKisaLeast(t, i, i + 1);
      if EnKisa(t, i, i + 1).None? {
        AraSound(t, i + 1);
      }
    }
  }

  /** `Ara` misses no match. */
  lemma {:induction false} AraComplete(t: string, i: nat)
    ensures Ara(t, i).None? ==> forall i', e' | i <= i' :: !Eslesir(t, i', e')
    decreases |t| - i
  {
    if i < |t| {
      assert t[i..i] == [];
      EnKisaLeast(t, i, i + 1);
      if EnKisa(t, i, i + 1).None? {
        AraComplete(t, i + 1);
      }
    }
  }

  /** A message "<room> salonunda <seat>. …" whose room name is one word
      is read back as that room and seat. */
  lemma AyristirRoundTrip(salon: string, sira: nat, rest: string)
    requires |salon| > 0 && forall k | 0 <= k < |salon| :: !IsSpace(salon[k])
    ensures var t := salon + ANAHTAR + NatToString(sira) + "." + rest;
      Ayristir(t) == Uyumsuzluk(salon, NatToString(sira), t)
  {
    var d := NatToString(sira);
    var t := salon + ANAHTAR + d + "." + rest;
    var e := |salon|;
    MessageMatches(salon, d, rest);
    AraSound(t, 0);
    AraComplete(t, 0);
    var (i, e') := Ara(t, 0).value;
    assert i == 0 && e' <= e;
    if e' < e {
      NoSpaceNoKey(t, salon, e');
    }
    assert t[0..e] == salon;
    StripFixed(salon);
  }

  /** Inside a one-word room name the rest of the pattern cannot start. */
  lemma NoSpaceNoKey(t: string, salon: string, e: nat)
    requires |salon| <= |t| && t[..|salon|] == salon
    requires forall k | 0 <= k < |salon| :: !IsSpace(salon[k])
    requires e < |salon|
    ensures SiraAt(t, e).None?
  {
    assert t[e] == salon[e];
    if e + |ANAHTAR| <= |t| {
      assert t[e..e + |ANAHTAR|][0] == t[e];
    }
  }

  /** The room name followed by the seat is a match. */
  lemma MessageMatches(salon: string, d: string, rest: string)
    requires |salon| > 0 && forall k | 0 <= k < |salon| :: !IsSpace(salon[k])
    requires IsDigits(d)
    ensures var t := salon + ANAHTAR + d + "." + rest;
      SiraAt(t, |salon|) == Some(d) && Eslesir(t, 0, |salon|)
  {
    var t := salon + ANAHTAR + d + "." + rest;
    var e := |salon|;
    assert t[e..e + |ANAHTAR|] == ANAHTAR;
    assert t[e + |ANAHTAR|..] == d + "." + rest;
    DigitRunOf(t, e + |ANAHTAR|, d, "." + rest);
    assert t[e + |ANAHTAR|..e + |ANAHTAR| + |d|] == d;
    assert t[0..e] == salon;
    assert '\n' !in t[0..e] by {
      assert !IsSpace('\n') == false;
    }
  }

  /** The digits run exactly as far as the digits written there. */
  lemma DigitRunOf(t: string, p: nat, d: string, rest: string)
    requires p <= |t| && t[p..] == d + rest && AllDigits(d)
    requires |rest| > 0 && !IsDigit(rest[0])
    ensures DigitRun(t, p) == |d|
    decreases |d|
  {
    assert t[p..][0] == t[p];
    if |d| > 0 {
      assert t[p + 1..] == d[1..] + rest by {
        assert t[p + 1..] == t[p..][1..];
      }
      DigitRunOf(t, p + 1, d[1..], rest);
    }
  }

  /** The end of the engine's teacher's-desk message. */
  const MASA_SONU: string := " öğrenci Öğretmen Masasına alındı."

  /** The teacher's-desk message the engine writes into `uyumsuzluklar`. */
  function MasaMesaji(d: DeskLog): string {
    d.salonAdi + ANAHTAR + NatToString(d.count) + MASA_SONU
  }

  lemma MasaSonuFacts(x: string)
    requires x == MASA_SONU
    ensures |x| >= 2 && x[|x| - 1] == '.' && !IsDigit(x[|x| - 2])
    ensures forall j | 0 <= j < |x| - 1 :: x[j] != '.'
  {
  }

  /** The only '.' in a teacher's-desk message is its last character,
      and no digit stands before it. */
  lemma MasaMesajiDot(d: DeskLog, p: nat)
    requires '.' !in d.salonAdi
    requires 0 < p < |MasaMesaji(d)| && MasaMesaji(d)[p] == '.'
    ensures p == |MasaMesaji(d)| - 1 && !IsDigit(MasaMesaji(d)[p - 1])
  {
    var t := MasaMesaji(d);
    var n := NatToString(d.count);
    var a := |d.salonAdi|;
    var b := a + |ANAHTAR| + |n|;
    MasaSonuFacts(MASA_SONU);
    assert t[b..] == MASA_SONU;
    if p >= b {
      assert t[p] == MASA_SONU[p - b];
      assert t[p - 1] == MASA_SONU[p - 1 - b];
    }
  }

  /** The engine's teacher's-desk messages carry a count followed by a space,
      not a seat followed by '.', so the table shows "-" as their room and
      seat (for any room name without a '.'). */
  lemma MasaMesajiUnparsed(d: DeskLog)
    requires '.' !in d.salonAdi
    ensures Ayristir(MasaMesaji(d)) == Uyumsuzluk("-", "-", MasaMesaji(d))
  {
    var t := MasaMesaji(d);
    forall i, e ensures !Eslesir(t, i, e) {
      MasaMesajiNoMatchAt(d, i, e);
    }
    AyristirMatches(t);
  }

  lemma MasaMesajiNoMatchAt(d: DeskLog, i: int, e: int)
    requires '.' !in d.salonAdi
    ensures !Eslesir(MasaMesaji(d), i, e)
  {
    var t := MasaMesaji(d);
    if Eslesir(t, i, e) {
      var q := SiraAt(t, e).value;
      var p := e + |ANAHTAR| + |q|;
      assert IsDigit(t[p - 1]) by {
        assert t[e + |ANAHTAR|..p][|q| - 1] == q[|q| - 1];
      }
      MasaMesajiDot(d, p);
    }
  }
}

=== FILE: printing_view.dfy ===
/** The printing screen: the folder name an exam's papers are copied under,
    and the per-room view it rebuilds from the placements grouped by room
    name. */
module PrintingView {
  import opened Wrappers
  import opened Seqs
  import opened Text
  import opened Records
  import opened Models

  // ----------------------------------------------------------- folder name

  /** The name used when nothing usable is left. */
  const YEDEK: string := "sinav"

  /** Characters a folder name may keep; spaces only until they are
      replaced. */
  predicate KlasorKarakteri(ch: char) {
    IsAlnum(ch) || ch == '-' || ch == '_'
  }

  /** A character kept as it is, or `_` in its place. */
  function Karakter(ch: char): char {
    if KlasorKarakteri(ch) || ch == ' ' then ch else '_'
  }

  function BoslukAlti(ch: char): char {
    if ch == ' ' then '_' else ch
  }

  /** `_safe_folder_name`: every character outside letters, digits, space,
      `-` and `_` becomes `_`; the result is stripped and its spaces become
      `_`; an empty input or an empty result gives "sinav". */
  function KlasorAdi(text: string): (r: string)
    ensures |r| > 0
  {
    if |text| == 0 then YEDEK
    else
      var r := Map(Strip(Map(text, Karakter)), BoslukAlti);
      if |r| == 0 then YEDEK else r
  }

  lemma AlnumNotSpace(ch: char)
    requires IsAlnum(ch)
    ensures !IsSpace(ch)
  {
    if ch in TurkishLetters {
      var t := TurkishLetters;
      assert forall i | 0 <= i < |t| :: !IsSpace(t[i]);
    }
  }

  lemma YedekFacts(y: string)
    requires y == YEDEK
    ensures forall i | 0 <= i < |y| :: IsAsciiLetter(y[i])
  {
  }

  predicate KarakterVeyaBosluk(ch: char) {
    ch == ' ' || KlasorKarakteri(ch)
  }

  lemma KarakterShape(text: string)
    ensures forall i | 0 <= i < |Map(text, Karakter)| :: KarakterVeyaBosluk(Map(text, Karakter)[i])
  {
  }

  /** Replacing the spaces leaves only folder characters. */
  lemma UnderscoredShape(s: string)
    requires forall i | 0 <= i < |s| :: KarakterVeyaBosluk(s[i])
    ensures var r := Map(s, BoslukAlti);
      |r| == |s| && forall i | 0 <= i < |r| :: KlasorKarakteri(r[i])
  {
  }

  /** The folder name is never empty and holds only letters, digits, `-`
      and `_`; it is "sinav" for an empty text or when nothing else is
      left, and otherwise no longer than the text it came from. */
  lemma KlasorAdiShape(text: string)
    ensures var r := KlasorAdi(text);
      && (forall i | 0 <= i < |r| :: KlasorKarakteri(r[i]))
      && (|text| == 0 ==> r == YEDEK)
      && (r == YEDEK || |r| <= |text|)
  {
    YedekFacts(YEDEK);
    if |text| > 0 {
      KarakterShape(text);
      StripByKeepsAll(Map(text, Karakter), IsSpace, KarakterVeyaBosluk);
      UnderscoredShape(Strip(Map(text, Karakter)));
    }
  }

  /** A folder name is its own folder name. */
  lemma KlasorAdiIdempotent(text: string)
    ensures KlasorAdi(KlasorAdi(text)) == KlasorAdi(text)
  {
    KlasorAdiShape(text);
    KlasorAdiFixed(KlasorAdi(text));
  }

  /** A non-empty name of folder characters only is kept as it is. */
  lemma KlasorAdiFixed(r: string)
    requires |r| > 0 && forall i | 0 <= i < |r| :: KlasorKarakteri(r[i])
    ensures KlasorAdi(r) == r
  {
    forall i | 0 <= i < |r| ensures !IsSpace(r[i]) && Karakter(r[i]) == r[i] && BoslukAlti(r[i]) == r[i] {
      if IsAlnum(r[i]) {
        AlnumNotSpace(r[i]);
      }
    }
    MapFixed(r, Karakter);
    StripFixed(r);
    MapFixed(r, BoslukAlti);
  }

  // ---------------------------------------------------------- room view

  /** One exam's entry for a room: its placements and the invigilator
      recorded for it. */
  datatype Giris = Giris(placement: seq<Placement>, gozetmen: Option<string>)

  /** The rebuilt view of one room. */
  datatype SalonVerisi = SalonVerisi(salonId: Option<int>, students: seq<Placement>, gozetmen: string)

  /** `x.get('sinav_adi', '')`. */
  function SinavAdiOf(p: Placement): string {
    p.sinavAdi.GetOr("")
  }

  /** The sort key `(sira_no, sinav_adi)`. */
  predicate BySeatAndExam(p: Placement, q: Placement) {
    p.siraNo < q.siraNo || (p.siraNo == q.siraNo && StrLe(SinavAdiOf(p), SinavAdiOf(q)))
  }

  lemma BySeatAndExamPreorder()
    ensures TotalPreorder(BySeatAndExam)
  {
    StrLePreorder();
  }

  function Placements(g: Giris): seq<Placement> {
    g.placement
  }

  /** The first invigilator that is given, or "". */
  function IlkGozetmen(entries: seq<Giris>): string {
    if |entries| == 0 then ""
    else if Truthy(entries[0].gozetmen) then entries[0].gozetmen.value
    else IlkGozetmen(entries[1..])
  }

  /** The room's invigilator is "" exactly when no entry gives one, and
      otherwise the one the first entry that gives one names. */
  lemma {:induction false} IlkGozetmenFirst(entries: seq<Giris>)
    ensures var g := IlkGozetmen(entries);
      && (g == "" <==> forall i | 0 <= i < |entries| :: !Truthy(entries[i].gozetmen))
      && (g != "" ==> exists i | 0 <= i < |entries| ::
        && entries[i].gozetmen == Some(g)
        && forall j | 0 <= j < i :: !Truthy(entries[j].gozetmen))
  {
    if |entries| > 0 && !Truthy(entries[0].gozetmen) {
      var rest := entries[1..];
      IlkGozetmenFirst(rest);
      assert forall i | 1 <= i < |entries| :: entries[i] == rest[i - 1];
      var g := IlkGozetmen(rest);
      if g != "" {
        var i :| 0 <= i < |rest| && rest[i].gozetmen == Some(g)
          && forall j | 0 <= j < i :: !Truthy(rest[j].gozetmen);
        assert entries[i + 1].gozetmen == Some(g);
      }
    } else if |entries| > 0 {
      assert entries[0].gozetmen == Some(IlkGozetmen(entries));
    }
  }

  /** One room of `_rebuild_salon_data`: all its entries' placements,
      sorted by seat and exam name; the room id of the first of them; the
      first invigilator given. */
  function SalonVerisiOf(entries: seq<Giris>): (v: SalonVerisi)
    ensures multiset(v.students) == multiset(Flatten(Map(entries, Placements)))
    ensures SortedBy(v.students, BySeatAndExam)
    ensures v.salonId.Some? <==> |Flatten(Map(entries, Placements))| > 0
    ensures v.salonId.Some? ==> v.salonId.value == v.students[0].salonId
    ensures v.gozetmen == IlkGozetmen(entries)
  {
    BySeatAndExamPreorder();
    var students := SortBy(Flatten(Map(entries, Placements)), BySeatAndExam);
    SalonVerisi(if |students| > 0 then Some(students[0].salonId) else None, students, IlkGozetmen(entries))
  }

  /** `_rebuild_salon_data` over every room of the map. */
  function RebuildSalonData(salonMap: map<string, seq<Giris>>): (d: map<string, SalonVerisi>)
    ensures d.Keys == salonMap.Keys
    ensures forall k | k in d :: d[k] == SalonVerisiOf(salonMap[k])
  {
    map k | k in salonMap :: SalonVerisiOf(salonMap[k])
  }

  /** A placement appears in its room's view exactly when one of the
      room's entries holds it, and the view lists seats in increasing
      order. */
  lemma SalonVerisiMembers(entries: seq<Giris>, p: Placement)
    ensures p in SalonVerisiOf(entries).students <==>
      exists i | 0 <= i < |entries| :: p in entries[i].placement
    ensures var s := SalonVerisiOf(entries).students;
      forall i, j | 0 <= i < j < |s| :: s[i].siraNo <= s[j].siraNo
  {
    var all := Flatten(Map(entries, Placements));
    var s := SalonVerisiOf(entries).students;
    assert p in s <==> p in multiset(s);
    assert p in all <==> p in multiset(all);
    FlattenMembers(Map(entries, Placements), p);
  }

  /** `x` is in the concatenation exactly when it is in one of the parts. */
  lemma {:induction false} FlattenMembers<T>(ss: seq<seq<T>>, x: T)
    ensures x in Flatten(ss) <==> exists i | 0 <= i < |ss| :: x in ss[i]
  {
    if |ss| > 0 {
      FlattenMembers(ss[..|ss| - 1], x);
      assert Flatten(ss) == Flatten(ss[..|ss| - 1]) + ss[|ss| - 1];
      if x in ss[|ss| - 1] {
        assert x in ss[|ss| - 1];
      }
      if exists i | 0 <= i < |ss| - 1 :: x in ss[i] {
        var i :| 0 <= i < |ss| - 1 && x in ss[i];
        assert ss[..|ss| - 1][i] == ss[i];
      }
    }
  }
}

=== FILE: records.dfy ===
/** The dictionaries the engine passes around: a student as read from the
    database and one placement of the result list. */
module Records {
  import opened Wrappers

  /** A student dictionary; `sabitSalonId`/`sabitSiraId` are the pinned room
      and seat ids of a pinned student. */
  datatype Student = Student(
    id: int,
    ad: string,
    soyad: string,
    sinif: string,
    sube: string,
    sinavId: Option<int>,
    sinavAdi: Option<string>,
    sabitSalonId: Option<int>,
    sabitSiraId: Option<int>)

  /** One entry of the `yerlesim` list. `sabitKonum` is present for pinned
      students only; `ogretmenMasasi` marks a teacher's-desk seat. */
  datatype Placement = Placement(
    ogrenciId: int,
    salonId: int,
    siraNo: int,
    sinif: string,
    sube: string,
    salonAdi: string,
    sabitMi: bool,
    sabitKonum: Option<string>,
    sinavId: Option<int>,
    sinavAdi: Option<string>,
    ogretmenMasasi: bool)

  /** Python truthiness of an optional id: present and not 0. */
  predicate IdGiven(x: Option<int>) {
    x.Some? && x.value != 0
  }

  /** `f"{sinif}-{sube}"`, the class-and-branch key. */
  function ClassKey(sinif: string, sube: string): (k: string)
    ensures |k| == |sinif| + 1 + |sube| && k[|sinif|] == '-'
    ensures k[..|sinif|] == sinif && k[|sinif| + 1..] == sube
  {
    sinif + "-" + sube
  }

  /** Class keys of levels without '-' tell level and branch apart: equal
      keys mean equal level and equal branch. A '-' inside the level breaks
      this, as `ClassKey("5-A", "B") == ClassKey("5", "A-B")` shows. */
  lemma ClassKeyInjective(sinif: string, sube: string, sinif': string, sube': string)
    requires '-' !in sinif && '-' !in sinif'
    ensures ClassKey(sinif, sube) == ClassKey(sinif', sube') <==> sinif == sinif' && sube == sube'
  {
  }

  /** The level-with-'-' collision named above. */
  lemma ClassKeyAmbiguous()
    ensures ClassKey("5-A", "B") == ClassKey("5", "A-B")
  {
  }

  /** The seat a placement occupies. */
  function SeatOf(p: Placement): (int, int) {
    (p.salonId, p.siraNo)
  }

  /** No two placements share a seat. */
  predicate SeatsDistinct(ps: seq<Placement>) {
    forall i, j | 0 <= i < j < |ps| :: SeatOf(ps[i]) != SeatOf(ps[j])
  }
}

=== FILE: seat_label.dfy ===
/** How a seat number is shown on screen and in reports (`format_sira_label`). */
module SeatLabel {
  import opened Text
  import opened Constants

  /** The label of a teacher's-desk pseudo seat. */
  const DESK_LABEL: string := "Ö.Masa"

  /** The label used when no seat number is known, unless the caller gives another. */
  const DEFAULT_EMPTY: string := "-"

  /** A seat number as a label: "Ö.Masa" from TEACHER_DESK_BASE upwards,
      otherwise `f"{n:03d}"`. */
  function RenderNumber(n: int): (r: string)
    ensures n >= TEACHER_DESK_BASE <==> r == DESK_LABEL
  {
    if n >= TEACHER_DESK_BASE then DESK_LABEL
    else
      var r := Format03(n);
      assert r[0] != 'Ö' by {
        if n >= 0 { Format03NonNegative(n); assert IsDigit(r[0]); }
      }
      r
  }

  /** `format_sira_label(v, empty)`: `None` and "" give `empty`; a string
      that is not all digits once stripped is returned stripped (or `empty`
      when nothing is left); a number, or a string of digits, is rendered. */
  function FormatSiraLabel(v: Scalar, empty: string): (r: string)
    ensures v.NoneValue? || v == Str("") ==> r == empty
    ensures v.Str? && Strip(v.s) == "" ==> r == empty
    ensures v.Str? && Strip(v.s) != "" && !IsDigits(Strip(v.s)) ==> r == Strip(v.s)
    ensures v.Str? && IsDigits(Strip(v.s)) ==> r == RenderNumber(DigitsValue(Strip(v.s)))
    ensures v.Int? ==> r == RenderNumber(v.i)
  {
    match v
    case NoneValue => empty
    case Int(n) => RenderNumber(n)
    case Str(s) =>
      if s == "" then
        assert Strip(s) == "";
        empty
      else
        var t := Strip(s);
        if !IsDigits(t) then (if t == "" then empty else t)
        else RenderNumber(DigitsValue(t))
  }

  /** An ordinary seat number (0 ≤ n < TEACHER_DESK_BASE) renders as a
      digit string of `max(3, len(str(n)))` characters that reads back as
      `n`, and as the same label whether it arrives as a number or as text. */
  lemma LabelRoundTrip(n: int, empty: string)
    requires 0 <= n < TEACHER_DESK_BASE
    ensures var r := FormatSiraLabel(Int(n), empty);
      && IsDigits(r) && DigitsValue(r) == n
      && |r| == if |NatToString(n)| >= 3 then |NatToString(n)| else 3
    ensures FormatSiraLabel(Str(Format03(n)), empty) == FormatSiraLabel(Int(n), empty)
  {
    Format03NonNegative(n);
    StripDigits(Format03(n));
  }

  /** Distinct ordinary seat numbers get distinct labels. */
  lemma LabelInjective(n: int, m: int, empty: string)
    requires 0 <= n < TEACHER_DESK_BASE && 0 <= m < TEACHER_DESK_BASE
    requires n != m
    ensures FormatSiraLabel(Int(n), empty) != FormatSiraLabel(Int(m), empty)
  {
    LabelRoundTrip(n, empty);
    LabelRoundTrip(m, empty);
  }

  /** A string of digits with surrounding whitespace renders like the number
      it spells: " 7 " gives "007". */
  lemma LabelOfPaddedSeven()
    ensures FormatSiraLabel(Str(" 7 "), DEFAULT_EMPTY) == "007"
  {
    StripSeven();
    SevenValue();
    assert IsDigits("7");
  }

  lemma StripSeven()
    ensures Strip(" 7 ") == "7"
  {
    var s := " 7 ";
    assert LStripBy(s, IsSpace) == "7 " by { assert s[1..] == "7 "; }
    assert RStripBy("7 ", IsSpace) == "7" by { assert "7 "[..1] == "7"; }
  }

  lemma SevenValue()
    ensures DigitsValue("7") == 7 && RenderNumber(7) == "007"
  {
    assert "7"[..0] == [];
    assert NatToString(7) == "7";
  }

  /** Short numbers are zero-padded to three digits, longer ones kept whole. */
  lemma LabelPadding()
    ensures FormatSiraLabel(Int(5), DEFAULT_EMPTY) == "005"
    ensures FormatSiraLabel(Int(1234), DEFAULT_EMPTY) == "1234"
  {
    assert NatToString(5) == "5";
    assert NatToString(1234) == "1234" by {
      assert NatToString(1) == "1";
      assert NatToString(12) == "12";
      assert NatToString(123) == "123";
    }
  }
}

=== FILE: seating.dfy ===
/** The engine's picture of the rooms: each room's seat list and row width
    (`_hazirla_salon_sira_map`), the free seats of a room, seat lookup by id,
    the neighbour relation between seat numbers and the numbers of the
    teacher's-desk pseudo seats. */
module Seating {
  import opened Wrappers
  import opened Seqs
  import opened Text
  import opened Constants
  import SeatLabel

  /** A seat of a room (`SalonSira`) with the fields the engine reads; `id`
      is absent for the seats the engine invents itself. */
  datatype SalonSira = SalonSira(id: Option<int>, salonId: int, siraNo: int, etiket: Option<string>)

  /** A room as handed to the engine; `satirGenisligi` is the optional
      `satir_genisligi` entry of the room's dictionary. */
  datatype SalonRec = SalonRec(id: int, salonAdi: string, kapasite: int, satirGenisligi: Option<int>)

  /** One room's entry of the seat map: the seats ordered by number, the
      seats by id and by number, and the row width. */
  datatype SalonData = SalonData(siralar: seq<SalonSira>, byId: map<int, SalonSira>,
                                 byNo: map<int, SalonSira>, satirGenisligi: int)

  /** Room id to that room's seats. */
  type SeatMap = map<int, SalonData>

  /** Room id to the seat numbers already taken in it. */
  type Occupied = map<int, set<int>>

  /** `HarmanlamaConfig.satir_genisligi`'s default. */
  const DEFAULT_SATIR_GENISLIGI: int := 2

  /** `occupied_map.get(salon_id, set())`. */
  function OccupiedIn(occ: Occupied, salonId: int): set<int> {
    if salonId in occ then occ[salonId] else {}
  }

  /** The sort key of the seat list: the seat number. */
  predicate BySiraNo(a: SalonSira, b: SalonSira) {
    a.siraNo <= b.siraNo
  }

  lemma BySiraNoPreorder()
    ensures TotalPreorder(BySiraNo)
  {
  }

  // ------------------------------------------------------------- seat map

  /** The seats invented for a room without a stored seat list: numbers
      1..kapasite, no id, no label (`range(kapasite)` is empty when the
      capacity is not positive). */
  function DefaultSeats(salon: SalonRec): (r: seq<SalonSira>)
    ensures |r| == if salon.kapasite > 0 then salon.kapasite else 0
    ensures forall i | 0 <= i < |r| :: r[i] == SalonSira(None, salon.id, i + 1, None)
  {
    seq(if salon.kapasite > 0 then salon.kapasite else 0, i => SalonSira(None, salon.id, i + 1, None))
  }

  /** The stored seat list given for a room, or the empty list. */
  function RawSeats(salon: SalonRec, haritasi: map<int, seq<SalonSira>>): seq<SalonSira> {
    if salon.id in haritasi then haritasi[salon.id] else []
  }

  /** `_infer_satir_genisligi`: a positive override on the room wins,
      otherwise the configured width, but never less than 1. */
  function InferSatirGenisligi(salon: SalonRec, cfgWidth: int): (w: int)
    ensures w >= 1
    ensures salon.satirGenisligi.Some? && salon.satirGenisligi.value > 0 ==> w == salon.satirGenisligi.value
    ensures !(salon.satirGenisligi.Some? && salon.satirGenisligi.value > 0) && cfgWidth >= 1 ==> w == cfgWidth
    ensures !(salon.satirGenisligi.Some? && salon.satirGenisligi.value > 0) && cfgWidth < 1 ==> w == 1
  {
    if salon.satirGenisligi.Some? && salon.satirGenisligi.value > 0 then salon.satirGenisligi.value
    else if cfgWidth > 1 then cfgWidth else 1
  }

  /** The inferred width is settled: configuring it, or recording it on
      the room, infers the same width again. */
  lemma InferredWidthStable(salon: SalonRec, cfgWidth: int, other: int)
    ensures var w := InferSatirGenisligi(salon, cfgWidth);
      && InferSatirGenisligi(salon, w) == w
      && InferSatirGenisligi(salon.(satirGenisligi := Some(w)), other) == w
  {
  }

  /** `{slot.id: slot for slot in siralar if slot.id is not None}`: the
      last seat carrying each id. */
  function ById(s: seq<SalonSira>): (m: map<int, SalonSira>)
    ensures forall k :: k in m <==> exists i | 0 <= i < |s| :: s[i].id == Some(k)
    ensures forall k | k in m :: m[k] in s && m[k].id == Some(k)
    decreases |s|
  {
    if |s| == 0 then map[]
    else
      var init := s[..|s| - 1];
      var x := s[|s| - 1];
      var m := ById(init);
      assert forall i | 0 <= i < |init| :: init[i] == s[i];
      if x.id.Some? then m[x.id.value := x] else m
  }

  /** `{slot.sira_no: slot for slot in siralar}`: the last seat carrying
      each number. */
  function ByNo(s: seq<SalonSira>): (m: map<int, SalonSira>)
    ensures forall k :: k in m <==> exists i | 0 <= i < |s| :: s[i].siraNo == k
    ensures forall k | k in m :: m[k] in s && m[k].siraNo == k
    decreases |s|
  {
    if |s| == 0 then map[]
    else
      var init := s[..|s| - 1];
      var x := s[|s| - 1];
      var m := ByNo(init);
      assert forall i | 0 <= i < |init| :: init[i] == s[i];
      m[x.siraNo := x]
  }

  /** A room entry as the engine builds it: its lookups agree with its seat
      list, the list is ordered by number and the row width is positive. */
  predicate WellFormedData(d: SalonData) {
    && d.byId == ById(d.siralar)
    && d.byNo == ByNo(d.siralar)
    && SortedBy(d.siralar, BySiraNo)
    && d.satirGenisligi >= 1
  }

  /** One room's entry: the stored seats (or the invented ones when none are
      stored) sorted by number, the two lookups and the row width. */
  function SalonEntry(salon: SalonRec, haritasi: map<int, seq<SalonSira>>, cfgWidth: int): (d: SalonData)
    ensures WellFormedData(d)
    ensures |RawSeats(salon, haritasi)| > 0 ==> multiset(d.siralar) == multiset(RawSeats(salon, haritasi))
    ensures |RawSeats(salon, haritasi)| == 0 ==> multiset(d.siralar) == multiset(DefaultSeats(salon))
    ensures d.satirGenisligi == InferSatirGenisligi(salon, cfgWidth)
  {
    var raw := RawSeats(salon, haritasi);
    var base := if |raw| > 0 then raw else DefaultSeats(salon);
    BySiraNoPreorder();
    var siralar := SortBy(base, BySiraNo);
    SalonData(siralar, ById(siralar), ByNo(siralar), InferSatirGenisligi(salon, cfgWidth))
  }

  /** A room with no stored seats gets exactly seats 1..kapasite, none of
      which can be found by id. */
  lemma DefaultEntry(salon: SalonRec, haritasi: map<int, seq<SalonSira>>, cfgWidth: int)
    requires |RawSeats(salon, haritasi)| == 0
    ensures SalonEntry(salon, haritasi, cfgWidth).siralar == DefaultSeats(salon)
    ensures SalonEntry(salon, haritasi, cfgWidth).byId == map[]
  {
    var d := DefaultSeats(salon);
    BySiraNoPreorder();
    assert SortedBy(d, BySiraNo);
    SortBySorted(d, BySiraNo);
  }

  /** `_hazirla_salon_sira_map`: one entry per listed room id, every entry
      well formed. */
  function HazirlaSalonSiraMap(salonlar: seq<SalonRec>, haritasi: map<int, seq<SalonSira>>, cfgWidth: int)
    : (m: SeatMap)
    ensures forall k | k in m :: WellFormedData(m[k])
    decreases |salonlar|
  {
    if |salonlar| == 0 then map[]
    else
      var s := salonlar[|salonlar| - 1];
      HazirlaSalonSiraMap(salonlar[..|salonlar| - 1], haritasi, cfgWidth)[s.id := SalonEntry(s, haritasi, cfgWidth)]
  }

  /** The ids of the listed rooms. */
  function RoomIds(salonlar: seq<SalonRec>): set<int> {
    set i | 0 <= i < |salonlar| :: salonlar[i].id
  }

  /** The map has an entry for exactly the listed room ids. */
  lemma {:induction false} SeatMapKeys(salonlar: seq<SalonRec>, haritasi: map<int, seq<SalonSira>>, cfgWidth: int)
    ensures HazirlaSalonSiraMap(salonlar, haritasi, cfgWidth).Keys == RoomIds(salonlar)
    decreases |salonlar|
  {
    if |salonlar| > 0 {
      var init := salonlar[..|salonlar| - 1];
      SeatMapKeys(init, haritasi, cfgWidth);
      RoomIdsSnoc(salonlar);
    }
  }

  lemma RoomIdsSnoc(salonlar: seq<SalonRec>)
    requires |salonlar| > 0
    ensures RoomIds(salonlar) == RoomIds(salonlar[..|salonlar| - 1]) + {salonlar[|salonlar| - 1].id}
  {
    var init := salonlar[..|salonlar| - 1];
    forall k | k in RoomIds(salonlar) ensures k in RoomIds(init) + {salonlar[|salonlar| - 1].id} {
      var i :| 0 <= i < |salonlar| && salonlar[i].id == k;
      if i < |init| { assert init[i].id == k; }
    }
    forall k | k in RoomIds(init) ensures k in RoomIds(salonlar) {
      var i :| 0 <= i < |init| && init[i].id == k;
      assert salonlar[i].id == k;
    }
  }

  /** When a room id is listed more than once, the last room's entry is kept. */
  lemma {:induction false} SeatMapLastWins(salonlar: seq<SalonRec>, haritasi: map<int, seq<SalonSira>>,
                                          cfgWidth: int, i: int)
    requires 0 <= i < |salonlar| && LastWithId(salonlar, i)
    ensures salonlar[i].id in HazirlaSalonSiraMap(salonlar, haritasi, cfgWidth)
    ensures HazirlaSalonSiraMap(salonlar, haritasi, cfgWidth)[salonlar[i].id]
      == SalonEntry(salonlar[i], haritasi, cfgWidth)
    decreases |salonlar|
  {
    var init := salonlar[..|salonlar| - 1];
    var last := salonlar[|salonlar| - 1];
    var before := HazirlaSalonSiraMap(init, haritasi, cfgWidth);
    var entry := SalonEntry(last, haritasi, cfgWidth);
    assert HazirlaSalonSiraMap(salonlar, haritasi, cfgWidth) == before[last.id := entry];
    if i < |init| {
      assert last.id != salonlar[i].id;
      assert init[i] == salonlar[i];
      assert LastWithId(init, i) by {
        forall j | i < j < |init| ensures init[j].id != init[i].id {
          assert init[j] == salonlar[j];
        }
      }
      SeatMapLastWins(init, haritasi, cfgWidth, i);
      UpdateElsewhere(before, last.id, entry, salonlar[i].id);
    } else {
      UpdateHere(before, last.id, entry);
    }
  }

  lemma UpdateElsewhere<K, V>(m: map<K, V>, k: K, v: V, j: K)
    requires j in m && j != k
    ensures j in m[k := v] && m[k := v][j] == m[j]
  {
  }

  lemma UpdateHere<K, V>(m: map<K, V>, k: K, v: V)
    ensures k in m[k := v] && m[k := v][k] == v
  {
  }

  /** No later room in the list has the same id as room `i`. */
  predicate LastWithId(salonlar: seq<SalonRec>, i: int)
    requires 0 <= i < |salonlar|
  {
    forall j | i < j < |salonlar| :: salonlar[j].id != salonlar[i].id
  }

  // --------------------------------------------------------- seat queries

  /** `_bos_siralar_for_salon`: the room's seats whose numbers are not
      taken, in seat-list order; nothing for a room without an entry. */
  function BosSiralar(salonId: int, m: SeatMap, occ: Occupied): (r: seq<SalonSira>)
    ensures salonId !in m ==> r == []
    ensures salonId in m ==> IsSubsequence(r, m[salonId].siralar)
    ensures salonId in m ==> forall x :: x in r <==>
      x in m[salonId].siralar && x.siraNo !in OccupiedIn(occ, salonId)
  {
    if salonId !in m then []
    else
      var taken := OccupiedIn(occ, salonId);
      var r := Filter(m[salonId].siralar, (slot: SalonSira) => slot.siraNo !in taken);
      FilterSubsequence(m[salonId].siralar, (slot: SalonSira) => slot.siraNo !in taken);
      r
  }

  /** `_find_salon_sira_by_id`: the room's seat with that id. In a room
      entry built by the engine it is found exactly when the room's seat
      list holds a seat with that id. */
  function FindSalonSiraById(salonId: int, siraId: int, m: SeatMap): (r: Option<SalonSira>)
    ensures r.Some? ==> salonId in m
    ensures salonId in m && WellFormedData(m[salonId]) ==>
      (r.Some? <==> exists i | 0 <= i < |m[salonId].siralar| :: m[salonId].siralar[i].id == Some(siraId))
    ensures salonId in m && WellFormedData(m[salonId]) && r.Some? ==>
      r.value in m[salonId].siralar && r.value.id == Some(siraId)
  {
    if salonId !in m then None
    else if siraId in m[salonId].byId then Some(m[salonId].byId[siraId])
    else None
  }

  // ------------------------------------------------------------ neighbours

  /** A non-positive row width counts as 1. */
  function EffectiveWidth(w: int): (e: int)
    ensures e >= 1
  {
    if w <= 0 then 1 else w
  }

  /** Seats `a` and `b` are in the same row of a room `w` seats wide
      (`(a - 1) // w == (b - 1) // w`; with `w > 0` Dafny's division
      rounds down like Python's). */
  predicate SameRow(a: int, b: int, w: int)
    requires w >= 1
  {
    (a - 1) / w == (b - 1) / w
  }

  /** The neighbour relation: the seat to the left (a positive number in
      the same row), to the right (same row), in front (a positive number
      one row earlier) or behind (one row later), provided the room has a
      seat with that number. */
  predicate Adjacent(n: int, x: int, w: int, seats: set<int>) {
    var e := EffectiveWidth(w);
    && x in seats
    && (|| (x == n - 1 && x >= 1 && SameRow(x, n, e))
        || (x == n + 1 && SameRow(x, n, e))
        || (x == n - e && x >= 1)
        || x == n + e)
  }

  /** `_seat_neighbors(n, w, seats)`: the left, right, front and back
      neighbours of seat `n`, in that order. */
  function SeatNeighbors(n: int, w: int, seats: set<int>): (r: seq<int>)
    ensures |r| <= 4
    ensures Distinct(r)
    ensures forall i | 0 <= i < |r| :: r[i] in seats && r[i] != n
    ensures forall x :: x in r <==> Adjacent(n, x, w, seats)
  {
    var e := EffectiveWidth(w);
    var left := n - 1;
    var right := n + 1;
    var up := n - e;
    var down := n + e;
    var l := if left >= 1 && SameRow(left, n, e) && left in seats then [left] else [];
    var rt := if SameRow(right, n, e) && right in seats then [right] else [];
    var u := if up >= 1 && up in seats then [up] else [];
    var d := if down in seats then [down] else [];
    assert e == 1 ==> l == [] && rt == [];
    l + rt + u + d
  }

  /** Between positive seat numbers of the room the relation is symmetric. */
  lemma NeighborsSymmetric(n: int, m: int, w: int, seats: set<int>)
    requires n >= 1 && m >= 1
    requires n in seats && m in seats
    ensures m in SeatNeighbors(n, w, seats) <==> n in SeatNeighbors(m, w, seats)
  {
    var e := EffectiveWidth(w);
    assert SameRow(m, n, e) <==> SameRow(n, m, e);
  }

  // ----------------------------------------------------- teacher's desks

  /** `_teacher_desk_no(salon_id, index)`: the number of a room's desk seat. */
  function TeacherDeskNo(salonId: int, index: int): (n: int)
    ensures salonId >= 0 && index >= 0 ==> n >= TEACHER_DESK_BASE
    ensures 0 <= index < 100 ==> (n - TEACHER_DESK_BASE - index) / 100 == salonId
  {
    TEACHER_DESK_BASE + salonId * 100 + index
  }

  /** The first desks of different rooms get different numbers, and a desk
      never shares its number with an ordinary seat. */
  lemma DeskNumbersDistinct(a: int, b: int, siraNo: int)
    requires a != b && a >= 0 && b >= 0
    requires siraNo < TEACHER_DESK_BASE
    ensures TeacherDeskNo(a, 0) != TeacherDeskNo(b, 0)
    ensures TeacherDeskNo(a, 0) != siraNo
  {
  }

  /** A desk of a room with a non-negative id is labelled "Ö.Masa". */
  lemma DeskLabel(salonId: int, index: int, empty: string)
    requires salonId >= 0 && index >= 0
    ensures SeatLabel.FormatSiraLabel(Int(TeacherDeskNo(salonId, index)), empty) == SeatLabel.DESK_LABEL
  {
  }
}

=== FILE: seqs.dfy ===
/** Generic sequence machinery shared by the model: sums, filters,
    subsequences, a stable insertion sort (Python's `list.sort(key=...)`)
    and grouping in first-appearance order (Python's insertion-ordered
    `dict` of lists). */
module Seqs {

  function Sum(s: seq<int>): int
    decreases |s|
  {
    if |s| == 0 then 0 else Sum(s[..|s| - 1]) + s[|s| - 1]
  }

  function Map<T, U>(s: seq<T>, f: T -> U): (r: seq<U>)
    ensures |r| == |s| && forall i | 0 <= i < |s| :: r[i] == f(s[i])
    decreases |s|
  {
    if |s| == 0 then [] else Map(s[..|s| - 1], f) + [f(s[|s| - 1])]
  }

  /** Mapping a function that fixes every element changes nothing. */
  lemma MapFixed<T>(s: seq<T>, f: T -> T)
    requires forall i | 0 <= i < |s| :: f(s[i]) == s[i]
    ensures Map(s, f) == s
  {
  }

  /** The first `n` elements, then `m` more, are the first `n + m`. */
  lemma PrefixJoin<T>(s: seq<T>, n: nat, m: nat)
    requires n + m <= |s|
    ensures s[..n] + s[n..][..m] == s[..n + m]
  {
  }

  lemma ConcatAssoc<T>(a: seq<T>, b: seq<T>, c: seq<T>)
    ensures (a + b) + c == a + (b + c)
  {
  }

  /** A non-empty sequence is its first element followed by the rest. */
  lemma HeadTail<T>(s: seq<T>)
    requires |s| > 0
    ensures s == [s[0]] + s[1..]
  {
  }

  /** The elements satisfying `p`, in their original order. */
  function Filter<T>(s: seq<T>, p: T -> bool): (r: seq<T>)
    ensures |r| <= |s|
    ensures forall x | x in r :: p(x) && x in s
    ensures forall x | x in s && p(x) :: x in r
    decreases |s|
  {
    if |s| == 0 then []
    else
      var r := Filter(s[..|s| - 1], p) + (if p(s[|s| - 1]) then [s[|s| - 1]] else []);
      assert forall x | x in s :: x in s[..|s| - 1] || x == s[|s| - 1];
      r
  }

  /** The position of the first element satisfying `p`. */
  function FirstWhere<T>(s: seq<T>, p: T -> bool): (k: nat)
    requires exists i | 0 <= i < |s| :: p(s[i])
    ensures k < |s| && p(s[k])
    ensures forall i | 0 <= i < k :: !p(s[i])
    decreases |s|
  {
    if p(s[0]) then 0
    else
      var j :| 0 <= j < |s| && p(s[j]);
      assert s[1..][j - 1] == s[j];
      1 + FirstWhere(s[1..], p)
  }

  /** `a` can be obtained from `b` by deleting elements. */
  predicate IsSubsequence<T(==)>(a: seq<T>, b: seq<T>)
    decreases |b|
  {
    || |a| == 0
    || (&& |b| > 0
        && (|| (a[|a| - 1] == b[|b| - 1] && IsSubsequence(a[..|a| - 1], b[..|b| - 1]))
            || IsSubsequence(a, b[..|b| - 1])))
  }

  lemma IsSubsequenceExtend<T>(a: seq<T>, b: seq<T>, x: T)
    requires IsSubsequence(a, b)
    ensures IsSubsequence(a, b + [x]) && IsSubsequence(a + [x], b + [x])
  {
    assert (a + [x])[..|a|] == a;
    assert (b + [x])[..|b|] == b;
  }

  /** Filtering keeps the survivors in their original order. */
  lemma {:induction false} FilterSubsequence<T>(s: seq<T>, p: T -> bool)
    ensures IsSubsequence(Filter(s, p), s)
    decreases |s|
  {
    if |s| > 0 {
      var init := s[..|s| - 1];
      var x := s[|s| - 1];
      FilterSubsequence(init, p);
      assert s == init + [x];
      IsSubsequenceExtend(Filter(init, p), init, x);
      if p(x) {
        assert Filter(s, p) == Filter(init, p) + [x];
      } else {
        assert Filter(s, p) == Filter(init, p);
      }
    }
  }

  /** Filtering keeps everything when everything passes. */
  lemma {:induction false} FilterAll<T>(s: seq<T>, p: T -> bool)
    requires forall i | 0 <= i < |s| :: p(s[i])
    ensures Filter(s, p) == s
    decreases |s|
  {
    if |s| > 0 {
      var init, x := s[..|s| - 1], s[|s| - 1];
      assert s == init + [x];
      FilterAll(init, p);
      assert Filter(s, p) == Filter(init, p) + [x];
    }
  }

  /** Filtering keeps nothing when nothing passes. */
  lemma {:induction false} FilterNone<T>(s: seq<T>, p: T -> bool)
    requires forall i | 0 <= i < |s| :: !p(s[i])
    ensures Filter(s, p) == []
    decreases |s|
  {
    if |s| > 0 {
      FilterNone(s[..|s| - 1], p);
    }
  }

  /** Filtering distributes over concatenation. */
  lemma {:induction false} FilterConcat<T>(a: seq<T>, b: seq<T>, p: T -> bool)
    ensures Filter(a + b, p) == Filter(a, p) + Filter(b, p)
    decreases |b|
  {
    if |b| > 0 {
      var init, x := b[..|b| - 1], b[|b| - 1];
      FilterConcat(a, init, p);
      assert a + b == (a + init) + [x];
      assert (a + b)[..|a + b| - 1] == a + init;
      var tail := if p(x) then [x] else [];
      assert Filter(a + b, p) == Filter(a + init, p) + tail;
      assert Filter(b, p) == Filter(init, p) + tail;
    } else {
      assert a + b == a;
    }
  }

  /** The concatenation of a sequence of sequences. */
  function Flatten<T>(ss: seq<seq<T>>): (r: seq<T>)
    decreases |ss|
  {
    if |ss| == 0 then [] else Flatten(ss[..|ss| - 1]) + ss[|ss| - 1]
  }

  /** The concatenation of `f(s[i], base + i)` over the elements in order:
      what each element contributes, told its position. */
  function FlatMapIndexed<T, U>(s: seq<T>, f: (T, int) -> seq<U>, base: int): seq<U>
    decreases |s|
  {
    if |s| == 0 then []
    else FlatMapIndexed(s[..|s| - 1], f, base) + f(s[|s| - 1], base + |s| - 1)
  }

  /** Each element's contribution appears in the result, and everything in
      the result is some element's contribution. */
  lemma {:induction false} FlatMapIndexedMembers<T, U>(s: seq<T>, f: (T, int) -> seq<U>, base: int)
    ensures forall i, x | 0 <= i < |s| && x in f(s[i], base + i) :: x in FlatMapIndexed(s, f, base)
    ensures forall x | x in FlatMapIndexed(s, f, base) ::
      exists i | 0 <= i < |s| :: x in f(s[i], base + i)
    decreases |s|
  {
    if |s| > 0 {
      var init := s[..|s| - 1];
      FlatMapIndexedMembers(init, f, base);
      forall i, x | 0 <= i < |s| && x in f(s[i], base + i)
        ensures x in FlatMapIndexed(s, f, base)
      {
        if i < |init| {
          assert s[i] == init[i];
        }
      }
      forall x | x in FlatMapIndexed(s, f, base)
        ensures exists i | 0 <= i < |s| :: x in f(s[i], base + i)
      {
        if x in FlatMapIndexed(init, f, base) {
          var i :| 0 <= i < |init| && x in f(init[i], base + i);
          assert s[i] == init[i];
        } else {
          assert x in f(s[|s| - 1], base + |s| - 1);
        }
      }
    }
  }

  /** Filtering then mapping one element further into a sequence. */
  lemma MapFilterStep<T, U>(s: seq<T>, i: nat, p: T -> bool, f: T -> U)
    requires i < |s|
    ensures Map(Filter(s[..i + 1], p), f) == Map(Filter(s[..i], p), f) + (if p(s[i]) then [f(s[i])] else [])
  {
    assert s[..i + 1][..i] == s[..i];
    MapConcat(Filter(s[..i], p), if p(s[i]) then [s[i]] else [], f);
  }

  /** One element further into an indexed flat map. */
  lemma FlatMapIndexedStep<T, U>(s: seq<T>, i: nat, f: (T, int) -> seq<U>, base: int)
    requires i < |s|
    ensures FlatMapIndexed(s[..i + 1], f, base) == FlatMapIndexed(s[..i], f, base) + f(s[i], base + i)
  {
    assert s[..i + 1][..i] == s[..i];
  }

  /** Keys are pairwise distinct. */
  predicate DistinctBy<T, K(==)>(s: seq<T>, key: T -> K) {
    forall i, j | 0 <= i < j < |s| :: key(s[i]) != key(s[j])
  }

  /** Filtering keeps distinct keys distinct. */
  lemma {:induction false} FilterDistinctBy<T, K>(s: seq<T>, p: T -> bool, key: T -> K)
    requires DistinctBy(s, key)
    ensures DistinctBy(Filter(s, p), key)
    decreases |s|
  {
    if |s| > 0 {
      var init := s[..|s| - 1];
      var x := s[|s| - 1];
      assert DistinctBy(init, key) by {
        forall i, j | 0 <= i < j < |init| ensures key(init[i]) != key(init[j]) {
          assert init[i] == s[i] && init[j] == s[j];
        }
      }
      FilterDistinctBy(init, p, key);
      var f := Filter(init, p);
      if p(x) {
        forall y | y in f ensures key(y) != key(x) {
          assert y in init;
          var k :| 0 <= k < |init| && init[k] == y;
          assert s[k] == y;
        }
        var r := f + [x];
        assert Filter(s, p) == r;
        forall i, j | 0 <= i < j < |r| ensures key(r[i]) != key(r[j]) {
          if j == |f| {
            assert r[i] in f;
          } else {
            assert r[i] == f[i] && r[j] == f[j];
          }
        }
      } else {
        assert Filter(s, p) == f;
      }
    }
  }

  /** Two runs with distinct keys, no key shared between them, join into
      one run with distinct keys. */
  lemma DistinctByConcat<T, K>(a: seq<T>, b: seq<T>, key: T -> K)
    requires DistinctBy(a, key) && DistinctBy(b, key)
    requires forall i, j | 0 <= i < |a| && 0 <= j < |b| :: key(a[i]) != key(b[j])
    ensures DistinctBy(a + b, key)
  {
    var r := a + b;
    forall i, j | 0 <= i < j < |r| ensures key(r[i]) != key(r[j]) {
      if j < |a| {
        assert r[i] == a[i] && r[j] == a[j];
      } else if i < |a| {
        assert r[i] == a[i] && r[j] == b[j - |a|];
      } else {
        assert r[i] == b[i - |a|] && r[j] == b[j - |a|];
      }
    }
  }

  /** A property of every element of two runs holds of every element of
      their concatenation. */
  lemma AllConcat<T>(a: seq<T>, b: seq<T>, p: T -> bool)
    requires forall i | 0 <= i < |a| :: p(a[i])
    requires forall i | 0 <= i < |b| :: p(b[i])
    ensures forall i | 0 <= i < |a + b| :: p((a + b)[i])
  {
    forall i | 0 <= i < |a + b| ensures p((a + b)[i]) {
      if i < |a| {
        assert (a + b)[i] == a[i];
      } else {
        assert (a + b)[i] == b[i - |a|];
      }
    }
  }

  predicate Distinct<T(==)>(s: seq<T>) {
    forall i, j | 0 <= i < j < |s| :: s[i] != s[j]
  }

  lemma CountAtLeastTwo<T>(s: seq<T>, i: nat, j: nat)
    requires i < j < |s|
    ensures s[i] == s[j] ==> multiset(s)[s[i]] >= 2
  {
    assert s == s[..i] + [s[i]] + s[i + 1..j] + [s[j]] + s[j + 1..];
  }

  /** Distinct keys imply that no element occurs twice. */
  lemma {:induction false} DistinctByCountAtMostOne<T, K>(s: seq<T>, key: T -> K, v: T)
    requires DistinctBy(s, key)
    ensures multiset(s)[v] <= 1
    decreases |s|
  {
    if |s| > 0 {
      assert s == [s[0]] + s[1..];
      DistinctByCountAtMostOne(s[1..], key, v);
      if s[0] == v {
        assert forall k | 0 <= k < |s[1..]| :: s[1..][k] != v by {
          forall k | 0 <= k < |s[1..]| ensures s[1..][k] != v {
            assert key(s[0]) != key(s[k + 1]);
          }
        }
        assert v !in s[1..];
      }
    }
  }

  /** Distinct keys survive any permutation. */
  lemma DistinctByPermutation<T, K>(a: seq<T>, b: seq<T>, key: T -> K)
    requires multiset(a) == multiset(b)
    requires DistinctBy(a, key)
    ensures DistinctBy(b, key)
  {
    forall i, j | 0 <= i < j < |b| ensures key(b[i]) != key(b[j]) {
      CountAtLeastTwo(b, i, j);
      DistinctByCountAtMostOne(a, key, b[i]);
      assert b[i] != b[j];
      assert b[i] in multiset(a) && b[j] in multiset(a);
      var i' :| 0 <= i' < |a| && a[i'] == b[i];
      var j' :| 0 <= j' < |a| && a[j'] == b[j];
      assert key(a[i']) != key(a[j']) by {
        if i' < j' { } else { assert j' < i'; }
      }
    }
  }

  // --------------------------------------------------------------- sorting

  /** `le` is a total preorder: what a Python sort key induces. */
  ghost predicate TotalPreorder<T(!new)>(le: (T, T) -> bool) {
    && (forall x, y :: le(x, y) || le(y, x))
    && (forall x, y, z :: le(x, y) && le(y, z) ==> le(x, z))
  }

  predicate SortedBy<T>(s: seq<T>, le: (T, T) -> bool) {
    forall i, j | 0 <= i < j < |s| :: le(s[i], s[j])
  }

  /** Inserts `x` before the first element it does not exceed. */
  function InsertBy<T>(x: T, s: seq<T>, le: (T, T) -> bool): (r: seq<T>)
    ensures multiset(r) == multiset(s) + multiset{x}
    decreases |s|
  {
    if |s| == 0 then [x]
    else if le(x, s[0]) then [x] + s
    else
      assert s == [s[0]] + s[1..];
      [s[0]] + InsertBy(x, s[1..], le)
  }

  lemma {:induction false} InsertBySorted<T(!new)>(x: T, s: seq<T>, le: (T, T) -> bool)
    requires TotalPreorder(le)
    requires SortedBy(s, le)
    ensures SortedBy(InsertBy(x, s, le), le)
    decreases |s|
  {
    if |s| > 0 && !le(x, s[0]) {
      var rest := InsertBy(x, s[1..], le);
      InsertBySorted(x, s[1..], le);
      assert le(s[0], x);
      forall k | 0 <= k < |rest| ensures le(s[0], rest[k]) {
        assert rest[k] in multiset(rest);
        if rest[k] != x {
          assert rest[k] in multiset(s[1..]);
          var m :| 0 <= m < |s[1..]| && s[1..][m] == rest[k];
          assert s[m + 1] == rest[k];
        }
      }
      var r := [s[0]] + rest;
      forall i, j | 0 <= i < j < |r| ensures le(r[i], r[j]) {
        if i > 0 {
          assert r[i] == rest[i - 1] && r[j] == rest[j - 1];
        } else {
          assert r[j] == rest[j - 1];
        }
      }
    } else if |s| > 0 {
      var r := [x] + s;
      forall i, j | 0 <= i < j < |r| ensures le(r[i], r[j]) {
        if i > 0 {
          assert r[i] == s[i - 1] && r[j] == s[j - 1];
        } else {
          assert r[j] == s[j - 1];
          assert le(s[0], s[j - 1]) || j - 1 == 0;
        }
      }
    }
  }

  /** Python's stable `sorted(s, key=...)`: a permutation of `s`, ordered by `le`. */
  function SortBy<T(!new)>(s: seq<T>, le: (T, T) -> bool): (r: seq<T>)
    requires TotalPreorder(le)
    ensures multiset(r) == multiset(s)
    ensures |r| == |s|
    ensures SortedBy(r, le)
    decreases |s|
  {
    if |s| == 0 then []
    else
      assert s == [s[0]] + s[1..];
      var rest := SortBy(s[1..], le);
      InsertBySorted(s[0], rest, le);
      InsertBy(s[0], rest, le)
  }

  /** Sorting an already sorted sequence changes nothing: the sort is stable. */
  lemma {:induction false} SortBySorted<T(!new)>(s: seq<T>, le: (T, T) -> bool)
    requires TotalPreorder(le)
    requires SortedBy(s, le)
    ensures SortBy(s, le) == s
    decreases |s|
  {
    if |s| > 0 {
      assert SortedBy(s[1..], le) by {
        forall i, j | 0 <= i < j < |s[1..]| ensures le(s[1..][i], s[1..][j]) {
          assert s[1..][i] == s[i + 1] && s[1..][j] == s[j + 1];
        }
      }
      SortBySorted(s[1..], le);
      if |s| > 1 {
        assert le(s[0], s[1]);
        assert s[1..][0] == s[1];
      }
      assert [s[0]] + s[1..] == s;
    }
  }

  // -------------------------------------------------------------- grouping

  datatype Group<K, T> = Group(key: K, items: seq<T>)

  /** The elements whose key is `k`, in order. */
  function WithKey<T, K(==)>(s: seq<T>, key: T -> K, k: K): seq<T>
    decreases |s|
  {
    if |s| == 0 then []
    else WithKey(s[..|s| - 1], key, k) + (if key(s[|s| - 1]) == k then [s[|s| - 1]] else [])
  }

  function Keys<K, T>(gs: seq<Group<K, T>>): (r: seq<K>)
    ensures |r| == |gs| && forall i | 0 <= i < |gs| :: r[i] == gs[i].key
  {
    seq(|gs|, i requires 0 <= i < |gs| => gs[i].key)
  }

  function TotalItems<K, T>(gs: seq<Group<K, T>>): nat
    decreases |gs|
  {
    if |gs| == 0 then 0 else |gs[0].items| + TotalItems(gs[1..])
  }

  /** The position of the group of `k`, or `|gs|` when there is none. */
  function KeyIndex<K(==), T>(gs: seq<Group<K, T>>, k: K): (i: nat)
    ensures i <= |gs|
    ensures i < |gs| ==> gs[i].key == k
    ensures forall j | 0 <= j < i :: gs[j].key != k
    decreases |gs|
  {
    if |gs| == 0 then 0
    else if gs[0].key == k then 0
    else
      var i := KeyIndex(gs[1..], k);
      assert forall j | 1 <= j < |gs| :: gs[j] == gs[1..][j - 1];
      i + 1
  }

  /** Appends `x` to the group of `k`, opening that group at the end if it
      does not exist yet (`d.setdefault(k, []).append(x)`). */
  function AddTo<K(==), T>(gs: seq<Group<K, T>>, k: K, x: T): (r: seq<Group<K, T>>)
    requires Distinct(Keys(gs))
    ensures Keys(r) == if k in Keys(gs) then Keys(gs) else Keys(gs) + [k]
    ensures forall i | 0 <= i < |gs| ::
      r[i].items == gs[i].items + (if gs[i].key == k then [x] else [])
    ensures k !in Keys(gs) ==> r[|gs|] == Group(k, [x])
  {
    var i := KeyIndex(gs, k);
    var ks := Keys(gs);
    if i < |gs| then
      var r := gs[i := Group(k, gs[i].items + [x])];
      assert ks[i] == k;
      assert forall j | 0 <= j < |gs| && j != i :: ks[j] != ks[i];
      r
    else
      assert k !in ks;
      gs + [Group(k, [x])]
  }

  /** The total size after replacing one group. */
  lemma {:induction false} TotalItemsUpdate<K, T>(gs: seq<Group<K, T>>, i: nat, g: Group<K, T>)
    requires i < |gs|
    ensures TotalItems(gs[i := g]) + |gs[i].items| == TotalItems(gs) + |g.items|
    decreases |gs|
  {
    if i > 0 {
      TotalItemsUpdate(gs[1..], i - 1, g);
      assert gs[i := g][1..] == gs[1..][i - 1 := g];
    } else {
      assert gs[i := g][1..] == gs[1..];
    }
  }

  /** The total size after appending one group. */
  lemma {:induction false} TotalItemsAppend<K, T>(gs: seq<Group<K, T>>, g: Group<K, T>)
    ensures TotalItems(gs + [g]) == TotalItems(gs) + |g.items|
    decreases |gs|
  {
    if |gs| > 0 {
      TotalItemsAppend(gs[1..], g);
      assert (gs + [g])[1..] == gs[1..] + [g];
    } else {
      assert ([] + [g])[1..] == [];
    }
  }

  /** Adding an element adds one to the total size of the groups. */
  lemma AddToTotal<K, T>(gs: seq<Group<K, T>>, k: K, x: T)
    requires Distinct(Keys(gs))
    ensures TotalItems(AddTo(gs, k, x)) == TotalItems(gs) + 1
  {
    var i := KeyIndex(gs, k);
    if i < |gs| {
      TotalItemsUpdate(gs, i, Group(k, gs[i].items + [x]));
    } else {
      TotalItemsAppend(gs, Group(k, [x]));
    }
  }

  lemma AddToDistinct<K, T>(gs: seq<Group<K, T>>, k: K, x: T)
    requires Distinct(Keys(gs))
    ensures Distinct(Keys(AddTo(gs, k, x)))
  {
    var ks, before := Keys(AddTo(gs, k, x)), Keys(gs);
    if k !in before {
      assert ks == before + [k];
      forall i, j | 0 <= i < j < |ks| ensures ks[i] != ks[j] {
        assert ks[i] == before[i];
        if j < |before| {
          assert ks[j] == before[j];
        }
      }
    }
  }

  /** Groups the elements by key, groups in order of first appearance. */
  function GroupBy<T, K(==)>(s: seq<T>, key: T -> K): (gs: seq<Group<K, T>>)
    ensures Distinct(Keys(gs))
    decreases |s|
  {
    if |s| == 0 then []
    else
      AddToDistinct(GroupBy(s[..|s| - 1], key), key(s[|s| - 1]), s[|s| - 1]);
      AddTo(GroupBy(s[..|s| - 1], key), key(s[|s| - 1]), s[|s| - 1])
  }

  lemma {:induction false} WithKeyAbsent<T, K>(s: seq<T>, key: T -> K, k: K)
    requires k !in Map(s, key)
    ensures WithKey(s, key, k) == []
    decreases |s|
  {
    if |s| > 0 {
      assert Map(s, key) == Map(s[..|s| - 1], key) + [key(s[|s| - 1])];
      WithKeyAbsent(s[..|s| - 1], key, k);
    }
  }

  /** A key has a group exactly when some element carries it. */
  lemma {:induction false} GroupByKeys<T, K>(s: seq<T>, key: T -> K)
    ensures forall k :: k in Keys(GroupBy(s, key)) <==> k in Map(s, key)
    decreases |s|
  {
    if |s| > 0 {
      var init := s[..|s| - 1];
      var x := s[|s| - 1];
      GroupByKeys(init, key);
      assert Map(s, key) == Map(init, key) + [key(x)];
    }
  }

  /** Each group holds exactly the elements with its key, in input order. */
  lemma {:induction false} GroupByItems<T, K>(s: seq<T>, key: T -> K)
    ensures forall i | 0 <= i < |GroupBy(s, key)| ::
      GroupBy(s, key)[i].items == WithKey(s, key, GroupBy(s, key)[i].key)
    decreases |s|
  {
    if |s| > 0 {
      var init := s[..|s| - 1];
      var x := s[|s| - 1];
      GroupByItems(init, key);
      var g0 := GroupBy(init, key);
      var gs := GroupBy(s, key);
      assert gs == AddTo(g0, key(x), x);
      forall i | 0 <= i < |gs| ensures gs[i].items == WithKey(s, key, gs[i].key) {
        assert WithKey(s, key, gs[i].key)
          == WithKey(init, key, gs[i].key) + (if key(x) == gs[i].key then [x] else []);
        if i < |g0| {
          assert gs[i].key == g0[i].key;
          assert g0[i].items == WithKey(init, key, g0[i].key);
        } else {
          assert key(x) !in Keys(g0) && gs[i] == Group(key(x), [x]);
          GroupByKeys(init, key);
          WithKeyAbsent(init, key, key(x));
        }
      }
    }
  }

  /** The groups together hold every element exactly once. */
  lemma {:induction false} GroupByTotal<T, K>(s: seq<T>, key: T -> K)
    ensures TotalItems(GroupBy(s, key)) == |s|
    decreases |s|
  {
    if |s| > 0 {
      GroupByTotal(s[..|s| - 1], key);
      AddToTotal(GroupBy(s[..|s| - 1], key), key(s[|s| - 1]), s[|s| - 1]);
    }
  }

  /** The size of the group of `k`, 0 when there is none
      (`counter.get(k, 0)`). */
  function CountOf<K(==), T>(gs: seq<Group<K, T>>, k: K): nat
    decreases |gs|
  {
    if |gs| == 0 then 0
    else if gs[0].key == k then |gs[0].items|
    else CountOf(gs[1..], k)
  }

  lemma {:induction false} CountOfGroup<K, T>(gs: seq<Group<K, T>>, k: K)
    requires Distinct(Keys(gs))
    ensures k !in Keys(gs) ==> CountOf(gs, k) == 0
    ensures forall i | 0 <= i < |gs| && gs[i].key == k :: CountOf(gs, k) == |gs[i].items|
    decreases |gs|
  {
    if |gs| > 0 {
      assert Keys(gs) == [gs[0].key] + Keys(gs[1..]);
      CountOfGroup(gs[1..], k);
      forall i | 0 < i < |gs| && gs[i].key == k ensures CountOf(gs, k) == |gs[i].items| {
        assert Keys(gs)[i] == k && Keys(gs)[0] == gs[0].key;
        assert gs[1..][i - 1] == gs[i];
      }
    }
  }

  /** The test "has key `k`". */
  function KeyIs<T, K(==)>(key: T -> K, k: K): T -> bool {
    (x: T) => key(x) == k
  }

  lemma KeyIsApply<T, K>(key: T -> K, k: K, x: T)
    ensures KeyIs(key, k)(x) <==> key(x) == k
  {
  }

  /** The elements with key `k` are those a filter on the key keeps. */
  lemma {:induction false} WithKeyFilter<T, K>(s: seq<T>, key: T -> K, k: K)
    ensures WithKey(s, key, k) == Filter(s, KeyIs(key, k))
    decreases |s|
  {
    if |s| > 0 {
      WithKeyFilter(s[..|s| - 1], key, k);
    }
  }

  /** Counting through the groups agrees with counting by filter. */
  lemma CountOfGroupBy<T, K>(s: seq<T>, key: T -> K, k: K)
    ensures CountOf(GroupBy(s, key), k) == |Filter(s, KeyIs(key, k))|
  {
    var gs := GroupBy(s, key);
    GroupByKeys(s, key);
    GroupByItems(s, key);
    CountOfGroup(gs, k);
    WithKeyFilter(s, key, k);
    if k !in Keys(gs) {
      WithKeyAbsent(s, key, k);
    } else {
      var i :| 0 <= i < |gs| && Keys(gs)[i] == k;
    }
  }

  /** A sequence without repetitions has as many elements as its set. */
  lemma {:induction false} DistinctCard<T>(s: seq<T>)
    requires Distinct(s)
    ensures |set x | x in s| == |s|
    decreases |s|
  {
    if |s| > 0 {
      var init := s[..|s| - 1];
      var x := s[|s| - 1];
      assert Distinct(init) by {
        forall i, j | 0 <= i < j < |init| ensures init[i] != init[j] {
          assert init[i] == s[i] && init[j] == s[j];
        }
      }
      DistinctCard(init);
      assert x !in init by {
        forall i | 0 <= i < |init| ensures init[i] != x {
          assert init[i] == s[i];
        }
      }
      assert (set y | y in s) == (set y | y in init) + {x};
    }
  }

  /** Grouping makes one group per distinct key. */
  lemma GroupCount<T, K>(s: seq<T>, key: T -> K)
    ensures |GroupBy(s, key)| == |set x | x in Map(s, key)|
  {
    var ks := Keys(GroupBy(s, key));
    GroupByKeys(s, key);
    DistinctCard(ks);
    SameSet(ks, Map(s, key));
  }

  lemma SameSet<T>(a: seq<T>, b: seq<T>)
    requires forall x :: x in a <==> x in b
    ensures (set x | x in a) == (set x | x in b)
  {
  }

  lemma MapConcat<T, U>(a: seq<T>, b: seq<T>, f: T -> U)
    ensures Map(a + b, f) == Map(a, f) + Map(b, f)
  {
  }

  /** Taking out the element at `j` takes its image out of the mapped
      sequence. */
  lemma MapRemoveAt<T, U>(b: seq<T>, j: nat, f: T -> U)
    requires j < |b|
    ensures multiset(Map(b, f)) == multiset(Map(b[..j] + b[j + 1..], f)) + multiset{f(b[j])}
  {
    SplitAt(b, j);
    MapMiddle(b[..j], b[j], b[j + 1..], f);
  }

  lemma SplitAt<T>(b: seq<T>, j: nat)
    requires j < |b|
    ensures b == b[..j] + [b[j]] + b[j + 1..]
  {
  }

  lemma MapMiddle<T, U>(p: seq<T>, y: T, q: seq<T>, f: T -> U)
    ensures multiset(Map(p + [y] + q, f)) == multiset(Map(p + q, f)) + multiset{f(y)}
  {
    MapConcat(p + [y], q, f);
    MapConcat(p, [y], f);
    MapConcat(p, q, f);
    assert Map([y], f) == [f(y)];
    MultisetMiddle(Map(p, f), f(y), Map(q, f));
  }

  lemma MultisetMiddle<T>(p: seq<T>, y: T, q: seq<T>)
    ensures multiset(p + [y] + q) == multiset(p + q) + multiset{y}
  {
  }

  lemma MultisetCancel<T>(m: multiset<T>, n: multiset<T>, x: T)
    requires m + multiset{x} == n + multiset{x}
    ensures m == n
  {
    forall e ensures m[e] == n[e] {
      assert (m + multiset{x})[e] == (n + multiset{x})[e];
    }
  }

  /** Mapping carries permutations over. */
  lemma {:induction false} MapMultiset<T, U>(a: seq<T>, b: seq<T>, f: T -> U)
    requires multiset(a) == multiset(b)
    ensures multiset(Map(a, f)) == multiset(Map(b, f))
    decreases |a|
  {
    if |a| == 0 {
      assert |b| == |multiset(b)| == 0;
    } else {
      var init, x := a[..|a| - 1], a[|a| - 1];
      assert x in multiset(b) by { assert a == init + [x]; }
      var j :| 0 <= j < |b| && b[j] == x;
      var rest := b[..j] + b[j + 1..];
      assert multiset(init) == multiset(rest) by {
        assert a == init + [x];
        assert b == b[..j] + [x] + b[j + 1..];
        MultisetMiddle(b[..j], x, b[j + 1..]);
        MultisetCancel(multiset(init), multiset(rest), x);
      }
      MapMultiset(init, rest, f);
      MapRemoveAt(b, j, f);
      assert Map(a, f) == Map(init, f) + [f(x)] by {
        assert a == init + [x];
        MapConcat(init, [x], f);
      }
    }
  }
}

=== FILE: solver.dfy ===
/** The CP-SAT step (`_solve_cp_sat`). The constraint solver itself is an
    oracle: a function from the problem the engine builds to an optional
    assignment, trusted only to return assignments that satisfy the
    constraints it is given. */
module Solver {
  import opened Wrappers
  import opened Seqs
  import opened Text
  import opened Constants
  import opened Records
  import opened Pool

  // ---------------------------------------------------------------- int()

  /** Python `int(s)` on a class name: surrounding whitespace is ignored, an
      optional sign, then decimal digits; anything else raises. */
  function PythonInt(s: string): (r: Option<int>)
    ensures IsDigits(Strip(s)) ==> r == Some(DigitsValue(Strip(s)))
    ensures r.Some? ==> IsDigits(Strip(s)) || IsSignedDigits(Strip(s))
  {
    var t := Strip(s);
    if IsDigits(t) then Some(DigitsValue(t))
    else if IsSignedDigits(t) then
      var v: int := DigitsValue(t[1..]);
      Some(if t[0] == '-' then -v else v)
    else None
  }

  /** A sign followed by at least one digit. */
  predicate IsSignedDigits(t: string) {
    |t| > 1 && (t[0] == '+' || t[0] == '-') && IsDigits(t[1..])
  }

  /** `int(str(n)) == n`: the parse reads back every integer's text. */
  lemma PythonIntRoundTrip(n: int)
    ensures PythonInt(IntToString(n)) == Some(n)
  {
    if n >= 0 {
      StripDigits(NatToString(n));
    } else {
      var t := NatToString(-n);
      SignedStripped(t);
      var s := "-" + t;
      assert s[0] == '-' && !IsDigits(s);
      assert s[1..] == t;
    }
  }

  /** Whitespace around a class name does not change its integer. */
  lemma PythonIntIgnoresSpace(s: string)
    ensures PythonInt(Strip(s)) == PythonInt(s)
  {
    StripByIdempotent(s, IsSpace);
  }

  /** The grades of the students, or the first class name `int` rejects
      (the students are read in order and the first failure raises). */
  function ParseGrades(ss: seq<Student>): (r: Result<seq<int>, string>)
    ensures r.Ok? <==> forall i | 0 <= i < |ss| :: PythonInt(ss[i].sinif).Some?
    ensures r.Ok? ==> |r.value| == |ss| && forall i | 0 <= i < |ss| :: r.value[i] == PythonInt(ss[i].sinif).value
    ensures r.Err? ==> exists i | 0 <= i < |ss| :: PythonInt(ss[i].sinif).None? && r.error == ss[i].sinif
  {
    if forall i | 0 <= i < |ss| :: PythonInt(ss[i].sinif).Some? then
      Ok(seq(|ss|, i requires 0 <= i < |ss| => PythonInt(ss[i].sinif).value))
    else
      var k := FirstWhere(ss, (x: Student) => PythonInt(x.sinif).None?);
      Err(ss[k].sinif)
  }

  // ------------------------------------------------------------ the model

  /** What the engine hands the solver: one grade per student, the number
      of pool positions, the adjacency pairs and the desk positions whose
      use the objective minimises. */
  datatype Problem = Problem(grades: seq<int>, numSeats: nat, pairs: set<(int, int)>, teacherSeats: set<nat>)

  /** The constraints: every student gets exactly one position, no position
      holds two students and, while same-grade neighbours are forbidden, no
      pair holds two students of the same grade. */
  predicate ValidAssignment(p: Problem, a: seq<nat>) {
    && |a| == |p.grades|
    && (forall s | 0 <= s < |a| :: a[s] < p.numSeats)
    && (forall s, t | 0 <= s < t < |a| :: a[s] != a[t])
    && (CP_SAT_FORBID_SAME_GRADE_ADJACENT ==>
          forall s, t | 0 <= s < |a| && 0 <= t < |a| && s != t && (a[s], a[t]) in p.pairs ::
            p.grades[s] != p.grades[t])
  }

  /** The solver: for a problem, an assignment or nothing (infeasible, or
      no solution within the time limit). */
  type Oracle = Problem -> Option<seq<nat>>

  /** A sound solver only returns assignments that meet the constraints. */
  ghost predicate SoundOracle(oracle: Oracle) {
    forall p :: oracle(p).Some? ==> ValidAssignment(p, oracle(p).value)
  }

  /** The problem for a student list and a pool. */
  function ProblemOf(grades: seq<int>, seats: seq<Seat>, pairs: set<(int, int)>): Problem {
    Problem(grades, |seats|, pairs, set i | 0 <= i < |seats| && seats[i].teacher)
  }

  /** `_solve_cp_sat`: nothing when there are more students than pool
      positions; a class name that is not an integer raises (the grades are
      read before the model is built); otherwise the solver's answer. */
  function SolveCpSat(students: seq<Student>, seats: seq<Seat>, pairs: set<(int, int)>, oracle: Oracle)
    : (r: Result<Option<seq<nat>>, string>)
    requires SoundOracle(oracle)
    ensures |students| > |seats| ==> r == Ok(None)
    ensures r.Err? <==> |students| <= |seats| && exists i | 0 <= i < |students| :: PythonInt(students[i].sinif).None?
    ensures r.Err? ==> exists i | 0 <= i < |students| :: r.error == students[i].sinif
    ensures r.Ok? && r.value.Some? ==> Solved(students, seats, pairs, r.value.value)
  {
    if |students| > |seats| then Ok(None)
    else
      match ParseGrades(students)
      case Err(bad) => Err(bad)
      case Ok(grades) =>
        var problem := ProblemOf(grades, seats, pairs);
        var answer := oracle(problem);
        if answer.Some? then
          assert ValidAssignment(problem, answer.value);
          Ok(answer)
        else
          Ok(None)
  }

  /** What a returned assignment guarantees, in the students' terms: one
      position each, no position twice, and no adjacency pair holding two
      students whose class names read as the same integer. */
  predicate Solved(students: seq<Student>, seats: seq<Seat>, pairs: set<(int, int)>, a: seq<nat>) {
    && |a| == |students|
    && (forall s | 0 <= s < |a| :: a[s] < |seats|)
    && (forall s, t | 0 <= s < t < |a| :: a[s] != a[t])
    && (forall s, t | 0 <= s < |a| && 0 <= t < |a| && s != t && (a[s], a[t]) in pairs ::
          && PythonInt(students[s].sinif).Some? && PythonInt(students[t].sinif).Some?
          && PythonInt(students[s].sinif).value != PythonInt(students[t].sinif).value)
  }
}

=== FILE: text.dfy ===
/** Character classes and the handful of Python `str` operations the
    application relies on (`strip`, `isdigit`, `int`, `split`, `in`,
    `upper`, `f"{n:03d}"`), modelled over ASCII plus the twelve Turkish
    letters the application's class-name pattern names explicitly. */
module Text {
  import opened Wrappers
  import opened Seqs

  /** A loosely typed Python value as the application passes it around
      (a cell, a form field or a database column): `None`, a `str` or an
      `int`. */
  datatype Scalar = NoneValue | Str(s: string) | Int(i: int)

  /** `str(v)`. */
  function ScalarToString(v: Scalar): string {
    match v
    case NoneValue => "None"
    case Str(s) => s
    case Int(i) => IntToString(i)
  }

  /** `str.isdigit` on one character (ASCII digits only). */
  predicate IsDigit(c: char) {
    '0' <= c <= '9'
  }

  predicate IsAsciiLetter(c: char) {
    ('a' <= c <= 'z') || ('A' <= c <= 'Z')
  }

  /** The Turkish letters outside ASCII: ç ğ ı ö ş ü and their capitals. */
  const TurkishLetters: string := "çğıöşüÇĞİÖŞÜ"

  predicate IsLetter(c: char) {
    IsAsciiLetter(c) || c in TurkishLetters
  }

  /** `str.isalnum` on one character. */
  predicate IsAlnum(c: char) {
    IsDigit(c) || IsLetter(c)
  }

  /** Whitespace removed by `str.strip()` and used as a separator by `str.split()`. */
  predicate IsSpace(c: char) {
    c == ' ' || c == '\t' || c == '\n' || c == '\r' || c == '\U{000B}' || c == '\U{000C}'
  }

  /** `s.isdigit()`: non-empty and digits only. */
  predicate IsDigits(s: string) {
    |s| > 0 && forall i | 0 <= i < |s| :: IsDigit(s[i])
  }

  predicate AllDigits(s: string) {
    forall i | 0 <= i < |s| :: IsDigit(s[i])
  }

  function DigitValue(c: char): nat
    requires IsDigit(c)
  {
    c as int - '0' as int
  }

  function DigitChar(d: nat): (c: char)
    requires d < 10
    ensures IsDigit(c) && DigitValue(c) == d
  {
    ('0' as int + d) as char
  }

  /** `int(s)` for a string of decimal digits. */
  function DigitsValue(s: string): nat
    requires AllDigits(s)
  {
    if |s| == 0 then 0 else DigitsValue(s[..|s| - 1]) * 10 + DigitValue(s[|s| - 1])
  }

  /** `str(n)` for a natural number: decimal digits without leading zeros,
      and reading them back gives `n`. */
  function NatToString(n: nat): (r: string)
    ensures IsDigits(r)
    ensures DigitsValue(r) == n
    ensures |r| > 1 ==> r[0] != '0'
    ensures n < 10 <==> |r| == 1
  {
    if n < 10 then
      [DigitChar(n)]
    else
      var prefix := NatToString(n / 10);
      var r := prefix + [DigitChar(n % 10)];
      assert r[..|r| - 1] == prefix;
      r
  }

  /** `str(n)` for any integer. */
  function IntToString(n: int): string {
    if n >= 0 then NatToString(n) else "-" + NatToString(-n)
  }

  function Repeat(c: char, k: nat): (r: string)
    ensures |r| == k && forall i | 0 <= i < k :: r[i] == c
  {
    if k == 0 then "" else [c] + Repeat(c, k - 1)
  }

  /** Left-pads `s` with '0' up to `width` characters. */
  function ZeroPad(s: string, width: nat): (r: string)
    ensures |r| == if |s| >= width then |s| else width
    ensures r[|r| - |s|..] == s
    ensures forall i | 0 <= i < |r| - |s| :: r[i] == '0'
  {
    if |s| >= width then s else Repeat('0', width - |s|) + s
  }

  /** Python `f"{n:03d}"`: at least three characters, the sign counting
      towards the width, zeros inserted after the sign. */
  function Format03(n: int): string {
    if n >= 0 then ZeroPad(NatToString(n), 3) else "-" + ZeroPad(NatToString(-n), 2)
  }

  /** Leading zeros do not change the value of a digit string. */
  lemma {:induction false} LeadingZerosValue(z: string, s: string)
    requires forall i | 0 <= i < |z| :: z[i] == '0'
    requires AllDigits(s)
    ensures AllDigits(z + s)
    ensures DigitsValue(z + s) == DigitsValue(s)
    decreases |s|
  {
    var t := z + s;
    assert AllDigits(t) by {
      forall i | 0 <= i < |t| ensures IsDigit(t[i]) {
        if i < |z| { assert t[i] == z[i]; } else { assert t[i] == s[i - |z|]; }
      }
    }
    if |s| == 0 {
      assert t == z;
      ZerosValue(z);
    } else {
      var s' := s[..|s| - 1];
      assert t[..|t| - 1] == z + s';
      LeadingZerosValue(z, s');
    }
  }

  lemma {:induction false} ZerosValue(z: string)
    requires forall i | 0 <= i < |z| :: z[i] == '0'
    ensures AllDigits(z) && DigitsValue(z) == 0
    decreases |z|
  {
    if |z| > 0 {
      ZerosValue(z[..|z| - 1]);
    }
  }

  /** A non-negative `f"{n:03d}"` is a digit string of length
      `max(3, len(str(n)))` whose value is `n`. */
  lemma Format03NonNegative(n: int)
    requires n >= 0
    ensures IsDigits(Format03(n))
    ensures |Format03(n)| == if |NatToString(n)| >= 3 then |NatToString(n)| else 3
    ensures DigitsValue(Format03(n)) == n
  {
    var s := NatToString(n);
    var r := Format03(n);
    var k := |r| - |s|;
    assert r == r[..k] + s;
    LeadingZerosValue(r[..k], s);
  }

  // ---------------------------------------------------------------- strip

  /** `s.lstrip(chars)` where `drop` says which characters are stripped. */
  function LStripBy(s: string, drop: char -> bool): (r: string)
    ensures |r| <= |s| && r == s[|s| - |r|..]
    ensures |r| > 0 ==> !drop(r[0])
    ensures forall i | 0 <= i < |s| - |r| :: drop(s[i])
  {
    s[LeadEnd(s, drop, 0)..]
  }

  /** The end of the run of stripped characters that starts at `i`. */
  function LeadEnd(s: string, drop: char -> bool, i: nat): (k: nat)
    requires i <= |s|
    ensures i <= k <= |s|
    ensures forall j | i <= j < k :: drop(s[j])
    ensures k < |s| ==> !drop(s[k])
    decreases |s| - i
  {
    if i < |s| && drop(s[i]) then LeadEnd(s, drop, i + 1) else i
  }

  /** `s.rstrip(chars)` where `drop` says which characters are stripped. */
  function RStripBy(s: string, drop: char -> bool): (r: string)
    ensures |r| <= |s| && r == s[..|r|]
    ensures |r| > 0 ==> !drop(r[|r| - 1])
    ensures forall i | |r| <= i < |s| :: drop(s[i])
  {
    s[..TrailStart(s, drop, |s|)]
  }

  /** The start of the run of stripped characters that ends at `j`. */
  function TrailStart(s: string, drop: char -> bool, j: nat): (k: nat)
    requires j <= |s|
    ensures k <= j
    ensures forall i | k <= i < j :: drop(s[i])
    ensures k > 0 ==> !drop(s[k - 1])
    decreases j
  {
    if j > 0 && drop(s[j - 1]) then TrailStart(s, drop, j - 1) else j
  }

  function StripBy(s: string, drop: char -> bool): string {
    RStripBy(LStripBy(s, drop), drop)
  }

  /** Nothing is stripped from the left of a string that starts with a
      kept character. */
  lemma LStripByKept(s: string, drop: char -> bool)
    requires |s| == 0 || !drop(s[0])
    ensures LStripBy(s, drop) == s
  {
    assert LeadEnd(s, drop, 0) == 0;
  }

  /** Nothing is stripped from the right of a string that ends with a
      kept character. */
  lemma RStripByKept(s: string, drop: char -> bool)
    requires |s| == 0 || !drop(s[|s| - 1])
    ensures RStripBy(s, drop) == s
  {
    assert TrailStart(s, drop, |s|) == |s|;
  }

  /** A stripped character in front is stripped away. */
  lemma LStripByDropped(c: char, s: string, drop: char -> bool)
    requires drop(c)
    ensures LStripBy([c] + s, drop) == LStripBy(s, drop)
  {
    var cs := [c] + s;
    LeadEndShift(c, s, drop, 0);
    assert cs[LeadEnd(s, drop, 0) + 1..] == s[LeadEnd(s, drop, 0)..];
  }

  lemma {:induction false} LeadEndShift(c: char, s: string, drop: char -> bool, i: nat)
    requires drop(c) && i <= |s|
    ensures LeadEnd([c] + s, drop, i + 1) == LeadEnd(s, drop, i) + 1
    decreases |s| - i
  {
    var cs := [c] + s;
    if i < |s| {
      assert cs[i + 1] == s[i];
      if drop(s[i]) {
        LeadEndShift(c, s, drop, i + 1);
      }
    }
  }

  /** The stripped string is the part of the input that starts after the
      leading stripped characters; its ends are kept characters, and only
      stripped characters are cut away on either side. */
  lemma StripBySlice(s: string, drop: char -> bool)
    ensures var r := StripBy(s, drop); var a := |s| - |LStripBy(s, drop)|;
      && a + |r| <= |s|
      && (forall i | 0 <= i < |r| :: r[i] == s[a + i])
      && (forall i | 0 <= i < a :: drop(s[i]))
      && (forall i | a + |r| <= i < |s| :: drop(s[i]))
      && (|r| > 0 ==> !drop(r[0]) && !drop(r[|r| - 1]))
  {
    var l := LStripBy(s, drop);
    var r := RStripBy(l, drop);
    var a := |s| - |l|;
    forall i | 0 <= i < |l| ensures l[i] == s[a + i] {
      assert l == s[a..];
    }
    forall i | 0 <= i < |r| ensures r[i] == l[i] {
      assert r == l[..|r|];
    }
    forall i | a + |r| <= i < |s| ensures drop(s[i]) {
      assert s[i] == l[i - a];
    }
  }

  /** Stripping twice strips nothing more. */
  lemma StripByIdempotent(s: string, drop: char -> bool)
    ensures StripBy(StripBy(s, drop), drop) == StripBy(s, drop)
  {
    var r := StripBy(s, drop);
    StripBySlice(s, drop);
    if |r| > 0 {
      assert LStripBy(r, drop) == r;
      assert RStripBy(r, drop) == r;
    }
  }

  /** Stripping keeps a property every character has, and strips
      everything exactly when every character is stripped. */
  lemma StripByKeepsAll(m: string, drop: char -> bool, p: char -> bool)
    requires forall i | 0 <= i < |m| :: p(m[i])
    ensures var s := StripBy(m, drop);
      && |s| <= |m|
      && (forall i | 0 <= i < |s| :: p(s[i]))
      && (|s| == 0 <==> forall i | 0 <= i < |m| :: drop(m[i]))
  {
    var s := StripBy(m, drop);
    StripBySlice(m, drop);
    var a := |m| - |LStripBy(m, drop)|;
    forall i | 0 <= i < |s| ensures p(s[i]) {
      assert s[i] == m[a + i];
    }
    if |s| > 0 {
      assert !drop(m[a]);
    }
  }

  /** `s.strip()`. */
  function Strip(s: string): string {
    StripBy(s, IsSpace)
  }

  /** A string whose ends are not whitespace is left as it is by `strip`,
      and a string left as it is has no whitespace at its ends. */
  lemma StripFixed(s: string)
    ensures Strip(s) == s <==> |s| == 0 || (!IsSpace(s[0]) && !IsSpace(s[|s| - 1]))
  {
    if |s| > 0 && !IsSpace(s[0]) && !IsSpace(s[|s| - 1]) {
      StripKeeps(s);
    }
    if |s| > 0 && Strip(s) == s {
      StrippedEnds(s);
    }
  }

  /** A digit string has no whitespace to strip. */
  lemma StripDigits(s: string)
    requires IsDigits(s)
    ensures Strip(s) == s
  {
    assert IsDigit(s[0]) && IsDigit(s[|s| - 1]);
    StripKeeps(s);
  }

  lemma StripKeeps(s: string)
    requires |s| > 0 && !IsSpace(s[0]) && !IsSpace(s[|s| - 1])
    ensures Strip(s) == s
  {
    var l := LStripBy(s, IsSpace);
    assert l == s;
    var r := RStripBy(l, IsSpace);
    assert r == s;
  }

  lemma StrippedEnds(s: string)
    requires |s| > 0 && Strip(s) == s
    ensures !IsSpace(s[0]) && !IsSpace(s[|s| - 1])
  {
    var l := LStripBy(s, IsSpace);
    var r := RStripBy(l, IsSpace);
    assert r == s;
    assert |l| >= |s|;
    assert l == s;
  }

  // ---------------------------------------------------------- substrings

  predicate StartsWith(s: string, p: string) {
    |p| <= |s| && s[..|p|] == p
  }

  /** Python `p in s`. */
  predicate Contains(s: string, p: string)
    decreases |s|
  {
    StartsWith(s, p) || (|s| > 0 && Contains(s[1..], p))
  }

  lemma ContainsAt(s: string, p: string, i: nat)
    requires i + |p| <= |s| && s[i..i + |p|] == p
    ensures Contains(s, p)
    decreases i
  {
    if i > 0 {
      assert s[1..][i - 1..i - 1 + |p|] == p;
      ContainsAt(s[1..], p, i - 1);
    }
  }

  /** Index of the first occurrence of `c`. */
  function IndexOf(s: string, c: char): (r: Option<nat>)
    ensures r.None? <==> c !in s
    ensures r.Some? ==> r.value < |s| && s[r.value] == c && c !in s[..r.value]
  {
    if |s| == 0 then None
    else if s[0] == c then Some(0)
    else
      var t := IndexOf(s[1..], c);
      if t.None? then None
      else
        assert s[..t.value + 1] == [s[0]] + s[1..][..t.value];
        Some(t.value + 1)
  }

  /** Searching past a prefix without `c` shifts the index by the prefix. */
  lemma {:induction false} IndexOfAfter(w: string, s: string, c: char)
    requires c !in w
    ensures IndexOf(w + s, c) == match IndexOf(s, c)
      case None => None
      case Some(k) => Some(|w| + k)
    decreases |w|
  {
    if |w| > 0 {
      assert (w + s)[1..] == w[1..] + s;
      assert (w + s)[0] == w[0];
      IndexOfAfter(w[1..], s, c);
    } else {
      assert w + s == s;
    }
  }

  /** Index of the last occurrence of `c`. */
  function LastIndexOf(s: string, c: char): (r: Option<nat>)
    ensures r.None? <==> c !in s
    ensures r.Some? ==> r.value < |s| && s[r.value] == c && c !in s[r.value + 1..]
  {
    LastBefore(s, c, |s|)
  }

  /** Index of the last occurrence of `c` before position `j`. */
  function LastBefore(s: string, c: char, j: nat): (r: Option<nat>)
    requires j <= |s|
    ensures r.None? <==> forall i | 0 <= i < j :: s[i] != c
    ensures r.Some? ==> r.value < j && s[r.value] == c && forall i | r.value < i < j :: s[i] != c
    decreases j
  {
    if j == 0 then None
    else if s[j - 1] == c then Some(j - 1)
    else LastBefore(s, c, j - 1)
  }

  // --------------------------------------------------------- split / join

  /** `sep.join(parts)`. */
  function Join(parts: seq<string>, sep: string): string
    decreases |parts|
  {
    if |parts| == 0 then ""
    else if |parts| == 1 then parts[0]
    else parts[0] + sep + Join(parts[1..], sep)
  }

  /** `s.split(sep)` for a one-character separator: never empty, no part
      holds the separator, and joining the parts back gives `s`. */
  function Split(s: string, sep: char): (parts: seq<string>)
    ensures |parts| >= 1
    ensures forall i | 0 <= i < |parts| :: sep !in parts[i]
    ensures Join(parts, [sep]) == s
    decreases |s|
  {
    match IndexOf(s, sep)
    case None => [s]
    case Some(k) =>
      var rest := Split(s[k + 1..], sep);
      var parts := [s[..k]] + rest;
      assert parts[1..] == rest;
      assert s == s[..k] + [sep] + s[k + 1..];
      parts
  }

  /** `s.split()`: the maximal runs of non-whitespace characters. */
  function SplitWhitespace(s: string): (tokens: seq<string>)
    ensures forall i | 0 <= i < |tokens| ::
      |tokens[i]| > 0 && forall j | 0 <= j < |tokens[i]| :: !IsSpace(tokens[i][j])
    decreases |s|
  {
    var t := LStripBy(s, IsSpace);
    if |t| == 0 then []
    else
      var k := FirstSpace(t);
      assert k > 0;
      if k == |t| then [t]
      else [t[..k]] + SplitWhitespace(t[k..])
  }

  /** One step of `s.split()` on a string that starts with a token. */
  lemma SplitWhitespaceStep(s: string)
    requires |s| > 0 && !IsSpace(s[0])
    ensures var k := FirstSpace(s);
      SplitWhitespace(s) == if k == |s| then [s] else [s[..k]] + SplitWhitespace(s[k..])
  {
    LStripByKept(s, IsSpace);
  }

  /** Leading whitespace does not change `s.split()`. */
  lemma SplitWhitespaceDropped(c: char, s: string)
    requires IsSpace(c)
    ensures SplitWhitespace([c] + s) == SplitWhitespace(s)
  {
    LStripByDropped(c, s, IsSpace);
  }

  /** Index of the first whitespace character, or `|s|` when there is none. */
  function FirstSpace(s: string): (k: nat)
    ensures k <= |s|
    ensures forall j | 0 <= j < k :: !IsSpace(s[j])
    ensures k < |s| ==> IsSpace(s[k])
  {
    if |s| == 0 || IsSpace(s[0]) then 0 else 1 + FirstSpace(s[1..])
  }

  // ------------------------------------------------------------- casing

  /** `c.upper()` for ASCII letters and the Turkish lower-case letters. */
  function UpperChar(c: char): char {
    if 'a' <= c <= 'z' then (c as int - 32) as char
    else if c == 'ç' then 'Ç'
    else if c == 'ğ' then 'Ğ'
    else if c == 'ı' then 'I'
    else if c == 'ö' then 'Ö'
    else if c == 'ş' then 'Ş'
    else if c == 'ü' then 'Ü'
    else c
  }

  /** `c.lower()` for ASCII letters and the Turkish capitals that have a
      one-character lower case (`İ` is left as it is). */
  function LowerChar(c: char): char {
    if 'A' <= c <= 'Z' then (c as int + 32) as char
    else if c == 'Ç' then 'ç'
    else if c == 'Ğ' then 'ğ'
    else if c == 'Ö' then 'ö'
    else if c == 'Ş' then 'ş'
    else if c == 'Ü' then 'ü'
    else c
  }

  predicate IsLowerCase(c: char) {
    ('a' <= c <= 'z') || c in "çğıöşü"
  }

  function Upper(s: string): (r: string)
    ensures |r| == |s|
    ensures forall i | 0 <= i < |s| :: r[i] == UpperChar(s[i])
  {
    if |s| == 0 then "" else [UpperChar(s[0])] + Upper(s[1..])
  }

  function Lower(s: string): (r: string)
    ensures |r| == |s|
    ensures forall i | 0 <= i < |s| :: r[i] == LowerChar(s[i])
  {
    if |s| == 0 then "" else [LowerChar(s[0])] + Lower(s[1..])
  }

  /** An upper-cased string holds no lower-case letter, and upper-casing it
      again changes nothing. */
  lemma UpperNormalises(s: string)
    ensures forall i | 0 <= i < |Upper(s)| :: !IsLowerCase(Upper(s)[i])
    ensures Upper(Upper(s)) == Upper(s)
  {
  }

  /** `s.title()`: a letter that follows a non-letter is upper-cased, every
      other letter is lower-cased. */
  function Title(s: string): (r: string)
    ensures |r| == |s|
    ensures forall i | 0 <= i < |s| :: IsLetter(r[i]) == IsLetter(s[i])
    ensures forall i | 0 <= i < |s| :: !IsLetter(s[i]) ==> r[i] == s[i]
  {
    TitleFrom(s, false)
  }

  function TitleFrom(s: string, afterLetter: bool): (r: string)
    ensures |r| == |s|
    ensures forall i | 0 <= i < |s| :: IsLetter(r[i]) == IsLetter(s[i])
    ensures forall i | 0 <= i < |s| :: !IsLetter(s[i]) ==> r[i] == s[i]
  {
    if |s| == 0 then ""
    else
      var c := s[0];
      var c' := if !IsLetter(c) then c else if afterLetter then LowerChar(c) else UpperChar(c);
      CaseCharFacts(c);
      [c'] + TitleFrom(s[1..], IsLetter(c))
  }

  /** Case mapping keeps letters letters, non-letters unchanged, and is
      idempotent. */
  lemma CaseCharFacts(c: char)
    ensures IsLetter(UpperChar(c)) == IsLetter(c) && IsLetter(LowerChar(c)) == IsLetter(c)
    ensures !IsLetter(c) ==> UpperChar(c) == c && LowerChar(c) == c
    ensures UpperChar(UpperChar(c)) == UpperChar(c)
    ensures LowerChar(LowerChar(c)) == LowerChar(c)
  {
  }

  /** Title-casing twice changes nothing more. */
  lemma {:induction false} TitleFromIdempotent(s: string, afterLetter: bool)
    ensures TitleFrom(TitleFrom(s, afterLetter), afterLetter) == TitleFrom(s, afterLetter)
    decreases |s|
  {
    if |s| > 0 {
      var r := TitleFrom(s, afterLetter);
      CaseCharFacts(s[0]);
      assert r[1..] == TitleFrom(s[1..], IsLetter(s[0]));
      TitleFromIdempotent(s[1..], IsLetter(s[0]));
      assert IsLetter(r[0]) == IsLetter(s[0]);
    }
  }

  /** Title-casing a stripped string leaves it stripped, and is idempotent. */
  lemma TitleOfStripped(s: string)
    requires Strip(s) == s
    ensures Strip(Title(s)) == Title(s)
    ensures Title(Title(s)) == Title(s)
  {
    TitleFromIdempotent(s, false);
    var r := Title(s);
    if |s| > 0 {
      StrippedEnds(s);
      CaseCharFacts(s[0]);
      CaseCharFacts(s[|s| - 1]);
      assert !IsSpace(r[0]) && !IsSpace(r[|r| - 1]);
      StripKeeps(r);
    }
  }

  /** Upper-casing a stripped string leaves it stripped. */
  lemma UpperOfStripped(s: string)
    requires Strip(s) == s
    ensures Strip(Upper(s)) == Upper(s)
  {
    var r := Upper(s);
    if |s| > 0 {
      StrippedEnds(s);
      assert !IsSpace(r[0]) && !IsSpace(r[|r| - 1]);
      StripKeeps(r);
    }
  }

  // ------------------------------------------------------------- ordering

  /** Python's `a < b` on strings: code point by code point, a proper
      prefix first. */
  predicate StrLt(a: string, b: string)
    decreases |a|
  {
    if |a| == 0 then |b| > 0
    else if |b| == 0 then false
    else if a[0] != b[0] then a[0] < b[0]
    else StrLt(a[1..], b[1..])
  }

  lemma {:induction false} StrLtIrreflexive(a: string)
    ensures !StrLt(a, a)
    decreases |a|
  {
    if |a| > 0 {
      StrLtIrreflexive(a[1..]);
    }
  }

  /** Two different strings are ordered one way. */
  lemma {:induction false} StrLtTotal(a: string, b: string)
    ensures a == b || StrLt(a, b) || StrLt(b, a)
    decreases |a|
  {
    if |a| > 0 && |b| > 0 && a[0] == b[0] {
      StrLtTotal(a[1..], b[1..]);
      if a[1..] == b[1..] {
        assert a == [a[0]] + a[1..] && b == [b[0]] + b[1..];
      }
    }
  }

  lemma {:induction false} StrLtTransitive(a: string, b: string, c: string)
    requires StrLt(a, b) && StrLt(b, c)
    ensures StrLt(a, c)
    decreases |a|
  {
    if |a| > 0 && a[0] == b[0] && b[0] == c[0] {
      StrLtTransitive(a[1..], b[1..], c[1..]);
    }
  }

  lemma StrLtAsymmetric(a: string, b: string)
    requires StrLt(a, b)
    ensures !StrLt(b, a)
  {
    if StrLt(b, a) {
      StrLtTransitive(a, b, a);
      StrLtIrreflexive(a);
    }
  }

  /** Python's `a <= b` on strings. */
  predicate StrLe(a: string, b: string) {
    StrLt(a, b) || a == b
  }

  lemma StrLePreorder()
    ensures TotalPreorder(StrLe)
  {
    forall a: string, b: string ensures StrLe(a, b) || StrLe(b, a) {
      StrLtTotal(a, b);
    }
    forall a: string, b: string, c: string | StrLe(a, b) && StrLe(b, c) ensures StrLe(a, c) {
      if StrLt(a, b) && StrLt(b, c) {
        StrLtTransitive(a, b, c);
      }
    }
  }
}

=== FILE: visual_seating.dfy ===
/** The visual seating window: the colour key of a class, where a seat is
    drawn on the screen (two columns of desks with a corridor between
    them) and where it lands in the exported 30-seat sheet, whose three
    blocks run in an S: the middle block from the back to the front. */
module VisualSeating {
  import opened Wrappers
  import opened Seqs
  import opened Text

  // ------------------------------------------------------------ colour key

  /** `_get_class_key`: the digits of the class name joined together; a
      class name without digits is "Hazırlık" when it mentions "Hz" or
      "Haz" (case-sensitive), and "Diğer" otherwise. */
  function SinifAnahtari(sinif: string): (k: string)
    ensures |k| > 0
  {
    var digits := Filter(sinif, IsDigit);
    if |digits| == 0 && (Contains(sinif, "Hz") || Contains(sinif, "Haz")) then HAZIRLIK
    else if |digits| > 0 then digits
    else DIGER
  }

  const HAZIRLIK: string := "Hazırlık"
  const DIGER: string := "Diğer"

  /** A text in which the first letter of `p` never occurs does not
      contain `p`. */
  lemma {:induction false} NotContains(s: string, p: string)
    requires |p| > 0 && p[0] !in s
    ensures !Contains(s, p)
    decreases |s|
  {
    if |s| > 0 {
      assert s[0] != p[0];
      NotContains(s[1..], p);
    }
  }

  lemma KeyWordFacts(h: string, d: string)
    requires h == HAZIRLIK && d == DIGER
    ensures forall i | 0 <= i < |h| :: !IsDigit(h[i])
    ensures forall i | 0 <= i < |d| :: !IsDigit(d[i])
    ensures h[..3] == "Haz" && 'H' !in d
  {
  }

  /** The three kinds of key: a class name with a digit gets its digits,
      in order; one without gets "Hazırlık" or "Diğer", neither of which
      is a digit string. */
  lemma SinifAnahtariKinds(sinif: string)
    ensures var k := SinifAnahtari(sinif);
      && (IsDigits(k) <==> exists i | 0 <= i < |sinif| :: IsDigit(sinif[i]))
      && (IsDigits(k) ==> IsSubsequence(k, sinif))
      && (!IsDigits(k) ==> k == HAZIRLIK || k == DIGER)
      && (!IsDigits(k) ==> (k == HAZIRLIK <==> Contains(sinif, "Hz") || Contains(sinif, "Haz")))
  {
    var digits := Filter(sinif, IsDigit);
    var k := SinifAnahtari(sinif);
    if |digits| == 0 {
      assert k == HAZIRLIK || k == DIGER;
      KeyWordFacts(HAZIRLIK, DIGER);
      assert HAZIRLIK != DIGER by {
        assert HAZIRLIK[0] == 'H';
        assert HAZIRLIK[0] in HAZIRLIK;
      }
      assert !IsDigit(k[0]);
      forall i | 0 <= i < |sinif| ensures !IsDigit(sinif[i]) {
        assert sinif[i] in sinif;
      }
    } else {
      assert k == digits;
      FilterSubsequence(sinif, IsDigit);
      assert digits[0] in digits;
    }
  }

  /** A grade written in digits followed by a branch without digits has
      the grade as its key. */
  lemma SinifAnahtariOfGrade(n: nat, sube: string)
    requires forall i | 0 <= i < |sube| :: !IsDigit(sube[i])
    ensures SinifAnahtari(NatToString(n) + sube) == NatToString(n)
  {
    var g := NatToString(n);
    FilterConcat(g, sube, IsDigit);
    FilterAll(g, IsDigit);
    FilterNone(sube, IsDigit);
    assert g + [] == g;
  }

  /** A key is its own key, so filtering the screen by a key selects the
      same classes again. */
  lemma SinifAnahtariIdempotent(sinif: string)
    ensures SinifAnahtari(SinifAnahtari(sinif)) == SinifAnahtari(sinif)
  {
    var k := SinifAnahtari(sinif);
    KeyWordFacts(HAZIRLIK, DIGER);
    if k == HAZIRLIK {
      FilterNone(k, IsDigit);
      ContainsAt(k, "Haz", 0);
    } else if k == DIGER {
      FilterNone(k, IsDigit);
      NotContains(k, "Hz");
      NotContains(k, "Haz");
    } else {
      FilterAll(k, IsDigit);
    }
  }

  // ---------------------------------------------------------------- screen

  /** A cell of a grid: row and column. */
  datatype Hucre = Hucre(row: int, col: int)

  /** The corridor column of the screen layout. */
  const KORIDOR: int := 1

  /** Where seat `siraNo` is drawn: row `(n - 1) // 2`, the left column
      for odd seats and the right one for even seats. Python's `//` and
      `%` by 2 agree with Dafny's, the divisor being positive. */
  function EkranHucresi(siraNo: int): (h: Hucre)
    ensures h.col == 0 || h.col == 2
  {
    var r := (siraNo - 1) / 2;
    var c := (siraNo - 1) % 2;
    Hucre(r, if c == 0 then 0 else 2)
  }

  /** The seat drawn in a desk cell of the screen. */
  function EkranSirasi(h: Hucre): int {
    2 * h.row + (if h.col == 0 then 1 else 2)
  }

  /** Every seat gets a cell beside the corridor, and the cell tells the
      seat back: two seats never share a cell. */
  lemma EkranHucresiRoundTrip(siraNo: int)
    ensures EkranHucresi(siraNo).col != KORIDOR
    ensures EkranSirasi(EkranHucresi(siraNo)) == siraNo
  {
  }

  lemma EkranHucresiInjective(a: int, b: int)
    requires EkranHucresi(a) == EkranHucresi(b)
    ensures a == b
  {
    EkranHucresiRoundTrip(a);
    EkranHucresiRoundTrip(b);
  }

  /** Every desk cell of the screen is the cell of its seat. */
  lemma EkranSirasiRoundTrip(h: Hucre)
    requires h.col == 0 || h.col == 2
    ensures EkranHucresi(EkranSirasi(h)) == h
  {
  }

  /** The rows the corridor label spans: `max(1, (max_sira + 1) // 2 + 1)`. */
  function KoridorSatirlari(maxSira: nat): (n: nat)
    ensures n >= 1
  {
    var total := (maxSira + 1) / 2;
    if total + 1 > 1 then total + 1 else 1
  }

  /** The corridor reaches past every seat up to the largest one. */
  lemma KoridorCoversSeats(maxSira: nat, siraNo: int)
    requires 1 <= siraNo <= maxSira
    ensures 0 <= EkranHucresi(siraNo).row < KoridorSatirlari(maxSira)
  {
  }

  // ---------------------------------------------------------- sheet layout

  /** The sheet row of the front desks. */
  const BAS_SATIR: int := 3

  /** Seats of the 30-seat sheet. */
  predicate SayfaSirasi(siraNo: int) {
    1 <= siraNo <= 30
  }

  /** Where seat `siraNo` goes on the exported sheet: blocks of ten seats
      side by side in columns 1-2, 4-5 and 7-8; each block fills five
      rows two by two, the outer blocks from the front row 3 backwards
      and the middle block from the back row 7 forwards. */
  function SayfaHucresi(siraNo: int): (h: Hucre)
    requires SayfaSirasi(siraNo)
    ensures BAS_SATIR <= h.row <= BAS_SATIR + 4
    ensures h.col in {1, 2, 4, 5, 7, 8}
  {
    var block := (siraNo - 1) / 10;
    var local := (siraNo - 1) % 10;
    var rowInBlock := local / 2;
    var side := local % 2;
    if block == 0 then Hucre(BAS_SATIR + rowInBlock, if side == 0 then 1 else 2)
    else if block == 1 then Hucre(BAS_SATIR + 4 - rowInBlock, if side == 0 then 4 else 5)
    else Hucre(BAS_SATIR + rowInBlock, if side == 0 then 7 else 8)
  }

  /** The desk cells of the sheet. */
  predicate SayfaMasasi(h: Hucre) {
    BAS_SATIR <= h.row <= BAS_SATIR + 4 && h.col in {1, 2, 4, 5, 7, 8}
  }

  /** The seat whose desk is cell `h` of the sheet. */
  function SayfaSirasiOf(h: Hucre): (siraNo: int)
    requires SayfaMasasi(h)
    ensures SayfaSirasi(siraNo)
  {
    var block := (h.col - 1) / 3;
    var side := (h.col - 1) % 3;
    var rowInBlock := if block == 1 then BAS_SATIR + 4 - h.row else h.row - BAS_SATIR;
    10 * block + 2 * rowInBlock + side + 1
  }

  /** The layout is a one-to-one map of the 30 seats onto the 30 desk
      cells: each seat's cell gives the seat back, and each desk cell is
      some seat's cell. The corridor columns 3 and 6 stay empty. */
  lemma SayfaHucresiRoundTrip(siraNo: int)
    requires SayfaSirasi(siraNo)
    ensures SayfaSirasiOf(SayfaHucresi(siraNo)) == siraNo
    ensures SayfaHucresi(siraNo).col != 3 && SayfaHucresi(siraNo).col != 6
  {
  }

  lemma SayfaMasasiRoundTrip(h: Hucre)
    requires SayfaMasasi(h)
    ensures SayfaHucresi(SayfaSirasiOf(h)) == h
  {
  }

  lemma SayfaHucresiInjective(a: int, b: int)
    requires SayfaSirasi(a) && SayfaSirasi(b)
    requires SayfaHucresi(a) == SayfaHucresi(b)
    ensures a == b
  {
    SayfaHucresiRoundTrip(a);
    SayfaHucresiRoundTrip(b);
  }

  /** The S: the walk through the seats never jumps. Two consecutive seats
      share a row or stand in neighbouring rows, so seats 10 and 11 meet
      at the back row and seats 20 and 21 at the front row. */
  lemma SayfaSLayout(siraNo: int)
    requires 1 <= siraNo < 30
    ensures var a := SayfaHucresi(siraNo); var b := SayfaHucresi(siraNo + 1);
      -1 <= a.row - b.row <= 1
    ensures SayfaHucresi(10).row == SayfaHucresi(11).row == BAS_SATIR + 4
    ensures SayfaHucresi(20).row == SayfaHucresi(21).row == BAS_SATIR
  {
  }

  /** The student shown at a seat of the sheet: the last one read with
      that seat number, as the dictionary `ogrenci_map` keeps it. */
  function SonKayit<T>(ogrenciler: seq<T>, siraOf: T -> int, siraNo: int): (r: Option<T>)
    ensures r.Some? <==> exists i | 0 <= i < |ogrenciler| :: siraOf(ogrenciler[i]) == siraNo
    ensures r.Some? ==> exists i | 0 <= i < |ogrenciler| ::
      && ogrenciler[i] == r.value
      && siraOf(r.value) == siraNo
      && forall j | i < j < |ogrenciler| :: siraOf(ogrenciler[j]) != siraNo
  {
    if |ogrenciler| == 0 then None
    else
      var last := ogrenciler[|ogrenciler| - 1];
      var init := ogrenciler[..|ogrenciler| - 1];
      if siraOf(last) == siraNo then Some(last)
      else
        var r := SonKayit(init, siraOf, siraNo);
        assert forall i | 0 <= i < |init| :: init[i] == ogrenciler[i];
        r
  }
}

=== FILE: wrappers.dfy ===
/** Failure-carrying datatypes used throughout the model, standing in for
    Python's `None` results and raised exceptions. */
module Wrappers {

  /** A value that may be absent (Python `None`). */
  datatype Option<+T> = None | Some(value: T) {

    /** Returns the wrapped value, or `default` when absent. */
    function GetOr(default: T): T {
      match this
      case Some(v) => v
      case None => default
    }
  }

  /** Either a result or the error that an exception would have carried. */
  datatype Result<+R, +E> = Ok(value: R) | Err(error: E)
}
